=== FILE: README.md ===
# AutoGFormBot core, modelled in Dafny

AutoGFormBot fills in Google Forms on a user's behalf. A Selenium-driven
browser walks the form section by section and classifies each question. A
Telegram bot asks the user for each answer through inline keyboards (date,
time, frequency and date-time pickers, and menus), and the answer is then
clicked or typed into the form. The repository holds two generations of
this code: the current one under `src/`, and an older cache-based one at
the top level.

This project models the deterministic core under the browser and the chat:

- the crawl controllers (`src/processor.py`, `processor.py`): a FIFO queue
  of question roots, a current-question slot, the classification table and
  the answer policy, plus the older processor's answer cache and dispatch;
- the retry and back-off state machines of the two browsers, and the
  `monitor_browser` wrapper;
- the question variants: header and required-flag parsing, option scrapes,
  the grid label codec "{option}, response for {sub-question}", the
  per-variant validators, and the date plus time composite;
- the markups: the picker state machines (with -1 as the pending
  sentinel), month arithmetic, the frequency rule, the callback
  signatures, emoji stripping, and the MarkdownV2 escaper.

Every page element is an opaque handle (`Common.Elem`). The page is an
oracle: which elements are stale, and what each one's label, text or value
is. Every click and keystroke is appended to a trace (`Common.Action`).
Python's tri-state results (True, False, None) are `Common.Tri`, and a
call that raises is a separate outcome, so the error paths the code
guards or reports are modelled rather than excluded; the unguarded
element lookups it takes to succeed are listed under "## Left out".
Objects whose fields the program updates are classes; pure helpers are
functions, and each loop of the source is a method with its invariants.

Where the code departs from its own documentation or from what it
evidently intends, the model follows the code. The cases where that is a
bug are listed under "## Findings", each with the code as written and a
corrected member, except one that cannot be shown on a model: the
drop-down module's import of a class that does not exist, under
"## Left out". The older processor's submissions use the corrected
monitor of the `browser.py:146-147` finding, as "## Left out" also says. Some behaviours are kept as written and stated as
properties, because they are plausible design choices:

- `processor.py:688` and `processor.py:787` discard the result of
  `_submit_time`. An out-of-range time still counts as answered, and
  nothing is typed (`LegacyProcessor.LegacyFormProcessor.AnswerTime`,
  `LegacyProcessor.OutOfRangeTimeAnswered`). A date with a time answers as
  the date alone after the time part, whatever that gave
  (`LegacyProcessor.DateTimeAnswer`, `LegacyProcessor.OutOfRangeTimeIgnored`,
  `LegacyProcessor.FailedTimeIgnored`).
- `src/questions/date.py:166-168` types the picker keys without zero
  padding, so two dates can send the same keys
  (`DateQuestions.PickerKeysAmbiguous`).
- The docstring of `valid_freq` (`src/markups/freq.py:170-172`) says a
  frequency lasts less than 400 days, but the code accepts exactly 400
  days, 0 hours and 0 minutes. The model follows the code
  (`FreqMarkups.ValidFreqTotal`).
- A date-picker answer in the older processor is re-encoded as "%d%m%Y".
  The month/day answer is parsed with the default year 1900, so 02-29 is
  rejected there. The older date question instead checks against 2020,
  where 02-29 is accepted.

## Model

| member | source | states |
|---|---|---|
| Browser.WaitIsPower | src/browser.py:250-252 | the wait before retry k+1 is the first timeout times 1.5 to the power k |
| Browser.Backoff | src/browser.py:249-252 | the first k retries sleep, in order, the waits t0, 1.5·t0, …, each the one before grown by 1.5 |
| Browser.MonitorOutcomeMeaning | src/browser.py:144-172 | a monitored call gives None exactly when every allowed retry was spent on a failing try; otherwise it returns the value of the first try that returned, after that many retries |
| Browser.Browser.constructor | src/browser.py:71-91 | the counter starts at 1, the wait is the given timeout, a browser is open and nothing has been slept |
| Browser.Browser.Close | src/browser.py:198-202 | no browser is open afterwards; the counter, the wait and the sleeps are unchanged |
| Browser.Browser.Retry | src/browser.py:234-256 | closes the browser; refuses exactly when the counter equals the bound; otherwise sleeps the current wait, multiplies it by 1.5, counts one more browser and reopens; the counter never passes the bound |
| Browser.Browser.Monitor | src/browser.py:144-172 | the result and the number of retries are those of MonitorOutcome; a None result leaves the counter at the bound and the browser closed |
| LegacyBrowser.MonitorAsWritten | browser.py:135-149 | as written, a returned first try passes through and a failing first try ends in the AttributeError of the missing `retry_browser` |
| LegacyBrowser.MonitorAsWrittenNeverRetries | browser.py:146-147 | a call whose first try fails raises although the second try would return and a retry is available |
| LegacyBrowser.Browser.constructor | browser.py:80-99 | the counter starts at 1, the wait is the given timeout, a browser is open and nothing has been slept |
| LegacyBrowser.Browser.Close | browser.py:233-240 | no browser is open afterwards; nothing else changes, whether one was open or not |
| LegacyBrowser.Browser.Retry | browser.py:209-231 | closes the browser; refuses exactly when the counter equals the bound; otherwise sleeps the wait, grows it by 1.5, counts and reopens |
| LegacyBrowser.Browser.Monitor | browser.py:135-149 | with the recovery routed to `_retry_browser`, the result and the retries are those of MonitorOutcome |
| Processor.NonBlank | src/processor.py:214-216 | the non-blank labels are exactly the labels other than "" |
| Processor.ClassifyPrecedence | src/processor.py:190-268 | `Classify`: a root is classified by the first detected family in the order date/time, dropdown, checkbox, radio, paragraph, duration, short answer, and is no question when none is detected; date marker plus Hour and Minute inputs is exactly a date-time question; checkbox and radio roots are grids exactly when all their non-blank labels are grid labels |
| Processor.BlankLabelsMakeGrid | src/processor.py:214-220 | option roots whose labels are all blank classify as grids |
| Processor.RefreshAsWrittenPicksQueuedRoot | src/processor.py:378-382 | as written, with no current question and as many scraped roots as queued ones, the picked root is the last scraped one, which also stays in the new queue |
| Processor.RefreshAsWrittenRepeatedTail | src/processor.py:376-382 | as written, a refreshed tail that repeats a root is deduplicated (src/processor.py:120-126) before the index is taken: with a current question, two queued roots and the scrape [1, 2, 2] the queue becomes [2] and root 2, still queued, is returned, where the intended pick is root 1 |
| Processor.RefreshPickPrecedesTail | src/processor.py:372-382 | the intended pick is the scraped root just before the trailing queue-length roots, it is absent exactly when there are too few scraped roots, and it agrees with the code as written whenever such a root exists and the trailing roots are all distinct |
| Processor.NextSectionTry | src/processor.py:315-350 | one try raises exactly when there is neither a Next nor a Submit button; Submit gives an empty section; one click is made exactly when asked to click |
| Processor.SubmitSignalsEmpty | src/processor.py:332-344 | with only a Submit button the try reports an empty section, the "form submitted" signal |
| Processor.FormProcessor.constructor | src/processor.py:72-83 | no question is queued or current and no section has been requested |
| Processor.FormProcessor.AddQuestions | src/processor.py:106-126 | the queue grows by the batch with repeated roots dropped, the first occurrence kept |
| Processor.FormProcessor.ClearQuestions | src/processor.py:128-133 | the queue is empty and nothing else changes |
| Processor.FormProcessor.GetNextQuestion | src/processor.py:135-141 | an empty queue gives None and stays empty; otherwise the head is returned and removed |
| Processor.FormProcessor.ReplaceQuestions | src/processor.py:143-163 | no roots is a success that changes nothing; a different number of roots than queued fails and changes nothing; otherwise the queue becomes the deduplicated roots |
| Processor.FormProcessor.NextSection | src/processor.py:300-359 | each scrape records whether it clicks and takes the next monitored outcome; an exhausted sequence of outcomes is a failure |
| Processor.FormProcessor.RefreshSection | src/processor.py:361-382 | scrapes without clicking; a failed or too small scrape gives None and keeps the queue; otherwise the queue becomes the trailing scraped roots without repeats and the root before them (RefreshPick, taken with the queue length before the repeats are dropped) is returned |
| Processor.FormProcessor.GetQuestionInfo | src/processor.py:165-270 | a returned question is never stale and has the kind its root classifies to; a root that is not stale is classified directly, with no refresh |
| Processor.FormProcessor.GetQuestion | src/processor.py:384-432 | a returned question is current, not stale and correctly classified; the first call scrapes without clicking and later calls click only when the queue is empty; an empty scrape gives True and a failed one False; a classifiable queued head is returned with no scrape; on a first call or an empty queue, a non-empty scrape is appended without repeats and the head of the queue so extended, when it is live and classifiable, is returned, with the rest as the new queue and one scrape taken |
| Processor.FormProcessor.AnswerQuestion | src/processor.py:434-485 | no current question gives None; skipping a required question gives False and skipping an optional one True and clears it; no answers, or a tuple for a non-grid question, gives None; otherwise the question's own result passes through when falsy and True clears the current question |
| Processor.FormProcessor.Reset | src/processor.py:290-295 | the browser is closed and no question is current or queued |
| LegacyProcessor.Lookup | processor.py:676-681 | `answer.get(k)`: absent exactly when no pair has key k, otherwise the value of a pair with key k |
| LegacyProcessor.TimeCheckRange | processor.py:638-652 | `TimeCheck`: on decimal numerals `_submit_time`'s check passes exactly for hours 0-23 and minutes 0-59 |
| LegacyProcessor.DurationOkRange | processor.py:768-776 | `DurationOk`: on decimal numerals the duration check passes exactly for hours 0-72 and minutes and seconds 0-59 |
| LegacyProcessor.TimeAsText | processor.py:638-655 | a time given as text never raises; it types the hour then the minute exactly when the check passes and the submission goes through, and uses an outcome only when the check passes |
| LegacyProcessor.Submission | processor.py:516-563 | a monitored submission never fails a sanity check: it answers True, adding its actions and using one outcome, or None |
| LegacyProcessor.RunTrue | processor.py:859-863 | a sequence of submissions succeeds exactly when every step clicks and the submission of each goes through; it then performs all their clicks in order, one outcome per step |
| LegacyProcessor.RunNeverRefused | processor.py:859-863 | a sequence of submissions never answers False: a failed step inside it gives None |
| LegacyProcessor.FirstDefined | processor.py:278-283 | the index of the first non-blank label, every label before it blank, or none exactly when every label is blank |
| LegacyProcessor.PickerText | processor.py:703-713 | the picker receives text exactly when the answer parses as %Y-%m-%d and is not after 2071-01-01 |
| LegacyProcessor.PickerTextOfDate | processor.py:703-715 | a written date is accepted exactly when not after 2071-01-01, and the picker then receives it re-encoded as %d%m%Y |
| LegacyProcessor.FindEntry | processor.py:806-816 | the first menu entry whose text is the answer, or none when no entry has that text |
| LegacyProcessor.CellClicks | processor.py:896-906 | a grid row's clicks exist exactly when every selected column has a cached cell, one click per selection |
| LegacyProcessor.LastCell | processor.py:307-309 | the cell a column and a row end up with is an element of the scrape carrying exactly that grid label |
| LegacyProcessor.GridElements | processor.py:285-290 | the scraped elements kept for a grid are exactly those whose aria-label is a grid label |
| LegacyProcessor.FirstOther | processor.py:321-336 | the first element that is a blank or 'Other:' option marked as the 'Other' option, or none when there is no such element |
| LegacyProcessor.ReservedLabelStored | processor.py:352-353 | an option labelled like one of the cache's own keys, other than the 'Other' key, is stored under that key with the element of its first occurrence, so the cache then also stands for that key's kind of question |
| LegacyProcessor.EmptyGrid | processor.py:304-306 | a cache with one row per sub-question, one cell per option in each row, every cell empty |
| LegacyProcessor.LegacyFormProcessor.constructor | processor.py:97-107 | no question queued and nothing cached |
| LegacyProcessor.LegacyFormProcessor.AddQuestions | processor.py:130-143 | every root is appended in order, duplicates included |
| LegacyProcessor.LegacyFormProcessor.ClearQuestions | processor.py:145-152 | the queue is empty and nothing else changes |
| LegacyProcessor.LegacyFormProcessor.GetNextQuestion | processor.py:154-162 | an empty queue gives None; otherwise the head is returned and removed |
| LegacyProcessor.LegacyFormProcessor.Reset | processor.py:164-171 | the browser is closed, the cache and the queue are empty |
| LegacyProcessor.LegacyFormProcessor.Perform | processor.py:516-563 | one monitored submission with the intended monitor's recovery: it succeeds exactly when the next outcome is a success, and only then are its actions added to the trace |
| LegacyProcessor.LegacyFormProcessor.BuildGridCache | processor.py:283-309 | the columns and rows are the option and sub-question parts of the grid labels, deduplicated in first-occurrence order; the cache has one cell per row and column, each holding the last element carrying that label; with no row named like a reserved key the cache is well formed |
| LegacyProcessor.LegacyFormProcessor.BuildChoiceCache | processor.py:311-356 | raises exactly when there is an 'Other' option but no input field; otherwise the 'Other' slot holds the first 'Other' candidate with the input field, every plain label is a key, and one that neither starts with `blank_value_key` nor is `other_option_key` is stored with the element of its first occurrence, and one option is listed per element, the 'Other' candidate as 'Other:' |
| LegacyProcessor.LegacyFormProcessor.RecordChoices | processor.py:270-360 | no option elements leave the cache as it was; with every label blank `defined_labels[0]` raises, the cache as it was; otherwise the first non-blank label alone picks the grid cache, as BuildGridCache records it, or the non-grid cache, which raises exactly when there is an 'Other' option but no input field |
| LegacyProcessor.LegacyFormProcessor.ChoiceStep | processor.py:317-356 | one element of the non-grid scrape keeps the cache invariant; it stops exactly at the first 'Other' candidate when there is no input field |
| LegacyProcessor.LegacyFormProcessor.SubmitTime | processor.py:625-655 | crashes when a part is not text, fails with no typing when the time is out of range, and otherwise types the hour then the minute in one submission |
| LegacyProcessor.LegacyFormProcessor.AnswerDate | processor.py:672-730 | a list answer fails; a dictionary missing date, hour or minute, or with no time fields cached, fails; a date the picker rejects fails with no typing; an accepted date is typed re-encoded into the picker, or its day then its month into the split fields; with date, hour and minute as text, the reply and trace are those of DateAfterTime, the time typed first and its result dropped |
| LegacyProcessor.LegacyFormProcessor.SubmitDateTime | processor.py:685-728 | the time is submitted first; unless that raises, the date follows on the outcomes left, whatever the time's reply, and the trace is the time's typing then the date's |
| LegacyProcessor.LegacyFormProcessor.SubmitDate | processor.py:703-728 | the date is checked, then typed in one submission; a date that fails its check fails with no typing |
| LegacyProcessor.DateTimeAnswer | processor.py:672-728 | with the time inputs cached and date, hour and minute as text, both the date question and the whole dispatch answer exactly as DateAfterTime: the hour and minute typed only when the check passes and that submission goes through, then the date, whose reply is the answer |
| LegacyProcessor.OutOfRangeTimeIgnored | processor.py:685-689 | an out-of-range time, such as 24:00, in a date answer is dropped unnoticed: the answer is the date-only answer |
| LegacyProcessor.FailedTimeIgnored | processor.py:685-689 | a valid time whose submission fails is dropped unnoticed too: the date is submitted on the outcomes after it |
| LegacyProcessor.DateOnlyMeaning | processor.py:703-728 | a text date never raises; it fails with no typing exactly when its check fails, and otherwise types it re-encoded into the picker, or its day then its month into the split fields |
| LegacyProcessor.LegacyFormProcessor.AnswerDuration | processor.py:754-781 | a missing or non-text second, or a duration out of range, fails with no typing; otherwise hour, minute and second are typed in that order |
| LegacyProcessor.LegacyFormProcessor.AnswerTime | processor.py:734-790 | a non-dictionary answer or missing or non-text hour and minute fail; a duration goes to AnswerDuration; a time answer counts as answered whatever `_submit_time` returns, and types nothing when its check fails |
| LegacyProcessor.OutOfRangeTimeAnswered | processor.py:785-787 | a time question without seconds counts as answered whatever the time: an out-of-range one types nothing and uses no outcome |
| LegacyProcessor.LegacyFormProcessor.AnswerDropdown | processor.py:793-823 | a non-text answer fails; success means the placeholder then the first entry with the answer's text were clicked; an answer matching no entry never succeeds |
| LegacyProcessor.LegacyFormProcessor.SubmitChoice | processor.py:829-850 | a stored label is clicked; other text is typed into 'Other' when there is one and fails with no action when there is none |
| LegacyProcessor.LegacyFormProcessor.AnswerChoice | processor.py:852-866 | a dictionary fails with no action; a text or a list of texts is submitted selection by selection, a failing selection gives None; on success the trace gains the clicks and 'Other' typing of every selection, in order |
| LegacyProcessor.LegacyFormProcessor.SubmitChoices | processor.py:856-863 | the selections are submitted in order, one submission each, and the reply and trace are those of running their steps |
| LegacyProcessor.ChoiceAnswerTrue | processor.py:826-863 | a non-grid answer never fails a sanity check; it succeeds exactly when every selection is a stored option, or goes to an 'Other' option that exists, and each submission goes through; it then performs every selection's clicks in order, one outcome each |
| LegacyProcessor.LegacyFormProcessor.AnswerText | processor.py:869-880 | a non-text answer fails with no action; text is typed into the field and never fails the check |
| LegacyProcessor.LegacyFormProcessor.AnswerGrid | processor.py:885-911 | a non-dictionary answer, or a row that is not cached, fails with no action; success means every row is cached and every chosen column has a cell, and the trace then gains each row's cell clicks in the dictionary's order |
| LegacyProcessor.LegacyFormProcessor.SubmitRows | processor.py:897-911 | the rows are submitted in the dictionary's order, one submission each, and the reply and trace are those of running their steps |
| LegacyProcessor.LegacyFormProcessor.SubmitRow | processor.py:898-907 | one row: its chosen cells clicked in one submission; a row that is no grid row, or a chosen column without a cell, raises |
| LegacyProcessor.GridAnswerTrue | processor.py:884-911 | a grid answer fails a sanity check exactly when it is no dictionary or names a row not cached; it succeeds exactly when every row is a cached grid row holding every chosen cell and each submission goes through, and then clicks those cells row by row |
| LegacyProcessor.LegacyFormProcessor.AnswerQuestion | processor.py:600-923 | nothing cached fails; a skip succeeds with no required-flag check; a falsy answer fails; success is exactly when the cache is cleared; a time answer that passes the key checks succeeds whatever its range check says; a date with time as text answers as DateAfterTime |
| QuestionBase.AllFresh | src/questions/base.py:221-227 | true exactly when no element is stale |
| QuestionBase.IsValid | src/questions/base.py:203-230 | no elements is valid; otherwise valid exactly when a browser is open and no element is stale |
| QuestionBase.TrimRequired | src/questions/base.py:318-320 | the header loses its last two characters (empty when shorter) and is a prefix of the original |
| QuestionBase.FillActionsAt | src/questions/time.py:149-151 | field i is clicked at step 2i and typed into at step 2i+1, and nothing else happens |
| QuestionBase.BaseQuestion.constructor | src/questions/base.py:50-63 | header, description and required flag are unset and no action has been taken |
| QuestionBase.BaseQuestion.Fill | src/questions/date.py:170-172 | every field is clicked and then typed into, in order; the metadata does not change |
| QuestionBase.BaseQuestion.GetInfo | src/questions/base.py:299-326 | succeeds exactly when the question element is set and fresh, and then holds the metadata read from it, a required question with its header trimmed; a failure changes no metadata |
| QuestionBase.SameElementEqual | src/questions/base.py:84-99 | two questions that read the same element through the same browser are equal, both ways round |
| QuestionBase.OptionsView | src/questions/base.py:401-409 | a non-grid question's options are returned as stored |
| QuestionBase.GridView | src/questions/base.py:511-554 | the grid view of well-formed grid labels has no duplicates and holds exactly the column (or row) parts of the labels |
| QuestionBase.AfterViewTwice | src/questions/base.py:511-532 | reading a grid view twice resets the stored options no more than reading it once |
| QuestionBase.OptionTestAfterView | src/questions/base.py:511-573 | the reset a grid getter makes changes no option test |
| QuestionBase.OptionTestsAt | src/questions/base.py:456-463 | the option tests of a list of answers are the tests of each answer in turn |
| QuestionBase.GridOptionTest | src/questions/base.py:556-573 | a grid label passes the grid option test exactly when its column is some label's column and its row some label's row |
| QuestionBase.StoredGridLabelIsOption | src/questions/base.py:556-573 | every stored grid label is an option of its grid |
| QuestionBase.BaseOptionQuestion.constructor | src/questions/base.py:356-366 | no options and no 'Other' element |
| QuestionBase.BaseOptionQuestion.SetOptions | src/questions/base.py:426-444 | an empty call changes nothing; otherwise the options are stored in order, an option equal to the given 'Other' label replaced by the generated one |
| QuestionBase.BaseOptionQuestion.GetOptions | src/questions/base.py:401-409 | the stored options, or for a grid the column parts (a badly formatted grid is reset) |
| QuestionBase.BaseOptionQuestion.GetSubQuestions | src/questions/base.py:544-554 | the row parts of a grid's labels; a badly formatted grid is reset |
| QuestionBase.BaseOptionQuestion.IsOption | src/questions/base.py:456-463 | membership in the options, or for a grid a label whose column and row are both listed; None when the options are unset |
| QuestionBase.HasOtherAsWritten | src/questions/base.py:465-474 | the 'Other' option is reported only when the 'Other' element is set |
| QuestionBase.OtherNeverListed | src/questions/base.py:465-474 | on a page where no toggle carries the generated label, the scraped options never contain it, so `_has_other_option` is always False |
| QuestionBase.OtherNeverListedExample | src/questions/base.py:465-474 | options "Yes" and "No" with an 'Other' field found still report no 'Other' option |
| QuestionBase.OtherFound | src/questions/base.py:465-474 | as intended, a question has an 'Other' option exactly when its 'Other' field is known, before the scrape or from an 'Other' toggle whose label no earlier option took |
| QuestionBase.OptionGetInfoAsWritten | src/questions/checkbox.py:133-135 | as written, `get_info` of the checkbox and radio questions fails or raises |
| QuestionBase.OptionGetInfoNeverSucceeds | src/questions/base.py:426 | as written, `get_info` never succeeds, and it raises exactly when the corrected one would succeed |
| QuestionBase.FirstWhere | src/questions/checkbox.py:164-172 | the first element whose attribute is x, or none exactly when no element has it |
| QuestionBase.PlainLabels | src/questions/checkbox.py:105-131 | the labels kept as options are never blank |
| QuestionBase.ScrapeLabels | src/questions/checkbox.py:105-131 | the scraped options are the plain labels in page order with duplicates dropped, first occurrence kept |
| QuestionBase.ScrapeCounts | src/questions/checkbox.py:118-131 | the toggles kept are the options' toggles plus the 'Other' toggle when the scrape found it; a known 'Other' element is kept and a found one is the question's field |
| QuestionBase.ScrapeToggles | src/questions/checkbox.py:105-131 | every toggle kept is one of the page's, and every option has a kept toggle with its label |
| Checkbox.Parts | src/questions/checkbox.py:309-316 | a grid answer hands no answers on exactly when it is falsy |
| Checkbox.FormatAll | src/questions/checkbox.py:270-286 | every answer is labelled "answer, response for sub", in order |
| Checkbox.StepTypes | src/questions/checkbox.py:180-211 | one answer types at most once, only when nothing was typed before, and then records that it did |
| Checkbox.AnswerRunTypesOnce | src/questions/checkbox.py:164-216 | the answer loop types into the 'Other' field at most once, and not at all once something was typed |
| Checkbox.AnswerRunAt | src/questions/checkbox.py:164-216 | the answer loop at turn i either stops with that turn's reply or goes on after that turn's actions |
| Checkbox.AnswerRunOptionsOnly | src/questions/checkbox.py:164-216 | without an 'Other' field the loop succeeds exactly when every answer is an option with a checkbox of that label |
| Checkbox.AnswerRunClicks | src/questions/checkbox.py:164-178 | without an 'Other' field a successful loop clicked the first checkbox of each answer's label, one click per answer, in order |
| Checkbox.GridRunAt | src/questions/checkbox.py:297-324 | the grid answer at sub-question i either returns that sub-question's reply or goes on after its actions |
| Checkbox.AnswerTypesOnce | src/questions/checkbox.py:138-218 | an answer types into the 'Other' field at most once |
| Checkbox.GridRunTypes | src/questions/checkbox.py:297-324 | a grid answer types at most once per sub-question, and all-falsy answers succeed with no action and no change |
| Checkbox.CheckboxQuestion.constructor | src/questions/checkbox.py:29-55 | no options, no 'Other' element, no cached checkboxes, unset metadata and no actions |
| Checkbox.CheckboxQuestion.GetInfo | src/questions/checkbox.py:89-136 | succeeds exactly when the question element is set and fresh; the metadata is then read and the options, checkboxes and 'Other' element become those of the scrape; a failure changes nothing |
| Checkbox.CheckboxQuestion.Answer | src/questions/checkbox.py:138-218 | the reply, actions and new state are those of AnswerOutcome: no answers succeed with no action; stale checkboxes are re-scraped; options click their first checkbox; one non-option is typed into a fresh 'Other' field; a non-option with no 'Other' fails |
| Checkbox.CheckboxQuestion.AnswerCached | src/questions/checkbox.py:164-216 | the loop over fresh cached checkboxes gives the reply and actions of AnswerRun |
| Checkbox.CheckboxQuestion.AnswerOne | src/questions/checkbox.py:164-211 | one turn gives AnswerStep's outcome and records its actions only when it goes on |
| Checkbox.CheckboxQuestion.FormatAndAnswer | src/questions/checkbox.py:270-286 | answers the sub-question's labelled answers as AnswerOutcome does |
| Checkbox.CheckboxQuestion.GridAnswer | src/questions/checkbox.py:297-324 | unset rows raise; a count different from the sub-questions gives None with no action; otherwise every sub-question in order as GridRun does, the first reply that is not True returned |
| Checkbox.CheckboxQuestion.SubAnswer | src/questions/checkbox.py:309-320 | one sub-question answered as AnswerOutcome does, nothing sent for a falsy answer |
| Radio.Cells | src/questions/radio.py:268-281 | every answer is formatted "answer, response for sub" with its own sub-question, in order |
| Radio.RunTargets | src/questions/radio.py:153-196 | an answer succeeds exactly when it acts; it types at most once, only the answer and only into a fresh 'Other' field, and clicks only the given buttons and that field |
| Radio.AnswerTargets | src/questions/radio.py:138-196 | an answer only clicks the question's own buttons and its 'Other' field, and only types the answer into that field |
| Radio.GridRunAt | src/questions/radio.py:268-281 | the grid answer at cell i either returns that cell's reply or goes on after its actions |
| Radio.GridRunFresh | src/questions/radio.py:268-281 | over fresh cached buttons with no 'Other' field, the grid answer keeps its state and answers every cell as the plain loop does |
| Radio.CellsRunSucceeds | src/questions/radio.py:268-281 | such a grid answer succeeds exactly when every cell label passes the option test and has a button of that label |
| Radio.CellsRunClicks | src/questions/radio.py:268-281 | a successful such answer clicks the first button of every cell label, in sub-question order, and nothing else |
| Radio.RadioQuestion.constructor | src/questions/radio.py:29-54 | no options, no 'Other' element, no cached buttons, unset metadata and no actions |
| Radio.RadioQuestion.GetInfo | src/questions/radio.py:88-136 | succeeds exactly when the question element is set and fresh; the metadata is then read and the options, buttons and 'Other' element become those of the scrape; a failure changes nothing |
| Radio.RadioQuestion.Answer | src/questions/radio.py:138-196 | the reply, actions and new state are those of RadioOutcome: stale buttons are re-scraped (failing when the question is stale); an option clicks its first button; a non-option is typed into a fresh 'Other' field, gives None when the field is stale, and fails when there is no 'Other' |
| Radio.RadioQuestion.AnswerReady | src/questions/radio.py:153-196 | over fresh cached buttons the reply and actions are those of RadioRun |
| Radio.RadioQuestion.GridAnswer | src/questions/radio.py:257-284 | unset rows raise; a count different from the sub-questions gives None with no action; otherwise every cell in order as GridRun does, stopping at the first reply that is not True |
| Radio.RadioQuestion.AnswerCells | src/questions/radio.py:268-281 | the loop over the formatted cells gives the reply, actions and state of GridRun |
| GridLabels.ParseFormat | src/questions/base.py:575-590 | `Parse` of `Format`: a cell formatted from two runs of label characters parses back to those two runs |
| GridLabels.FormatParse | src/questions/base.py:575-590 | `Format` of `Parse`: every label that parses is the formatted cell of its two parts, each a run of label characters |
| GridLabels.OptionParts | src/questions/base.py:518-532 | the column part of every grid label, in order |
| GridLabels.RowParts | src/questions/base.py:518-532 | the row part of every grid label, in order |
| GridLabels.LabelsInGrid | src/questions/base.py:518-532 | every grid label names one of the grid's columns and one of its rows |
| DateQuestions.AnswerDate | src/questions/date.py:155-162 | a date is accepted only when it parses as %Y-%m-%d and is not after 2071-01-01; otherwise it is rejected |
| DateQuestions.AnswerDateFormat | src/questions/date.py:155-162 | a written date is accepted exactly when it is not after 2071-01-01 |
| DateQuestions.AnswerDateBound | src/questions/date.py:157-158 | 2071-01-01 itself is accepted and 2071-01-02 rejected |
| DateQuestions.PickerKeysAmbiguous | src/questions/date.py:166-168 | without zero padding, 1 November 2020 and 11 January 2020 send the same keys "1112020" |
| DateQuestions.DateAnswerActions | src/questions/date.py:136-174 | an answer acts only when it succeeds, and then fills the picker with day, month and year unpadded, or clicks and types the month and then the day |
| DateQuestions.BadDateNoActions | src/questions/date.py:155-162 | an answer that is not an accepted date never succeeds and takes no action |
| DateQuestions.DateQuestion.constructor | src/questions/date.py:26-47 | unset metadata, no inputs and no actions |
| DateQuestions.DateQuestion.SetAnswerElements | src/questions/date.py:62-90 | a picker wins; otherwise both month and day are needed; with neither nothing changes |
| DateQuestions.DateQuestion.GetInfo | src/questions/date.py:92-134 | fails with no change when the question element is unset or stale; otherwise reads the metadata and takes the first picker, else the first month and day inputs, else gives None |
| DateQuestions.DateQuestion.Answer | src/questions/date.py:136-174 | the result, new inputs and actions are those of DateAnswer: stale or unset inputs re-run `get_info` and its falsy result is returned, a rejected date fails, an accepted one is typed |
| TimeQuestions.ParseTime | src/questions/time.py:138-145 | an accepted time splits on ':' into exactly two parts and has hour 0-23 and minute 0-59 |
| TimeQuestions.ParseTimeDigits | src/questions/time.py:138-145 | two decimal parts around one ':' are accepted exactly when the hour is at most 23 and the minute at most 59 |
| TimeQuestions.ParseTimePadded | src/questions/time.py:138-145 | a zero-padded "HH:MM" is read back as that time exactly when it is a valid time |
| TimeQuestions.ParseTimeUnpadded | src/questions/time.py:138-145 | an unpadded "H:M" is read back as that time exactly when it is a valid time |
| TimeQuestions.ParseTimeInRange | src/questions/time.py:140-145 | 00:00 and 23:59 are accepted |
| TimeQuestions.ParseTimeOutOfRange | src/questions/time.py:140-145 | 24:00 and 12:60 are rejected |
| TimeQuestions.ParseTimeNeedsOneColon | src/questions/time.py:138-139 | text without ':' is rejected |
| TimeQuestions.TimeAnswerActions | src/questions/time.py:121-152 | an answer acts only when it succeeds, and then clicks and types the hour, then the minute |
| TimeQuestions.BadTimeNoActions | src/questions/time.py:138-145 | an answer that is not an accepted time never succeeds and takes no action |
| TimeQuestions.TimeQuestion.constructor | src/questions/time.py:25-46 | unset metadata, no inputs and no actions |
| TimeQuestions.TimeQuestion.SetAnswerElements | src/questions/time.py:76-86 | the inputs become the given hour and minute inputs |
| TimeQuestions.TimeQuestion.GetInfo | src/questions/time.py:88-119 | fails with no change when the question element is unset or stale; gives None unless both an hour and a minute input exist, and takes the first of each |
| TimeQuestions.TimeQuestion.Answer | src/questions/time.py:121-152 | the result, new inputs and actions are those of TimeAnswer: stale or unset inputs re-run `get_info`, a rejected time fails, an accepted one is typed hour first |
| DatetimeQuestions.Union | src/questions/datetime.py:88-110 | a value exactly when both halves have the same one, and then that value |
| DatetimeQuestions.UnionProperties | src/questions/datetime.py:88-110 | the union is symmetric, a value agrees with itself, and differing values give None |
| DatetimeQuestions.DateTuple | src/questions/datetime.py:152-165 | a lone picker is wrapped in a one-tuple, a split layout gives month and day, and unset inputs give one None |
| DatetimeQuestions.AnswerElementsOf | src/questions/datetime.py:152-165 | the time inputs followed by the date inputs; unset time inputs raise |
| DatetimeQuestions.FormattedDatetime | src/questions/datetime.py:232-245 | "YYYY-MM-DD HH:MM" splits on the space into its halves, which the date and time questions read back as that date and time |
| DatetimeQuestions.DatetimeQuestion.constructor | src/questions/datetime.py:40-55 | the halves are kept as given and the element and browser are the date half's |
| DatetimeQuestions.DatetimeQuestion.SetHeader | src/questions/datetime.py:167-175 | both halves get the header, so the composite reports it; nothing else changes |
| DatetimeQuestions.DatetimeQuestion.SetQuestionElement | src/questions/datetime.py:177-183 | both halves get the element; nothing else changes |
| DatetimeQuestions.DatetimeQuestion.SetDescription | src/questions/datetime.py:185-191 | both halves get the description; nothing else changes |
| DatetimeQuestions.DatetimeQuestion.SetRequired | src/questions/datetime.py:193-201 | both halves get the flag; nothing else changes |
| DatetimeQuestions.DatetimeQuestion.GetInfo | src/questions/datetime.py:203-221 | the date half runs first; its falsy result is returned and the time half is left untouched; otherwise the result is the time half's |
| DatetimeQuestions.DatetimeQuestion.Answer | src/questions/datetime.py:223-245 | text that does not split on ' ' into two parts raises; the date half is answered first and a falsy result is returned without touching the time half; otherwise the time half's result is returned |
| DatetimeQuestions.SameElementAgrees | src/questions/datetime.py:128-150 | halves that read the same element report, through the union, that element's header, description and required flag |
| DatetimeQuestions.DisagreeingHeader | src/questions/datetime.py:98-108 | halves that disagree on the header make the composite report none |
| LegacyQuestionBase.IsValid | questions/base.py:181-190 | raises exactly when no browser is open, and passes exactly when the element is still found |
| LegacyQuestionBase.ValidAsWritten | questions/base.py:181 | as written, a call with other than exactly one element raises; with one element it is the single check |
| LegacyQuestionBase.AllValid | questions/base.py:181-190 | raises exactly when no browser is open, and passes exactly when every element is still found |
| LegacyQuestionBase.AllValidMeaning | questions/base.py:181-190 | the corrected check agrees with the written one on one element, and passes exactly when each element passes alone |
| LegacyQuestionBase.CheckAsWrittenRaises | questions/duration.py:139 | as written, checking two or more cached inputs raises even when all of them are found |
| LegacyQuestionBase.BaseInfo | questions/base.py:192-218 | succeeds exactly when the element is still found and has a title and a description; then the required flag is the asterisk, the description is read, and the header is the title, shortened by two characters exactly when the question is required |
| LegacyQuestionBase.LegacyQuestion.constructor | questions/base.py:44-59 | header "", description "", not required, no actions |
| LegacyQuestionBase.LegacyQuestion.GetInfo | questions/base.py:192-218 | success stores the metadata BaseInfo reads; a failure or an exception changes nothing |
| LegacyQuestionBase.EqualsIsHeaderEquality | questions/base.py:79-92 | equality compares headers only, so it is symmetric, transitive and reflexive |
| LegacyQuestionBase.SameElementEqual | questions/base.py:79-92 | two questions that read the same element are equal |
| LegacyDateQuestions.Info | questions/date.py:130-172 | a success leaves inputs set; anything else keeps the inputs; a failure or an exception keeps the metadata |
| LegacyDateQuestions.PickerText | questions/date.py:223-237 | the picker receives text only for a date in the input format "%Y %m %d", each space a run of whitespace, not after 2071-01-01, and then that date as %d%m%Y |
| LegacyDateQuestions.PickerTextFormat | questions/date.py:223-237 | a written date, with any runs of whitespace between its fields, is accepted exactly when not after 2071-01-01, and is re-encoded in the answer format |
| LegacyDateQuestions.MonthDayValidNumbers | questions/date.py:241-250 | on decimal numerals month and day pass exactly for month 1-12 and a day within that month of 2020 |
| LegacyDateQuestions.MonthDayLeapDay | questions/date.py:241-250 | 02-29 passes while 02-30 and month 13 fail |
| LegacyDateQuestions.Submit | questions/date.py:208-256 | an answer that is not a success takes no action |
| LegacyDateQuestions.SubmitMeaning | questions/date.py:208-256 | a picker needs a date (None without one), passes exactly for a date PickerText accepts, whitespace runs included, and types it re-encoded; the split layout needs month and day, passes exactly when they are valid, and types the month then the day |
| LegacyDateQuestions.CachedMonthDayRaises | questions/date.py:188 | as written, an answer with cached month and day inputs raises; checked as intended, found inputs go straight to the argument checks |
| LegacyDateQuestions.LegacyDateQuestion.constructor | questions/base.py:44-57 | the initial values `__init__` sets before it calls `get_info`: empty metadata and no inputs |
| LegacyDateQuestions.LegacyDateQuestion.Create | questions/date.py:60-72 | creating the question runs `get_info` after the initial values: there is no question exactly when `get_info` raises, and otherwise its metadata and inputs are those of Info |
| LegacyDateQuestions.LegacyDateQuestion.GetInfo | questions/date.py:130-172 | the reply, metadata and inputs are those of Info |
| LegacyDateQuestions.LegacyDateQuestion.Answer | questions/date.py:174-258 | the reply, metadata, inputs and actions are those of the corrected DateAnswer |
| LegacyDurationQuestions.Info | questions/duration.py:101-124 | succeeds exactly when the base metadata is read and inputs labelled Hours, Minutes and Seconds exist, which are then cached; otherwise the inputs are kept |
| LegacyDurationQuestions.DurationValidNumbers | questions/duration.py:146-153 | on decimal numerals the duration passes exactly for hours 0-72 and minutes and seconds 0-59 |
| LegacyDurationQuestions.DurationBounds | questions/duration.py:146-153 | 72/0/0 passes; 73 hours, 60 minutes and a non-numeral fail |
| LegacyDurationQuestions.DurationAnswer | questions/duration.py:126-163 | an answer acts only when it succeeds; success needs a valid duration and types hour, minute and second, each as given, in that order |
| LegacyDurationQuestions.CachedInputsRaise | questions/duration.py:139 | as written, an answer with cached inputs raises; checked as intended, an invalid duration on found inputs fails with no action and no refresh |
| LegacyDurationQuestions.LegacyDurationQuestion.constructor | questions/base.py:44-57 | the initial values `__init__` sets before it calls `get_info`: empty metadata and no inputs |
| LegacyDurationQuestions.LegacyDurationQuestion.Create | questions/duration.py:25-47 | creating the question runs `get_info` after the initial values: there is no question exactly when `get_info` raises, and otherwise its metadata and inputs are those of Info |
| LegacyDurationQuestions.LegacyDurationQuestion.GetInfo | questions/duration.py:101-124 | the reply, metadata and inputs are those of Info |
| LegacyDurationQuestions.LegacyDurationQuestion.Answer | questions/duration.py:126-163 | the reply, metadata, inputs and actions are those of the corrected DurationAnswer |
| LegacyDropdownQuestions.NonBlankTexts | questions/dropdown.py:109-115 | the non-blank entry texts: no blank text, every non-blank entry text present, nothing else |
| LegacyDropdownQuestions.Info | questions/dropdown.py:89-123 | a success caches the placeholder and the menu and stores the non-blank texts of the entries after the placeholder; a failure changes nothing and takes no action |
| LegacyDropdownQuestions.InfoOptions | questions/dropdown.py:109-115 | after a successful scrape a text is an option exactly when it is non-blank and shown by some entry after the placeholder |
| LegacyDropdownQuestions.Refreshed | questions/dropdown.py:136-143 | a successful refresh leaves inputs cached |
| LegacyDropdownQuestions.AnswerClicksOption | questions/dropdown.py:146-167 | a successful answer is an option and ends by opening the menu and clicking an entry after the placeholder that shows the text |
| LegacyDropdownQuestions.NotOptionNoClick | questions/dropdown.py:146-148 | on found inputs a text that is not an option fails before any click |
| LegacyDropdownQuestions.CachedInputsRaise | questions/dropdown.py:139 | as written, an answer with cached inputs raises |
| LegacyDropdownQuestions.LegacyDropdownQuestion.constructor | questions/base.py:44-57 | the initial values `__init__` sets before it calls `get_info`: empty metadata and no inputs |
| LegacyDropdownQuestions.LegacyDropdownQuestion.Create | questions/dropdown.py:26-53 | creating the question runs `get_info` after the initial values: there is no question exactly when `get_info` raises, and otherwise its metadata and inputs are those of Info |
| LegacyDropdownQuestions.LegacyDropdownQuestion.GetInfo | questions/dropdown.py:89-123 | the reply, metadata, inputs, options and actions are those of Info |
| LegacyDropdownQuestions.LegacyDropdownQuestion.Refresh | questions/dropdown.py:136-143 | the first part of `answer`, as Refreshed gives it |
| LegacyDropdownQuestions.LegacyDropdownQuestion.Answer | questions/dropdown.py:125-169 | the reply, metadata, inputs, options and actions are those of the corrected DropdownAnswer |
| Markups.Pattern | src/markups/base.py:36-43 | the pattern is "^(" and ")$" around the alternatives |
| Markups.PatternAlternatives | src/markups/base.py:36-43 | for alternatives without the bar character, splitting the inside of the pattern on it gives the alternatives back, in order |
| Markups.StripHead | src/markups/base.py:68-70 | stripping a leading non-word character never lengthens the text |
| Markups.StripTail | src/markups/base.py:71-73 | stripping a trailing non-word character never lengthens the text |
| Markups.StripEmoji | src/markups/base.py:66-73 | a label that starts and ends with word characters is its own data; stripping never lengthens; an empty label has no data |
| Markups.StripDecorated | src/markups/base.py:66-73 | "emoji label emoji" gives back the bare label |
| Markups.DecoratedHead | src/markups/base.py:68-70 | a leading emoji and space are removed |
| Markups.DecoratedTail | src/markups/base.py:71-73 | a trailing space and emoji are removed |
| Markups.StripLeading | src/markups/base.py:66-73 | "emoji label" gives back the bare label |
| Markups.StripLoneEmoji | src/markups/base.py:68-73 | a lone non-word character has no data: each strip step needs two characters, and the stripped text is empty |
| Markups.RowButtonsLayout | src/markups/base.py:54-84 | a row is built exactly when every label has data, one button per label, in order, each with that label's data |
| Markups.GetMarkupCons | src/markups/base.py:77-83 | a keyboard is its first row followed by the keyboard of the other rows |
| Markups.GetMarkupLayout | src/markups/base.py:77-83 | `GetMarkup`: a keyboard is built exactly when every row is, and has one row of buttons per option row, in order; a string is a one-button row and a tuple a row in order |
| Markups.RowOfOne | src/markups/base.py:79-80 | a string row is a single button with its data |
| Markups.RowOfTwo | src/markups/base.py:81-82 | a two-label tuple is a row of two buttons in order |
| Markups.AllDataConcat | src/markups/base.py:45-85 | a keyboard made of two keyboards whose callback data are all accepted has all its data accepted |
| Markups.OptionPattern | src/markups/base.py:152-158 | the instance pattern is a delimited alternation |
| Markups.OptionPatternAccepts | src/markups/base.py:152-177 | `IsOption`: `_is_option` holds exactly for an alternative of the instance pattern or SKIP |
| SavePrefMarkups.SavePrefPatternText | src/markups/save_pref.py:66-82 | the pattern alternates exactly the three choices in order, and `is_option` holds exactly for its alternatives |
| SavePrefMarkups.TwoThenOne | src/markups/save_pref.py:84-91 | two labels then one label give a two-button row and then a one-button row |
| SavePrefMarkups.LabelData | src/markups/save_pref.py:84-91 | after emoji stripping each button's data is its bare choice |
| SavePrefMarkups.TickData | src/markups/save_pref.py:90 | the save-always button's data is "ALWAYS Save" |
| SavePrefMarkups.CrossData | src/markups/save_pref.py:90 | the never-save button's data is "NEVER Save" |
| SavePrefMarkups.QueryData | src/markups/save_pref.py:91 | the ask button's data is "Always ASK Me First" |
| SavePrefMarkups.SavePrefLayout | src/markups/save_pref.py:84-91 | the keyboard is save-always and never-save on one row, then ask on its own row, each with its bare choice as data |
| SavePrefMarkups.SavePrefCallbacks | src/markups/save_pref.py:84-91 | every callback the keyboard emits is accepted by `is_option` |
| DateMarkups.NextMonth | src/markups/date.py:155-180 | an invalid month is returned as it is; a valid one moves one month forward in the month index, crossing into the next year after December, except that December 9999 stays put |
| DateMarkups.PrevMonth | src/markups/date.py:183-208 | an invalid month is returned as it is; a valid one moves one month back, crossing into the previous year before January, except that January of year 1 stays put |
| DateMarkups.MonthIndexInjective | src/markups/date.py:155-208 | two months with the same month index are the same month and year |
| DateMarkups.PrevNextInverse | src/markups/date.py:155-208 | going forward and then back, or back and then forward, returns to the same month, except at the two ends of the calendar |
| DateMarkups.Display | src/markups/date.py:131-152 | a day is shown exactly when it is a real Gregorian date in years 1-9999 and, with an earliest date set, not before it |
| DateMarkups.DisplayMonotone | src/markups/date.py:131-152 | a day that is shown makes every later valid day shown too |
| DateMarkups.DisplayFrom | src/markups/date.py:131-152 | the earliest date itself is shown, and without an earliest date every valid day is shown |
| DateMarkups.Offset | src/markups/date.py:294-303 | the first day of a month falls in one of the seven Sunday-first columns |
| DateMarkups.Weeks | src/markups/date.py:294-303 | the calendar has one row per week of the month, each of seven cells |
| DateMarkups.Render | src/markups/date.py:256-306 | drawing the picker raises exactly when the month is outside 1-12; otherwise it is the calendar keyboard |
| DateMarkups.CalendarParts | src/markups/date.py:256-306 | the keyboard is the "Month Year" heading, the seven day names, the weeks, and the navigation row, in that order |
| DateMarkups.CalendarWeek | src/markups/date.py:294-303 | the weeks are inserted between the day names and the navigation row, in order |
| DateMarkups.WeekCell | src/markups/date.py:294-303 | the cell in column c of week w is the day 7w + c - offset + 1 of the month |
| DateMarkups.DayPosition | src/markups/date.py:294-303 | every day of the month has a week row and a column, with 7 * row + column equal to offset + day - 1 |
| DateMarkups.CalendarDay | src/markups/date.py:294-303 | every day of the month sits in its week row and column as a button with its own number and its date as callback data when shown, and as a blank otherwise |
| DateMarkups.CalendarCell | src/markups/date.py:294-303 | each cell of a week row is the day cell of the day at that position |
| DateMarkups.NavArrows | src/markups/date.py:279-291 | the navigation row has three buttons: "<" exactly when the previous month's last day is shown, "Skip" exactly when no answer is required, ">" exactly when the next month's last day is shown, and blanks otherwise |
| DateMarkups.DatePatternAlternatives | src/markups/date.py:247-254 | the pattern's alternatives are skip, ignore, previous, next and the date regex, in that order |
| DateMarkups.CalendarCallbacks | src/markups/date.py:211-228 | every button of the calendar carries callback data that the picker accepts as an option |
| DateMarkups.HeadingCallbacks | src/markups/date.py:266-276 | the heading and day-name buttons carry the ignore data, which is an accepted option |
| DateMarkups.WeeksCallbacks | src/markups/date.py:294-303 | every day button carries data that is an accepted option |
| DateMarkups.NavCallbacks | src/markups/date.py:279-291 | every navigation button carries data that is an accepted option |
| DateMarkups.DayCellOption | src/markups/date.py:297-300 | a day cell, blank or not, carries data that is an accepted option |
| DateMarkups.Init | src/markups/date.py:73-106 | with the month check as intended, the shown month is always valid, its last day is shown when an earliest date is set, and a valid month and year asked for without an earliest date are kept |
| DateMarkups.InitMonthUnchecked | src/markups/date.py:91-96 | as written, year 10000 with month 13 keeps month 13, so drawing raises, and with an earliest date the constructor itself raises; as intended the current month is used |
| DateMarkups.Act | src/markups/date.py:317-339 | the month stays valid and moves by at most one; a keyboard comes back exactly for the arrows, and it is the calendar of the new month; otherwise the month is unchanged; a message is either the skip reply or the chosen date; nothing comes back exactly for an option that is not accepted and for ignore |
| DateMarkups.PressDay | src/markups/date.py:297-339 | pressing any shown day answers with that date and keeps the month |
| DateMarkups.DateMarkup.constructor | src/markups/date.py:73-106 | the picker keeps the required flag and the earliest date, and shows the month the intended initialisation gives |
| DateMarkups.DateMarkup.PerformAction | src/markups/date.py:317-339 | the reply and the new month are those of the action on the old month, and the picker stays valid |
| TimeMarkups.Format02 | src/markups/time.py:269 | a non-negative number is written with at least two digits, zero-padded; a negative one is written as it is |
| TimeMarkups.Display | src/markups/time.py:113-130 | as intended, a time is shown only when the hour is 0-23 and the minute 0-59, and without an earliest time every such time is shown |
| TimeMarkups.DisplayAfterFrom | src/markups/time.py:129-130 | as written, once an earliest time is set, asking about any existing time raises; as intended, the earliest minute is shown exactly when the earliest time is on a whole minute, later minutes are shown and earlier ones are not |
| TimeMarkups.TimePatternAlternatives | src/markups/time.py:247-256 | the pattern's alternatives are skip, OK, ignore, the four value buttons, a minute/second group, an hour group and a number, in that order |
| TimeMarkups.ControlIsOption | src/markups/time.py:154-156 | every control is an accepted option |
| TimeMarkups.NumberIsOption | src/markups/time.py:140-162 | `IsTimeOption`: every number from 0 to 99 written out is an accepted option, is no control, names no group and reads back as itself |
| TimeMarkups.NotControlByHead | src/markups/time.py:39-46 | no control starts with the first letter of either group name |
| TimeMarkups.MinSecDataFacts | src/markups/time.py:218-228 | a minute/second group's callback data is no control, names the group, and its text after the first space is its first value |
| TimeMarkups.MinSecDataIsOption | src/markups/time.py:157-159 | a minute/second group's callback data is an accepted option |
| TimeMarkups.HourGroupDataFacts | src/markups/time.py:230-242 | an hour group's callback data is no control, names the hour group and not the minute group, and splits into the name and its first and last hours |
| TimeMarkups.HourGroupDataIsOption | src/markups/time.py:157-159 | an hour group's callback data is an accepted option |
| TimeMarkups.DurationStop | src/markups/time.py:197-216 | the last duration hour shown is 11 or 12 past the start, and a stop already 11 or 12 past the start is kept |
| TimeMarkups.HourKeysPlace | src/markups/time.py:184-195 | each hour of the day sits in its place on the keyboard of its half of the day, labelled on the 12-hour clock with AM or PM, and carries its 24-hour value exactly when it is shown |
| TimeMarkups.DurationKeysValues | src/markups/time.py:197-216 | the duration keyboard lists the start and the eleven hours after it, three a row, with the twelfth alone in a last row only when the stop is 12 past the start |
| TimeMarkups.MinSecKeysCallbacks | src/markups/time.py:172-182 | `MinSecKeys`: every button of a ten-value keyboard opened from a group carries an accepted option |
| TimeMarkups.MinSecCell | src/markups/time.py:172-182 | each button of a ten-value keyboard carries an accepted option, a number or ignore |
| TimeMarkups.HourKeysCallbacks | src/markups/time.py:184-195 | `HourKeys`: every button of the hour keyboard carries an accepted option |
| TimeMarkups.HourCell | src/markups/time.py:184-195 | each button of the hour keyboard carries an accepted option |
| TimeMarkups.DurationKeysCallbacks | src/markups/time.py:197-216 | `DurationKeys`: every button of a duration keyboard opened from an hour group carries an accepted option |
| TimeMarkups.MinSecGroupCallbacks | src/markups/time.py:218-228 | `MinSecGroupKeys`: every button of the minute/second group keyboard carries an accepted option |
| TimeMarkups.MinSecGroupCell | src/markups/time.py:218-228 | each button of the minute/second group keyboard carries an accepted option, a group or ignore |
| TimeMarkups.HourGroupCallbacks | src/markups/time.py:230-242 | `HourGroupKeys`: every button of the hour group keyboard carries an accepted option |
| TimeMarkups.MainKeysCallbacks | src/markups/time.py:258-291 | `MainKeys`: every button of the main keyboard carries an accepted option |
| TimeMarkups.Init | src/markups/time.py:51-87 | the hour is within 0-23, or 0-72 when a second is given; the minute and the second are within 0-59; a second is kept exactly when given; a falsy hour or minute is the current one; a value within range is kept |
| TimeMarkups.FromState | src/markups/time.py:302-313 | after an earliest time is set the hour is not before its hour; an hour not before it is kept; at the earliest hour the minute is not before its minute |
| TimeMarkups.FromStateShown | src/markups/time.py:302-313 | with an earliest time on a whole minute, the time after setting it is shown |
| TimeMarkups.Fill | src/markups/time.py:350-365 | a chosen number fills the first pending field, hour, then minute, then second, and redraws; with no field pending nothing changes and nothing comes back |
| TimeMarkups.Act | src/markups/time.py:315-366 | an option that is not accepted, and ignore, change nothing; skip gives the skip reply; each value button marks its field pending; OK sends the time; AM/PM redraws exactly when the time 12 hours on is shown, and only then moves the hour; a reply that raises changes nothing |
| TimeMarkups.PressAmPm | src/markups/time.py:337-340 | AM/PM gives the main keyboard of the hour 12 hours on when that time is shown, and does nothing otherwise |
| TimeMarkups.AmPmTwice | src/markups/time.py:337-340 | pressing AM/PM twice, with both halves shown, returns to the same hour |
| TimeMarkups.PressNumber | src/markups/time.py:350-365 | pressing any number from 0 to 99 fills the first pending field |
| TimeMarkups.PressMinSecGroup | src/markups/time.py:341-342 | pressing a minute/second group opens the ten values from its first value and changes nothing |
| TimeMarkups.PressHourGroup | src/markups/time.py:343-345 | pressing an hour group opens its duration hours and changes nothing |
| TimeMarkups.ThreePartMinSecFacts | src/markups/time.py:157-159 | a minute/second group written with two numbers is accepted, yet its text after the first space is not one integer |
| TimeMarkups.ThreePartMinSecRaises | src/markups/time.py:157-159 | a minute/second group written with two numbers is accepted but raises when pressed |
| TimeMarkups.FinalTextIsAnswer | src/markups/time.py:346-348 | OK on a time of day without a second sends "HH:MM", which the time question reads back as that same time |
| TimeMarkups.FinalTextPending | src/markups/time.py:346-348 | a field left pending is sent as "-1" |
| TimeMarkups.TimeMarkup.constructor | src/markups/time.py:51-87 | the picker keeps the required flag, has no earliest time and holds the values the initialisation gives |
| TimeMarkups.TimeMarkup.SetFrom | src/markups/time.py:302-313 | the earliest time is set, the second is unchanged, and the hour and minute are those set_from gives |
| TimeMarkups.TimeMarkup.PerformAction | src/markups/time.py:315-366 | the reply and the new hour, minute and second are those of the action on the old values; the earliest time is unchanged |
| FreqMarkups.FreqPatternText | src/markups/freq.py:88-106 | the menu's pattern alternates the five frequencies, and an option is in that alternation exactly when the menu accepts it |
| FreqMarkups.PlainData | src/markups/base.py:66-73 | a label that starts and ends with a word character is its own callback data |
| FreqMarkups.FreqAsWrittenMissesHourlyDaily | src/markups/freq.py:108-115 | as written, the class method reaches the instance method `BaseMarkup.get_markup` (src/markups/base.py:45) through `super()`, so the hourly and daily row is bound as `self`: the menu is weekly and monthly, then custom, and although `is_option` accepts hourly and daily, no button carries either |
| FreqMarkups.FreqLayout | src/markups/freq.py:108-115 | the evidently intended menu is built without raising: hourly and daily, weekly and monthly, then custom, each label its own callback data |
| FreqMarkups.ExpectedAccepted | src/markups/freq.py:98-115 | every callback of the intended menu is accepted by its option test |
| FreqMarkups.ExpectedCovers | src/markups/freq.py:98-115 | every accepted frequency is the callback of some button of the intended menu, which the menu as written is not (see Findings) |
| FreqMarkups.FreqCallbacks | src/markups/freq.py:98-115 | the intended menu emits only accepted callbacks, and each accepted one |
| FreqMarkups.ValidFreqTotal | src/markups/freq.py:168-186 | `ValidFreq`: a frequency is valid exactly when its fields are well formed (days not negative, hours 0-23, minutes 0-59) and it lasts from 5 minutes to 400 days, both ends included |
| FreqMarkups.CustomPatternAlternatives | src/markups/freq.py:284-293 | the custom picker's pattern alternates skip, OK, ignore, the hour and minute buttons, the day and minute keyboards and a number, in that order |
| FreqMarkups.NumberFacts | src/markups/freq.py:197-211 | a number written out names no keyboard and reads back as itself |
| FreqMarkups.NumberIsOption | src/markups/freq.py:209-211 | `IsCustomOption`: every number from 0 to 999 written out is an accepted option |
| FreqMarkups.ControlIsOption | src/markups/freq.py:209 | the controls are accepted options |
| FreqMarkups.OpenerFacts | src/markups/freq.py:210-211 | a keyboard-opening text's first space ends the name and its number follows |
| FreqMarkups.DayDataFacts | src/markups/freq.py:248-257 | a day keyboard's callback data names the day keyboard and is accepted when its start is at most 999 |
| FreqMarkups.MinuteDataFacts | src/markups/freq.py:259-269 | a minute keyboard's callback data names the minute keyboard and not the day keyboard |
| FreqMarkups.MinuteDataNamesNoOther | src/markups/freq.py:259-269 | a minute keyboard's callback data is no control |
| FreqMarkups.FinaliseNamesNoKeyboard | src/markups/freq.py:130-135 | OK's callback data names no keyboard |
| FreqMarkups.MainDayButton | src/markups/freq.py:296-317 | the main keyboard's day button opens the first page of days |
| FreqMarkups.DayCell | src/markups/freq.py:242-252 | each day of a page sits at its row and column, and is shown exactly when it makes a valid frequency |
| FreqMarkups.PagingBounds | src/markups/freq.py:253-257 | paging stays within the pages 0 to 371 and moves by at most 30 days; the back arrow shows exactly past the first page and the forward arrow exactly before the last |
| FreqMarkups.PageClosed | src/markups/freq.py:253-257 | k forward presses from the first page reach day 30k, or the last page, 371 |
| FreqMarkups.DayReachable | src/markups/freq.py:242-257 | every day count from 0 to 400 is reached by forward presses from the first page, and is shown there exactly when it makes a valid frequency |
| FreqMarkups.MinuteKeysCallbacks | src/markups/freq.py:219-229 | `MinuteKeys`: every button of a minute keyboard from 0 to 990 carries an accepted option |
| FreqMarkups.MinuteCell | src/markups/freq.py:219-229 | each button of a minute keyboard carries an accepted option, a number or ignore |
| FreqMarkups.HourKeysCallbacks | src/markups/freq.py:231-240 | `HourKeys`: every button of the hour keyboard carries an accepted option |
| FreqMarkups.HourCell | src/markups/freq.py:231-240 | each button of the hour keyboard carries an accepted option, a number or ignore |
| FreqMarkups.DayNavCallbacks | src/markups/freq.py:253-257 | the paging buttons of a day page carry accepted options |
| FreqMarkups.DayKeysCallbacks | src/markups/freq.py:242-257 | `DayKeys`: every button of a day page from 0 to 371 carries an accepted option |
| FreqMarkups.DayKeysCell | src/markups/freq.py:242-257 | each day button of a day page carries an accepted option, a number or ignore |
| FreqMarkups.MinuteGroupCallbacks | src/markups/freq.py:259-269 | every button of the minute group keyboard carries an accepted option |
| FreqMarkups.MainKeysCallbacks | src/markups/freq.py:296-317 | `MainKeys`: every button of the main keyboard carries an accepted option |
| FreqMarkups.Fill | src/markups/freq.py:356-368 | a chosen number fills the first pending field, days, then hours, then minutes, and redraws; with no field pending nothing changes and nothing comes back |
| FreqMarkups.Act | src/markups/freq.py:329-369 | an option that is not accepted, and ignore, change nothing; the hour and minute buttons mark their field pending and open its keyboard; OK sends the frequency when valid and the alert otherwise; only OK sends a message |
| FreqMarkups.ActNeverRaises | src/markups/freq.py:329-369 | no option makes the action raise |
| FreqMarkups.IntWithoutLetters | src/markups/freq.py:197-211 | an accepted integer names no keyboard |
| FreqMarkups.FreshFinaliseInvalid | src/markups/freq.py:139-145 | OK on a fresh picker, 0d 0h 0min, sends the alert |
| FreqMarkups.PendingFinaliseInvalid | src/markups/freq.py:352-354 | OK while a field is pending sends the alert |
| FreqMarkups.PressNumber | src/markups/freq.py:356-368 | pressing any number from 0 to 999 fills the first pending field |
| FreqMarkups.PressDayPage | src/markups/freq.py:346-348 | pressing a day keyboard text marks the days pending and opens that page |
| FreqMarkups.PressMinuteGroup | src/markups/freq.py:349-350 | pressing a minute group opens its ten minutes and changes nothing |
| FreqMarkups.FreqTextReadBack | src/markups/freq.py:353 | the digit runs of the text OK sends are the days, hours and minutes, each reading back as its value |
| FreqMarkups.FreqTextNotAlert | src/markups/freq.py:276-282 | the text OK sends is never the alert |
| FreqMarkups.FreqCustom.constructor | src/markups/freq.py:139-145 | a new picker holds 0 days, 0 hours and 0 minutes |
| FreqMarkups.FreqCustom.PerformAction | src/markups/freq.py:329-369 | the reply and the new fields are those of the action on the old fields |
| DatetimeMarkups.NewAsWrittenRaises | src/markups/datetime.py:50-51 | as written, the date picker and the time picker are given positional arguments their constructors do not take, so constructing a date-time picker always raises |
| DatetimeMarkups.DatetimePatternUnion | src/markups/datetime.py:84-86 | whatever order the set is iterated in, the pattern alternates exactly the union of the date picker's and the time picker's alternatives |
| DatetimeMarkups.AfterTime | src/markups/datetime.py:112-117 | a time answer comes back as the kept date, a space and the time; the warning, SKIP and non-text replies pass through unchanged |
| DatetimeMarkups.DatetimeAnswerReadBack | src/markups/datetime.py:112-117 | a chosen day followed by OK on a time of day sends "YYYY-MM-DD HH:MM", which the date-time question splits into the date and the time and reads back as that date, when not past the latest date, and that time |
| DatetimeMarkups.DatetimeMarkup.constructor | src/markups/datetime.py:38-53 | with the arguments passed by keyword, the two pickers share the required flag, have no earliest date or time, hold their own initial values, and no date is kept |
| DatetimeMarkups.DatetimeMarkup.PerformAction | src/markups/datetime.py:105-124 | with a date kept, the time picker acts, the date and the month shown are unchanged and a time answer comes back after the date; without one, the date picker acts, its answer is kept and answered with the time picker's keyboard, and any other reply passes through with no date kept |
| DatetimeMarkups.DateAnswerNotEmpty | src/markups/datetime.py:112-122 | an answer of the date picker is never empty, so a kept date always counts as chosen |
| Utils.ToMarkdownV2 | src/utils.py:19-32 | escaping each reserved character in turn, where the text contains it, gives the text with a backslash before every reserved character |
| Utils.EscapeStep | src/utils.py:29-31 | one replacement step of the loop escapes one more reserved character and leaves the escapes already made alone |
| Utils.SpecialsDistinct | src/utils.py:29 | each reserved character is listed once, and the backslash is not one of them |
| Utils.EscapeLength | src/utils.py:19-32 | the escaped text is one character longer for each reserved character |
| Utils.EscapePlain | src/utils.py:19-32 | text without reserved characters is returned unchanged |
| Utils.EscapeHead | src/utils.py:19-32 | escaped text never starts with a reserved character |
| Utils.UnescapeEscape | src/utils.py:19-32 | `Escape`: removing the backslash in front of each reserved character gives the original text back |
| Utils.Alphabet | src/utils.py:48 | the signature alphabet has 62 characters: the lower-case letters, the upper-case letters and the digits |
| Utils.AlphabetDistinct | src/utils.py:48 | no character of the alphabet is repeated |
| Utils.GenerateSignatures | src/utils.py:35-62 | sampling fails exactly when the length, raised to at least 3, exceeds the alphabet; a single signature comes back exactly when sampling succeeds and n is at most 1; each signature has the raised length, is drawn from the alphabet, and there are n of them when n is above 1 |
| Utils.SignatureChars | src/utils.py:59 | a signature drawn from a sample has distinct characters, all from the alphabet |
| LegacyMarkups.Format | markups/base.py:120-127 | the callback is the signature, one space and the data, in that order |
| LegacyMarkups.GetData | markups/base.py:200-212 | nothing comes back exactly when the callback does not contain the signature |
| LegacyMarkups.GetDataFormat | markups/base.py:200-212 | the data of a formatted callback is read back, provided the data does not itself contain the signature and a space |
| LegacyMarkups.GetDataSwallows | markups/base.py:212 | data holding the signature and a space loses that part too, so the condition above is needed |
| LegacyMarkups.VerifyOption | markups/base.py:185-196 | `Verify` and `IsOption`: with an option, a callback is verified exactly when the option is among the markup's options and the callback is the signature, a space and that option |
| LegacyMarkups.VerifyAnyFormat | markups/base.py:197-198 | without an option, every callback formatted with the signature is verified |
| LegacyMarkups.LabelsInclude | markups/base.py:155-182 | every label of every row is among the options recorded by init |
| LegacyMarkups.LabelsFromRows | markups/base.py:155-182 | every option recorded by init is the label of some button |
| LegacyMarkups.LabelsSnoc | markups/base.py:171-179 | the options recorded for one more row are those before it followed by that row's labels |
| LegacyMarkups.SignedRow | markups/base.py:157-179 | a row of init has one button per label |
| LegacyMarkups.SignedKeyboard | markups/base.py:171-183 | the keyboard of init has one row per option row |
| LegacyMarkups.SignedKeyboardVerifies | markups/base.py:129-212 | each button of init shows its label, its callback is verified for that label and reads back as it |
| LegacyMarkups.MenuData | markups/menu.py:69-82 | a label with an override takes the override verbatim; without one and without emoji stripping, the label itself is the payload |
| LegacyMarkups.ReplaceAtStart | markups/menu.py:86-87 | a text that starts with the pattern has it replaced first |
| LegacyMarkups.ReplaceSkip | markups/menu.py:86-87 | replacement passes over a prefix holding no first character of the pattern unchanged |
| LegacyMarkups.DefaultTemplate | markups/menu.py:84-89 | the template "{SIGNATURE} {OPTION}" gives the default callback for any signature without a brace |
| LegacyMarkups.SignatureReplaced | markups/menu.py:86 | the first replacement of the default template puts the signature in |
| LegacyMarkups.OptionReplaced | markups/menu.py:86-87 | the second replacement puts the payload in after the signature and the space |
| LegacyMarkups.TemplateReplacesInSignature | markups/menu.py:86-87 | the replacements are made in turn, so a signature holding "{OPTION}" has it replaced too |
| LegacyMarkups.MenuRow | markups/menu.py:99-107 | a row of the menu has one button per label |
| LegacyMarkups.MenuKeyboard | markups/menu.py:99-111 | the menu keyboard has one row per option row |
| LegacyMarkups.MenuKeyboardSnoc | markups/menu.py:99-107 | the menu of one more row is the menu of the rows before it followed by that row's buttons |
| LegacyMarkups.MenuPlain | markups/menu.py:41-111 | without emoji stripping, template or overrides, the menu never raises and is the keyboard of the base init |
| LegacyMarkups.MenuDecorated | markups/menu.py:74-82 | a label written "emoji, space, data, space, emoji" sends the bare data in the default format, and get_data reads the data back |
| LegacyMarkups.SavePrefCallbacks | markups/save_pref.py:38-54 | the save-preference keyboard is two buttons and then one, and each callback is verified for its own preference and reads back as it |
| LegacyMarkups.SavePrefLongSignature | markups/save_pref.py:25-27 | a signature longer than every preference meets the condition of the lemma above |
| LegacyMarkups.TrueFalseVerifies | markups/true_false.py:36-58 | for non-empty answers each button's callback is verified for its own answer, and the positive button is not verified for a different negative answer |
| LegacyMarkups.SignedMarkup.constructor | markups/base.py:37-44 | a new markup keeps its signature and has no options |
| LegacyMarkups.SignedMarkup.SetOptions | markups/base.py:95-105 | an empty call leaves the options as they were; otherwise the options are those given, in order |
| LegacyMarkups.SignedMarkup.Init | markups/base.py:129-183 | the keyboard is the signed keyboard of the rows; the options become the labels in row order, or stay as they were when there are no labels |
| LegacyMarkups.SignedMarkup.MenuInit | markups/menu.py:41-111 | the menu is built exactly when every label yields a payload, and is then the menu keyboard; when building raises the options are unchanged; otherwise the options are recorded as the base init records them |
| LegacyMarkups.SignedMarkup.TrueFalseInit | markups/true_false.py:36-58 | the two answers are recorded, even empty or equal ones, and the keyboard is the true/false keyboard |
| LegacyMarkups.SignedMarkup.SavePrefInit | markups/save_pref.py:38-54 | the three preferences are recorded in order, and the keyboard is the save-preference keyboard |
| LegacyMarkups.EqualsBySignature | markups/base.py:62-71 | two markups are equal exactly when their signatures are, whatever their options, and equality is an equivalence |
| Dates.DaysInMonthBounds | src/markups/date.py:147 | `DaysInMonth`: a month has 28 to 31 days, 29 exactly for February of a leap year and 28 exactly for February of a common year |
| Dates.ParseYmd | src/questions/date.py:156 | text that parses as year, month and day is a real Gregorian date in years 1-9999 |
| Dates.ParseYmdSpaced | questions/date.py:29 | text read with "%Y %m %d", each space a run of one or more whitespace characters, is a real Gregorian date |
| Dates.ParseYmdSpacedRuns | questions/date.py:227 | a date from the year 1000 on, written with any two runs of whitespace between its fields, is read back as that date |
| Dates.ParseYmdSpacedTrimmed | questions/date.py:227 | accepted text starts with a digit of the year and ends with a digit of the day: no whitespace before or after |
| Dates.ParseFormatYmd | src/questions/date.py:156 | a date of a four-digit year, written out year first, parses back as the same date |
| Dates.ParseMonthDay | processor.py:722 | text that parses as month and day is a real date of the default year 1900 |
| Text.ParseInt | src/markups/time.py:140-152 | an integer parsed from text came from non-empty text, and a negative one from text with a leading minus |
| Text.ParseIntNatToString | src/markups/freq.py:349-351 | a number written out parses back as itself |
| Text.Split | src/questions/datetime.py:232 | splitting gives at least one part, no part holds the separator, and the parts joined by it give the text back |
| Text.SplitJoin | src/questions/base.py:571 | parts without the separator, joined by it, split back into the same parts |
| Seqs.Dedupe | src/processor.py:118-124 | removing duplicates leaves no repeated element, the same elements and no more of them than before |
| Seqs.DedupeNoDup | src/processor.py:118-124 | a list without duplicates is kept as it is |
| Seqs.DedupeSnoc | src/processor.py:124 | the first occurrence of each element is kept in place and later ones are dropped |

## Left out

- `src/handler.py` and `main.py`: the Telegram conversation handlers, job scheduling and the prototype Selenium loop are I/O and user interface, and are not part of this model.
- `src/questions/textbox.py`, `questions/textbox.py` and `questions/paragraph.py`: thin click-and-type wrappers. Their only logic, re-reading a stale question, is the base question's, which is modelled.
- The abstract classes and package re-exports (`questions/abstract.py`, `src/questions/abstract.py`, `markups/abstract.py`, `src/markups/abstract.py`, the `__init__.py` files, and the empty `src/markups/menu.py`) have no behaviour.
- Selenium, the web driver, fake user agents, `time.sleep` and logging are not modelled. Opening the browser (`_set_browser`, `src/browser.py:205-232`) is taken to succeed wherever it is called: in the constructor (`src/browser.py:91`, `browser.py:99`) and in the reopen of `retry_browser` (`src/browser.py:254`, reached from `monitor_browser`'s handler at `src/browser.py:158` and `:167`) and of the older `_retry_browser` (`browser.py:230`). A driver that fails to start, or a page that fails to load, raising out of those calls is not modelled. Elements are opaque handles, the page is an oracle, actions are a trace, and a sleep is a recorded wait.
- The clock (`datetime.now()`) and the random samples of `generate_random_signatures` are parameters of the members that use them.
- The base `answer` and `get_answer_elements` of the older questions (`questions/base.py:126-131`, `questions/base.py:220-225`) only return None, and are overridden by every variant that is modelled.
- The older processor's question fetch (`get_question`, `_get_next_section`) is not modelled. Its `_get_question_info` is modelled only for the checkbox and radio part (the grid or non-grid choice and both caches, `RecordChoices`), not for the dropdown, text, date, time and duration caches.
- LegacyProcessor.LegacyFormProcessor.RecordChoices: a missing aria-label (None) and an empty one are both the empty text. `labels.index` (`processor.py:353`) tells them apart, so the blank key of an element after a None label is not modelled exactly.
- Processor.FormProcessor.RefreshSection: picks the root before the refreshed tail with the queue length before repeated roots are dropped, the intended choice, where `src/processor.py:382` uses the length after; the code as written is `Processor.RefreshPickAsWritten`, and the two differ only on a scrape whose tail repeats a root (see "Findings").
- LegacyProcessor.LegacyFormProcessor.Perform: every submission of the older processor, and so every `Answer*` method, uses the recovery of the evidently intended monitor, where `_perform_submission` as written is wrapped by `@Browser.monitor_browser` (processor.py:515), whose recovery calls the undefined `retry_browser` (browser.py:145-147) and raises AttributeError on the first driver failure. The as-written monitor is `LegacyBrowser.MonitorAsWritten`; with it no answer of the older processor would ever yield None after a failure.
- QuestionBase.BaseQuestion.GetInfo: the title and description elements of a live question (`src/questions/base.py:314-315`) are taken to be present; the code looks them up without a guard, so a missing one raises NoSuchElementException inside the monitored `get_info`, which then means retries and, once they run out, None with the metadata unchanged. The page oracle's `title` and `description` are total, so that path is not modelled.
- Checkbox.CheckboxQuestion.GetInfo: the 'Other' input field is taken to be present whenever an 'Other' option is found (`src/questions/checkbox.py:125`, and `src/questions/radio.py:121` for `Radio.RadioQuestion.GetInfo`); the unguarded lookup raises NoSuchElementException when it is missing, which the total `otherField` oracle does not model.
- LegacyProcessor.LegacyFormProcessor.BuildChoiceCache: an option whose label starts with `blank_value_key`, or is `other_option_key`, is promised only to be a key, not which element it holds, because a blank element's key can overwrite it. An option named like another reserved key is stored and changes the dispatch (`ReservedLabelStored`).
- LegacyProcessor.LegacyFormProcessor.BuildGridCache: a grid row named like one of the cache's own keys breaks the cache's shape (a reserved key must hold an element), so answering such a grid is not modelled.
- `questions/dropdown.py:15` imports `BaseOptionQuestion` from `questions/base.py`, which defines no such class, so the module as written fails to import. `LegacyDropdownQuestions` models the option store the module evidently expects. The import failure is a property of the module, not of any member, so it has no Findings row.
- The older date question's `input_format` and `answer_format` (`questions/date.py:60-72`) are fixed at their defaults "%Y %m %d" and "%d%m%Y"; other formats a caller could pass are not modelled.
- Telegram keyboards are modelled only as rows of (label, callback data) pairs.
- Python's `int()` is modelled as an optional sign followed by ASCII digits. The leading and trailing whitespace and the underscores it also accepts are not modelled.
- `\w` is modelled as an ASCII letter, digit or underscore, not Unicode word characters. Whitespace is ASCII whitespace, both for `\s` in a `strptime` format and for `str.strip`, `lstrip` and `rstrip` (`markups/menu.py:79`, `markups/menu.py:82`, `src/markups/base.py:71`, `src/markups/base.py:74`), which strip Unicode whitespace too.
- `strptime` is modelled with `%Y` as exactly four digits and `%m`/`%d` as one or two digits. Its acceptance of a space-padded field is not modelled, and years below 1000 are not written back in four digits, so the read-back lemmas require a year of at least 1000.
- The time picker's earliest time is a time of day. Its date part, its time zone and its microseconds are not modelled.
- `DatetimeMarkups.DatetimePattern`: the order in which Python iterates a set is not fixed, so it is a parameter and only the set of alternatives is stated.
- Browser.Browser.Monitor requires the counter not to exceed the retry bound: with `max_retries` below 1 the source loops without end, which the model does not capture.
- LegacyBrowser.Browser.Monitor requires the counter not to exceed the retry bound, for the same reason.
- The crawl results the processor sees are a finite sequence given up front. Once it is used up, a crawl counts as failed, so that the loop is known to end.
- The older markup classes (`markups/base.py`, `markups/menu.py`, `markups/true_false.py`, `markups/save_pref.py`) are one class, `LegacyMarkups.SignedMarkup`, with one method per subclass's `init`. Dafny has no default arguments, so the default answers "YES" and "NO" of the true/false markup are the constants `LegacyMarkups.Yes` and `LegacyMarkups.No`, passed by the caller.
- LegacyMarkups.SignedMarkup.TrueFalseInit: a `None` answer is not modelled, only strings. The warning logged for an empty or repeated answer is left out with the rest of the logging.

## Findings

| source | as written | input that shows it | evidently intended | confidence | as-written member | corrected member |
|---|---|---|---|---|---|---|
| src/markups/freq.py:115 | the class method calls `super().get_markup(...)`, which reaches the instance method `BaseMarkup.get_markup` (src/markups/base.py:45) as a plain function, so the first row is bound to `self` | the frequency menu: it shows weekly, monthly and custom, and no hourly or daily button, although `is_option` and the pattern accept both | lay out all three rows | not executed | FreqMarkups.FreqAsWrittenMissesHourlyDaily | FreqMarkups.FreqCallbacks |
| src/processor.py:382 | with no current question and as many scraped roots as queued ones, the index is -1, the last scraped root | scraped roots [1, 2], two queued, no current question: root 2 is returned though it also stays at the tail of the queue | return nothing, because no root precedes the refreshed tail | not executed | Processor.RefreshAsWrittenPicksQueuedRoot | Processor.RefreshPickPrecedesTail |
| src/processor.py:382 | the index is taken with the queue length after `_add_questions` (src/processor.py:120-126) has dropped repeated roots | a current question, two queued roots and the scrape [1, 2, 2]: the queue becomes [2] and root 2, still queued, is returned | return root 1, the root before the refreshed tail | not executed | Processor.RefreshAsWrittenRepeatedTail | Processor.RefreshPickPrecedesTail |
| browser.py:146-147 | the recovery calls `retry_browser`, which the class does not define | a call whose first try raises a driver exception, with retries left: the wrapper raises AttributeError instead of retrying | retry through `_retry_browser`, then call again | not executed | LegacyBrowser.MonitorAsWrittenNeverRetries | LegacyBrowser.Browser.Monitor |
| src/questions/checkbox.py:134 | the options are stored with the keyword `has_other_option`, which `_set_options` does not accept | any checkbox question whose element is live: `get_info` raises TypeError | store the options and the 'Other' label through the keyword `_set_options` takes | not executed | QuestionBase.OptionGetInfoNeverSucceeds | Checkbox.CheckboxQuestion.GetInfo |
| src/questions/radio.py:134 | the options are stored with the keyword `has_other_option`, which `_set_options` does not accept | any radio question whose element is live: `get_info` raises TypeError | store the options and the 'Other' label through the keyword `_set_options` takes | not executed | QuestionBase.OptionGetInfoNeverSucceeds | Radio.RadioQuestion.GetInfo |
| src/questions/base.py:473 | `_has_other_option` needs the generated 'Other' label among the options, but the scrape never adds it | options "Yes" and "No" with the 'Other' field found: no 'Other' option is reported | report an 'Other' option exactly when the 'Other' field is known | not executed | QuestionBase.OtherNeverListedExample | QuestionBase.OtherFound |
| src/markups/datetime.py:50-51 | the date and time pickers are built with positional arguments that their constructors take only by keyword | any date-time picker, for instance `DatetimeMarkup(True)`: the constructor raises TypeError | pass year, month, hour, minute and second by keyword | not executed | DatetimeMarkups.NewAsWrittenRaises | DatetimeMarkups.DatetimeMarkup.constructor |
| src/markups/time.py:130 | the comparison names `timezone`, which the module never imports | a time picker after `set_from`, asked whether 10:00 is shown: NameError | compare the time of day on the earliest date with the earliest time | not executed | TimeMarkups.DisplayAfterFrom | TimeMarkups.Display |
| src/markups/date.py:91-96 | the month is checked only when the year is in range | year 10000 and month 13: month 13 is kept and drawing the calendar raises `calendar.IllegalMonthError`, a ValueError, at `calendar.monthrange` (`src/markups/date.py:283`) | check the month whatever the year | not executed | DateMarkups.InitMonthUnchecked | DateMarkups.Init |
| questions/duration.py:139 | `_is_valid` takes one element but is given all the cached inputs | a duration question with its three inputs cached: the check raises TypeError (the same call is made at `questions/date.py:188` and `questions/dropdown.py:139`) | check that every cached input is still found | not executed | LegacyQuestionBase.CheckAsWrittenRaises | LegacyQuestionBase.AllValid |

=== FILE: browser.dfy ===
/**
 * The browser wrapper with its retry and back-off policy.
 *
 * A `Browser` counts the browsers it has opened (starting at 1), and when
 * a driver call fails it closes the browser, waits, multiplies the wait by
 * 1.5 and opens a new one, until the counter reaches `maxRetries`.
 * The waits are exact `real` numbers; each one is recorded in `sleeps`.
 *
 * A monitored call is given as `attempt`: `attempt(i)` is what the i-th
 * try of the wrapped call does, return a value or raise a driver exception.
 */
module Browser {
  import opened Common

  const NumMaxRetries: int := 5
  const TimeoutSeconds: real := 8.0
  /** The factor applied to the wait after each retry. */
  const Growth: real := 1.5

  /** The outcome of one try of a wrapped driver call. */
  datatype Attempt<R> = Raised | Returned(value: R)

  function Pow(b: real, k: nat): real
  {
    if k == 0 then 1.0 else b * Pow(b, k - 1)
  }

  /** The wait before retry `k + 1` when the first wait is `t0`: grown once per earlier retry. */
  function Wait(t0: real, k: nat): real
  {
    if k == 0 then t0 else Wait(t0, k - 1) * Growth
  }

  /** Retry `k + 1` waits the first wait times 1.5 to the power `k`. */
  lemma {:induction false} WaitIsPower(t0: real, k: nat)
    ensures Wait(t0, k) == t0 * Pow(Growth, k)
  {
    if k > 0 {
      WaitIsPower(t0, k - 1);
      assert t0 * Pow(Growth, k) == (t0 * Pow(Growth, k - 1)) * Growth;
    }
  }

  /** The waits of the first `k` retries when the first wait is `t0`. */
  function Backoff(t0: real, k: nat): (waits: seq<real>)
    ensures |waits| == k
    ensures forall i :: 0 <= i < k ==> waits[i] == Wait(t0, i)
  {
    if k == 0 then [] else Backoff(t0, k - 1) + [Wait(t0, k - 1)]
  }

  /**
   * What a monitored call yields when tries start at index `i` and at most
   * `retries` retries may still succeed: the first returned value (or
   * `None` once a retry is refused) and how many retries were performed.
   */
  function MonitorOutcome<R>(attempt: nat -> Attempt<R>, i: nat, retries: nat): (Option<R>, nat)
    decreases retries
  {
    match attempt(i)
    case Returned(v) => (Some(v), 0)
    case Raised =>
      if retries == 0 then (None, 0)
      else
        var (r, n) := MonitorOutcome(attempt, i + 1, retries - 1);
        (r, n + 1)
  }

  /**
   * A monitored call gives up only after every allowed retry was spent on
   * a failing try; otherwise it returns the first value some try returned.
   */
  lemma {:induction false} MonitorOutcomeMeaning<R>(attempt: nat -> Attempt<R>, i: nat, retries: nat)
    ensures MonitorOutcome(attempt, i, retries).1 <= retries
    ensures MonitorOutcome(attempt, i, retries).0.None? <==>
              MonitorOutcome(attempt, i, retries).1 == retries
              && forall j :: i <= j <= i + retries ==> attempt(j).Raised?
    ensures MonitorOutcome(attempt, i, retries).0.Some? ==>
              var n := MonitorOutcome(attempt, i, retries).1;
              attempt(i + n) == Returned(MonitorOutcome(attempt, i, retries).0.value)
              && forall j :: i <= j < i + n ==> attempt(j).Raised?
    decreases retries
  {
    if attempt(i).Raised? && retries > 0 {
      MonitorOutcomeMeaning(attempt, i + 1, retries - 1);
    }
  }

  class Browser {
    const maxRetries: int
    const initialTimeout: real
    /** The number of browsers opened so far. */
    var counter: int
    /** The wait before the next retry. */
    var timeout: real
    /** Whether a browser is currently open. */
    var open: bool
    /** Every wait performed so far, in order. */
    var sleeps: seq<real>

    /** The counter starts at 1 and each retry has waited 1.5 times the previous one. */
    ghost predicate Valid()
      reads this
    {
      1 <= counter
      && timeout == Wait(initialTimeout, counter - 1)
      && sleeps == Backoff(initialTimeout, counter - 1)
    }

    constructor(maxRetries: int := NumMaxRetries, timeout: real := TimeoutSeconds)
      ensures this.maxRetries == maxRetries && initialTimeout == timeout
      ensures counter == 1 && this.timeout == timeout && open && sleeps == []
      ensures Valid()
    {
      this.maxRetries := maxRetries;
      initialTimeout := timeout;
      counter := 1;
      this.timeout := timeout;
      open := true;
      sleeps := [];
    }

    /** Closes any open browser; closing twice is the same as closing once. */
    method Close()
      modifies this
      ensures !open
      ensures counter == old(counter) && timeout == old(timeout) && sleeps == old(sleeps)
    {
      if open {
        open := false;
      }
    }

    /**
     * Closes the browser, then either refuses (the counter has reached the
     * bound) or waits, grows the wait, counts and reopens.
     */
    method Retry() returns (ok: bool)
      requires Valid()
      modifies this
      ensures Valid()
      ensures ok <==> old(counter) != maxRetries
      ensures ok ==> counter == old(counter) + 1 && open
                     && timeout == old(timeout) * Growth
                     && sleeps == old(sleeps) + [old(timeout)]
      ensures !ok ==> counter == old(counter) && !open
                      && timeout == old(timeout) && sleeps == old(sleeps)
      ensures old(counter) <= maxRetries ==> counter <= maxRetries
    {
      Close();
      if counter == maxRetries {
        return false;
      }
      ghost var k: nat := counter - 1;
      sleeps := sleeps + [timeout];
      assert sleeps == Backoff(initialTimeout, k + 1);
      timeout := timeout * Growth;
      assert timeout == Wait(initialTimeout, k + 1);
      counter := counter + 1;
      open := true;
      return true;
    }

    /**
     * Runs the wrapped call until a try returns, retrying after each
     * driver exception; gives `None` once a retry is refused.
     * The loop ends only because the counter climbs to `maxRetries`.
     */
    method Monitor<R>(attempt: nat -> Attempt<R>) returns (result: Option<R>)
      requires Valid() && counter <= maxRetries
      modifies this
      ensures Valid() && counter <= maxRetries
      ensures (result, counter - old(counter)) == MonitorOutcome(attempt, 0, maxRetries - old(counter))
      ensures result.None? ==> counter == maxRetries && !open
      ensures result.Some? && counter != old(counter) ==> open
      ensures counter == old(counter) ==> open == old(open) || result.None?
    {
      result := None;
      var passed := false;
      var i: nat := 0;
      while !passed
        invariant Valid() && old(counter) <= counter <= maxRetries
        invariant i == counter - old(counter)
        invariant !passed ==> result.None? && (i > 0 ==> open) && (i == 0 ==> open == old(open))
        invariant !passed ==>
          var (r, n) := MonitorOutcome(attempt, i, maxRetries - counter);
          MonitorOutcome(attempt, 0, maxRetries - old(counter)) == (r, n + i)
        invariant passed ==>
          (result.Some?
           && MonitorOutcome(attempt, 0, maxRetries - old(counter)) == (result, i)
           && (i > 0 ==> open) && (i == 0 ==> open == old(open)))
        decreases maxRetries - counter, if passed then 0 else 1
      {
        match attempt(i)
        case Returned(v) =>
          result := Some(v);
          passed := true;
        case Raised =>
          var ok := Retry();
          if !ok {
            break;
          }
          i := i + 1;
      }
    }
  }
}

=== FILE: checkbox.dfy ===
/**
 * Checkbox questions and checkbox grids.
 *
 * The scrape keeps the first checkbox of every non-blank label as an
 * option, and the first 'Other:' checkbox (data-answer-value
 * `__other_option__`) as the toggle of the 'Other' field. Answers are
 * clicked in order; at most one answer that is not an option is typed into
 * the 'Other' field. A grid answer sends, for every sub-question in order,
 * each of its answers formatted as "<answer>, response for <sub-question>".
 */
module Checkbox {
  import opened Common
  import opened GridLabels
  import opened Seqs
  import opened QuestionBase
  import B = Browser

  /** The aria-label of the 'Other' checkbox. */
  const OtherAria: string := "Other:"

  /** The scrape of the checkboxes of question `q`, with `other0` the 'Other' field already known. */
  function CheckboxScrape(page: Page, q: Elem, grid: bool, other0: Option<Elem>): Scrape
  {
    ScrapeOf(page.checkboxes(q, grid), page.aria, page.answerValue, OtherAria, other0, page.otherField(q))
  }

  /**
   * The state the answer loop starts from: the cached one when the cached
   * toggles pass the freshness check, otherwise a fresh scrape (with the
   * 'Other' field forgotten first), or `None` when the question element
   * itself is unset or stale.
   */
  function Start(page: Page, open: bool, q: Option<Elem>, grid: bool, st: Ready): Option<Ready>
  {
    if |st.elements| > 0 && IsValid(open, page.stale, st.elements) then Some(st)
    else if q.None? || !IsValid(open, page.stale, [q.value]) then None
    else
      var s := CheckboxScrape(page, q.value, grid, None);
      Some(Ready(Stored(st.options, s.options), s.elements, s.other))
  }

  /** One turn of the answer loop: it stops with a reply, or goes on after some actions. */
  datatype Step = Stop(reply: Reply) | Go(actions: seq<Action>, found: bool)

  /**
   * One answer, given its option test. An option clicks the first toggle
   * with its label; a non-option goes to the 'Other' field when there is
   * one (only the first such answer is typed: the others are skipped), and
   * otherwise fails. `Crash` stands for the `TypeError` on unset options
   * and for the assertion that a matching toggle exists.
   */
  function AnswerStep(a: string, test: Option<bool>, elements: seq<Elem>, page: Page, other: Option<Elem>,
                      otherLive: bool, found: bool): Step
  {
    match test
    case None => Stop(Crash)
    case Some(isOption) =>
      if isOption then
        match FirstWhere(elements, page.aria, a)
        case None => Stop(Crash)
        case Some(e) => Go([Click(e)], found)
      else if other.None? then Stop(Done(False))
      else if found then Go([], true)
      else if !otherLive then Stop(Done(Nothing))
      else
        match FirstWhere(elements, page.answerValue, OtherMarker)
        case None => Stop(Crash)
        case Some(t) => Go([Click(t), Click(other.value), Type(other.value, a)], true)
  }

  /** The answer loop: every answer in turn, with its option test, until one stops it. */
  function AnswerRun(answers: seq<string>, tests: seq<Option<bool>>, elements: seq<Elem>, page: Page,
                     other: Option<Elem>, otherLive: bool, found: bool): Run
    requires |tests| == |answers|
    decreases |answers|
  {
    if |answers| == 0 then Run(Done(True), [])
    else
      match AnswerStep(answers[0], tests[0], elements, page, other, otherLive, found)
      case Stop(reply) => Run(reply, [])
      case Go(actions, found') => Then(actions, AnswerRun(answers[1..], tests[1..], elements, page, other, otherLive, found'))
  }

  /** `answer` from state `st`: its reply, its actions and the state it leaves. */
  function AnswerOutcome(page: Page, open: bool, q: Option<Elem>, grid: bool, st: Ready, answers: seq<string>): Outcome
  {
    if |answers| == 0 then Outcome(Done(True), [], st)
    else
      match Start(page, open, q, grid, st)
      case None => Outcome(Done(False), [], Ready(st.options, st.elements, None))
      case Some(s) =>
        var otherLive := s.other.Some? && IsValid(open, page.stale, [s.other.value]);
        var run := AnswerRun(answers, OptionTests(grid, s.options, answers), s.elements, page, s.other, otherLive, false);
        Outcome(run.reply, run.actions, Ready(AfterView(grid, s.options), s.elements, s.other))
  }

  /** The answers one grid answer hands to `_format_and_answer`: none for a falsy one. */
  function Parts(a: Arg): (r: seq<string>)
    ensures |r| == 0 <==> !ArgTruthy(a)
  {
    match a
    case Text(t) => if |t| > 0 then [t] else []
    case Tuple(ps) => ps
  }

  /** `_format_and_answer`'s formatting: every answer labelled with the sub-question. */
  function FormatAll(parts: seq<string>, sub: string): (r: seq<string>)
    ensures |r| == |parts| && forall i :: 0 <= i < |parts| ==> r[i] == Format(parts[i], sub)
  {
    if |parts| == 0 then [] else [Format(parts[0], sub)] + FormatAll(parts[1..], sub)
  }

  /**
   * The grid answer: each answer, formatted with its sub-question, answered
   * in order, stopping at the first reply that is not `True`.
   */
  function GridRun(page: Page, open: bool, q: Option<Elem>, st: Ready, answers: seq<Arg>, subs: seq<string>): Outcome
    requires |answers| == |subs|
    decreases |answers|
  {
    if |answers| == 0 then Outcome(Done(True), [], st)
    else
      var o := AnswerOutcome(page, open, q, true, st, FormatAll(Parts(answers[0]), subs[0]));
      if o.reply != Done(True) then o
      else Join(o.actions, GridRun(page, open, q, o.after, answers[1..], subs[1..]))
  }

  /** A turn types at most once, only when nothing was typed before, and then records it. */
  lemma StepTypes(a: string, test: Option<bool>, elements: seq<Elem>, page: Page, other: Option<Elem>,
                  otherLive: bool, found: bool)
    ensures var st := AnswerStep(a, test, elements, page, other, otherLive, found);
            st.Go? ==> TypeCount(st.actions) <= (if found then 0 else 1)
                       && (found ==> st.found) && (TypeCount(st.actions) > 0 ==> st.found)
  {
    var st := AnswerStep(a, test, elements, page, other, otherLive, found);
    if st.Go? && |st.actions| == 3 {
      var pre := st.actions;
      assert TypeCount(pre[2..]) == 1 by { assert pre[2..][1..] == []; }
      assert TypeCount(pre[1..]) == 1 by { assert pre[1..][1..] == pre[2..]; }
    }
  }

  /** At most one answer is typed into the 'Other' field, and none once one has been. */
  lemma {:induction false} AnswerRunTypesOnce(answers: seq<string>, tests: seq<Option<bool>>, elements: seq<Elem>,
                                              page: Page, other: Option<Elem>, otherLive: bool, found: bool)
    requires |tests| == |answers|
    ensures TypeCount(AnswerRun(answers, tests, elements, page, other, otherLive, found).actions)
            <= if found then 0 else 1
    decreases |answers|
  {
    if |answers| > 0 {
      var st := AnswerStep(answers[0], tests[0], elements, page, other, otherLive, found);
      StepTypes(answers[0], tests[0], elements, page, other, otherLive, found);
      if st.Go? {
        AnswerRunTypesOnce(answers[1..], tests[1..], elements, page, other, otherLive, st.found);
        var rest := AnswerRun(answers[1..], tests[1..], elements, page, other, otherLive, st.found);
        TypeCountAppend(st.actions, rest.actions);
      }
    }
  }

  /** Unfolding the answer loop at turn `i`, after the actions `acc`. */
  lemma AnswerRunAt(answers: seq<string>, tests: seq<Option<bool>>, i: nat, elements: seq<Elem>, page: Page,
                    other: Option<Elem>, otherLive: bool, found: bool, acc: seq<Action>)
    requires |tests| == |answers| && i < |answers|
    ensures var step := AnswerStep(answers[i], tests[i], elements, page, other, otherLive, found);
            var run := Then(acc, AnswerRun(answers[i..], tests[i..], elements, page, other, otherLive, found));
            if step.Stop? then run == Run(step.reply, acc)
            else run == Then(acc + step.actions, AnswerRun(answers[i + 1..], tests[i + 1..], elements, page, other,
                                                           otherLive, step.found))
  {
    var step := AnswerStep(answers[i], tests[i], elements, page, other, otherLive, found);
    assert answers[i..][0] == answers[i] && answers[i..][1..] == answers[i + 1..];
    assert tests[i..][0] == tests[i] && tests[i..][1..] == tests[i + 1..];
    var run := AnswerRun(answers[i..], tests[i..], elements, page, other, otherLive, found);
    if step.Stop? {
      assert run == Run(step.reply, []);
      assert acc + [] == acc;
    } else {
      var rest := AnswerRun(answers[i + 1..], tests[i + 1..], elements, page, other, otherLive, step.found);
      assert run == Then(step.actions, rest);
      AppendAssoc(acc, step.actions, rest.actions);
    }
  }

  /**
   * Without an 'Other' field, an answer loop succeeds exactly when every
   * answer is an option with a toggle of that label.
   */
  lemma {:induction false} AnswerRunOptionsOnly(answers: seq<string>, options: seq<string>, elements: seq<Elem>,
                                                page: Page, otherLive: bool, found: bool)
    ensures AnswerRun(answers, OptionTests(false, Some(options), answers), elements, page, None, otherLive, found).reply
            == Done(True)
            <==> forall i :: 0 <= i < |answers| ==> answers[i] in options && FirstWhere(elements, page.aria, answers[i]).Some?
    decreases |answers|
  {
    if |answers| > 0 {
      var tests := OptionTests(false, Some(options), answers);
      assert tests[1..] == OptionTests(false, Some(options), answers[1..]);
      AnswerRunOptionsOnly(answers[1..], options, elements, page, otherLive, found);
      assert forall i :: 1 <= i < |answers| ==> answers[i] == answers[1..][i - 1];
    }
  }

  /** Without an 'Other' field, a successful answer loop clicked the first toggle of each answer, in order. */
  lemma {:induction false} AnswerRunClicks(answers: seq<string>, options: seq<string>, elements: seq<Elem>,
                                           page: Page, otherLive: bool, found: bool)
    ensures var run := AnswerRun(answers, OptionTests(false, Some(options), answers), elements, page, None,
                                 otherLive, found);
            run.reply == Done(True) ==>
              |run.actions| == |answers|
              && forall i :: 0 <= i < |answers| ==>
                   var hit := FirstWhere(elements, page.aria, answers[i]);
                   hit.Some? && run.actions[i] == Click(hit.value)
    decreases |answers|
  {
    if |answers| > 0 {
      var tests := OptionTests(false, Some(options), answers);
      assert tests[1..] == OptionTests(false, Some(options), answers[1..]);
      AnswerRunClicks(answers[1..], options, elements, page, otherLive, found);
      var run := AnswerRun(answers, tests, elements, page, None, otherLive, found);
      if run.reply == Done(True) {
        var rest := AnswerRun(answers[1..], tests[1..], elements, page, None, otherLive, found);
        assert run.actions == [Click(FirstWhere(elements, page.aria, answers[0]).value)] + rest.actions;
        assert forall i :: 1 <= i < |answers| ==> answers[i] == answers[1..][i - 1];
      }
    }
  }

  /** Unfolding the grid answer at sub-question `i`, after the actions `acc`. */
  lemma GridRunAt(page: Page, open: bool, q: Option<Elem>, st: Ready, answers: seq<Arg>, subs: seq<string>,
                  i: nat, acc: seq<Action>)
    requires |answers| == |subs| && i < |answers|
    ensures var o := AnswerOutcome(page, open, q, true, st, FormatAll(Parts(answers[i]), subs[i]));
            var all := Join(acc, GridRun(page, open, q, st, answers[i..], subs[i..]));
            if o.reply != Done(True) then all == Join(acc, o)
            else all == Join(acc + o.actions, GridRun(page, open, q, o.after, answers[i + 1..], subs[i + 1..]))
  {
    assert answers[i..][0] == answers[i] && subs[i..][0] == subs[i];
    assert answers[i..][1..] == answers[i + 1..] && subs[i..][1..] == subs[i + 1..];
    var o := AnswerOutcome(page, open, q, true, st, FormatAll(Parts(answers[i]), subs[i]));
    var rest := GridRun(page, open, q, o.after, answers[i + 1..], subs[i + 1..]);
    AppendAssoc(acc, o.actions, rest.actions);
  }

  /** An answer types into the 'Other' field at most once. */
  lemma AnswerTypesOnce(page: Page, open: bool, q: Option<Elem>, grid: bool, st: Ready, answers: seq<string>)
    ensures TypeCount(AnswerOutcome(page, open, q, grid, st, answers).actions) <= 1
  {
    if |answers| > 0 {
      match Start(page, open, q, grid, st)
      case None =>
      case Some(s) =>
        var otherLive := s.other.Some? && IsValid(open, page.stale, [s.other.value]);
        AnswerRunTypesOnce(answers, OptionTests(grid, s.options, answers), s.elements, page, s.other, otherLive, false);
    }
  }

  /**
   * A grid answer types into 'Other' fields at most once per sub-question,
   * and falsy answers leave everything as it was.
   */
  lemma {:induction false} GridRunTypes(page: Page, open: bool, q: Option<Elem>, st: Ready,
                                        answers: seq<Arg>, subs: seq<string>)
    requires |answers| == |subs|
    ensures TypeCount(GridRun(page, open, q, st, answers, subs).actions) <= |answers|
    ensures (forall i :: 0 <= i < |answers| ==> !ArgTruthy(answers[i])) ==>
              GridRun(page, open, q, st, answers, subs) == Outcome(Done(True), [], st)
    decreases |answers|
  {
    if |answers| > 0 {
      var o := AnswerOutcome(page, open, q, true, st, FormatAll(Parts(answers[0]), subs[0]));
      AnswerTypesOnce(page, open, q, true, st, FormatAll(Parts(answers[0]), subs[0]));
      GridRunTypes(page, open, q, o.after, answers[1..], subs[1..]);
      var rest := GridRun(page, open, q, o.after, answers[1..], subs[1..]);
      TypeCountAppend(o.actions, rest.actions);
      if forall i :: 0 <= i < |answers| ==> !ArgTruthy(answers[i]) {
        assert !ArgTruthy(answers[0]);
        assert forall i :: 0 <= i < |answers[1..]| ==> !ArgTruthy(answers[1..][i]);
        assert o == Outcome(Done(True), [], st);
        assert o.actions + rest.actions == rest.actions;
      }
    }
  }

  class CheckboxQuestion {
    const opt: BaseOptionQuestion
    /** The answer toggles (`_ANSWER_ELEMENTS`); empty when unset. */
    var elements: seq<Elem>

    constructor(element: Option<Elem>, browser: B.Browser, page: Page, grid: bool, otherLabel: string)
      ensures fresh(opt) && fresh(opt.base)
      ensures opt.grid == grid && opt.otherLabel == otherLabel && opt.options.None? && opt.otherElement.None?
      ensures opt.base.element == element && opt.base.browser == browser && opt.base.page == page
      ensures opt.base.header.None? && opt.base.description.None? && opt.base.required.None?
      ensures opt.base.trace == [] && elements == []
    {
      var base := new BaseQuestion(element, browser, page);
      opt := new BaseOptionQuestion(base, grid, otherLabel);
      elements := [];
    }

    /** The cached answer state. */
    function State(): Ready
      reads this, opt
    {
      Ready(opt.options, elements, opt.otherElement)
    }

    /**
     * `get_info`: the metadata, then the checkbox scrape (continuing from
     * the 'Other' field already known). The options are stored with a call
     * that `_set_options` accepts (see the finding on the keyword).
     */
    method GetInfo() returns (r: bool)
      modifies this, opt, opt.base
      ensures opt.base.element == old(opt.base.element) && opt.base.trace == old(opt.base.trace)
      ensures r <==> opt.base.element.Some? && opt.base.Live([opt.base.element.value])
      ensures r ==> opt.base.HasInfoOf(opt.base.element.value)
      ensures !r ==> opt.base.header == old(opt.base.header) && opt.base.description == old(opt.base.description)
                     && opt.base.required == old(opt.base.required) && State() == old(State())
      ensures r ==> var s := CheckboxScrape(opt.base.page, opt.base.element.value, opt.grid, old(opt.otherElement));
                    State() == Ready(Stored(old(opt.options), s.options), s.elements, s.other)
    {
      var ok := opt.base.GetInfo();
      if !ok {
        return false;
      }
      var page := opt.base.page;
      var q := opt.base.element.value;
      var toggles := page.checkboxes(q, opt.grid);
      ghost var other0 := opt.otherElement;
      var optionElements: seq<Elem> := [];
      var opts: seq<string> := [];
      var i := 0;
      while i < |toggles|
        modifies opt
        invariant 0 <= i <= |toggles|
        invariant opt.options == old(opt.options)
        invariant Scrape(opts, optionElements, opt.otherElement)
                  == ScrapeOf(toggles[..i], page.aria, page.answerValue, OtherAria, other0, page.otherField(q))
      {
        var e := toggles[i];
        var option := page.aria(e);
        assert toggles[..i + 1][..i] == toggles[..i];
        if option in opts {
          // A duplicate label is allowed but not appended.
        } else if option == "" {
          // A blank label is allowed but not appended.
        } else if option == OtherAria && page.answerValue(e) == OtherMarker {
          if opt.otherElement.None? {
            optionElements := optionElements + [e];
            opt.otherElement := Some(page.otherField(q));
          }
        } else {
          opts := opts + [option];
          optionElements := optionElements + [e];
        }
        i := i + 1;
      }
      assert toggles[..|toggles|] == toggles;
      opt.SetOptions(opts, None);
      if |opts| > 0 {
        assert opt.options.value == opts;
      }
      elements := optionElements;
      return true;
    }

    /** `answer`: refresh if the cached toggles are unset or stale, then the answer loop. */
    method Answer(answers: seq<string>) returns (r: Reply)
      modifies this, opt, opt.base
      ensures opt.base.element == old(opt.base.element)
      ensures var o := AnswerOutcome(opt.base.page, opt.base.browser.open, opt.base.element, opt.grid,
                                     old(State()), answers);
              r == o.reply && opt.base.trace == old(opt.base.trace) + o.actions && State() == o.after
    {
      ghost var st := State();
      if |answers| == 0 {
        return Done(True);
      }
      if !(|elements| > 0 && opt.base.Live(elements)) {
        opt.otherElement := None;
        var ok := GetInfo();
        if !ok {
          return Done(False);
        }
      }
      var otherLive := opt.otherElement.Some? && opt.base.Live([opt.otherElement.value]);
      r := AnswerCached(answers, otherLive);
    }

    /** The answer loop over the cached state, once it has passed the freshness check. */
    method AnswerCached(answers: seq<string>, otherLive: bool) returns (r: Reply)
      requires |answers| > 0
      modifies opt, opt.base
      ensures opt.base.element == old(opt.base.element) && opt.otherElement == old(opt.otherElement)
      ensures opt.options == AfterView(opt.grid, old(opt.options))
      ensures var run := AnswerRun(answers, OptionTests(opt.grid, old(opt.options), answers), elements,
                                   opt.base.page, opt.otherElement, otherLive, false);
              r == run.reply && opt.base.trace == old(opt.base.trace) + run.actions
    {
      ghost var tests := OptionTests(opt.grid, opt.options, answers);
      ghost var trace0 := opt.base.trace;
      ghost var run0 := AnswerRun(answers, tests, elements, opt.base.page, opt.otherElement, otherLive, false);
      ghost var acc: seq<Action> := [];
      var foundOther := false;
      var i := 0;
      while i < |answers|
        invariant 0 <= i <= |answers|
        invariant opt.base.element == old(opt.base.element) && opt.otherElement == old(opt.otherElement)
        invariant TurnState(answers, i, old(opt.options), tests, otherLive, foundOther, trace0, acc, run0)
      {
        var step;
        step, acc := AnswerTurn(answers, i, old(opt.options), tests, otherLive, foundOther, trace0, acc, run0);
        if step.Stop? {
          return step.reply;
        }
        foundOther := step.found;
        i := i + 1;
      }
      return Done(True);
    }

    /**
     * The state of the answer loop before turn `i`: the stored options as
     * the getters left them, the actions so far, and the run still to come.
     */
    ghost predicate TurnState(answers: seq<string>, i: nat, opts0: Option<seq<string>>, tests: seq<Option<bool>>,
                              otherLive: bool, found: bool, trace0: seq<Action>, acc: seq<Action>, run0: Run)
      reads this, opt, opt.base
    {
      i <= |answers| && tests == OptionTests(opt.grid, opts0, answers)
      && opt.options == (if i == 0 then opts0 else AfterView(opt.grid, opts0))
      && opt.base.trace == trace0 + acc
      && run0 == Then(acc, AnswerRun(answers[i..], tests[i..], elements, opt.base.page, opt.otherElement,
                                     otherLive, found))
    }

    /** Turn `i` of the answer loop: it keeps the loop's state, or ends the run. */
    method AnswerTurn(answers: seq<string>, i: nat, ghost opts0: Option<seq<string>>, ghost tests: seq<Option<bool>>,
                      otherLive: bool, foundOther: bool, ghost trace0: seq<Action>, ghost acc: seq<Action>,
                      ghost run0: Run)
      returns (step: Step, ghost acc': seq<Action>)
      requires i < |answers| && TurnState(answers, i, opts0, tests, otherLive, foundOther, trace0, acc, run0)
      modifies opt, opt.base
      ensures opt.base.element == old(opt.base.element) && opt.otherElement == old(opt.otherElement)
      ensures opt.options == AfterView(opt.grid, opts0)
      ensures step.Stop? ==> opt.base.trace == trace0 + acc && run0 == Run(step.reply, acc)
      ensures step.Go? ==> TurnState(answers, i + 1, opts0, tests, otherLive, step.found, trace0, acc', run0)
    {
      OptionTestsAt(opt.grid, opts0, answers, i);
      OptionTestAfterView(opt.grid, opts0, answers[i]);
      AfterViewTwice(opt.grid, opts0);
      AnswerRunAt(answers, tests, i, elements, opt.base.page, opt.otherElement, otherLive, foundOther, acc);
      step := AnswerOne(answers[i], otherLive, foundOther);
      acc' := acc;
      if step.Go? {
        AppendAssoc(trace0, acc, step.actions);
        acc' := acc + step.actions;
      } else {
        assert opt.base.trace == trace0 + acc + [];
      }
    }

    /** One turn of the answer loop over the cached state. */
    method AnswerOne(a: string, otherLive: bool, foundOther: bool) returns (step: Step)
      modifies opt, opt.base
      ensures opt.base.element == old(opt.base.element) && opt.otherElement == old(opt.otherElement)
      ensures opt.options == AfterView(opt.grid, old(opt.options))
      ensures step == AnswerStep(a, OptionTest(opt.grid, old(opt.options), a), elements, opt.base.page,
                                 opt.otherElement, otherLive, foundOther)
      ensures opt.base.trace == old(opt.base.trace) + if step.Go? then step.actions else []
    {
      var page := opt.base.page;
      var isOption := opt.IsOption(a);
      if isOption.None? {
        return Stop(Crash);
      } else if isOption.value {
        var e := FirstWhere(elements, page.aria, a);
        if e.None? {
          return Stop(Crash);
        }
        opt.base.trace := opt.base.trace + [Click(e.value)];
        return Go([Click(e.value)], foundOther);
      } else if !opt.HasOtherOption() {
        return Stop(Done(False));
      } else if foundOther {
        // A second 'Other' answer is only warned about.
        assert opt.base.trace == opt.base.trace + [];
        return Go([], true);
      } else if !otherLive {
        return Stop(Done(Nothing));
      }
      var t := FirstWhere(elements, page.answerValue, OtherMarker);
      if t.None? {
        return Stop(Crash);
      }
      var field := opt.otherElement.value;
      step := Go([Click(t.value), Click(field), Type(field, a)], true);
      opt.base.trace := opt.base.trace + step.actions;
    }

    /** `_format_and_answer`: every answer labelled with the sub-question, then `answer`. */
    method FormatAndAnswer(sub: string, parts: seq<string>) returns (r: Reply)
      modifies this, opt, opt.base
      ensures opt.base.element == old(opt.base.element)
      ensures var o := AnswerOutcome(opt.base.page, opt.base.browser.open, opt.base.element, opt.grid,
                                     old(State()), FormatAll(parts, sub));
              r == o.reply && opt.base.trace == old(opt.base.trace) + o.actions && State() == o.after
    {
      if |parts| == 0 {
        return Done(True);
      }
      r := Answer(FormatAll(parts, sub));
    }

    /**
     * The grid `answer`: one answer per sub-question, in order; falsy
     * answers are skipped and the first reply that is not `True` is
     * returned. `Crash` is the `TypeError` of `len` on unset sub-questions.
     */
    method GridAnswer(answers: seq<Arg>) returns (r: Reply)
      requires opt.grid
      modifies this, opt, opt.base
      ensures opt.base.element == old(opt.base.element)
      ensures var subs := OptionsView(true, old(opt.options), true);
              var st := Ready(AfterView(true, old(opt.options)), old(elements), old(opt.otherElement));
              if subs.None? then r == Crash && opt.base.trace == old(opt.base.trace) && State() == st
              else if |answers| != |subs.value| then
                r == Done(Nothing) && opt.base.trace == old(opt.base.trace) && State() == st
              else
                var o := GridRun(opt.base.page, opt.base.browser.open, opt.base.element, st, answers, subs.value);
                r == o.reply && opt.base.trace == old(opt.base.trace) + o.actions && State() == o.after
    {
      var subs := opt.GetSubQuestions();
      if subs.None? {
        return Crash;
      }
      if |answers| != |subs.value| {
        return Done(Nothing);
      }
      ghost var open := opt.base.browser.open;
      ghost var trace0 := opt.base.trace;
      ghost var cur := State();
      ghost var all := GridRun(opt.base.page, open, opt.base.element, cur, answers, subs.value);
      ghost var acc: seq<Action> := [];
      var i := 0;
      while i < |answers|
        invariant 0 <= i <= |answers|
        invariant opt.base.element == old(opt.base.element)
        invariant GridState(answers, subs.value, i, open, trace0, acc, cur, all)
      {
        r, acc, cur := GridTurn(answers, subs.value, i, open, trace0, acc, cur, all);
        if r != Done(True) {
          return r;
        }
        i := i + 1;
      }
      assert acc + [] == acc;
      return Done(True);
    }

    /**
     * The state of the grid answer before sub-question `i`: the actions so
     * far, the cached state `cur`, and the outcome still to come.
     */
    ghost predicate GridState(answers: seq<Arg>, subs: seq<string>, i: nat, open: bool, trace0: seq<Action>,
                              acc: seq<Action>, cur: Ready, all: Outcome)
      reads this, opt, opt.base, opt.base.browser
    {
      i <= |answers| == |subs| && opt.grid && opt.base.browser.open == open && State() == cur
      && opt.base.trace == trace0 + acc
      && all == Join(acc, GridRun(opt.base.page, open, opt.base.element, cur, answers[i..], subs[i..]))
    }

    /** Sub-question `i` of the grid answer: it keeps the loop's state, or ends the outcome. */
    method GridTurn(answers: seq<Arg>, subs: seq<string>, i: nat, ghost open: bool, ghost trace0: seq<Action>,
                    ghost acc: seq<Action>, ghost cur: Ready, ghost all: Outcome)
      returns (r: Reply, ghost acc': seq<Action>, ghost cur': Ready)
      requires i < |answers| && GridState(answers, subs, i, open, trace0, acc, cur, all)
      modifies this, opt, opt.base
      ensures opt.base.element == old(opt.base.element)
      ensures r != Done(True) ==> r == all.reply && opt.base.trace == trace0 + all.actions && State() == all.after
      ensures r == Done(True) ==> GridState(answers, subs, i + 1, open, trace0, acc', cur', all)
    {
      ghost var o := AnswerOutcome(opt.base.page, open, opt.base.element, true, cur, FormatAll(Parts(answers[i]), subs[i]));
      GridRunAt(opt.base.page, open, opt.base.element, cur, answers, subs, i, acc);
      r := SubAnswer(subs[i], answers[i], open, cur);
      AppendAssoc(trace0, acc, o.actions);
      acc' := acc + o.actions;
      cur' := o.after;
    }

    /** One sub-question of the grid `answer`: skipped when its answer is falsy. */
    method SubAnswer(sub: string, a: Arg, ghost open: bool, ghost st: Ready) returns (r: Reply)
      requires open == opt.base.browser.open && st == State()
      modifies this, opt, opt.base
      ensures opt.base.element == old(opt.base.element) && opt.base.browser.open == open
      ensures var o := AnswerOutcome(opt.base.page, open, opt.base.element, opt.grid, st, FormatAll(Parts(a), sub));
              r == o.reply && opt.base.trace == old(opt.base.trace) + o.actions && State() == o.after
    {
      if !ArgTruthy(a) {
        assert opt.base.trace == opt.base.trace + [];
        return Done(True);
      }
      r := FormatAndAnswer(sub, Parts(a));
    }
  }
}

=== FILE: common.dfy ===
/**
 * Shared vocabulary of the form-filling model.
 *
 * Web elements are opaque handles: everything the program learns about
 * them comes from oracles handed to the model. Every click, keystroke or
 * pause the program performs is recorded as an `Action` appended to a
 * trace, so that "what was typed where, in which order" can be stated.
 */
module Common {

  datatype Option<T> = None | Some(value: T)

  /** Python's three-valued results: `True`, `False` or `None`. */
  datatype Tri = True | False | Nothing

  /** Python truthiness of a tri-state result. */
  predicate Truthy(t: Tri) { t.True? }

  /** How a call ends: with a result, or with an exception nothing catches. */
  datatype Reply = Done(result: Tri) | Crash

  /** An answer argument: a string, or a tuple of strings (checkbox grids only). */
  datatype Arg = Text(text: string) | Tuple(parts: seq<string>)

  /** Python truthiness of an answer argument: a non-empty string or a non-empty tuple. */
  predicate ArgTruthy(a: Arg)
  {
    match a
    case Text(t) => |t| > 0
    case Tuple(ps) => |ps| > 0
  }

  /** An opaque handle on a web element. */
  type Elem = nat

  /** A side effect on the browser, in the order it happens. */
  datatype Action =
    | Click(target: Elem)
    | Type(target: Elem, text: string)
    | Sleep(seconds: real)
}

=== FILE: date_markup.dfy ===
/**
 * The date picker of the current program: a month calendar whose day
 * buttons carry "%Y-%m-%d" dates, arrows that move one month back or
 * forward (held at Jan 0001 and Dec 9999), and an optional earliest date
 * before which no day is offered. The current time is a parameter.
 */
module DateMarkups {
  import opened Common
  import opened Text
  import opened Dates
  import opened Markups

  const PrevData: string := "PREV_MONTH"
  const NextData: string := "NEXT_MONTH"
  /** The date alternative of the pattern: the "%Y-%m-%d" format with its fields as digit classes. */
  const DateRegex: string := "\\d{4}-\\d{1,2}-\\d{1,2}"

  /** `calendar.month_name`: index 0 is the empty name. */
  const MonthNames: seq<string> := ["", "January", "February", "March", "April", "May", "June", "July",
                                    "August", "September", "October", "November", "December"]

  /** The weekday header, Sunday first. */
  const DayNames: seq<string> := ["Sun", "Mon", "Tue", "Wed", "Thu", "Fri", "Sat"]

  // ---------------------------------------------------------------------
  // Months

  /** Months counted from January of year 0: a (month, year) pair as one number. */
  function MonthIndex(month: int, year: int): int
  {
    year * 12 + month - 1
  }

  predicate ValidMonth(month: int, year: int)
  {
    1 <= month <= 12 && 1 <= year <= 9999
  }

  /** `_get_next_month(month, year)`. */
  function NextMonth(month: int, year: int): (r: (int, int))
    ensures !ValidMonth(month, year) ==> r == (month, year)
    ensures ValidMonth(month, year) ==> ValidMonth(r.0, r.1)
    ensures ValidMonth(month, year) && (month, year) != (12, 9999) ==>
              MonthIndex(r.0, r.1) == MonthIndex(month, year) + 1
    ensures (month, year) == (12, 9999) ==> r == (month, year)
  {
    if !(1 <= month <= 12) then (month, year)
    else if !(1 <= year <= 9999) then (month, year)
    else if month + 1 == 13 then
      (if year == 9999 then (12, year) else (1, year + 1))
    else (month + 1, year)
  }

  /** `_get_prev_month(month, year)`. */
  function PrevMonth(month: int, year: int): (r: (int, int))
    ensures !ValidMonth(month, year) ==> r == (month, year)
    ensures ValidMonth(month, year) ==> ValidMonth(r.0, r.1)
    ensures ValidMonth(month, year) && (month, year) != (1, 1) ==>
              MonthIndex(r.0, r.1) == MonthIndex(month, year) - 1
    ensures (month, year) == (1, 1) ==> r == (month, year)
  {
    if !(1 <= month <= 12) then (month, year)
    else if !(1 <= year <= 9999) then (month, year)
    else if month - 1 == 0 then
      (if year == 1 then (1, year) else (12, year - 1))
    else (month - 1, year)
  }

  /** A month is determined by its index. */
  lemma MonthIndexInjective(m1: int, y1: int, m2: int, y2: int)
    requires 1 <= m1 <= 12 && 1 <= m2 <= 12
    requires MonthIndex(m1, y1) == MonthIndex(m2, y2)
    ensures m1 == m2 && y1 == y2
  {
  }

  /** Away from the two ends, going forward and back, or back and forward, returns to the month. */
  lemma PrevNextInverse(month: int, year: int)
    requires ValidMonth(month, year)
    ensures (month, year) != (12, 9999) ==> PrevMonth(NextMonth(month, year).0, NextMonth(month, year).1) == (month, year)
    ensures (month, year) != (1, 1) ==> NextMonth(PrevMonth(month, year).0, PrevMonth(month, year).1) == (month, year)
  {
    var (nm, ny) := NextMonth(month, year);
    var (pm, py) := PrevMonth(month, year);
    if (month, year) != (12, 9999) {
      var (a, b) := PrevMonth(nm, ny);
      MonthIndexInjective(a, b, month, year);
    }
    if (month, year) != (1, 1) {
      var (a, b) := NextMonth(pm, py);
      MonthIndexInjective(a, b, month, year);
    }
  }

  // ---------------------------------------------------------------------
  // Days

  /**
   * `_display(year, month, day)`: the date exists, and is not before the
   * earliest date when there is one.
   */
  function Display(from: Option<Date>, year: int, month: int, day: int): (r: bool)
    ensures r <==> ValidDate(Date(year, month, day)) && (from.None? || NotAfter(from.value, Date(year, month, day)))
  {
    if !(1 <= year <= 9999) then false
    else if !(1 <= month <= 12) then false
    else if !(1 <= day <= DaysInMonth(year, month)) then false
    else from.None? || NotAfter(from.value, Date(year, month, day))
  }

  /** A date later than a shown one is shown too. */
  lemma DisplayMonotone(from: Option<Date>, a: Date, b: Date)
    requires Display(from, a.year, a.month, a.day) && ValidDate(b) && NotAfter(a, b)
    ensures Display(from, b.year, b.month, b.day)
  {
    if from.Some? {
      NotAfterTransitive(from.value, a, b);
    }
  }

  /** The earliest date itself, and with no earliest date every existing date, is shown. */
  lemma DisplayFrom(from: Option<Date>, d: Date)
    requires ValidDate(d)
    ensures from == Some(d) ==> Display(from, d.year, d.month, d.day)
    ensures from.None? ==> Display(from, d.year, d.month, d.day)
  {
  }

  /** The last day of a month. */
  function LastDay(month: int, year: int): Date
    requires 1 <= month <= 12
  {
    Date(year, month, DaysInMonth(year, month))
  }

  // ---------------------------------------------------------------------
  // Weekdays

  /** The number of blank cells before the first day in a Sunday-first week. */
  function Offset(month: int, year: int): (r: nat)
    requires ValidMonth(month, year)
    ensures r < 7
  {
    Ordinal(Date(year, month, 1)) % 7
  }

  /** The number of week rows of `calendar.monthcalendar`. */
  function WeekCount(month: int, year: int): nat
    requires ValidMonth(month, year)
  {
    (Offset(month, year) + DaysInMonth(year, month) + 6) / 7
  }

  // ---------------------------------------------------------------------
  // The calendar keyboard

  /** The cell for `day` (which may fall outside the month): the day with its date, or a blank. */
  function DayCell(from: Option<Date>, month: int, year: int, day: int): Button
    requires ValidMonth(month, year)
  {
    if Display(from, year, month, day) then Button(NatToString(day), FormatYmd(Date(year, month, day), '-'))
    else Blank
  }

  /** The week rows, Sunday first. */
  function Weeks(from: Option<Date>, month: int, year: int): (r: Keyboard)
    requires ValidMonth(month, year)
    ensures |r| == WeekCount(month, year)
    ensures forall w :: 0 <= w < |r| ==> |r[w]| == 7
  {
    var o := Offset(month, year);
    seq(WeekCount(month, year), w => seq(7, c => DayCell(from, month, year, 7 * w + c - o + 1)))
  }

  /** The arrows and the skip button of the last row. */
  function NavRow(required: bool, from: Option<Date>, month: int, year: int): seq<Button>
    requires ValidMonth(month, year)
  {
    var (pm, py) := PrevMonth(month, year);
    var (nm, ny) := NextMonth(month, year);
    [if Display(from, py, pm, DaysInMonth(py, pm)) then Button("<", PrevData) else Blank,
     if required then Blank else Button("Skip", Skip),
     if Display(from, ny, nm, DaysInMonth(ny, nm)) then Button(">", NextData) else Blank]
  }

  /** `get_markup`: the title, the weekday names, the weeks, then the arrows and skip. */
  function Calendar(required: bool, from: Option<Date>, month: int, year: int): Keyboard
    requires ValidMonth(month, year)
  {
    Heading(month, year) + Weeks(from, month, year) + [NavRow(required, from, month, year)]
  }

  /** The title row and the weekday names. */
  function Heading(month: int, year: int): Keyboard
    requires ValidMonth(month, year)
  {
    [[Button(MonthNames[month] + " " + NatToString(year), Ignore)],
     seq(7, c requires 0 <= c < 7 => Button(DayNames[c], Ignore))]
  }

  /** `get_markup` on a month that may not exist: `calendar.monthrange` raises for one. */
  function Render(required: bool, from: Option<Date>, month: int, year: int): (r: Response)
    requires 1 <= year <= 9999
    ensures r.Raised? <==> !(1 <= month <= 12)
    ensures !r.Raised? ==> r == Keys(Calendar(required, from, month, year))
  {
    if !(1 <= month <= 12) then Raised else Keys(Calendar(required, from, month, year))
  }

  /** The calendar's rows: the title, the weekday names, the weeks in order, and the arrows last. */
  lemma CalendarParts(required: bool, from: Option<Date>, month: int, year: int)
    requires ValidMonth(month, year)
    ensures var k := Calendar(required, from, month, year);
            var w: Keyboard := Weeks(from, month, year);
            |k| == |w| + 3 && k[0] == [Button(MonthNames[month] + " " + NatToString(year), Ignore)]
            && |k[1]| == 7 && (forall c :: 0 <= c < 7 ==> k[1][c] == Button(DayNames[c], Ignore))
            && (forall i :: 0 <= i < |w| ==> k[i + 2] == w[i])
            && k[|k| - 1] == NavRow(required, from, month, year)
  {
  }

  /** Row `w + 2` of the calendar is week `w`. */
  lemma CalendarWeek(required: bool, from: Option<Date>, month: int, year: int, w: int)
    requires ValidMonth(month, year) && 0 <= w < WeekCount(month, year)
    ensures |Calendar(required, from, month, year)| == WeekCount(month, year) + 3
    ensures Calendar(required, from, month, year)[w + 2] == Weeks(from, month, year)[w]
  {
    CalendarParts(required, from, month, year);
  }

  /** The cell of week `w`, column `c`. */
  lemma WeekCell(from: Option<Date>, month: int, year: int, w: int, c: int)
    requires ValidMonth(month, year) && 0 <= w < WeekCount(month, year) && 0 <= c < 7
    ensures Weeks(from, month, year)[w][c] == DayCell(from, month, year, 7 * w + c - Offset(month, year) + 1)
  {
  }

  /** Cell `cell` of a grid of `total` cells lies in one of its `(total + 6) / 7` rows of seven. */
  lemma RowOfCell(cell: int, total: int)
    requires 0 <= cell < total
    ensures 0 <= cell / 7 < (total + 6) / 7 && 7 * (cell / 7) + cell % 7 == cell && 0 <= cell % 7 < 7
  {
  }

  /** The week row and the column of `day`: counted from the first cell of the first week, Sunday first. */
  function DayPosition(month: int, year: int, day: int): (p: (nat, nat))
    requires ValidMonth(month, year) && 1 <= day <= DaysInMonth(year, month)
    ensures p.0 < WeekCount(month, year) && p.1 < 7 && 7 * p.0 + p.1 == Offset(month, year) + day - 1
  {
    var cell := Offset(month, year) + day - 1;
    RowOfCell(cell, Offset(month, year) + DaysInMonth(year, month));
    (cell / 7, cell % 7)
  }

  /**
   * Each day of the month sits in its weekday's column of the week row it
   * falls in, showing its number and carrying its date exactly when it is
   * shown, and is blank otherwise.
   */
  lemma CalendarDay(required: bool, from: Option<Date>, month: int, year: int, day: int)
    requires ValidMonth(month, year) && 1 <= day <= DaysInMonth(year, month)
    ensures var k := Calendar(required, from, month, year);
            var (r, c) := DayPosition(month, year, day);
            |k| == WeekCount(month, year) + 3 && 2 + r < |k| - 1 && |k[2 + r]| == 7
            && k[2 + r][c] ==
                 if Display(from, year, month, day) then Button(NatToString(day), FormatYmd(Date(year, month, day), '-'))
                 else Blank
  {
    var (r, c) := DayPosition(month, year, day);
    CalendarCell(required, from, month, year, r, c);
  }

  /** Row `r + 2`, column `c` of the calendar is the cell of week `r`, column `c`. */
  lemma CalendarCell(required: bool, from: Option<Date>, month: int, year: int, r: int, c: int)
    requires ValidMonth(month, year) && 0 <= r < WeekCount(month, year) && 0 <= c < 7
    ensures var k := Calendar(required, from, month, year);
            |k| == WeekCount(month, year) + 3 && |k[2 + r]| == 7
            && k[2 + r][c] == DayCell(from, month, year, 7 * r + c - Offset(month, year) + 1)
  {
    WeekCell(from, month, year, r, c);
    CalendarWeek(required, from, month, year, r);
  }

  /**
   * The arrows: "<" exactly when the last day of the month before is shown,
   * ">" exactly when the last day of the month after is; "Skip" exactly
   * when no answer is required. A month that shows a day always offers ">".
   */
  lemma NavArrows(required: bool, from: Option<Date>, month: int, year: int)
    requires ValidMonth(month, year)
    ensures var nav := NavRow(required, from, month, year);
            var (pm, py) := PrevMonth(month, year);
            var (nm, ny) := NextMonth(month, year);
            |nav| == 3
            && (nav[0] == Button("<", PrevData) <==> Display(from, py, pm, DaysInMonth(py, pm)))
            && (nav[1] == Button("Skip", Skip) <==> !required)
            && (nav[2] == Button(">", NextData) <==> Display(from, ny, nm, DaysInMonth(ny, nm)))
            && (Display(from, year, month, DaysInMonth(year, month)) ==> nav[2] == Button(">", NextData))
  {
    var (nm, ny) := NextMonth(month, year);
    if Display(from, year, month, DaysInMonth(year, month)) {
      DisplayMonotone(from, LastDay(month, year), LastDay(nm, ny));
    }
  }

  // ---------------------------------------------------------------------
  // Options

  /** `_is_option`: a control, or any text `strptime` reads as "%Y-%m-%d". */
  predicate IsDateOption(option: string)
  {
    option in [Skip, Ignore, PrevData, NextData] || ParseYmd(option, '-').Some?
  }

  /** `get_pattern`: the four controls and the date format as alternatives. */
  function DatePattern(): string
  {
    Pattern([Skip, Ignore, PrevData, NextData, DateRegex])
  }

  /** The pattern's alternatives are the four controls and then the date. */
  lemma DatePatternAlternatives()
    ensures Split(Inner(DatePattern()), '|') == [Skip, Ignore, PrevData, NextData, DateRegex]
  {
    PatternAlternatives([Skip, Ignore, PrevData, NextData, DateRegex]);
  }

  /**
   * For a year written with four digits, every callback the calendar emits
   * is an option `perform_action` accepts.
   */
  lemma CalendarCallbacks(required: bool, from: Option<Date>, month: int, year: int)
    requires ValidMonth(month, year) && 1000 <= year
    ensures AllData(Calendar(required, from, month, year), IsDateOption)
  {
    HeadingCallbacks(month, year);
    WeeksCallbacks(from, month, year);
    NavCallbacks(required, from, month, year);
    AllDataConcat(Heading(month, year), Weeks(from, month, year), IsDateOption);
    AllDataConcat(Heading(month, year) + Weeks(from, month, year), [NavRow(required, from, month, year)], IsDateOption);
  }

  /** The heading only carries IGNORE. */
  lemma HeadingCallbacks(month: int, year: int)
    requires ValidMonth(month, year)
    ensures AllData(Heading(month, year), IsDateOption)
  {
    var head: Keyboard := Heading(month, year);
    forall i, j | 0 <= i < |head| && 0 <= j < |head[i]| ensures IsDateOption(head[i][j].data) {
      assert head[i][j].data == Ignore;
    }
  }

  /** For a year written with four digits, every day cell carries an option. */
  lemma WeeksCallbacks(from: Option<Date>, month: int, year: int)
    requires ValidMonth(month, year) && 1000 <= year
    ensures AllData(Weeks(from, month, year), IsDateOption)
  {
    var w: Keyboard := Weeks(from, month, year);
    forall i, j | 0 <= i < |w| && 0 <= j < |w[i]| ensures IsDateOption(w[i][j].data) {
      WeekCell(from, month, year, i, j);
      DayCellOption(from, month, year, 7 * i + j - Offset(month, year) + 1);
    }
  }

  /** The arrows and the skip button carry controls. */
  lemma NavCallbacks(required: bool, from: Option<Date>, month: int, year: int)
    requires ValidMonth(month, year)
    ensures AllData([NavRow(required, from, month, year)], IsDateOption)
  {
  }

  /** A day cell carries IGNORE or a date `strptime` reads back. */
  lemma DayCellOption(from: Option<Date>, month: int, year: int, day: int)
    requires ValidMonth(month, year) && 1000 <= year
    ensures IsDateOption(DayCell(from, month, year, day).data)
  {
    if Display(from, year, month, day) {
      ParseFormatYmd(Date(year, month, day), '-');
    }
  }

  // ---------------------------------------------------------------------
  // Construction and actions

  /** Python truthiness of an optional number: `None` and 0 are both falsy. */
  function OrNow(x: Option<int>, now: int): int
  {
    if x.None? || x.value == 0 then now else x.value
  }

  /**
   * The month `__init__` shows, as (year, month), or `None` where it
   * raises. A falsy year or month is the current one; a year outside
   * 1..9999 becomes the current year; a month outside 1..12 becomes the
   * current month, though as written only when the year was in range; and
   * when the shown month ends before the earliest date, the calendar jumps
   * to the earliest date's month.
   */
  function Init(year: Option<int>, month: Option<int>, from: Option<Date>, now: Date, asWritten: bool)
    : (r: Option<(int, int)>)
    requires ValidDate(now) && (from.Some? ==> ValidDate(from.value))
    ensures !asWritten ==> r.Some? && ValidMonth(r.value.1, r.value.0)
    ensures !asWritten && from.Some? ==> Display(from, r.value.0, r.value.1, DaysInMonth(r.value.0, r.value.1))
    ensures !asWritten && from.None? && year.Some? && month.Some? && ValidMonth(month.value, year.value) ==>
              r == Some((year.value, month.value))
  {
    var y := OrNow(year, now.year);
    var m := OrNow(month, now.month);
    var (y1, m1) := if !(1 <= y <= 9999) then (now.year, if asWritten || 1 <= m <= 12 then m else now.month)
                    else if !(1 <= m <= 12) then (y, now.month)
                    else (y, m);
    if from.None? then Some((y1, m1))
    else if !(1 <= m1 <= 12) then None
    else if !Display(from, y1, m1, DaysInMonth(y1, m1)) then
      DisplayFrom(from, from.value);
      DisplayMonotone(from, from.value, LastDay(from.value.month, from.value.year));
      Some((from.value.year, from.value.month))
    else Some((y1, m1))
  }

  /**
   * As written, a year out of range skips the month check: year 10000 with
   * month 13 keeps month 13, so the picker raises when it is drawn, or at
   * once when an earliest date is given. Checked as intended, the same
   * arguments give the current month.
   */
  lemma InitMonthUnchecked(now: Date, from: Date)
    requires ValidDate(now) && ValidDate(from)
    ensures Init(Some(10000), Some(13), None, now, true) == Some((now.year, 13))
    ensures Render(false, None, 13, now.year) == Raised
    ensures Init(Some(10000), Some(13), Some(from), now, true) == None
    ensures Init(Some(10000), Some(13), None, now, false) == Some((now.year, now.month))
  {
  }

  /**
   * `perform_action` on the month shown, as (reply, month, year) after it:
   * an option that is not accepted, and IGNORE, do nothing; SKIP answers
   * the warning or SKIP; the arrows move the month and redraw; a date is
   * the answer.
   */
  function Act(required: bool, from: Option<Date>, month: int, year: int, option: string)
    : (r: (Response, int, int))
    requires ValidMonth(month, year)
    ensures ValidMonth(r.1, r.2)
    ensures -1 <= MonthIndex(r.1, r.2) - MonthIndex(month, year) <= 1
    ensures r.0.Keys? <==> option == PrevData || option == NextData
    ensures r.0.Keys? ==> r.0.keyboard == Calendar(required, from, r.1, r.2)
    ensures !r.0.Keys? ==> (r.1, r.2) == (month, year)
    ensures r.0.Message? ==> (r.0.text == SkipReply(required) && option == Skip)
                             || (r.0.text == option && ParseYmd(option, '-').Some?)
    ensures r.0.Silent? <==> !IsDateOption(option) || option == Ignore
  {
    if !IsDateOption(option) then (Silent, month, year)
    else if option == Ignore then (Silent, month, year)
    else if option == Skip then (Message(SkipReply(required)), month, year)
    else if option == PrevData then
      var (m, y) := PrevMonth(month, year);
      (Keys(Calendar(required, from, m, y)), m, y)
    else if option == NextData then
      var (m, y) := NextMonth(month, year);
      (Keys(Calendar(required, from, m, y)), m, y)
    else (Message(option), month, year)
  }

  /** Every date button of the calendar, pressed, answers its own date and leaves the month as it is. */
  lemma PressDay(required: bool, from: Option<Date>, month: int, year: int, day: int)
    requires ValidMonth(month, year) && 1000 <= year && Display(from, year, month, day)
    ensures var data := FormatYmd(Date(year, month, day), '-');
            Act(required, from, month, year, data) == (Message(data), month, year)
  {
    var data := FormatYmd(Date(year, month, day), '-');
    ParseFormatYmd(Date(year, month, day), '-');
    assert data[4] == '-';
    assert Skip[4] != '-' && Ignore[4] != '-' && PrevData[4] != '-' && NextData[4] != '-';
  }

  /** `DateMarkup`: whether an answer is required, the earliest date, and the month shown. */
  class DateMarkup {
    const required: bool
    /** `_FROM`. */
    const from: Option<Date>
    /** `_YEAR` and `_MONTH`. */
    var year: int
    var month: int

    predicate Valid()
      reads this
    {
      ValidMonth(month, year) && (from.Some? ==> ValidDate(from.value))
    }

    /** `__init__`, with the month check made independent of the year check. */
    constructor(required: bool, year: Option<int>, month: Option<int>, from: Option<Date>, now: Date)
      requires ValidDate(now) && (from.Some? ==> ValidDate(from.value))
      ensures Valid() && this.required == required && this.from == from
      ensures Init(year, month, from, now, false) == Some((this.year, this.month))
    {
      var y := OrNow(year, now.year);
      var m := OrNow(month, now.month);
      if !(1 <= y <= 9999) {
        y := now.year;
      }
      if !(1 <= m <= 12) {
        m := now.month;
      }
      if from.Some? && !Display(from, y, m, DaysInMonth(y, m)) {
        y := from.value.year;
        m := from.value.month;
      }
      this.required := required;
      this.from := from;
      this.year := y;
      this.month := m;
    }

    /** `get_markup`. */
    function Markup(): Keyboard
      reads this
      requires Valid()
    {
      Calendar(required, from, month, year)
    }

    /** `perform_action`: the reply, and the month shown after it. */
    method PerformAction(option: string) returns (r: Response)
      requires Valid()
      modifies this
      ensures Valid()
      ensures (r, month, year) == Act(required, from, old(month), old(year), option)
    {
      r := Silent;
      if !IsDateOption(option) {
      } else if option == Ignore {
      } else if option == Skip {
        r := Message(SkipReply(required));
      } else if option == PrevData {
        month, year := PrevMonth(month, year).0, PrevMonth(month, year).1;
        r := Keys(Markup());
      } else if option == NextData {
        month, year := NextMonth(month, year).0, NextMonth(month, year).1;
        r := Keys(Markup());
      } else {
        r := Message(option);
      }
    }
  }
}

=== FILE: date_question.dfy ===
/**
 * Date questions of the current program: a date picker, or a month and a
 * day input. An answer is a "%Y-%m-%d" date no later than 2071-01-01; the
 * picker receives the day, month and year written without padding, the
 * split layout the month and then the day.
 */
module DateQuestions {
  import opened Common
  import opened Text
  import opened Dates
  import opened QuestionBase
  import B = Browser

  /** The answer inputs: a date picker, or month and day inputs. */
  datatype DateInputs = Picker(picker: Elem) | MonthDay(month: Elem, day: Elem)

  function InputElements(d: DateInputs): seq<Elem>
  {
    match d
    case Picker(p) => [p]
    case MonthDay(m, dd) => [m, dd]
  }

  /** The latest date an answer may give. */
  const Latest: Date := Date(2071, 1, 1)

  /** The date an answer names: "%Y-%m-%d", and not after 2071-01-01. */
  function AnswerDate(s: string): (r: Option<Date>)
    ensures r.Some? ==> ValidDate(r.value) && NotAfter(r.value, Latest) && ParseYmd(s, '-') == r
    ensures r.None? ==> ParseYmd(s, '-').None? || !NotAfter(ParseYmd(s, '-').value, Latest)
  {
    match ParseYmd(s, '-')
    case None => None
    case Some(d) => if NotAfter(d, Latest) then Some(d) else None
  }

  /** A formatted date with a four-digit year is an answer exactly when it is not after 2071-01-01. */
  lemma AnswerDateFormat(d: Date)
    requires ValidDate(d) && 1000 <= d.year
    ensures AnswerDate(FormatYmd(d, '-')) == if NotAfter(d, Latest) then Some(d) else None
  {
    ParseFormatYmd(d, '-');
  }

  /** The bound is inclusive: 2071-01-01 is an answer and 2071-01-02 is not. */
  lemma AnswerDateBound()
    ensures AnswerDate(FormatYmd(Latest, '-')) == Some(Latest)
    ensures AnswerDate(FormatYmd(Date(2071, 1, 2), '-')) == None
  {
    AnswerDateFormat(Latest);
    AnswerDateFormat(Date(2071, 1, 2));
  }

  /** What the picker receives: `str(day) + str(month) + str(year)`. */
  function PickerKeys(d: Date): string
    requires ValidDate(d)
  {
    NatToString(d.day) + NatToString(d.month) + NatToString(d.year)
  }

  /** Without padding, different dates can send the same keys: 1 November and 11 January 2020. */
  lemma PickerKeysAmbiguous()
    ensures PickerKeys(Date(2020, 11, 1)) == PickerKeys(Date(2020, 1, 11)) == "1112020"
  {
    assert NatToString(11) == "11" by { assert NatToString(11) == NatToString(1) + [DigitChar(1)]; }
    assert NatToString(2020) == "2020" by {
      assert NatToString(2020) == NatToString(202) + [DigitChar(0)];
      assert NatToString(202) == NatToString(20) + [DigitChar(2)];
      assert NatToString(20) == NatToString(2) + [DigitChar(0)];
    }
  }

  /** The fields an answer fills and what each receives: the picker, or the month then the day. */
  function DateFields(inputs: DateInputs, d: Date): seq<(Elem, string)>
    requires ValidDate(d)
  {
    match inputs
    case Picker(p) => [(p, PickerKeys(d))]
    case MonthDay(m, dd) => [(m, NatToString(d.month)), (dd, NatToString(d.day))]
  }

  /** The inputs `get_info` chooses: the first picker, else the first month and day inputs. */
  function Layout(page: Page, q: Elem): Option<DateInputs>
  {
    if |page.datePickers(q)| > 0 then Some(Picker(page.datePickers(q)[0]))
    else if |page.monthInputs(q)| > 0 && |page.dayInputs(q)| > 0 then
      Some(MonthDay(page.monthInputs(q)[0], page.dayInputs(q)[0]))
    else None
  }

  /**
   * `get_info` from the cached inputs: its result and the inputs it leaves.
   * It fails on an unset or stale question element, and finds nothing
   * (`None`) when the question shows neither layout.
   */
  function Info(page: Page, open: bool, q: Option<Elem>, inputs: Option<DateInputs>): (Tri, Option<DateInputs>)
  {
    if q.None? || !IsValid(open, page.stale, [q.value]) then (False, inputs)
    else match Layout(page, q.value)
      case None => (Nothing, inputs)
      case Some(l) => (True, Some(l))
  }

  /** `answer`: refresh unset or stale inputs, check the date, then fill the inputs. */
  function DateAnswer(page: Page, open: bool, q: Option<Elem>, inputs: Option<DateInputs>, date: string): Filled<DateInputs>
  {
    var (res, ins) := if inputs.Some? && IsValid(open, page.stale, InputElements(inputs.value)) then (True, inputs)
                      else Info(page, open, q, inputs);
    if res != True then Filled(res, [], ins)
    else match AnswerDate(date)
      case None => Filled(False, [], ins)
      case Some(d) => Filled(True, FillActions(DateFields(ins.value, d)), ins)
  }

  /**
   * An answer acts only when it succeeds, and then fills either the picker
   * with the unpadded keys or the month and then the day input.
   */
  lemma DateAnswerActions(page: Page, open: bool, q: Option<Elem>, inputs: Option<DateInputs>, date: string)
    ensures var a := DateAnswer(page, open, q, inputs, date);
            (a.result != True ==> a.actions == [])
            && (a.result == True ==>
                  AnswerDate(date).Some? && a.after.Some?
                  && match a.after.value
                     case Picker(p) => a.actions == [Click(p), Type(p, PickerKeys(AnswerDate(date).value))]
                     case MonthDay(m, dd) =>
                       a.actions == [Click(m), Type(m, NatToString(AnswerDate(date).value.month)),
                                     Click(dd), Type(dd, NatToString(AnswerDate(date).value.day))])
  {
    var a := DateAnswer(page, open, q, inputs, date);
    if a.result == True {
      var d := AnswerDate(date).value;
      var fields := DateFields(a.after.value, d);
      var none: seq<(Elem, string)> := [];
      match a.after.value
      case Picker(p) =>
        assert fields[..0] == none;
      case MonthDay(m, dd) =>
        assert fields[..1] == [(m, NatToString(d.month))] && fields[..1][..0] == none;
        assert FillActions(fields[..1]) == [Click(m), Type(m, NatToString(d.month))];
    }
  }

  /** A date that is not an answer fails without any action, whatever the inputs. */
  lemma BadDateNoActions(page: Page, open: bool, q: Option<Elem>, inputs: Option<DateInputs>, date: string)
    requires AnswerDate(date).None?
    ensures DateAnswer(page, open, q, inputs, date).result != True
    ensures DateAnswer(page, open, q, inputs, date).actions == []
  {
  }

  class DateQuestion {
    const base: BaseQuestion
    /** `_ANSWER_ELEMENTS`: the picker, or the month and day inputs. */
    var inputs: Option<DateInputs>

    constructor(element: Option<Elem>, browser: B.Browser, page: Page)
      ensures fresh(base) && base.element == element && base.browser == browser && base.page == page
      ensures base.Meta() == (None, None, None) && base.trace == [] && inputs.None?
    {
      base := new BaseQuestion(element, browser, page);
      inputs := None;
    }

    /**
     * `set_answer_elements`: nothing changes unless a picker, or both a
     * month and a day input, are given; a picker wins.
     */
    method SetAnswerElements(picker: Option<Elem>, month: Option<Elem>, day: Option<Elem>)
      modifies this
      ensures inputs == if picker.Some? then Some(Picker(picker.value))
                        else if month.Some? && day.Some? then Some(MonthDay(month.value, day.value))
                        else old(inputs)
    {
      if !(picker.Some? || (month.Some? && day.Some?)) {
        return;
      }
      if picker.Some? {
        inputs := Some(Picker(picker.value));
      } else {
        inputs := Some(MonthDay(month.value, day.value));
      }
    }

    /** `get_info`: the metadata, then the picker or else the month and day inputs. */
    method GetInfo() returns (r: Tri)
      modifies this, base
      ensures base.element == old(base.element) && base.trace == old(base.trace)
      ensures (r, inputs) == Info(base.page, base.browser.open, base.element, old(inputs))
      ensures r == False ==> base.Meta() == old(base.Meta())
      ensures r != False ==> base.HasInfoOf(base.element.value)
    {
      var ok := base.GetInfo();
      if !ok {
        return False;
      }
      var q := base.element.value;
      var pickers := base.page.datePickers(q);
      var months := base.page.monthInputs(q);
      var days := base.page.dayInputs(q);
      if |pickers| > 0 {
        SetAnswerElements(Some(pickers[0]), None, None);
        return True;
      } else if |months| > 0 && |days| > 0 {
        SetAnswerElements(None, Some(months[0]), Some(days[0]));
        return True;
      }
      return Nothing;
    }

    /** `answer`: refresh if needed, check the date, then fill the inputs. */
    method Answer(date: string) returns (r: Tri)
      modifies this, base
      ensures base.element == old(base.element)
      ensures var a := DateAnswer(base.page, base.browser.open, base.element, old(inputs), date);
              r == a.result && inputs == a.after && base.trace == old(base.trace) + a.actions
    {
      if !(inputs.Some? && base.Live(InputElements(inputs.value))) {
        var res := GetInfo();
        if res != True {
          return res;
        }
      }
      var d := AnswerDate(date);
      if d.None? {
        return False;
      }
      base.Fill(DateFields(inputs.value, d.value));
      return True;
    }
  }
}

=== FILE: dates.dfy ===
/**
 * Calendar dates: the Gregorian month lengths behind `calendar.monthrange`
 * and `datetime`, and the `strptime`/`strftime` formats the program uses
 * ("%Y-%m-%d", "%Y %m %d", "%m-%d" and "%d%m%Y").
 *
 * Parsing follows `strptime`: "%Y" is exactly four digits, "%m" and "%d"
 * one or two digits in range, the whole text must be consumed, and the
 * resulting date must exist (day within the month's length, year >= 1).
 */
module Dates {
  import opened Common
  import opened Text

  predicate IsLeap(y: int)
  {
    y % 4 == 0 && (y % 100 != 0 || y % 400 == 0)
  }

  /** The number of days of month `m` of year `y` (`calendar.monthrange(y, m)[1]`). */
  function DaysInMonth(y: int, m: int): nat
    requires 1 <= m <= 12
  {
    if m == 2 then (if IsLeap(y) then 29 else 28)
    else if m == 4 || m == 6 || m == 9 || m == 11 then 30
    else 31
  }

  /** Month lengths lie between 28 and 31, and only a leap February has 29 days. */
  lemma DaysInMonthBounds(y: int, m: int)
    requires 1 <= m <= 12
    ensures 28 <= DaysInMonth(y, m) <= 31
    ensures DaysInMonth(y, m) == 29 <==> m == 2 && IsLeap(y)
    ensures DaysInMonth(y, m) == 28 <==> m == 2 && !IsLeap(y)
  {
  }

  datatype Date = Date(year: int, month: int, day: int)

  /** A date `datetime.date` accepts. */
  predicate ValidDate(d: Date)
  {
    1 <= d.year <= 9999 && 1 <= d.month <= 12 && 1 <= d.day <= DaysInMonth(d.year, d.month)
  }

  /** Chronological order, `a <= b`. */
  predicate NotAfter(a: Date, b: Date)
  {
    a.year < b.year
    || (a.year == b.year && (a.month < b.month || (a.month == b.month && a.day <= b.day)))
  }

  /** `NotAfter` is a total order on dates. */
  lemma NotAfterTotal(a: Date, b: Date)
    ensures NotAfter(a, b) || NotAfter(b, a)
    ensures NotAfter(a, b) && NotAfter(b, a) ==> a == b
  {
  }

  lemma NotAfterTransitive(a: Date, b: Date, c: Date)
    requires NotAfter(a, b) && NotAfter(b, c)
    ensures NotAfter(a, c)
  {
  }

  /** A `strptime` field of `minLen` to `maxLen` digits whose value lies in `lo..hi`. */
  function ParseField(s: string, minLen: nat, maxLen: nat, lo: int, hi: int): (r: Option<int>)
    ensures r.Some? <==> minLen <= |s| <= maxLen && AllDigits(s) && lo <= DigitsValue(s) <= hi
    ensures r.Some? ==> r.value == DigitsValue(s)
  {
    if minLen <= |s| <= maxLen && AllDigits(s) && lo <= DigitsValue(s) <= hi then
      Some(DigitsValue(s))
    else None
  }

  /** The date of year `y`, month and day fields, if the date exists. */
  function MakeDate(y: int, month: Option<int>, day: Option<int>): (r: Option<Date>)
    ensures r.Some? ==> ValidDate(r.value)
  {
    if month.Some? && day.Some? && 1 <= y <= 9999 && 1 <= month.value <= 12
       && 1 <= day.value <= DaysInMonth(y, month.value)
    then Some(Date(y, month.value, day.value))
    else None
  }

  /** The date of a four-digit year field, a month field and a day field. */
  function YmdFields(year: string, month: string, day: string): (r: Option<Date>)
    ensures r.Some? ==> ValidDate(r.value)
    ensures r.Some? ==> |year| == 4 && AllDigits(year) && 0 < |month| <= 2 && AllDigits(month)
                        && 0 < |day| <= 2 && AllDigits(day)
  {
    match ParseField(year, 4, 4, 0, 9999)
    case None => None
    case Some(y) => MakeDate(y, ParseField(month, 1, 2, 1, 12), ParseField(day, 1, 2, 1, 31))
  }

  /** `datetime.strptime(s, "%Y<sep>%m<sep>%d")`. */
  function ParseYmd(s: string, sep: char): (r: Option<Date>)
    requires !IsDigit(sep)
    ensures r.Some? ==> ValidDate(r.value)
  {
    var parts := Split(s, sep);
    if |parts| != 3 then None
    else YmdFields(parts[0], parts[1], parts[2])
  }

  /** What follows a leading run of whitespace, or `None` when `s` does not start with one. */
  function AfterGap(s: string): (r: Option<string>)
    ensures r.Some? ==> |r.value| < |s| && r.value == s[|s| - |r.value|..]
  {
    var n := LeadingSpaces(s);
    if n == 0 then None else Some(s[n..])
  }

  /** A leading run of digits, then a run of whitespace: the run and what follows the whitespace. */
  function FieldThenGap(s: string): (r: Option<(string, string)>)
    ensures r.Some? ==> AllDigits(r.value.0) && r.value.0 <= s && |r.value.0| + |r.value.1| < |s|
                        && r.value.1 == s[|s| - |r.value.1|..]
  {
    var a := LeadingDigits(s);
    match AfterGap(s[a..])
    case None => None
    case Some(rest) => Some((s[..a], rest))
  }

  /**
   * The year, month and day fields of `s` read against "%Y %m %d": a run of
   * digits, a run of whitespace, a run of digits, a run of whitespace and
   * the rest; `None` when a run of whitespace is missing.
   */
  function SpacedFields(s: string): Option<(string, string, string)>
  {
    match FieldThenGap(s)
    case None => None
    case Some((y, r)) =>
      match FieldThenGap(r)
      case None => None
      case Some((m, d)) => Some((y, m, d))
  }

  /**
   * `datetime.strptime(s, "%Y %m %d")`: each space of the format matches a
   * run of one or more whitespace characters, and nothing may come before
   * the year or after the day.
   */
  function ParseYmdSpaced(s: string): (r: Option<Date>)
    ensures r.Some? ==> ValidDate(r.value)
  {
    match SpacedFields(s)
    case None => None
    case Some((y, m, d)) => YmdFields(y, m, d)
  }

  /** An accepted text starts with the year's first digit and ends with the day's last. */
  lemma ParseYmdSpacedTrimmed(s: string)
    requires ParseYmdSpaced(s).Some?
    ensures 0 < |s| && IsDigit(s[0]) && IsDigit(s[|s| - 1])
  {
    var (y, r) := FieldThenGap(s).value;
    var (m, d) := FieldThenGap(r).value;
    assert |y| == 4 && AllDigits(y) && 0 < |d| && AllDigits(d);
    assert s[0] == y[0];
    assert d[|d| - 1] == r[|r| - 1] == s[|s| - 1];
  }

  /** The year of a date from 1000 on is written in four digits. */
  lemma YearDigits(year: nat)
    requires 1000 <= year <= 9999
    ensures |NatToString(year)| == 4
  {
    var q := year / 10;
    assert NatToString(year) == NatToString(q) + [DigitChar(year % 10)];
    assert NatToString(q) == NatToString(q / 10) + [DigitChar(q % 10)];
    var r := q / 10;
    assert NatToString(r) == NatToString(r / 10) + [DigitChar(r % 10)];
  }

  /** A run of whitespace before text that does not start with whitespace is skipped. */
  lemma AfterGapOf(gap: string, rest: string)
    requires 0 < |gap| && AllSpaces(gap) && (0 < |rest| ==> !IsSpace(rest[0]))
    ensures AfterGap(gap + rest) == Some(rest)
  {
    LeadingSpacesRun(gap, rest);
    assert (gap + rest)[|gap|..] == rest;
  }

  /** A run of digits before text that starts with whitespace is the leading run. */
  lemma DigitsBefore(x: string, rest: string)
    requires AllDigits(x) && 0 < |rest| && IsSpace(rest[0])
    ensures LeadingDigits(x + rest) == |x| && (x + rest)[..|x|] == x && (x + rest)[|x|..] == rest
  {
    LeadingDigitsRun(x, rest);
  }

  /** A run of digits, a run of whitespace, then text that does not start with whitespace. */
  lemma FieldThenGapOf(x: string, gap: string, rest: string)
    requires AllDigits(x) && 0 < |gap| && AllSpaces(gap) && (0 < |rest| ==> !IsSpace(rest[0]))
    ensures FieldThenGap(x + gap + rest) == Some((x, rest))
  {
    var s := x + (gap + rest);
    assert x + gap + rest == s;
    DigitsBefore(x, gap + rest);
    AfterGapOf(gap, rest);
  }

  /** Three digit fields separated by two runs of whitespace are read as those fields. */
  lemma SpacedFieldsOf(y: string, gap1: string, m: string, gap2: string, dd: string)
    requires AllDigits(y) && AllDigits(m) && 0 < |m| && 0 < |dd| && AllDigits(dd)
    requires 0 < |gap1| && AllSpaces(gap1) && 0 < |gap2| && AllSpaces(gap2)
    ensures SpacedFields(y + gap1 + m + gap2 + dd) == Some((y, m, dd))
  {
    var r := m + gap2 + dd;
    assert y + gap1 + m + gap2 + dd == y + gap1 + r;
    FieldThenGapOf(y, gap1, r);
    FieldThenGapOf(m, gap2, dd);
  }

  /** The fields written for a date from the year 1000 on are read back as that date. */
  lemma YmdFieldsOfDate(d: Date)
    requires ValidDate(d) && 1000 <= d.year
    ensures YmdFields(NatToString(d.year), Pad2(d.month), Pad2(d.day)) == Some(d)
  {
    DigitsValueNatToString(d.year);
    Pad2Value(d.month);
    Pad2Value(d.day);
    YearDigits(d.year);
  }

  /**
   * A date from the year 1000 on, written with any two runs of whitespace
   * between its year, its month and its day, parses back to that date.
   */
  lemma ParseYmdSpacedRuns(d: Date, gap1: string, gap2: string)
    requires ValidDate(d) && 1000 <= d.year
    requires 0 < |gap1| && AllSpaces(gap1) && 0 < |gap2| && AllSpaces(gap2)
    ensures ParseYmdSpaced(NatToString(d.year) + gap1 + Pad2(d.month) + gap2 + Pad2(d.day)) == Some(d)
  {
    Pad2Value(d.month);
    Pad2Value(d.day);
    SpacedFieldsOf(NatToString(d.year), gap1, Pad2(d.month), gap2, Pad2(d.day));
    YmdFieldsOfDate(d);
  }

  /**
   * `datetime.strptime(s, "%m-%d")`: the year defaults to 1900, which is
   * not a leap year, so "02-29" does not parse.
   */
  function ParseMonthDay(s: string): (r: Option<Date>)
    ensures r.Some? ==> ValidDate(r.value) && r.value.year == 1900
  {
    var parts := Split(s, '-');
    if |parts| != 2 then None
    else MakeDate(1900, ParseField(parts[0], 1, 2, 1, 12), ParseField(parts[1], 1, 2, 1, 31))
  }

  /** `d.strftime("%Y<sep>%m<sep>%d")`; the year is written without padding, as glibc does. */
  function FormatYmd(d: Date, sep: char): string
    requires ValidDate(d)
  {
    NatToString(d.year) + [sep] + Pad2(d.month) + [sep] + Pad2(d.day)
  }

  /** `d.strftime("%d%m%Y")`. */
  function FormatDmy(d: Date): string
    requires ValidDate(d)
  {
    Pad2(d.day) + Pad2(d.month) + NatToString(d.year)
  }

  /** Formatting a four-digit-year date and parsing it back gives the date. */
  lemma ParseFormatYmd(d: Date, sep: char)
    requires ValidDate(d) && 1000 <= d.year && !IsDigit(sep)
    ensures ParseYmd(FormatYmd(d, sep), sep) == Some(d)
  {
    var y, m, dd := NatToString(d.year), Pad2(d.month), Pad2(d.day);
    DigitsValueNatToString(d.year);
    Pad2Value(d.month);
    Pad2Value(d.day);
    YearDigits(d.year);
    assert sep !in y && sep !in m && sep !in dd;
    var parts := [y, m, dd];
    assert Join(parts, sep) == FormatYmd(d, sep) by {
      assert Join(parts[2..], sep) == dd;
      assert Join(parts[1..], sep) == m + [sep] + dd;
    }
    SplitJoin(parts, sep);
  }

  // ---------------------------------------------------------------------
  // Day numbers

  /** The days of the years before `y`. */
  function DaysBeforeYear(y: int): int
    requires 1 <= y
  {
    var p := y - 1;
    365 * p + p / 4 - p / 100 + p / 400
  }

  /** The days of the months of year `y` before month `m`. */
  function DaysBeforeMonth(y: int, m: int): nat
    requires 1 <= m <= 12
  {
    if m == 1 then 0 else DaysBeforeMonth(y, m - 1) + DaysInMonth(y, m - 1)
  }

  /** `date.toordinal()`: 0001-01-01 is day 1, a Monday. */
  function Ordinal(d: Date): int
    requires ValidDate(d)
  {
    DaysBeforeYear(d.year) + DaysBeforeMonth(d.year, d.month) + d.day
  }

  /** The day after `d`. */
  function NextDay(d: Date): (r: Date)
    requires ValidDate(d)
  {
    if d.day < DaysInMonth(d.year, d.month) then Date(d.year, d.month, d.day + 1)
    else if d.month < 12 then Date(d.year, d.month + 1, 1)
    else Date(d.year + 1, 1, 1)
  }

  /** A year has 366 days when it is a leap year and 365 otherwise. */
  lemma DaysBeforeNextYear(y: int)
    requires 1 <= y
    ensures DaysBeforeYear(y + 1) == DaysBeforeYear(y) + (if IsLeap(y) then 366 else 365)
  {
    var p := y - 1;
    QuotientSteps(y);
    var a, b, c := y / 4 - p / 4, y / 100 - p / 100, y / 400 - p / 400;
    assert DaysBeforeYear(y + 1) - DaysBeforeYear(y) == 365 + a - b + c;
    if y % 400 == 0 {
      var k := y / 400;
      assert y == 100 * (4 * k) && y == 4 * (100 * k);
    } else if y % 100 == 0 {
      var k := y / 100;
      assert y == 4 * (25 * k);
    }
  }

  /** From year `y - 1` to `y`, each quotient of the leap rule grows by one exactly at a multiple. */
  lemma QuotientSteps(y: int)
    ensures y / 4 == (y - 1) / 4 + (if y % 4 == 0 then 1 else 0)
    ensures y / 100 == (y - 1) / 100 + (if y % 100 == 0 then 1 else 0)
    ensures y / 400 == (y - 1) / 400 + (if y % 400 == 0 then 1 else 0)
  {
    assert y / 4 == (y - 1) / 4 + (if y % 4 == 0 then 1 else 0);
    assert y / 100 == (y - 1) / 100 + (if y % 100 == 0 then 1 else 0);
  }

  /** December begins 334 days into a common year and 335 into a leap year. */
  lemma DaysBeforeDecember(y: int)
    ensures DaysBeforeMonth(y, 12) == if IsLeap(y) then 335 else 334
  {
    var f := if IsLeap(y) then 1 else 0;
    assert DaysBeforeMonth(y, 2) == 31;
    assert DaysBeforeMonth(y, 3) == 59 + f;
    assert DaysBeforeMonth(y, 4) == 90 + f;
    assert DaysBeforeMonth(y, 5) == 120 + f;
    assert DaysBeforeMonth(y, 6) == 151 + f;
    assert DaysBeforeMonth(y, 7) == 181 + f;
    assert DaysBeforeMonth(y, 8) == 212 + f;
    assert DaysBeforeMonth(y, 9) == 243 + f;
    assert DaysBeforeMonth(y, 10) == 273 + f;
    assert DaysBeforeMonth(y, 11) == 304 + f;
  }

  /**
   * Successive dates have successive ordinals, so the weekday of a date is
   * one after that of the day before.
   */
  lemma OrdinalNextDay(d: Date)
    requires ValidDate(d) && d != Date(9999, 12, 31)
    ensures ValidDate(NextDay(d)) && Ordinal(NextDay(d)) == Ordinal(d) + 1
  {
    if d.day == DaysInMonth(d.year, d.month) && d.month == 12 {
      DaysBeforeNextYear(d.year);
      DaysBeforeDecember(d.year);
    }
  }

  /** Day 1 is the first of January of year 1. */
  lemma OrdinalStart()
    ensures Ordinal(Date(1, 1, 1)) == 1
  {
  }

  /** The first of January 2020 was a Wednesday: three blank cells precede it in a Sunday-first week. */
  lemma OrdinalAnchor()
    ensures Ordinal(Date(2020, 1, 1)) % 7 == 3
  {
  }
}

=== FILE: datetime_markup.dfy ===
/**
 * The date-time picker of the current program: a date picker until a date
 * is chosen, then a time picker; the chosen date is kept, and the time
 * picker's answer is sent after it as "date time".
 */
module DatetimeMarkups {
  import opened Common
  import opened Text
  import opened Dates
  import opened Markups
  import DM = DateMarkups
  import TM = TimeMarkups
  import DQ = DatetimeQuestions
  import D = DateQuestions
  import T = TimeQuestions

  // ---------------------------------------------------------------------
  // Construction as written

  /**
   * How many arguments the date and the time pickers' constructors take by
   * position: only `required`; the rest are keyword-only.
   */
  const DatePositional: nat := 1
  const TimePositional: nat := 1

  /**
   * `__init__` as written: the date picker is given `required, year,
   * month` and the time picker `required, hour, minute, second` by
   * position, and a call with more positional arguments than the callee
   * takes raises, whatever their values.
   */
  function NewAsWritten(required: bool, year: Option<int>, month: Option<int>,
                        hour: Option<int>, minute: Option<int>, second: Option<int>): Reply
  {
    if 3 > DatePositional || 4 > TimePositional then Crash else Done(True)
  }

  /** As written, constructing a date-time picker always raises. */
  lemma NewAsWrittenRaises(required: bool, year: Option<int>, month: Option<int>,
                           hour: Option<int>, minute: Option<int>, second: Option<int>)
    ensures NewAsWritten(required, year, month, hour, minute, second) == Crash
  {
  }

  // ---------------------------------------------------------------------
  // Pattern

  /**
   * `get_pattern`: the alternatives of both pickers, each once, in the
   * order `order` in which the set of them is iterated; that order is not
   * fixed by the program and is a parameter here.
   */
  function DatetimePattern(order: seq<string>): string
  {
    Pattern(order)
  }

  /** The alternatives of the date and the time pickers. */
  function DateAlternatives(): seq<string>
  {
    Split(Inner(DM.DatePattern()), '|')
  }

  function TimeAlternatives(): seq<string>
  {
    Split(Inner(TM.TimePattern()), '|')
  }

  /**
   * For any enumeration of the union of both pickers' alternatives, the
   * pattern alternates exactly that union: every date and every time
   * alternative, and nothing else.
   */
  lemma DatetimePatternUnion(order: seq<string>)
    requires forall x :: x in order <==> x in DateAlternatives() || x in TimeAlternatives()
    ensures forall x :: x in Split(Inner(DatetimePattern(order)), '|') <==> x in DateAlternatives() || x in TimeAlternatives()
  {
    DM.DatePatternAlternatives();
    TM.TimePatternAlternatives();
    forall i | 0 <= i < |order| ensures '|' !in order[i] {
      var x := order[i];
      assert x in DateAlternatives() || x in TimeAlternatives();
    }
    assert Skip in DateAlternatives() && Skip in order;
    PatternAlternatives(order);
  }

  // ---------------------------------------------------------------------
  // Answers

  /** A reply that is an answer: text other than the warning and SKIP. */
  predicate IsAnswer(reply: Response)
  {
    reply.Message? && reply.text != RequiredWarning && reply.text != Skip
  }

  /** The time picker's reply once a date is kept: an answer is prefixed with the date and a space. */
  function AfterTime(date: string, reply: Response): (r: Response)
    ensures !IsAnswer(reply) ==> r == reply
    ensures IsAnswer(reply) ==> r.Message? && |r.text| == |date| + 1 + |reply.text| && r.text[..|date|] == date && r.text[|date|] == ' '
                                && r.text[|date| + 1..] == reply.text
  {
    if IsAnswer(reply) then Message(date + " " + reply.text) else reply
  }

  /**
   * A chosen day followed by OK on a time of day sends "YYYY-MM-DD HH:MM",
   * which the date-time question splits into the two halves and reads back
   * as that date and that time.
   */
  lemma DatetimeAnswerReadBack(d: Date, hour: nat, minute: nat)
    requires ValidDate(d) && 1000 <= d.year && hour <= 23 && minute <= 59
    ensures var ds := FormatYmd(d, '-');
            var ts := TM.FinalText(hour, minute, None);
            IsAnswer(Message(ts))
            && AfterTime(ds, Message(ts)) == Message(ds + [' '] + ts)
            && Split(ds + [' '] + ts, ' ') == [ds, ts]
            && D.AnswerDate(ds) == (if NotAfter(d, D.Latest) then Some(d) else None)
            && T.ParseTime(ts) == Some(T.Time(hour, minute))
  {
    var ts := TM.FinalText(hour, minute, None);
    TM.FinalTextIsAnswer(hour, minute);
    assert ts == Pad2(hour) + [':'] + Pad2(minute);
    Pad2Value(hour);
    assert ts[2] == ':' && RequiredWarning[2] != ':' && Skip[2] != ':';
    DQ.FormattedDatetime(d, T.Time(hour, minute));
  }

  // ---------------------------------------------------------------------
  // The picker

  /** `DatetimeMarkup`: the two pickers and the date chosen, `""` until one is. */
  class DatetimeMarkup {
    const required: bool
    /** `_DATE_MARKUP` and `_TIME_MARKUP`. */
    const date: DM.DateMarkup
    const time: TM.TimeMarkup
    /** `_DATE_ANSWER`; the program tests it for truthiness, and `""` stands for `None`. */
    var answer: string

    predicate Valid()
      reads this, date
    {
      date.Valid() && date.required == required && time.required == required
    }

    /** `__init__` with the pickers' arguments passed by keyword, as evidently intended. */
    constructor(required: bool, year: Option<int>, month: Option<int>,
                hour: Option<int>, minute: Option<int>, second: Option<int>, today: Date, now: TM.Clock)
      requires ValidDate(today) && TM.ValidClock(now)
      ensures Valid() && this.required == required && answer == ""
      ensures date.from == None && DM.Init(year, month, None, today, false) == Some((date.year, date.month))
      ensures time.from == None && (time.hour, time.minute, time.second) == TM.Init(hour, minute, second, now)
    {
      this.required := required;
      date := new DM.DateMarkup(required, year, month, None, today);
      time := new TM.TimeMarkup(required, hour, minute, second, now);
      answer := "";
    }

    /** `get_markup`: the time picker once a date is chosen, the date picker before. */
    function Markup(): Keyboard
      reads this, date, time
      requires Valid()
    {
      if |answer| > 0 then time.Markup() else date.Markup()
    }

    /**
     * `perform_action`. With a date kept, the option goes to the time
     * picker and its answer is sent after the date; before, it goes to the
     * date picker, whose answer is kept and answered with the time picker,
     * and whose other replies pass through.
     */
    method PerformAction(option: string) returns (r: Response)
      requires Valid()
      modifies this, date, time
      ensures Valid()
      ensures |old(answer)| > 0 ==>
                var o := TM.Act(required, time.from, old(time.hour), old(time.minute), old(time.second), option);
                answer == old(answer) && date.month == old(date.month) && date.year == old(date.year)
                && time.from == old(time.from)
                && (time.hour, time.minute, time.second) == (o.hour, o.minute, o.second)
                && r == AfterTime(answer, o.reply)
      ensures |old(answer)| == 0 ==>
                var d := DM.Act(required, date.from, old(date.month), old(date.year), option);
                (date.month, date.year) == (d.1, d.2)
                && time.from == old(time.from)
                && (time.hour, time.minute, time.second) == (old(time.hour), old(time.minute), old(time.second))
                && (IsAnswer(d.0) ==> answer == d.0.text && r == Keys(time.Markup()))
                && (!IsAnswer(d.0) ==> answer == "" && r == d.0)
    {
      if |answer| > 0 {
        r := time.PerformAction(option);
        if IsAnswer(r) {
          r := Message(answer + " " + r.text);
        }
      } else {
        r := date.PerformAction(option);
        if IsAnswer(r) {
          answer := r.text;
          r := Keys(time.Markup());
        }
      }
    }
  }

  /** The date picker's answers are never empty, so a kept date is always seen as chosen. */
  lemma DateAnswerNotEmpty(required: bool, from: Option<Date>, month: int, year: int, option: string)
    requires DM.ValidMonth(month, year)
    ensures var d := DM.Act(required, from, month, year, option);
            IsAnswer(d.0) ==> |d.0.text| > 0
  {
  }
}

=== FILE: datetime_question.dfy ===
/**
 * Date-time questions of the current program: a date question and a time
 * question over the same element, driven together. The metadata getters
 * report a value only when both halves agree; setters, `get_info` and
 * `answer` go to the date half first and then to the time half.
 */
module DatetimeQuestions {
  import opened Common
  import opened Text
  import opened Dates
  import opened QuestionBase
  import D = DateQuestions
  import T = TimeQuestions
  import B = Browser

  /** `_union` of two results: the shared value when they agree, otherwise nothing. */
  function Union<X(==)>(a: Option<X>, b: Option<X>): (r: Option<X>)
    ensures r.Some? <==> a.Some? && a == b
    ensures r.Some? ==> r == a && r == b
  {
    if a == b then a else None
  }

  /** `_union` is symmetric, and agrees with a value on itself. */
  lemma UnionProperties<X>(a: Option<X>, b: Option<X>)
    ensures Union(a, b) == Union(b, a)
    ensures Union(a, a) == a
    ensures a != b ==> Union(a, b).None?
  {
  }

  /** `get_answer_elements`: the answer inputs, or the TypeError of an unset time half. */
  datatype AnswerInputs = Inputs(elements: seq<Option<Elem>>) | TypeError

  /**
   * The date half's inputs as a tuple: a lone picker, or an unset value,
   * is wrapped in a one-tuple.
   */
  function DateTuple(inputs: Option<D.DateInputs>): (r: seq<Option<Elem>>)
    ensures 1 <= |r| <= 2
    ensures inputs.None? ==> r == [None]
    ensures inputs.Some? ==> |r| == |D.InputElements(inputs.value)|
                             && forall i :: 0 <= i < |r| ==> r[i] == Some(D.InputElements(inputs.value)[i])
  {
    if inputs.None? then [None]
    else if inputs.value.Picker? then [Some(inputs.value.picker)]
    else [Some(inputs.value.month), Some(inputs.value.day)]
  }

  /** The time inputs followed by the date inputs. */
  function AnswerElementsOf(time: Option<(Elem, Elem)>, date: Option<D.DateInputs>): (r: AnswerInputs)
    ensures r.TypeError? <==> time.None?
    ensures r.Inputs? ==> |r.elements| >= 3 && r.elements[0] == Some(time.value.0)
                          && r.elements[1] == Some(time.value.1) && r.elements[2..] == DateTuple(date)
  {
    if time.None? then TypeError else Inputs([Some(time.value.0), Some(time.value.1)] + DateTuple(date))
  }

  /**
   * A date formatted "%Y-%m-%d" and a time formatted "%H:%M", joined by a
   * space as the date-time keyboard sends them, split back into the two
   * halves, and each half reads back as the date and the time.
   */
  lemma FormattedDatetime(d: Date, t: T.Time)
    requires ValidDate(d) && 1000 <= d.year && T.ValidTime(t)
    ensures var ds := FormatYmd(d, '-');
            var ts := Pad2(t.hour) + [':'] + Pad2(t.minute);
            Split(ds + [' '] + ts, ' ') == [ds, ts]
            && D.AnswerDate(ds) == (if NotAfter(d, D.Latest) then Some(d) else None)
            && T.ParseTime(ts) == Some(t)
  {
    var ds := FormatYmd(d, '-');
    var ts := Pad2(t.hour) + [':'] + Pad2(t.minute);
    Pad2Value(t.hour);
    Pad2Value(t.minute);
    Pad2Value(d.month);
    Pad2Value(d.day);
    assert ' ' !in NatToString(d.year) && ' ' !in Pad2(d.month) && ' ' !in Pad2(d.day) by {
      assert forall i :: 0 <= i < |NatToString(d.year)| ==> IsDigit(NatToString(d.year)[i]);
      assert forall i :: 0 <= i < |Pad2(d.month)| ==> IsDigit(Pad2(d.month)[i]);
      assert forall i :: 0 <= i < |Pad2(d.day)| ==> IsDigit(Pad2(d.day)[i]);
    }
    assert ' ' !in Pad2(t.hour) && ' ' !in Pad2(t.minute) by {
      assert forall i :: 0 <= i < |Pad2(t.hour)| ==> IsDigit(Pad2(t.hour)[i]);
      assert forall i :: 0 <= i < |Pad2(t.minute)| ==> IsDigit(Pad2(t.minute)[i]);
    }
    SplitTwo(ds, ts, ' ');
    D.AnswerDateFormat(d);
    T.ParseTimePadded(t);
  }

  class DatetimeQuestion {
    const date: D.DateQuestion
    const time: T.TimeQuestion
    /** The element and browser of the composite itself, taken from the date half. */
    const element: Option<Elem>
    const browser: B.Browser

    /** The two halves keep their metadata apart. */
    predicate Separate()
      reads this
    {
      date.base != time.base
    }

    /** Mismatched halves are accepted (Python only logs a warning); the date half supplies the element and browser. */
    constructor(date: D.DateQuestion, time: T.TimeQuestion)
      requires date.base != time.base
      ensures this.date == date && this.time == time && Separate()
      ensures element == date.base.element && browser == date.base.browser
    {
      this.date := date;
      this.time := time;
      element := date.base.element;
      browser := date.base.browser;
    }

    /** `_get_question_element`. */
    function QuestionElement(): Option<Elem>
      reads this, date, date.base, time, time.base
    {
      Union(date.base.element, time.base.element)
    }

    /** `get_browser`. */
    function GetBrowser(): Option<B.Browser>
      reads this, date, time
    {
      Union(Some(date.base.browser), Some(time.base.browser))
    }

    /** `get_header`. */
    function Header(): Option<string>
      reads this, date, date.base, time, time.base
    {
      Union(date.base.header, time.base.header)
    }

    /** `get_description`. */
    function Description(): Option<string>
      reads this, date, date.base, time, time.base
    {
      Union(date.base.description, time.base.description)
    }

    /** `is_required`. */
    function Required(): Option<bool>
      reads this, date, date.base, time, time.base
    {
      Union(date.base.required, time.base.required)
    }

    /** `get_answer_elements`. */
    function AnswerElements(): AnswerInputs
      reads this, date, time
    {
      AnswerElementsOf(time.inputs, date.inputs)
    }

    /** `__eq__`: both halves equal. */
    predicate Equals(other: DatetimeQuestion)
      reads this, date, date.base, time, time.base, other, other.date, other.date.base, other.time, other.time.base
    {
      date.base.Equals(other.date.base) && time.base.Equals(other.time.base)
    }

    /** `_set_header`: the same header for both halves. */
    method SetHeader(h: string)
      requires Separate()
      modifies date.base, time.base
      ensures date.base.header == Some(h) && time.base.header == Some(h) && Header() == Some(h)
      ensures date.base.description == old(date.base.description) && time.base.description == old(time.base.description)
      ensures date.base.required == old(date.base.required) && time.base.required == old(time.base.required)
      ensures date.base.element == old(date.base.element) && time.base.element == old(time.base.element)
      ensures date.base.trace == old(date.base.trace) && time.base.trace == old(time.base.trace)
    {
      date.base.header := Some(h);
      time.base.header := Some(h);
    }

    /** `set_question_element`: the same element for both halves. */
    method SetQuestionElement(e: Elem)
      requires Separate()
      modifies date.base, time.base
      ensures date.base.element == Some(e) && time.base.element == Some(e) && QuestionElement() == Some(e)
      ensures date.base.Meta() == old(date.base.Meta()) && time.base.Meta() == old(time.base.Meta())
      ensures date.base.trace == old(date.base.trace) && time.base.trace == old(time.base.trace)
    {
      date.base.element := Some(e);
      time.base.element := Some(e);
    }

    /** `set_description`: the same description for both halves. */
    method SetDescription(s: string)
      requires Separate()
      modifies date.base, time.base
      ensures date.base.description == Some(s) && time.base.description == Some(s) && Description() == Some(s)
      ensures date.base.header == old(date.base.header) && time.base.header == old(time.base.header)
      ensures date.base.required == old(date.base.required) && time.base.required == old(time.base.required)
      ensures date.base.element == old(date.base.element) && time.base.element == old(time.base.element)
      ensures date.base.trace == old(date.base.trace) && time.base.trace == old(time.base.trace)
    {
      date.base.description := Some(s);
      time.base.description := Some(s);
    }

    /** `set_required`: the same flag for both halves. */
    method SetRequired(b: bool)
      requires Separate()
      modifies date.base, time.base
      ensures date.base.required == Some(b) && time.base.required == Some(b) && Required() == Some(b)
      ensures date.base.header == old(date.base.header) && time.base.header == old(time.base.header)
      ensures date.base.description == old(date.base.description) && time.base.description == old(time.base.description)
      ensures date.base.element == old(date.base.element) && time.base.element == old(time.base.element)
      ensures date.base.trace == old(date.base.trace) && time.base.trace == old(time.base.trace)
    {
      date.base.required := Some(b);
      time.base.required := Some(b);
    }

    /**
     * `get_info`: the date half, then the time half; the first falsy result
     * is returned, and the time half is left alone when the date half fails.
     */
    method GetInfo() returns (r: Tri)
      requires Separate()
      modifies date, date.base, time, time.base
      ensures date.base.element == old(date.base.element) && time.base.element == old(time.base.element)
      ensures date.base.trace == old(date.base.trace) && time.base.trace == old(time.base.trace)
      ensures var (dr, di) := D.Info(date.base.page, date.base.browser.open, date.base.element, old(date.inputs));
              date.inputs == di
              && (dr != True ==> r == dr && time.inputs == old(time.inputs) && time.base.Meta() == old(time.base.Meta()))
              && (dr == True ==>
                    (r, time.inputs) == T.Info(time.base.page, time.base.browser.open, time.base.element, old(time.inputs)))
    {
      r := date.GetInfo();
      if r != True {
        return;
      }
      r := time.GetInfo();
    }

    /**
     * `answer`: the text splits at its one space into a date and a time,
     * otherwise the unpacking raises; the date half answers first, and the
     * time half answers only when the date half succeeds.
     */
    method Answer(s: string) returns (r: Reply)
      requires Separate()
      modifies date, date.base, time, time.base
      ensures date.base.element == old(date.base.element) && time.base.element == old(time.base.element)
      ensures |Split(s, ' ')| != 2 ==>
                r == Crash && date.inputs == old(date.inputs) && date.base.trace == old(date.base.trace)
                && time.inputs == old(time.inputs) && time.base.trace == old(time.base.trace)
      ensures |Split(s, ' ')| == 2 ==>
                var da := D.DateAnswer(date.base.page, date.base.browser.open, date.base.element, old(date.inputs), Split(s, ' ')[0]);
                date.inputs == da.after && date.base.trace == old(date.base.trace) + da.actions
                && (da.result != True ==>
                      r == Done(da.result) && time.inputs == old(time.inputs) && time.base.trace == old(time.base.trace))
                && (da.result == True ==>
                      var ta := T.TimeAnswer(time.base.page, time.base.browser.open, time.base.element, old(time.inputs), Split(s, ' ')[1]);
                      r == Done(ta.result) && time.inputs == ta.after && time.base.trace == old(time.base.trace) + ta.actions)
    {
      var parts := Split(s, ' ');
      if |parts| != 2 {
        return Crash;
      }
      var dr := date.Answer(parts[0]);
      if dr != True {
        return Done(dr);
      }
      var tr := time.Answer(parts[1]);
      return Done(tr);
    }
  }

  /**
   * Halves that read the same element of the same page agree, so the
   * composite reports their shared metadata.
   */
  lemma SameElementAgrees(q: DatetimeQuestion, e: Elem)
    requires q.date.base.page == q.time.base.page
    requires q.date.base.HasInfoOf(e) && q.time.base.HasInfoOf(e)
    ensures q.Header() == Some(HeaderOf(q.date.base.page, e))
    ensures q.Description() == Some(q.date.base.page.description(e))
    ensures q.Required() == Some(q.date.base.page.asterisk(e))
  {
  }

  /** Halves that disagree on the header make the composite report no header. */
  lemma DisagreeingHeader(q: DatetimeQuestion)
    requires q.date.base.header != q.time.base.header
    ensures q.Header().None?
  {
  }
}

=== FILE: freq_markup.dfy ===
/**
 * The frequency menus of the current program: the fixed menu of submission
 * frequencies, and the custom frequency picker, which shows days, hours
 * and minutes, marks a field pending with -1 while its sub-keyboard is
 * open, and on OK sends the frequency as "{d}d {h}h {m}min" when it is
 * valid and an alert otherwise.
 */
module FreqMarkups {
  import opened Common
  import opened Text
  import opened Markups

  // ---------------------------------------------------------------------
  // The frequency menu

  const Monthly: string := "Submit monthly"
  const Weekly: string := "Submit weekly"
  const Daily: string := "Submit daily"
  const Hourly: string := "Submit hourly"
  const Custom: string := "Custom"

  /** `FreqMarkup.is_option`: one of the five frequencies. */
  predicate IsFreq(option: string)
  {
    option == Monthly || option == Weekly || option == Daily || option == Hourly || option == Custom
  }

  /** `FreqMarkup.get_pattern`. */
  function FreqPattern(): string
  {
    Pattern([Monthly, Weekly, Daily, Hourly, Custom])
  }

  /** The menu's pattern alternates exactly the options it accepts. */
  lemma FreqPatternText()
    ensures Split(Inner(FreqPattern()), '|') == [Monthly, Weekly, Daily, Hourly, Custom]
    ensures forall o :: IsFreq(o) <==> o in Split(Inner(FreqPattern()), '|')
  {
    PatternAlternatives([Monthly, Weekly, Daily, Hourly, Custom]);
  }

  /**
   * The rows `FreqMarkup.get_markup` passes on: hourly and daily, weekly and
   * monthly, then custom. Laying out all three is the evidently intended
   * menu; see `FreqRowsAsWritten` for the one the code builds.
   */
  function FreqRows(): seq<Row>
  {
    [Several([Hourly, Daily]), Several([Weekly, Monthly]), Single(Custom)]
  }

  /** `FreqMarkup.get_markup` as evidently intended. */
  function FreqKeyboard(): Option<Keyboard>
  {
    GetMarkup(FreqRows(), map[])
  }

  /** The keyboard the menu builds: each label is its own callback data. */
  function FreqExpected(): Keyboard
  {
    [[Button(Hourly, Hourly), Button(Daily, Daily)],
     [Button(Weekly, Weekly), Button(Monthly, Monthly)],
     [Button(Custom, Custom)]]
  }

  /** A label that starts and ends with a word character is its own callback data. */
  lemma PlainData(l: string)
    requires 0 < |l| && IsWordChar(l[0]) && IsWordChar(l[|l| - 1])
    ensures ButtonData(l, map[]) == Some(l)
  {
  }

  /** The intended menu is built without raising, two, two and one to a row. */
  lemma FreqLayout()
    ensures FreqKeyboard() == Some(FreqExpected())
  {
    PlainData(Hourly);
    PlainData(Daily);
    PlainData(Weekly);
    PlainData(Monthly);
    PlainData(Custom);
    var rows := FreqRows();
    var r0, r1, r2 := [Button(Hourly, Hourly), Button(Daily, Daily)],
                      [Button(Weekly, Weekly), Button(Monthly, Monthly)], [Button(Custom, Custom)];
    RowOfTwo(Hourly, Hourly, Daily, Daily, map[]);
    RowOfTwo(Weekly, Weekly, Monthly, Monthly, map[]);
    RowOfOne(Custom, Custom, map[]);
    var t1, t2 := rows[1..], rows[2..];
    assert t1[1..] == t2 && t2[1..] == [];
    assert RowLabels(rows[0]) == [Hourly, Daily] && RowLabels(t1[0]) == [Weekly, Monthly] && RowLabels(t2[0]) == [Custom];
    GetMarkupCons(t2, map[]);
    assert [r2] + [] == [r2];
    assert GetMarkup(t2, map[]) == Some([r2]);
    GetMarkupCons(t1, map[]);
    assert [r1] + [r2] == [r1, r2];
    assert GetMarkup(t1, map[]) == Some([r1, r2]);
    GetMarkupCons(rows, map[]);
    assert [r0] + [r1, r2] == [r0, r1, r2];
  }

  /** Every callback of the expected layout is accepted by `is_option`. */
  lemma ExpectedAccepted()
    ensures AllData(FreqExpected(), IsFreq)
  {
    var k: Keyboard := FreqExpected();
    forall i, j | 0 <= i < |k| && 0 <= j < |k[i]| ensures IsFreq(k[i][j].data) {
      if i == 2 { assert j == 0; }
    }
  }

  /** Every option `is_option` accepts is a callback of the intended layout. */
  lemma ExpectedCovers()
    ensures forall o :: IsFreq(o) ==> exists i, j :: 0 <= i < 3 && 0 <= j < |FreqExpected()[i]| && FreqExpected()[i][j].data == o
  {
    var k: Keyboard := FreqExpected();
    forall o | IsFreq(o) ensures exists i, j :: 0 <= i < 3 && 0 <= j < |k[i]| && k[i][j].data == o {
      if o == Hourly { assert k[0][0].data == o; }
      else if o == Daily { assert k[0][1].data == o; }
      else if o == Weekly { assert k[1][0].data == o; }
      else if o == Monthly { assert k[1][1].data == o; }
      else { assert k[2][0].data == o; }
    }
  }

  /** The intended menu emits the callbacks `is_option` accepts, and each of them. */
  lemma FreqCallbacks()
    ensures FreqKeyboard().Some? && AllData(FreqKeyboard().value, IsFreq)
    ensures forall o :: IsFreq(o) ==> exists i, j :: 0 <= i < 3 && 0 <= j < |FreqExpected()[i]| && FreqExpected()[i][j].data == o
  {
    FreqLayout();
    ExpectedAccepted();
    ExpectedCovers();
  }

  /**
   * The rows laid out as written. `get_markup` is a class method that reaches
   * the instance method `BaseMarkup.get_markup` through `super()`, which then
   * hands over the plain function: the first row, hourly and daily, is bound
   * to `self`, and only the rows after it are laid out.
   */
  function FreqRowsAsWritten(): seq<Row>
  {
    FreqRows()[1..]
  }

  /** `FreqMarkup.get_markup` as written. */
  function FreqKeyboardAsWritten(): Option<Keyboard>
  {
    GetMarkup(FreqRowsAsWritten(), map[])
  }

  /**
   * As written, the menu is weekly and monthly, then custom: hourly and
   * daily are accepted by `is_option`, but no button carries them.
   */
  lemma FreqAsWrittenMissesHourlyDaily()
    ensures FreqKeyboardAsWritten() == Some(FreqExpected()[1..])
    ensures IsFreq(Hourly) && IsFreq(Daily)
    ensures forall i, j :: 0 <= i < |FreqKeyboardAsWritten().value| && 0 <= j < |FreqKeyboardAsWritten().value[i]| ==>
              FreqKeyboardAsWritten().value[i][j].data != Hourly && FreqKeyboardAsWritten().value[i][j].data != Daily
  {
    PlainData(Weekly);
    PlainData(Monthly);
    PlainData(Custom);
    var rows := FreqRowsAsWritten();
    var r1, r2 := [Button(Weekly, Weekly), Button(Monthly, Monthly)], [Button(Custom, Custom)];
    RowOfTwo(Weekly, Weekly, Monthly, Monthly, map[]);
    RowOfOne(Custom, Custom, map[]);
    var t2 := rows[1..];
    assert t2[1..] == [];
    assert RowLabels(rows[0]) == [Weekly, Monthly] && RowLabels(t2[0]) == [Custom];
    GetMarkupCons(t2, map[]);
    assert [r2] + [] == [r2];
    assert GetMarkup(t2, map[]) == Some([r2]);
    GetMarkupCons(rows, map[]);
    assert [r1] + [r2] == [r1, r2];
    var k: Keyboard := FreqKeyboardAsWritten().value;
    assert k == [r1, r2];
    forall i, j | 0 <= i < |k| && 0 <= j < |k[i]| ensures k[i][j].data != Hourly && k[i][j].data != Daily {
      if i == 1 { assert j == 0; }
    }
  }

  // ---------------------------------------------------------------------
  // The custom frequency picker

  const ChooseDay: string := "CHOOSE_DAY"
  const ChooseHour: string := "CHOOSE_HOUR"
  const ChooseMinute: string := "CHOOSE_MINUTE"
  const ShowMinute: string := "SHOW_MINUTE"
  const Finalise: string := "FINALISE"
  const InvalidMessage: string := "ALERT: Selected frequency is invalid!"
  /** The number alternative of the pattern. */
  const NumRegex: string := "\\d{1,3}"
  /** The first day of the last page of days. */
  const LastPage: nat := 371

  /** The length of a frequency in minutes. */
  function TotalMinutes(days: int, hours: int, minutes: int): int
  {
    (days * 24 + hours) * 60 + minutes
  }

  /**
   * `valid_freq`: days not negative, hours 0..23 and minutes 0..59; then
   * exactly 400 days only with no hours or minutes, and otherwise fewer
   * than 400 days and at least 5 minutes in all.
   */
  predicate ValidFreq(days: int, hours: int, minutes: int)
  {
    if days < 0 || !(0 <= hours <= 23) || !(0 <= minutes <= 59) then false
    else if days == 400 then hours == 0 && minutes == 0
    else days < 400 && (days > 0 || hours > 0 || minutes >= 5)
  }

  /** A valid frequency is one of well-formed fields lasting from 5 minutes to 400 days, both included. */
  lemma ValidFreqTotal(days: int, hours: int, minutes: int)
    ensures ValidFreq(days, hours, minutes) <==>
              days >= 0 && 0 <= hours <= 23 && 0 <= minutes <= 59
              && 5 <= TotalMinutes(days, hours, minutes) <= 400 * 24 * 60
  {
    if days >= 0 && 0 <= hours <= 23 && 0 <= minutes <= 59 {
      var t := TotalMinutes(days, hours, minutes);
      assert t == days * 1440 + hours * 60 + minutes;
      if days > 400 {
        assert days * 1440 >= 401 * 1440;
      } else if days < 400 {
        assert days * 1440 <= 399 * 1440;
      }
      if days > 0 {
        assert days * 1440 >= 1440;
      }
    }
  }

  /** `_valid_int`: an integer in 0..999. */
  predicate Int999(s: string)
  {
    ParseInt(s).Some? && 0 <= ParseInt(s).value <= 999
  }

  /**
   * `_is_option`: a control, an integer in 0..999, or a text with a space
   * naming the day or minute keyboards whose text after the first space is
   * an integer in 0..999.
   */
  predicate IsCustomOption(option: string)
  {
    option in [ChooseHour, ChooseMinute, Finalise, Ignore] || Int999(option)
    || (IndexOf(option, ' ').Some? && (Contains(option, ChooseDay) || Contains(option, ShowMinute))
        && Int999(option[IndexOf(option, ' ').value + 1..]))
  }

  /** `FreqCustomMarkup.get_pattern`. */
  function CustomPattern(): string
  {
    Pattern([Skip, Finalise, Ignore, ChooseHour, ChooseMinute, ChooseDay + " " + NumRegex,
             ShowMinute + " " + NumRegex, NumRegex])
  }

  /** The custom pattern's alternatives, in order. */
  lemma CustomPatternAlternatives()
    ensures Split(Inner(CustomPattern()), '|') ==
              [Skip, Finalise, Ignore, ChooseHour, ChooseMinute, ChooseDay + " " + NumRegex,
               ShowMinute + " " + NumRegex, NumRegex]
  {
    var alts := [Skip, Finalise, Ignore, ChooseHour, ChooseMinute, ChooseDay + " " + NumRegex,
                 ShowMinute + " " + NumRegex, NumRegex];
    forall i | 0 <= i < |alts| ensures '|' !in alts[i] {
      assert forall c :: c in alts[i] ==> c != '|';
    }
    PatternAlternatives(alts);
  }

  /** `str(n)`. */
  function Str(n: int): string
  {
    if n < 0 then "-" + NatToString(-n) else NatToString(n)
  }

  /** The callback data that opens the day keyboard at `start`. */
  function DayData(start: int): string
  {
    ChooseDay + " " + Str(start)
  }

  /** The callback data that opens the minutes from `start`. */
  function MinuteData(start: int): string
  {
    ShowMinute + " " + Str(start)
  }

  /** `str(n)` of a number names no keyboard and reads back as the number. */
  lemma NumberFacts(n: nat)
    ensures ' ' !in Str(n) && 'C' !in Str(n) && 'S' !in Str(n) && ParseInt(Str(n)) == Some(n)
    ensures !Contains(Str(n), ChooseDay) && !Contains(Str(n), ShowMinute)
    ensures Str(n) != Finalise && Str(n) != ChooseHour && Str(n) != ChooseMinute && Str(n) != Ignore
  {
    var s := Str(n);
    assert forall i :: 0 <= i < |s| ==> IsDigit(s[i]);
    ParseIntNatToString(n);
    NotContainsFirst(s, ChooseDay);
    NotContainsFirst(s, ShowMinute);
  }

  /** Every number from 0 to 999 is an option. */
  lemma NumberIsOption(n: nat)
    requires n <= 999
    ensures IsCustomOption(Str(n))
  {
    NumberFacts(n);
  }

  /** The controls are options. */
  lemma ControlIsOption(option: string)
    requires option in [ChooseHour, ChooseMinute, Finalise, Ignore]
    ensures IsCustomOption(option)
  {
  }

  /** A keyboard-opening text "<name> n": its first space ends the name, and n follows. */
  lemma OpenerFacts(name: string, n: nat)
    requires 0 < |name| && ' ' !in name
    ensures var o := name + " " + Str(n);
            IndexOf(o, ' ') == Some(|name|) && o[|name| + 1..] == Str(n) && Contains(o, name)
  {
    var o := name + " " + Str(n);
    IndexOfAfter(name, Str(n), ' ');
    assert name <= o;
  }

  /** A day keyboard's data names the day keyboard and is an option when its start is at most 999. */
  lemma DayDataFacts(n: nat)
    ensures var o := DayData(n);
            IndexOf(o, ' ') == Some(|ChooseDay|) && o[|ChooseDay| + 1..] == Str(n) && Contains(o, ChooseDay)
            && o != ChooseHour && o != ChooseMinute
    ensures n <= 999 ==> IsCustomOption(DayData(n))
  {
    assert ' ' !in ChooseDay by { assert forall i :: 0 <= i < |ChooseDay| ==> ChooseDay[i] != ' '; }
    OpenerFacts(ChooseDay, n);
    NumberFacts(n);
    var o := DayData(n);
    assert o[7] == 'D';
  }

  /** A minute keyboard's data names the minute keyboard and not the day keyboard. */
  lemma MinuteDataFacts(n: nat)
    ensures var o := MinuteData(n);
            IndexOf(o, ' ') == Some(|ShowMinute|) && o[|ShowMinute| + 1..] == Str(n) && Contains(o, ShowMinute)
            && !Contains(o, ChooseDay) && o !in [ChooseHour, ChooseMinute, Finalise, Ignore]
    ensures n <= 999 ==> IsCustomOption(MinuteData(n))
  {
    assert ' ' !in ShowMinute by {
      assert forall i :: 0 <= i < |ShowMinute| ==> ShowMinute[i] != ' ';
    }
    OpenerFacts(ShowMinute, n);
    MinuteDataNamesNoOther(n);
    NumberFacts(n);
  }

  /** A minute keyboard's data names no other keyboard and is no control. */
  lemma MinuteDataNamesNoOther(n: nat)
    ensures var o := MinuteData(n);
            !Contains(o, ChooseDay) && o !in [ChooseHour, ChooseMinute, Finalise, Ignore]
  {
    var o := MinuteData(n);
    assert 'C' !in ShowMinute by {
      assert forall i :: 0 <= i < |ShowMinute| ==> ShowMinute[i] != 'C';
    }
    NumberFacts(n);
    assert 'C' !in o;
    NotContainsFirst(o, ChooseDay);
    assert o[0] == 'S';
  }

  /** OK's data names no keyboard. */
  lemma FinaliseNamesNoKeyboard()
    ensures !Contains(Finalise, ChooseDay) && !Contains(Finalise, ShowMinute)
  {
    ShorterNotContains(Finalise, ChooseDay);
    ShorterNotContains(Finalise, ShowMinute);
  }

  // ---------------------------------------------------------------------
  // Keyboards

  /** `_minute(start)`: ten minutes from `start`, two a row; minutes that give no valid frequency are blank. */
  function MinuteKeys(days: int, hours: int, start: int): Keyboard
  {
    seq(5, i => seq(2, j => var v := start + 2 * i + j;
                            if ValidFreq(days, hours, v) then Button(Str(v), Str(v)) else Blank))
  }

  /** `_hour`: the hours 0 to 23, six a row; hours that give no valid frequency are blank. */
  function HourKeys(days: int, minutes: int): Keyboard
  {
    seq(4, i => seq(6, j => var v := 6 * i + j;
                            if ValidFreq(days, v, minutes) then Button(Str(v), Str(v)) else Blank))
  }

  /** The day paging targets: back 30 days but not before 0, forward 30 but not past the last page. */
  function PrevPage(start: int): int
  {
    if start - 30 > 0 then start - 30 else 0
  }

  function NextPage(start: int): int
  {
    if start + 30 < LastPage then start + 30 else LastPage
  }

  /** The navigation row of the day keyboard: back when past 0, forward when before the last page. */
  function DayNav(start: int): seq<Button>
  {
    [if start > 0 then Button("<", DayData(PrevPage(start))) else Blank,
     Blank,
     if start < LastPage then Button(">", DayData(NextPage(start))) else Blank]
  }

  /** The thirty day counts from `start`, five a row; those that give no valid frequency are blank. */
  function DayRows(hours: int, minutes: int, start: int): Keyboard
  {
    seq(6, i => seq(5, j => var v := start + 5 * i + j;
                            if ValidFreq(v, hours, minutes) then Button(Str(v), Str(v)) else Blank))
  }

  /** `_day(start)`: the day rows, then the navigation row. */
  function DayKeys(hours: int, minutes: int, start: int): Keyboard
  {
    DayRows(hours, minutes, start) + [DayNav(start)]
  }

  /** The button of day `d` on the page starting at `start`: row `(d - start) / 5`, column `(d - start) % 5`. */
  function DayAt(hours: int, minutes: int, start: int, d: int): Button
    requires start <= d < start + 30
  {
    var i, j := (d - start) / 5, (d - start) % 5;
    assert |DayRows(hours, minutes, start)| == 6 && |DayRows(hours, minutes, start)[i]| == 5;
    DayKeys(hours, minutes, start)[i][j]
  }

  /** `_minute_group`: the six tens of minutes, two a row. */
  function MinuteGroupKeys(): Keyboard
  {
    seq(3, i => seq(2, j => var k := 2 * i + j;
                            Button(Str(10 * k) + " - " + Str(10 * (k + 1) - 1), MinuteData(10 * k))))
  }

  /** `get_markup`: the labels, the values (days opening its first page), and OK. */
  function MainKeys(days: int, hours: int, minutes: int): Keyboard
  {
    [[Button("Days", Ignore), Button("Hours", Ignore), Button("Minutes", Ignore)],
     [Button(Str(days), ChooseDay + " 0"), Button(Str(hours), ChooseHour), Button(Str(minutes), ChooseMinute)],
     [Button("OK", Finalise)]]
  }

  /** The main keyboard's day button opens the first page of days. */
  lemma MainDayButton(days: int, hours: int, minutes: int)
    ensures MainKeys(days, hours, minutes)[1][0].data == DayData(0)
  {
    assert Str(0) == "0";
  }

  /** Day `start + 5i + j` sits at row i, column j of its page, shown exactly when it makes a valid frequency. */
  lemma DayCell(hours: int, minutes: int, start: int, d: int)
    requires start <= d < start + 30
    ensures DayAt(hours, minutes, start, d) == if ValidFreq(d, hours, minutes) then Button(Str(d), Str(d)) else Blank
  {
    var i, j := (d - start) / 5, (d - start) % 5;
    assert start + 5 * i + j == d;
    assert DayKeys(hours, minutes, start)[i] == DayRows(hours, minutes, start)[i];
  }

  /** Paging stays within the pages 0 to 371 and moves by at most 30 days. */
  lemma PagingBounds(start: int)
    requires 0 <= start <= LastPage
    ensures 0 <= PrevPage(start) <= start && start - PrevPage(start) <= 30
    ensures start <= NextPage(start) <= LastPage && NextPage(start) - start <= 30
    ensures start > 0 ==> DayNav(start)[0] == Button("<", DayData(PrevPage(start)))
    ensures start < LastPage ==> DayNav(start)[2] == Button(">", DayData(NextPage(start)))
    ensures start == 0 ==> DayNav(start)[0] == Blank
    ensures start == LastPage ==> DayNav(start)[2] == Blank
  {
  }

  /** The first day of the page reached from the first page by `k` forward presses. */
  function Page(k: nat): nat
  {
    if k == 0 then 0 else NextPage(Page(k - 1))
  }

  /** `k` forward presses from the first page reach day 30k, or the last page. */
  lemma {:induction false} PageClosed(k: nat)
    ensures Page(k) == if 30 * k < LastPage then 30 * k else LastPage
  {
    if k > 0 {
      PageClosed(k - 1);
    }
  }

  /**
   * Every day count from 0 to 400 is reached from the first page by
   * forward presses, each shown on its page exactly when it makes a valid
   * frequency.
   */
  lemma DayReachable(hours: int, minutes: int, d: nat)
    requires d <= 400
    ensures var k := if d >= 390 then 13 else d / 30;
            (forall i: nat :: i < k ==> DayNav(Page(i))[2] == Button(">", DayData(Page(i + 1))))
            && Page(k) <= d < Page(k) + 30
            && DayAt(hours, minutes, Page(k), d) == if ValidFreq(d, hours, minutes) then Button(Str(d), Str(d)) else Blank
  {
    var k := if d >= 390 then 13 else d / 30;
    forall i: nat | i < k ensures DayNav(Page(i))[2] == Button(">", DayData(Page(i + 1))) {
      PageClosed(i);
      PageClosed(i + 1);
    }
    PageClosed(k);
    DayCell(hours, minutes, Page(k), d);
  }

  /** One value of the minute keyboard carries an option. */
  lemma MinuteCell(days: int, hours: int, start: nat, i: nat, j: nat)
    requires start <= 990 && i < 5 && j < 2
    ensures IsCustomOption(MinuteKeys(days, hours, start)[i][j].data)
  {
    NumberIsOption(start + 2 * i + j);
    ControlIsOption(Ignore);
  }

  /** Every callback of a minute keyboard from 0 to 990 is an option. */
  lemma MinuteKeysCallbacks(days: int, hours: int, start: nat)
    requires start <= 990
    ensures AllData(MinuteKeys(days, hours, start), IsCustomOption)
  {
    var k: Keyboard := MinuteKeys(days, hours, start);
    forall i, j | 0 <= i < |k| && 0 <= j < |k[i]| ensures IsCustomOption(k[i][j].data) {
      MinuteCell(days, hours, start, i, j);
    }
  }

  /** One value of the hour keyboard carries an option. */
  lemma HourCell(days: int, minutes: int, i: nat, j: nat)
    requires i < 4 && j < 6
    ensures IsCustomOption(HourKeys(days, minutes)[i][j].data)
  {
    NumberIsOption(6 * i + j);
    ControlIsOption(Ignore);
  }

  /** Every callback of the hour keyboard is an option. */
  lemma HourKeysCallbacks(days: int, minutes: int)
    ensures AllData(HourKeys(days, minutes), IsCustomOption)
  {
    var k: Keyboard := HourKeys(days, minutes);
    forall i, j | 0 <= i < |k| && 0 <= j < |k[i]| ensures IsCustomOption(k[i][j].data) {
      HourCell(days, minutes, i, j);
    }
  }

  /** One day of a day page carries an option. */
  lemma DayKeysCell(hours: int, minutes: int, start: nat, i: nat, j: nat)
    requires start <= LastPage && i < 6 && j < 5
    ensures IsCustomOption(DayRows(hours, minutes, start)[i][j].data)
  {
    NumberIsOption(start + 5 * i + j);
    ControlIsOption(Ignore);
  }

  /** The paging buttons of a day page carry options. */
  lemma DayNavCallbacks(start: nat)
    requires start <= LastPage
    ensures AllData([DayNav(start)], IsCustomOption)
  {
    ControlIsOption(Ignore);
    var prev, next := PrevPage(start), NextPage(start);
    DayDataFacts(prev);
    DayDataFacts(next);
    var nav := DayNav(start);
    var k: Keyboard := [nav];
    forall i, j | 0 <= i < |k| && 0 <= j < |k[i]| ensures IsCustomOption(k[i][j].data) {
      assert k[i] == nav;
      if j == 0 {
        assert nav[0].data == if start > 0 then DayData(prev) else Ignore;
      } else if j == 1 {
        assert nav[1].data == Ignore;
      } else {
        assert nav[2].data == if start < LastPage then DayData(next) else Ignore;
      }
    }
  }

  /** Every callback of a day page from 0 to 371 is an option. */
  lemma DayKeysCallbacks(hours: int, minutes: int, start: nat)
    requires start <= LastPage
    ensures AllData(DayKeys(hours, minutes, start), IsCustomOption)
  {
    var rows: Keyboard := DayRows(hours, minutes, start);
    forall i, j | 0 <= i < |rows| && 0 <= j < |rows[i]| ensures IsCustomOption(rows[i][j].data) {
      DayKeysCell(hours, minutes, start, i, j);
    }
    DayNavCallbacks(start);
    AllDataConcat(rows, [DayNav(start)], IsCustomOption);
  }

  /** Every callback of the minute group keyboard is an option. */
  lemma MinuteGroupCallbacks()
    ensures AllData(MinuteGroupKeys(), IsCustomOption)
  {
    var k: Keyboard := MinuteGroupKeys();
    forall i, j | 0 <= i < |k| && 0 <= j < |k[i]| ensures IsCustomOption(k[i][j].data) {
      MinuteDataFacts(10 * (2 * i + j));
    }
  }

  /** Every callback of the main keyboard is an option. */
  lemma MainKeysCallbacks(days: int, hours: int, minutes: int)
    ensures AllData(MainKeys(days, hours, minutes), IsCustomOption)
  {
    var k: Keyboard := MainKeys(days, hours, minutes);
    MainDayButton(days, hours, minutes);
    DayDataFacts(0);
    forall i, j | 0 <= i < |k| && 0 <= j < |k[i]| ensures IsCustomOption(k[i][j].data) {
      if i != 1 || j != 0 {
        ControlIsOption(k[i][j].data);
      }
    }
  }

  // ---------------------------------------------------------------------
  // Actions

  /** The text OK sends for a frequency. */
  function FreqText(days: int, hours: int, minutes: int): string
  {
    Str(days) + "d " + Str(hours) + "h " + Str(minutes) + "min"
  }

  /** The reply and the state (days, hours, minutes) after an action. */
  datatype Outcome = Outcome(reply: Response, days: int, hours: int, minutes: int)

  /** A number chosen on a sub-keyboard fills the first pending field, days first; none pending leaves all as is. */
  function Fill(days: int, hours: int, minutes: int, v: int): (r: Outcome)
    ensures days == -1 ==> (r.days, r.hours, r.minutes) == (v, hours, minutes)
    ensures days != -1 && hours == -1 ==> (r.days, r.hours, r.minutes) == (days, v, minutes)
    ensures days != -1 && hours != -1 && minutes == -1 ==> (r.days, r.hours, r.minutes) == (days, hours, v)
    ensures days != -1 && hours != -1 && minutes != -1 <==> r == Outcome(Silent, days, hours, minutes)
    ensures r.reply.Keys? ==> r.reply.keyboard == MainKeys(r.days, r.hours, r.minutes)
  {
    if days == -1 then Outcome(Keys(MainKeys(v, hours, minutes)), v, hours, minutes)
    else if hours == -1 then Outcome(Keys(MainKeys(days, v, minutes)), days, v, minutes)
    else if minutes == -1 then Outcome(Keys(MainKeys(days, hours, v)), days, hours, v)
    else Outcome(Silent, days, hours, minutes)
  }

  /**
   * `perform_action`. An option that is not accepted, and IGNORE, do
   * nothing; CHOOSE_HOUR and CHOOSE_MINUTE mark their field pending and
   * open its keyboard; a day keyboard text marks the days pending and opens
   * that page; a minute keyboard text opens those minutes; OK sends the
   * frequency or the alert; a number fills a pending field.
   */
  function Act(days: int, hours: int, minutes: int, option: string): (r: Outcome)
    ensures !IsCustomOption(option) || option == Ignore ==> r == Outcome(Silent, days, hours, minutes)
    ensures option == ChooseHour ==> r == Outcome(Keys(HourKeys(days, minutes)), days, -1, minutes)
    ensures option == ChooseMinute ==> r == Outcome(Keys(MinuteGroupKeys()), days, hours, -1)
    ensures option == Finalise ==>
              r == Outcome(Message(if ValidFreq(days, hours, minutes) then FreqText(days, hours, minutes) else InvalidMessage),
                           days, hours, minutes)
    ensures r.reply.Message? ==> option == Finalise
  {
    FinaliseNamesNoKeyboard();
    if !IsCustomOption(option) || option == Ignore then Outcome(Silent, days, hours, minutes)
    else if option == ChooseHour then Outcome(Keys(HourKeys(days, minutes)), days, -1, minutes)
    else if option == ChooseMinute then Outcome(Keys(MinuteGroupKeys()), days, hours, -1)
    else if Contains(option, ChooseDay) then
      match IndexOf(option, ' ')
      case None => Outcome(Raised, -1, hours, minutes)
      case Some(i) =>
        match ParseInt(option[i + 1..])
        case None => Outcome(Raised, -1, hours, minutes)
        case Some(start) => Outcome(Keys(DayKeys(hours, minutes, start)), -1, hours, minutes)
    else if Contains(option, ShowMinute) then
      match IndexOf(option, ' ')
      case None => Outcome(Raised, days, hours, minutes)
      case Some(i) =>
        match ParseInt(option[i + 1..])
        case None => Outcome(Raised, days, hours, minutes)
        case Some(start) => Outcome(Keys(MinuteKeys(days, hours, start)), days, hours, minutes)
    else if option == Finalise then
      Outcome(Message(if ValidFreq(days, hours, minutes) then FreqText(days, hours, minutes) else InvalidMessage),
              days, hours, minutes)
    else Fill(days, hours, minutes, ParseInt(option).value)
  }

  /** An accepted option never raises. */
  lemma ActNeverRaises(days: int, hours: int, minutes: int, option: string)
    ensures !Act(days, hours, minutes, option).reply.Raised?
  {
    if Int999(option) {
      IntWithoutLetters(option);
    }
  }

  /** An integer's text contains no name of a keyboard. */
  lemma IntWithoutLetters(s: string)
    requires Int999(s)
    ensures !Contains(s, ChooseDay) && !Contains(s, ShowMinute)
  {
    var t := if s[0] == '-' || s[0] == '+' then s[1..] else s;
    assert AllDigits(t);
    assert 'C' !in s && 'S' !in s by {
      forall i | 0 <= i < |s| ensures s[i] != 'C' && s[i] != 'S' {
        if t != s { assert s[i] == '-' || s[i] == '+' || s[i] == t[i - 1]; }
      }
    }
    NotContainsFirst(s, ChooseDay);
    NotContainsFirst(s, ShowMinute);
  }

  /** OK on a fresh picker (0d 0h 0min) sends the alert. */
  lemma FreshFinaliseInvalid()
    ensures Act(0, 0, 0, Finalise) == Outcome(Message(InvalidMessage), 0, 0, 0)
  {
  }

  /** OK while a field is pending sends the alert. */
  lemma PendingFinaliseInvalid(days: int, hours: int, minutes: int)
    requires days == -1 || hours == -1 || minutes == -1
    ensures Act(days, hours, minutes, Finalise).reply == Message(InvalidMessage)
  {
  }

  /** A number from 0 to 999 fills the first pending field, days, then hours, then minutes. */
  lemma PressNumber(days: int, hours: int, minutes: int, n: nat)
    requires n <= 999
    ensures Act(days, hours, minutes, Str(n)) == Fill(days, hours, minutes, n)
  {
    NumberFacts(n);
  }

  /** Pressing a day keyboard text marks the days pending and opens that page. */
  lemma PressDayPage(days: int, hours: int, minutes: int, n: nat)
    requires n <= 999
    ensures Act(days, hours, minutes, DayData(n)) == Outcome(Keys(DayKeys(hours, minutes, n)), -1, hours, minutes)
  {
    DayDataFacts(n);
    NumberFacts(n);
  }

  /** Pressing a minute group opens its ten minutes and changes nothing. */
  lemma PressMinuteGroup(days: int, hours: int, minutes: int, n: nat)
    requires n <= 999
    ensures Act(days, hours, minutes, MinuteData(n)) == Outcome(Keys(MinuteKeys(days, hours, n)), days, hours, minutes)
  {
    MinuteDataFacts(n);
    NumberFacts(n);
  }

  /**
   * The handler reads a frequency back with `re.findall(r"[0-9]+", ...)`:
   * the text OK sends for a frequency yields its days, hours and minutes.
   */
  lemma FreqTextReadBack(days: nat, hours: nat, minutes: nat)
    ensures DigitRuns(FreqText(days, hours, minutes)) == [Str(days), Str(hours), Str(minutes)]
    ensures ParseInt(Str(days)) == Some(days as int) && ParseInt(Str(hours)) == Some(hours as int)
    ensures ParseInt(Str(minutes)) == Some(minutes as int)
  {
    var d, h, m := Str(days), Str(hours), Str(minutes);
    ParseIntNatToString(days);
    ParseIntNatToString(hours);
    ParseIntNatToString(minutes);
    var tail := m + "min" + "";
    var mid := h + "h " + tail;
    assert FreqText(days, hours, minutes) == d + "d " + mid;
    assert DigitRuns("") == [];
    DigitRunsField(m, "min", "");
    DigitRunsField(h, "h ", tail);
    DigitRunsField(d, "d ", mid);
  }

  /** The sent text is never the alert, so a valid frequency is always told apart from an invalid one. */
  lemma FreqTextNotAlert(days: int, hours: int, minutes: int)
    ensures FreqText(days, hours, minutes) != InvalidMessage
  {
    var s := FreqText(days, hours, minutes);
    assert s[0] == Str(days)[0];
    assert Str(days)[0] == '-' || IsDigit(Str(days)[0]);
  }

  /** `FreqCustomMarkup`: the days, hours and minutes shown, each -1 while pending. */
  class FreqCustom {
    var days: int
    var hours: int
    var minutes: int

    /** `__init__`: 0d 0h 0min. */
    constructor()
      ensures (days, hours, minutes) == (0, 0, 0)
    {
      days, hours, minutes := 0, 0, 0;
    }

    /** `get_markup`. */
    function Markup(): Keyboard
      reads this
    {
      MainKeys(days, hours, minutes)
    }

    /** `perform_action`: the reply, and the fields after it. */
    method PerformAction(option: string) returns (r: Response)
      modifies this
      ensures Outcome(r, days, hours, minutes) == Act(old(days), old(hours), old(minutes), option)
    {
      var o := Act(days, hours, minutes, option);
      r := o.reply;
      days, hours, minutes := o.days, o.hours, o.minutes;
    }
  }
}

=== FILE: grid_label.dfy ===
/**
 * The aria-label format of grid questions, "<option>, response for <row>",
 * and the regular expression `^([\w|\s]+)(, response for )([\w|\s]+)$`
 * that recognises it.
 *
 * The character class `[\w|\s]` holds word characters, '|' and whitespace
 * but not ',', so a matching label holds exactly one ',' -- the first
 * character of the delimiter -- and splits into one option (column) part
 * and one sub-question (row) part.
 */
module GridLabels {
  import opened Common
  import opened Text
  import opened Seqs

  const Delimiter: string := ", response for "

  /** A character of the class `[\w|\s]`. */
  predicate ClassChar(c: char)
  {
    IsWordChar(c) || c == '|' || IsSpace(c)
  }

  /** A non-empty run of class characters, `[\w|\s]+`. */
  predicate ClassRun(s: string)
  {
    0 < |s| && forall i :: 0 <= i < |s| ==> ClassChar(s[i])
  }

  /** The label of the cell in column `option` and row `sub`. */
  function Format(option: string, sub: string): string
  {
    option + Delimiter + sub
  }

  /** The regular-expression match: the option and row groups, if the label matches. */
  function Parse(aria: string): (r: Option<(string, string)>)
  {
    match IndexOf(aria, ',')
    case None => None
    case Some(k) =>
      if ClassRun(aria[..k]) && Delimiter <= aria[k..] && ClassRun(aria[k + |Delimiter|..])
      then Some((aria[..k], aria[k + |Delimiter|..]))
      else None
  }

  predicate IsGridLabel(aria: string)
  {
    Parse(aria).Some?
  }

  /** Formatting a cell from class-character runs gives a label that parses back to them. */
  lemma ParseFormat(option: string, sub: string)
    requires ClassRun(option) && ClassRun(sub)
    ensures Parse(Format(option, sub)) == Some((option, sub))
  {
    var aria := Format(option, sub);
    var k := |option|;
    assert aria[k] == ',';
    assert ',' !in option;
    var i := IndexOf(aria, ',');
    assert i.Some?;
    assert i.value == k;
    assert aria[..k] == option;
    assert aria[k..] == Delimiter + sub;
    assert aria[k + |Delimiter|..] == sub;
  }

  /** Every label that parses is the formatted cell of its two groups. */
  lemma FormatParse(aria: string)
    requires IsGridLabel(aria)
    ensures ClassRun(Parse(aria).value.0) && ClassRun(Parse(aria).value.1)
    ensures aria == Format(Parse(aria).value.0, Parse(aria).value.1)
  {
    var k := IndexOf(aria, ',').value;
    assert aria == aria[..k] + aria[k..k + |Delimiter|] + aria[k + |Delimiter|..];
  }

  /**
   * `is_grid_option`: every label is a grid label. With no labels at all
   * it holds as well.
   */
  predicate AllGrid(arias: seq<string>)
  {
    forall i :: 0 <= i < |arias| ==> IsGridLabel(arias[i])
  }

  /** The option (column) part of every label, in order, duplicates included. */
  function OptionParts(arias: seq<string>): (r: seq<string>)
    requires AllGrid(arias)
    ensures |r| == |arias|
    ensures forall i :: 0 <= i < |arias| ==> r[i] == Parse(arias[i]).value.0
  {
    if |arias| == 0 then []
    else
      [Parse(arias[0]).value.0] + OptionParts(arias[1..])
  }

  /** The sub-question (row) part of every label, in order, duplicates included. */
  function RowParts(arias: seq<string>): (r: seq<string>)
    requires AllGrid(arias)
    ensures |r| == |arias|
    ensures forall i :: 0 <= i < |arias| ==> r[i] == Parse(arias[i]).value.1
  {
    if |arias| == 0 then []
    else
      [Parse(arias[0]).value.1] + RowParts(arias[1..])
  }

  /** The grid's columns: option parts, first occurrences only. */
  function Columns(arias: seq<string>): seq<string>
    requires AllGrid(arias)
  {
    Dedupe(OptionParts(arias))
  }

  /** The grid's rows: sub-question parts, first occurrences only. */
  function Rows(arias: seq<string>): seq<string>
    requires AllGrid(arias)
  {
    Dedupe(RowParts(arias))
  }

  /** Every label of a grid names one of its columns and one of its rows. */
  lemma LabelsInGrid(arias: seq<string>, i: nat)
    requires AllGrid(arias) && i < |arias|
    ensures Parse(arias[i]).value.0 in Columns(arias)
    ensures Parse(arias[i]).value.1 in Rows(arias)
  {
    var o, r := OptionParts(arias), RowParts(arias);
    assert o[i] in o;
    assert r[i] in r;
  }
}

=== FILE: legacy_browser.dfy ===
/**
 * The earlier browser wrapper. Its retry policy is the same as the current
 * one (counter from 1, equality bound, wait times 1.5), but its monitoring
 * decorator recovers by calling `retry_browser`, a name no class of the
 * program defines: the class only has `_retry_browser`. The first driver
 * exception inside a monitored call therefore surfaces as an
 * `AttributeError` instead of a retry.
 */
module LegacyBrowser {
  import opened Common
  import B = Browser

  const NumMaxRetries: int := 5
  const TimeoutSeconds: real := 8.0
  /** The pause the program allows between user-like actions (`get_action_buffer`). */
  const ActionBufferSeconds: nat := 1

  /** What a monitored call ends with: a value, or the `AttributeError` of the missing method. */
  datatype Guarded<R> = Value(value: Option<R>) | AttributeError

  /**
   * The decorator as written: one try; a returned value passes through,
   * and a driver exception leads to the lookup of the missing method.
   */
  function MonitorAsWritten<R>(attempt: nat -> B.Attempt<R>): (g: Guarded<R>)
    ensures g.AttributeError? <==> attempt(0).Raised?
    ensures g.Value? ==> g.value == Some(attempt(0).value)
  {
    match attempt(0)
    case Returned(v) => Value(Some(v))
    case Raised => AttributeError
  }

  /**
   * As written, no retry ever happens: a call whose first try fails raises
   * even when a later try would have returned and retries are available.
   */
  lemma MonitorAsWrittenNeverRetries(v: int)
    ensures var attempt := (i: nat) => if i == 0 then B.Raised else B.Returned(v);
            MonitorAsWritten(attempt) == AttributeError
            && B.MonitorOutcome(attempt, 0, NumMaxRetries - 1) == (Some(v), 1)
  {
  }

  class Browser {
    const maxRetries: int
    const initialTimeout: real
    var counter: int
    var timeout: real
    var open: bool
    var sleeps: seq<real>

    ghost predicate Valid()
      reads this
    {
      1 <= counter
      && timeout == B.Wait(initialTimeout, counter - 1)
      && sleeps == B.Backoff(initialTimeout, counter - 1)
    }

    constructor(maxRetries: int := NumMaxRetries, timeout: real := TimeoutSeconds)
      ensures this.maxRetries == maxRetries && initialTimeout == timeout
      ensures counter == 1 && this.timeout == timeout && open && sleeps == []
      ensures Valid()
    {
      this.maxRetries := maxRetries;
      initialTimeout := timeout;
      counter := 1;
      this.timeout := timeout;
      open := true;
      sleeps := [];
    }

    /** Closes the browser if one is open; otherwise only a warning is logged. */
    method Close()
      modifies this
      ensures !open
      ensures counter == old(counter) && timeout == old(timeout) && sleeps == old(sleeps)
    {
      if open {
        open := false;
      }
    }

    /** `_retry_browser`: close, then refuse at the bound or wait, grow, count and reopen. */
    method Retry() returns (ok: bool)
      requires Valid()
      modifies this
      ensures Valid()
      ensures ok <==> old(counter) != maxRetries
      ensures ok ==> counter == old(counter) + 1 && open
                     && timeout == old(timeout) * B.Growth
                     && sleeps == old(sleeps) + [old(timeout)]
      ensures !ok ==> counter == old(counter) && !open
                      && timeout == old(timeout) && sleeps == old(sleeps)
    {
      Close();
      if counter == maxRetries {
        return false;
      }
      ghost var k: nat := counter - 1;
      sleeps := sleeps + [timeout];
      assert sleeps == B.Backoff(initialTimeout, k + 1);
      timeout := timeout * B.Growth;
      assert timeout == B.Wait(initialTimeout, k + 1);
      counter := counter + 1;
      open := true;
      return true;
    }

    /** The decorator as evidently intended: recover through `_retry_browser`. */
    method Monitor<R>(attempt: nat -> B.Attempt<R>) returns (result: Option<R>)
      requires Valid() && counter <= maxRetries
      modifies this
      ensures Valid() && old(counter) <= counter <= maxRetries
      ensures (result, counter - old(counter)) == B.MonitorOutcome(attempt, 0, maxRetries - old(counter))
      ensures result.None? ==> counter == maxRetries && !open
    {
      result := None;
      var i: nat := 0;
      while true
        invariant Valid() && old(counter) <= counter <= maxRetries
        invariant i == counter - old(counter)
        invariant var (r, n) := B.MonitorOutcome(attempt, i, maxRetries - counter);
                  B.MonitorOutcome(attempt, 0, maxRetries - old(counter)) == (r, n + i)
        decreases maxRetries - counter
      {
        match attempt(i)
        case Returned(v) =>
          return Some(v);
        case Raised =>
          var ok := Retry();
          if !ok {
            return None;
          }
          i := i + 1;
      }
    }
  }
}

=== FILE: legacy_date_question.dfy ===
/**
 * Date questions of the earlier program. A picker answer is a date in the
 * input format "%Y %m %d" (where each space reads a run of whitespace), no later than 2071-01-01, and is typed in the
 * answer format "%d%m%Y"; a split answer is a month and a day checked
 * against the calendar of the leap year 2020 and typed as given.
 */
module LegacyDateQuestions {
  import opened Common
  import opened Text
  import opened Dates
  import opened LegacyQuestionBase
  import D = DateQuestions
  import LB = LegacyBrowser

  /** The year whose calendar bounds a split answer's day: 2020, a leap year. */
  const CheckYear: int := 2020

  /** The inputs `get_info` chooses: the first date input, else the first month and day inputs. */
  function Layout(page: LegacyPage, q: Elem): Option<D.DateInputs>
  {
    if |page.datePickers(q)| > 0 then Some(D.Picker(page.datePickers(q)[0]))
    else if |page.monthInputs(q)| > 0 && |page.dayInputs(q)| > 0 then
      Some(D.MonthDay(page.monthInputs(q)[0], page.dayInputs(q)[0]))
    else None
  }

  /**
   * `get_info`: the base metadata, then the inputs; `None` when the
   * question shows neither layout. Its reply, and the metadata and inputs
   * it leaves.
   */
  function Info(page: LegacyPage, open: bool, e: Elem, meta: Metadata, inputs: Option<D.DateInputs>)
    : (r: (Reply, Metadata, Option<D.DateInputs>))
    ensures r.0 == Done(True) ==> r.2.Some?
    ensures r.0 != Done(True) ==> r.2 == inputs
    ensures r.0 == Crash || r.0 == Done(False) ==> r.1 == meta
  {
    var s := BaseInfo(page, open, e);
    if !s.Ok? then (StepReply(s), meta, inputs)
    else match Layout(page, e)
      case None => (Done(Nothing), s.value, inputs)
      case Some(l) => (Done(True), s.value, Some(l))
  }

  /** Python truthiness of an optional string argument. */
  predicate Given(s: Option<string>)
  {
    s.Some? && |s.value| > 0
  }

  /**
   * The text a picker answer types: the date, read against "%Y %m %d" (a
   * run of whitespace for each space), re-encoded "%d%m%Y", or nothing
   * when it is not an answer.
   */
  function PickerText(date: string): (r: Option<string>)
    ensures r.Some? ==> ParseYmdSpaced(date).Some?
                        && NotAfter(ParseYmdSpaced(date).value, D.Latest)
                        && r.value == FormatDmy(ParseYmdSpaced(date).value)
  {
    match ParseYmdSpaced(date)
    case None => None
    case Some(d) => if NotAfter(d, D.Latest) then Some(FormatDmy(d)) else None
  }

  /**
   * A date written in the input format, with any runs of whitespace between
   * its fields, is typed in the answer format exactly when it is not after
   * 2071-01-01.
   */
  lemma PickerTextFormat(d: Date, gap1: string, gap2: string)
    requires ValidDate(d) && 1000 <= d.year
    requires 0 < |gap1| && AllSpaces(gap1) && 0 < |gap2| && AllSpaces(gap2)
    ensures PickerText(NatToString(d.year) + gap1 + Pad2(d.month) + gap2 + Pad2(d.day))
            == if NotAfter(d, D.Latest) then Some(FormatDmy(d)) else None
  {
    ParseYmdSpacedRuns(d, gap1, gap2);
  }

  /** A split answer: integers, a month in 1..12 and a day within that month of 2020. */
  predicate MonthDayValid(month: string, day: string)
  {
    match (ParseInt(month), ParseInt(day))
    case (Some(m), Some(d)) => 1 <= m <= 12 && 1 <= d <= DaysInMonth(CheckYear, m)
    case _ => false
  }

  /** For numbers written out, the split check is exactly the 2020 calendar. */
  lemma MonthDayValidNumbers(m: nat, d: nat)
    ensures MonthDayValid(NatToString(m), NatToString(d)) <==> 1 <= m <= 12 && 1 <= d <= DaysInMonth(CheckYear, m)
  {
    ParseIntNatToString(m);
    ParseIntNatToString(d);
  }

  /** The 29th of February is accepted, the 30th is not, and neither is a thirteenth month. */
  lemma MonthDayLeapDay()
    ensures MonthDayValid("2", "29")
    ensures !MonthDayValid("2", "30")
    ensures !MonthDayValid("13", "1")
  {
    assert NatToString(29) == "29" by { assert NatToString(29) == NatToString(2) + [DigitChar(9)]; }
    assert NatToString(30) == "30" by { assert NatToString(30) == NatToString(3) + [DigitChar(0)]; }
    assert NatToString(13) == "13" by { assert NatToString(13) == NatToString(1) + [DigitChar(3)]; }
    MonthDayValidNumbers(2, 29);
    MonthDayValidNumbers(2, 30);
    MonthDayValidNumbers(13, 1);
  }

  /**
   * The input checks and the typing of `answer` once the inputs are
   * known: no usable argument, or one that does not fit the layout, gives
   * `None`; an argument that fails its check gives `False`.
   */
  function Submit(inputs: D.DateInputs, date: Option<string>, month: Option<string>, day: Option<string>)
    : (r: (Tri, seq<Action>))
    ensures r.0 != True ==> r.1 == []
  {
    if !(Given(date) || (Given(month) && Given(day))) then (Nothing, [])
    else match inputs
      case Picker(p) =>
        if !Given(date) then (Nothing, [])
        else if PickerText(date.value).None? then (False, [])
        else (True, [Click(p), Type(p, PickerText(date.value).value)])
      case MonthDay(mm, dd) =>
        if !(Given(month) && Given(day)) then (Nothing, [])
        else if !MonthDayValid(month.value, day.value) then (False, [])
        else (True, [Click(mm), Type(mm, month.value), Click(dd), Type(dd, day.value)])
  }

  /**
   * A picker is answered only with a date, which is typed re-encoded; the
   * split layout only with a month and a day, typed as given, month first.
   */
  lemma SubmitMeaning(inputs: D.DateInputs, date: Option<string>, month: Option<string>, day: Option<string>)
    ensures var (t, acts) := Submit(inputs, date, month, day);
            (inputs.Picker? ==>
               (t == Nothing <==> !Given(date))
               && (t == True <==> Given(date) && PickerText(date.value).Some?)
               && (t == True ==> acts == [Click(inputs.picker), Type(inputs.picker, PickerText(date.value).value)]))
            && (inputs.MonthDay? ==>
                  (t == Nothing <==> !(Given(month) && Given(day)))
                  && (t == True <==> Given(month) && Given(day) && MonthDayValid(month.value, day.value))
                  && (t == True ==> acts == [Click(inputs.month), Type(inputs.month, month.value),
                                             Click(inputs.day), Type(inputs.day, day.value)]))
  {
  }

  /**
   * `answer`: cached inputs are checked (as written, or as intended), unset
   * or stale ones re-run `get_info` and a falsy result is returned; then
   * the arguments are checked and typed.
   */
  function DateAnswer(page: LegacyPage, open: bool, e: Elem, meta: Metadata, inputs: Option<D.DateInputs>,
                      date: Option<string>, month: Option<string>, day: Option<string>, asWritten: bool)
    : Answered<D.DateInputs>
  {
    var check := if inputs.None? then Done(False) else Check(asWritten, open, page.stale, D.InputElements(inputs.value));
    if check == Crash then Answered(Crash, meta, [], inputs)
    else
      var (res, m, ins) := if check == Done(True) then (Done(True), meta, inputs) else Info(page, open, e, meta, inputs);
      if res != Done(True) then Answered(res, m, [], ins)
      else
        var (t, acts) := Submit(ins.value, date, month, day);
        Answered(Done(t), m, acts, ins)
  }

  /**
   * As written, an answer to a question whose month and day inputs are
   * cached always raises, whatever the arguments; checked as intended, live
   * inputs go straight to the argument checks.
   */
  lemma CachedMonthDayRaises(page: LegacyPage, open: bool, e: Elem, meta: Metadata, m: Elem, d: Elem,
                             date: Option<string>, month: Option<string>, day: Option<string>)
    ensures DateAnswer(page, open, e, meta, Some(D.MonthDay(m, d)), date, month, day, true).result == Crash
    ensures open && m !in page.stale && d !in page.stale ==>
              var a := DateAnswer(page, open, e, meta, Some(D.MonthDay(m, d)), date, month, day, false);
              a.result == Done(Submit(D.MonthDay(m, d), date, month, day).0) && a.meta == meta
  {
  }

  class LegacyDateQuestion {
    const base: LegacyQuestion
    /** `_ANSWER_ELEMENTS`: the picker, or the month and day inputs. */
    var inputs: Option<D.DateInputs>

    /** The initial values `__init__` gives before it calls `get_info`. */
    constructor(element: Elem, browser: LB.Browser, page: LegacyPage)
      ensures fresh(base) && base.element == element && base.browser == browser && base.page == page
      ensures base.Meta() == Metadata("", "", false) && base.trace == [] && inputs == None
    {
      base := new LegacyQuestion(element, browser, page);
      inputs := None;
    }

    /**
     * Creating the question: the initial values, then `get_info`. When
     * `get_info` raises, so does `__init__`, and there is no question.
     */
    static method Create(element: Elem, browser: LB.Browser, page: LegacyPage) returns (q: LegacyDateQuestion?)
      ensures var (r, m, ins) := Info(page, browser.open, element, Metadata("", "", false), None);
              (q == null <==> r == Crash)
              && (q != null ==> fresh(q) && fresh(q.base) && q.base.element == element && q.base.browser == browser
                                && q.base.page == page && q.base.Meta() == m && q.inputs == ins && q.base.trace == [])
    {
      q := new LegacyDateQuestion(element, browser, page);
      var r := q.GetInfo();
      if r == Crash {
        q := null;
      }
    }

    /** `get_info`: the base metadata, then the picker or else the month and day inputs. */
    method GetInfo() returns (r: Reply)
      modifies this, base
      ensures base.element == old(base.element) && base.trace == old(base.trace)
      ensures (r, base.Meta(), inputs) == Info(base.page, base.browser.open, base.element, old(base.Meta()), old(inputs))
    {
      r := base.GetInfo();
      if r != Done(True) {
        return;
      }
      var q := base.element;
      var pickers := base.page.datePickers(q);
      var months := base.page.monthInputs(q);
      var days := base.page.dayInputs(q);
      if |pickers| > 0 {
        inputs := Some(D.Picker(pickers[0]));
      } else if |months| > 0 && |days| > 0 {
        inputs := Some(D.MonthDay(months[0], days[0]));
      } else {
        r := Done(Nothing);
      }
    }

    /** `answer`, with every cached input checked. */
    method Answer(date: Option<string>, month: Option<string>, day: Option<string>) returns (r: Reply)
      modifies this, base
      ensures base.element == old(base.element)
      ensures var a := DateAnswer(base.page, base.browser.open, base.element, old(base.Meta()), old(inputs),
                                  date, month, day, false);
              r == a.result && base.Meta() == a.meta && inputs == a.after && base.trace == old(base.trace) + a.actions
    {
      var check := if inputs.None? then Done(False)
                   else AllValid(base.browser.open, base.page.stale, D.InputElements(inputs.value));
      if check == Crash {
        return Crash;
      }
      if check != Done(True) {
        r := GetInfo();
        if r != Done(True) {
          return;
        }
      }
      var (t, acts) := Submit(inputs.value, date, month, day);
      base.trace := base.trace + acts;
      return Done(t);
    }
  }
}

=== FILE: legacy_dropdown_question.dfy ===
/**
 * Drop-down questions of the earlier program. `get_info` opens the menu,
 * reads the options from every entry after the placeholder entry and
 * closes the menu again; `answer` accepts only a stored option, opens the
 * menu and clicks the first entry after the placeholder that shows it.
 *
 * questions/base.py defines no `BaseOptionQuestion`, which the drop-down
 * module imports; the option store here is the one the module evidently
 * expects: `_set_options` stores the options it is given, in order, and
 * `_is_option` is membership.
 */
module LegacyDropdownQuestions {
  import opened Common
  import opened LegacyQuestionBase
  import QB = QuestionBase
  import LB = LegacyBrowser

  /** `_BUFFER_SECONDS`: the pause after each click on the menu. */
  const BufferSeconds: real := 1.0

  /** `_ANSWER_ELEMENTS`: the placeholder and the menu. */
  datatype MenuInputs = MenuInputs(placeholder: Elem, menu: Elem)

  /** What a call ends with and leaves: reply, metadata, inputs, options and the actions performed. */
  datatype Scraped = Scraped(result: Reply, meta: Metadata, inputs: Option<MenuInputs>,
                             options: Option<seq<string>>, actions: seq<Action>)

  /** The texts of the entries, blanks removed, in order. */
  function NonBlankTexts(entries: seq<Elem>, text: Elem -> string): (r: seq<string>)
    ensures |r| <= |entries|
    ensures forall k :: 0 <= k < |r| ==> r[k] != ""
    ensures forall i :: 0 <= i < |entries| && text(entries[i]) != "" ==> text(entries[i]) in r
    ensures forall k :: 0 <= k < |r| ==> exists i :: 0 <= i < |entries| && text(entries[i]) == r[k]
  {
    if |entries| == 0 then []
    else
      var rest := NonBlankTexts(entries[1..], text);
      var r := if text(entries[0]) == "" then rest else [text(entries[0])] + rest;
      assert forall k :: 0 <= k < |rest| ==> exists i :: 0 <= i < |entries| && text(entries[i]) == rest[k] by {
        forall k | 0 <= k < |rest|
          ensures exists i :: 0 <= i < |entries| && text(entries[i]) == rest[k]
        {
          var j :| 0 <= j < |entries[1..]| && text(entries[1..][j]) == rest[k];
          assert text(entries[j + 1]) == rest[k];
        }
      }
      assert forall i :: 1 <= i < |entries| ==> entries[i] == entries[1..][i - 1];
      r
  }

  /** The entries after the placeholder entry (Python `menu_elements[1:]`). */
  function AfterPlaceholder(entries: seq<Elem>): seq<Elem>
  {
    if |entries| == 0 then [] else entries[1..]
  }

  /**
   * `get_info`: the base metadata; then the placeholder is clicked to open
   * the menu, the options are read and stored with the inputs, and the
   * placeholder entry is clicked to close the menu. A missing placeholder
   * or menu raises, and so does an empty menu, after the options are stored.
   */
  function Info(page: LegacyPage, open: bool, e: Elem, meta: Metadata, inputs: Option<MenuInputs>,
                options: Option<seq<string>>)
    : (r: Scraped)
    ensures r.result != Crash ==> r.result == Done(False) || r.result == Done(True)
    ensures r.result == Done(True) ==>
              page.placeholder(e).Some? && page.menu(e).Some?
              && r.inputs.Some? && r.inputs.value.placeholder == page.placeholder(e).value
              && r.inputs.value.menu == page.menu(e).value
              && r.options == Some(NonBlankTexts(AfterPlaceholder(page.entries(r.inputs.value.menu)), page.text))
    ensures r.result == Done(False) ==> r.meta == meta && r.inputs == inputs && r.options == options && r.actions == []
  {
    var s := BaseInfo(page, open, e);
    if !s.Ok? then Scraped(StepReply(s), meta, inputs, options, [])
    else if page.placeholder(e).None? then Scraped(Crash, s.value, inputs, options, [])
    else
      var p := page.placeholder(e).value;
      var menuOpen := [Click(p), Sleep(BufferSeconds)];
      if page.menu(e).None? then Scraped(Crash, s.value, inputs, options, menuOpen)
      else
        var mn := page.menu(e).value;
        var es := page.entries(mn);
        var ins := Some(MenuInputs(p, mn));
        var opts := Some(NonBlankTexts(AfterPlaceholder(es), page.text));
        if |es| == 0 then Scraped(Crash, s.value, ins, opts, menuOpen)
        else Scraped(Done(True), s.value, ins, opts, menuOpen + [Click(es[0]), Sleep(BufferSeconds)])
  }

  /** `_is_option`: the text is among the stored options. */
  predicate IsOption(text: string, options: Option<seq<string>>)
  {
    options.Some? && text in options.value
  }

  /** The options `get_info` stores are the non-blank texts of the entries after the placeholder. */
  lemma InfoOptions(page: LegacyPage, open: bool, e: Elem, meta: Metadata, inputs: Option<MenuInputs>,
                    options: Option<seq<string>>, text: string)
    requires Info(page, open, e, meta, inputs, options).result == Done(True)
    ensures var r := Info(page, open, e, meta, inputs, options);
            var es := page.entries(r.inputs.value.menu);
            IsOption(text, r.options) <==> text != "" && exists i :: 1 <= i < |es| && page.text(es[i]) == text
  {
    var r := Info(page, open, e, meta, inputs, options);
    var es := page.entries(r.inputs.value.menu);
    var after := AfterPlaceholder(es);
    assert forall i :: 1 <= i < |es| ==> es[i] == after[i - 1];
    if IsOption(text, r.options) {
      var k :| 0 <= k < |r.options.value| && r.options.value[k] == text;
      var j :| 0 <= j < |after| && page.text(after[j]) == text;
      assert page.text(es[j + 1]) == text;
    }
  }

  /**
   * The first part of `answer`: a question element no longer found gives
   * `False`; cached inputs are checked (as written, or as intended), and
   * unset or stale ones re-run `get_info`.
   */
  function Refreshed(page: LegacyPage, open: bool, e: Elem, meta: Metadata, inputs: Option<MenuInputs>,
                     options: Option<seq<string>>, asWritten: bool)
    : (r: Scraped)
    ensures r.result == Done(True) ==> r.inputs.Some?
  {
    var v := IsValid(open, page.stale, e);
    if v != Done(True) then Scraped(if v == Crash then Crash else Done(False), meta, inputs, options, [])
    else
      var check := if inputs.None? then Done(False)
                   else Check(asWritten, open, page.stale, [inputs.value.placeholder, inputs.value.menu]);
      if check == Crash then Scraped(Crash, meta, inputs, options, [])
      else if check == Done(True) then Scraped(Done(True), meta, inputs, options, [])
      else Info(page, open, e, meta, inputs, options)
  }

  /**
   * The rest of `answer`, after a successful refresh: a text that is not
   * an option gives `False` before the menu is opened; otherwise the menu
   * is opened and the first entry after the placeholder showing the text
   * is clicked. When no entry shows it any more, the sanity assertion
   * raises.
   */
  function Pick(page: LegacyPage, s: Scraped, text: string): Scraped
    requires s.result == Done(True) ==> s.inputs.Some?
  {
    if s.result != Done(True) then s
    else if !IsOption(text, s.options) then Scraped(Done(False), s.meta, s.inputs, s.options, s.actions)
    else
      var i := s.inputs.value;
      var menuOpen := s.actions + [Click(i.placeholder), Sleep(BufferSeconds)];
      match QB.FirstWhere(AfterPlaceholder(page.entries(i.menu)), page.text, text)
      case None => Scraped(Crash, s.meta, s.inputs, s.options, menuOpen)
      case Some(x) => Scraped(Done(True), s.meta, s.inputs, s.options, menuOpen + [Click(x), Sleep(BufferSeconds)])
  }

  /** `answer`: the refresh, then the choice; a falsy refresh result is returned as it is. */
  function DropdownAnswer(page: LegacyPage, open: bool, e: Elem, meta: Metadata, inputs: Option<MenuInputs>,
                          options: Option<seq<string>>, text: string, asWritten: bool)
    : Scraped
  {
    Pick(page, Refreshed(page, open, e, meta, inputs, options, asWritten), text)
  }

  /**
   * A successful answer ends by opening the menu and clicking an entry
   * after the placeholder that shows the text, which is a stored option;
   * a text that is not an option is never clicked.
   */
  lemma AnswerClicksOption(page: LegacyPage, open: bool, e: Elem, meta: Metadata, inputs: Option<MenuInputs>,
                           options: Option<seq<string>>, text: string)
    ensures var a := DropdownAnswer(page, open, e, meta, inputs, options, text, false);
            a.result == Done(True) ==>
              IsOption(text, a.options) && a.inputs.Some? && |a.actions| >= 4
              && a.actions[|a.actions| - 4..|a.actions| - 2] == [Click(a.inputs.value.placeholder), Sleep(BufferSeconds)]
              && var x := a.actions[|a.actions| - 2];
                 x.Click? && x.target in AfterPlaceholder(page.entries(a.inputs.value.menu))
                 && page.text(x.target) == text
                 && a.actions[|a.actions| - 1] == Sleep(BufferSeconds)
  {
    var a := DropdownAnswer(page, open, e, meta, inputs, options, text, false);
    if a.result == Done(True) {
      var n := |a.actions|;
      assert a.actions[n - 4..n - 2] == [a.actions[n - 4], a.actions[n - 3]];
    }
  }

  /** With live cached inputs and a text that is not an option, the answer is `False` and nothing is clicked. */
  lemma NotOptionNoClick(page: LegacyPage, open: bool, e: Elem, meta: Metadata, i: MenuInputs,
                         options: Option<seq<string>>, text: string)
    requires open && e !in page.stale && i.placeholder !in page.stale && i.menu !in page.stale
    requires !IsOption(text, options)
    ensures DropdownAnswer(page, open, e, meta, Some(i), options, text, false) == Scraped(Done(False), meta, Some(i), options, [])
  {
  }

  /** As written, an answer with cached inputs on a live question always raises. */
  lemma CachedInputsRaise(page: LegacyPage, open: bool, e: Elem, meta: Metadata, i: MenuInputs,
                          options: Option<seq<string>>, text: string)
    requires open && e !in page.stale
    ensures DropdownAnswer(page, open, e, meta, Some(i), options, text, true).result == Crash
  {
  }

  class LegacyDropdownQuestion {
    const base: LegacyQuestion
    var inputs: Option<MenuInputs>
    /** `_OPTIONS`. */
    var options: Option<seq<string>>

    /** The initial values `__init__` gives before it calls `get_info`. */
    constructor(element: Elem, browser: LB.Browser, page: LegacyPage)
      ensures fresh(base) && base.element == element && base.browser == browser && base.page == page
      ensures base.Meta() == Metadata("", "", false) && base.trace == [] && inputs == None && options == None
    {
      base := new LegacyQuestion(element, browser, page);
      inputs := None;
      options := None;
    }

    /**
     * Creating the question: the initial values, then `get_info`. When
     * `get_info` raises, so does `__init__`, and there is no question.
     */
    static method Create(element: Elem, browser: LB.Browser, page: LegacyPage) returns (q: LegacyDropdownQuestion?)
      ensures var s := Info(page, browser.open, element, Metadata("", "", false), None, None);
              (q == null <==> s.result == Crash)
              && (q != null ==> fresh(q) && fresh(q.base) && q.base.element == element && q.base.browser == browser
                                && q.base.page == page && q.base.Meta() == s.meta && q.inputs == s.inputs
                                && q.options == s.options && q.base.trace == s.actions)
    {
      q := new LegacyDropdownQuestion(element, browser, page);
      var r := q.GetInfo();
      if r == Crash {
        q := null;
      }
    }

    /** `get_info`: the base metadata, then the options read from the menuOpen menu. */
    method GetInfo() returns (r: Reply)
      modifies this, base
      ensures base.element == old(base.element)
      ensures var s := Info(base.page, base.browser.open, base.element, old(base.Meta()), old(inputs), old(options));
              r == s.result && base.Meta() == s.meta && inputs == s.inputs && options == s.options
              && base.trace == old(base.trace) + s.actions
    {
      r := base.GetInfo();
      if r != Done(True) {
        return;
      }
      var q := base.element;
      if base.page.placeholder(q).None? {
        return Crash;
      }
      var p := base.page.placeholder(q).value;
      base.trace := base.trace + [Click(p), Sleep(BufferSeconds)];
      if base.page.menu(q).None? {
        return Crash;
      }
      var mn := base.page.menu(q).value;
      var es := base.page.entries(mn);
      inputs := Some(MenuInputs(p, mn));
      options := Some(NonBlankTexts(AfterPlaceholder(es), base.page.text));
      if |es| == 0 {
        return Crash;
      }
      base.trace := base.trace + [Click(es[0]), Sleep(BufferSeconds)];
    }

    /** The first part of `answer`: check the question and the cached inputs, refreshing them if needed. */
    method Refresh() returns (r: Reply)
      modifies this, base
      ensures base.element == old(base.element)
      ensures var s := Refreshed(base.page, base.browser.open, base.element, old(base.Meta()), old(inputs),
                                 old(options), false);
              r == s.result && base.Meta() == s.meta && inputs == s.inputs && options == s.options
              && base.trace == old(base.trace) + s.actions
    {
      var v := IsValid(base.browser.open, base.page.stale, base.element);
      if v != Done(True) {
        return if v == Crash then Crash else Done(False);
      }
      var check := if inputs.None? then Done(False)
                   else AllValid(base.browser.open, base.page.stale, [inputs.value.placeholder, inputs.value.menu]);
      if check != Done(False) {
        return check;
      }
      r := GetInfo();
    }

    /** `answer`, with both cached inputs checked. */
    method Answer(text: string) returns (r: Reply)
      modifies this, base
      ensures base.element == old(base.element)
      ensures var a := DropdownAnswer(base.page, base.browser.open, base.element, old(base.Meta()), old(inputs),
                                      old(options), text, false);
              r == a.result && base.Meta() == a.meta && inputs == a.inputs && options == a.options
              && base.trace == old(base.trace) + a.actions
    {
      ghost var trace0 := base.trace;
      r := Refresh();
      if r != Done(True) {
        return;
      }
      ghost var acts := base.trace[|trace0|..];
      assert base.trace == trace0 + acts;
      if !IsOption(text, options) {
        return Done(False);
      }
      var i := inputs.value;
      base.trace := base.trace + [Click(i.placeholder), Sleep(BufferSeconds)];
      var x := QB.FirstWhere(AfterPlaceholder(base.page.entries(i.menu)), base.page.text, text);
      if x.None? {
        return Crash;
      }
      base.trace := base.trace + [Click(x.value), Sleep(BufferSeconds)];
      return Done(True);
    }
  }
}

=== FILE: legacy_duration_question.dfy ===
/**
 * Duration questions of the earlier program: an hour, a minute and a
 * second input found by their exact labels. An answer gives the three as
 * integers, at most 72 hours and at most 59 minutes and seconds; each
 * input receives its part as given.
 */
module LegacyDurationQuestions {
  import opened Common
  import opened Text
  import opened LegacyQuestionBase
  import LB = LegacyBrowser

  const HourLabel: string := "Hours"
  const MinuteLabel: string := "Minutes"
  const SecondLabel: string := "Seconds"
  /** The most hours a duration may give. */
  const MaxHours: int := 72

  datatype Inputs = Inputs(hour: Elem, minute: Elem, second: Elem)

  function InputElements(i: Inputs): seq<Elem>
  {
    [i.hour, i.minute, i.second]
  }

  /**
   * `get_info`: the base metadata, then the three labelled inputs; a
   * missing one raises, after the metadata is stored.
   */
  function Info(page: LegacyPage, open: bool, e: Elem, meta: Metadata, inputs: Option<Inputs>)
    : (r: (Reply, Metadata, Option<Inputs>))
    ensures r.0 != Crash ==> r.0 == Done(False) || r.0 == Done(True)
    ensures r.0 == Done(True) <==> BaseInfo(page, open, e).Ok? && page.labelled(e, HourLabel).Some?
                                   && page.labelled(e, MinuteLabel).Some? && page.labelled(e, SecondLabel).Some?
    ensures r.0 == Done(True) ==> r.2 == Some(Inputs(page.labelled(e, HourLabel).value,
                                     page.labelled(e, MinuteLabel).value, page.labelled(e, SecondLabel).value))
    ensures r.0 != Done(True) ==> r.2 == inputs
  {
    var s := BaseInfo(page, open, e);
    if !s.Ok? then (StepReply(s), meta, inputs)
    else
      var h, m, sec := page.labelled(e, HourLabel), page.labelled(e, MinuteLabel), page.labelled(e, SecondLabel);
      if h.None? || m.None? || sec.None? then (Crash, s.value, inputs)
      else (Done(True), s.value, Some(Inputs(h.value, m.value, sec.value)))
  }

  /** A duration answer: three integers, at most 72 hours and at most 59 minutes and seconds, none negative. */
  predicate DurationValid(hour: string, minute: string, second: string)
  {
    match (ParseInt(hour), ParseInt(minute), ParseInt(second))
    case (Some(h), Some(m), Some(s)) => 0 <= h <= MaxHours && 0 <= m <= 59 && 0 <= s <= 59
    case _ => false
  }

  /** For numbers written out, the check is exactly the ranges. */
  lemma DurationValidNumbers(h: nat, m: nat, s: nat)
    ensures DurationValid(NatToString(h), NatToString(m), NatToString(s)) <==> h <= MaxHours && m <= 59 && s <= 59
  {
    ParseIntNatToString(h);
    ParseIntNatToString(m);
    ParseIntNatToString(s);
  }

  /** 72 hours is the most accepted: 72 0 0 passes, 73 0 0 and 0 60 0 do not, nor does a word. */
  lemma DurationBounds()
    ensures DurationValid("72", "0", "0")
    ensures !DurationValid("73", "0", "0")
    ensures !DurationValid("0", "60", "0")
    ensures !DurationValid("one", "0", "0")
  {
    BoundNumerals();
    DurationValidNumbers(72, 0, 0);
    DurationValidNumbers(73, 0, 0);
    DurationValidNumbers(0, 60, 0);
    assert ParseInt("one").None? by { assert !IsDigit("one"[0]); }
  }

  /** The numerals of the bounds. */
  lemma BoundNumerals()
    ensures NatToString(72) == "72" && NatToString(73) == "73" && NatToString(60) == "60" && NatToString(0) == "0"
  {
    assert NatToString(72) == NatToString(7) + [DigitChar(2)];
    assert NatToString(73) == NatToString(7) + [DigitChar(3)];
    assert NatToString(60) == NatToString(6) + [DigitChar(0)];
  }

  /**
   * `answer`: cached inputs are checked (as written, or as intended), unset
   * or stale ones re-run `get_info` and a falsy result is returned; a
   * duration that fails the check gives `False` before any typing, and a
   * valid one is typed hour, minute, second, each as given.
   */
  function DurationAnswer(page: LegacyPage, open: bool, e: Elem, meta: Metadata, inputs: Option<Inputs>,
                          hour: string, minute: string, second: string, asWritten: bool)
    : (a: Answered<Inputs>)
    ensures a.actions != [] ==> a.result == Done(True)
    ensures a.result == Done(True) ==>
              DurationValid(hour, minute, second) && a.after.Some?
              && a.actions == [Click(a.after.value.hour), Type(a.after.value.hour, hour),
                               Click(a.after.value.minute), Type(a.after.value.minute, minute),
                               Click(a.after.value.second), Type(a.after.value.second, second)]
  {
    var check := if inputs.None? then Done(False) else Check(asWritten, open, page.stale, InputElements(inputs.value));
    if check == Crash then Answered(Crash, meta, [], inputs)
    else
      var (res, m, ins) := if check == Done(True) then (Done(True), meta, inputs) else Info(page, open, e, meta, inputs);
      if res != Done(True) then Answered(res, m, [], ins)
      else if !DurationValid(hour, minute, second) then Answered(Done(False), m, [], ins)
      else
        var i := ins.value;
        Answered(Done(True), m, [Click(i.hour), Type(i.hour, hour), Click(i.minute), Type(i.minute, minute),
                                 Click(i.second), Type(i.second, second)], ins)
  }

  /**
   * As written, an answer to a question whose inputs are cached always
   * raises; checked as intended, an invalid duration on live inputs gives
   * `False` with nothing typed and nothing refreshed.
   */
  lemma CachedInputsRaise(page: LegacyPage, open: bool, e: Elem, meta: Metadata, i: Inputs,
                          hour: string, minute: string, second: string)
    ensures DurationAnswer(page, open, e, meta, Some(i), hour, minute, second, true).result == Crash
    ensures open && (forall k :: 0 <= k < 3 ==> InputElements(i)[k] !in page.stale) && !DurationValid(hour, minute, second) ==>
              DurationAnswer(page, open, e, meta, Some(i), hour, minute, second, false) == Answered(Done(False), meta, [], Some(i))
  {
  }

  class LegacyDurationQuestion {
    const base: LegacyQuestion
    /** `_ANSWER_ELEMENTS`: the hour, minute and second inputs. */
    var inputs: Option<Inputs>

    /** The initial values `__init__` gives before it calls `get_info`. */
    constructor(element: Elem, browser: LB.Browser, page: LegacyPage)
      ensures fresh(base) && base.element == element && base.browser == browser && base.page == page
      ensures base.Meta() == Metadata("", "", false) && base.trace == [] && inputs == None
    {
      base := new LegacyQuestion(element, browser, page);
      inputs := None;
    }

    /**
     * Creating the question: the initial values, then `get_info`. When
     * `get_info` raises, so does `__init__`, and there is no question.
     */
    static method Create(element: Elem, browser: LB.Browser, page: LegacyPage) returns (q: LegacyDurationQuestion?)
      ensures var (r, m, ins) := Info(page, browser.open, element, Metadata("", "", false), None);
              (q == null <==> r == Crash)
              && (q != null ==> fresh(q) && fresh(q.base) && q.base.element == element && q.base.browser == browser
                                && q.base.page == page && q.base.Meta() == m && q.inputs == ins && q.base.trace == [])
    {
      q := new LegacyDurationQuestion(element, browser, page);
      var r := q.GetInfo();
      if r == Crash {
        q := null;
      }
    }

    /** `get_info`: the base metadata, then the hour, minute and second inputs. */
    method GetInfo() returns (r: Reply)
      modifies this, base
      ensures base.element == old(base.element) && base.trace == old(base.trace)
      ensures (r, base.Meta(), inputs) == Info(base.page, base.browser.open, base.element, old(base.Meta()), old(inputs))
    {
      r := base.GetInfo();
      if r != Done(True) {
        return;
      }
      var q := base.element;
      var h := base.page.labelled(q, HourLabel);
      var m := base.page.labelled(q, MinuteLabel);
      var s := base.page.labelled(q, SecondLabel);
      if h.None? || m.None? || s.None? {
        return Crash;
      }
      inputs := Some(Inputs(h.value, m.value, s.value));
    }

    /** `answer`, with every cached input checked. */
    method Answer(hour: string, minute: string, second: string) returns (r: Reply)
      modifies this, base
      ensures base.element == old(base.element)
      ensures var a := DurationAnswer(base.page, base.browser.open, base.element, old(base.Meta()), old(inputs),
                                      hour, minute, second, false);
              r == a.result && base.Meta() == a.meta && inputs == a.after && base.trace == old(base.trace) + a.actions
    {
      var check := if inputs.None? then Done(False)
                   else AllValid(base.browser.open, base.page.stale, InputElements(inputs.value));
      if check == Crash {
        return Crash;
      }
      if check != Done(True) {
        r := GetInfo();
        if r != Done(True) {
          return;
        }
      }
      if !DurationValid(hour, minute, second) {
        return Done(False);
      }
      var i := inputs.value;
      base.trace := base.trace + [Click(i.hour), Type(i.hour, hour), Click(i.minute), Type(i.minute, minute),
                                  Click(i.second), Type(i.second, second)];
      return Done(True);
    }
  }
}

=== FILE: legacy_markups.dfy ===
/**
 * The inline keyboards of the older program. A markup carries the
 * signature of the conversation step that made it; every button's callback
 * data is that signature, a space and the option, so that a callback can be
 * told apart from other markups' and the option read back. The true/false
 * keyboard, the save-preference keyboard and the menu with emoji stripping
 * and callback templates are initialisations of the same object.
 */
module LegacyMarkups {
  import opened Common
  import opened Text
  import Markups

  type Button = Markups.Button
  type Keyboard = Markups.Keyboard
  type Row = Markups.Row

  // ---------------------------------------------------------------------
  // Callback data

  /** `_format_callback_data`: the signature, a space, the data. */
  function Format(signature: string, data: string): (r: string)
    ensures |r| == |signature| + 1 + |data| && r[..|signature|] == signature
    ensures r[|signature|] == ' ' && r[|signature| + 1..] == data
  {
    signature + " " + data
  }

  /** `_is_option`: falsy without options (unset or empty), otherwise membership. */
  predicate IsOption(options: Option<seq<string>>, option: string)
  {
    options.Some? && 0 < |options.value| && option in options.value
  }

  /**
   * `verify(callback_data, option)`. With an option (a non-empty one; the
   * program tests its truthiness) the option must be defined and the data
   * be exactly its formatted callback; without, the data need only contain
   * the signature.
   */
  predicate Verify(signature: string, options: Option<seq<string>>, callback: string, option: string)
  {
    if |option| > 0 then IsOption(options, option) && callback == Format(signature, option)
    else Contains(callback, signature)
  }

  /** `get_data`: nothing without the signature; otherwise every "signature " deleted. */
  function GetData(signature: string, callback: string): (r: Option<string>)
    ensures r.None? <==> !Contains(callback, signature)
  {
    if !Contains(callback, signature) then None
    else Some(ReplaceAll(callback, signature + " ", ""))
  }

  /** A text contains each of its prefixes. */
  lemma PrefixContained(s: string, p: string)
    requires p <= s
    ensures Contains(s, p)
  {
  }

  /**
   * The data of a formatted callback is read back, provided the data does
   * not itself contain "signature " (every occurrence is deleted).
   */
  lemma GetDataFormat(signature: string, data: string)
    requires !Contains(data, signature + " ")
    ensures GetData(signature, Format(signature, data)) == Some(data)
  {
    var pat := signature + " ";
    var c := Format(signature, data);
    assert pat <= c;
    PrefixContained(c, signature);
    assert c[|pat|..] == data;
    ReplaceAbsent(data, pat, "");
    assert ReplaceAll(c, pat, "") == "" + ReplaceAll(data, pat, "");
    assert ReplaceAll(c, pat, "") == data;
    assert Contains(c, signature);
    assert GetData(signature, c) == Some(ReplaceAll(c, pat, ""));
  }

  /** The condition is needed: data holding "signature " loses it too. */
  lemma GetDataSwallows()
    ensures GetData("s", Format("s", "s x")) == Some("x")
  {
    assert Format("s", "s x") == "s s x";
    assert "s" <= "s s x";
    assert "s " <= "s s x" && "s s x"[2..] == "s x";
    assert "s " <= "s x" && "s x"[2..] == "x";
    assert !("s " <= "x") && "x"[1..] == "";
    assert ReplaceAll("", "s ", "") == "";
    assert ReplaceAll("x", "s ", "") == ['x'] + ReplaceAll("", "s ", "");
    assert ReplaceAll("x", "s ", "") == "x";
    assert ReplaceAll("s x", "s ", "") == "x";
    assert ReplaceAll("s s x", "s ", "") == "x";
    PrefixContained("s s x", "s");
    assert "s" + " " == "s ";
    assert GetData("s", "s s x") == Some(ReplaceAll("s s x", "s " , ""));
  }

  /** With an option, `verify` holds exactly for that option's own formatted callback. */
  lemma VerifyOption(signature: string, options: Option<seq<string>>, callback: string, option: string)
    requires 0 < |option|
    ensures Verify(signature, options, callback, option) <==>
              options.Some? && option in options.value && callback == signature + " " + option
  {
  }

  /** Without an option, `verify` holds for every formatted callback of the signature. */
  lemma VerifyAnyFormat(signature: string, options: Option<seq<string>>, data: string)
    ensures Verify(signature, options, Format(signature, data), "")
  {
    PrefixContained(Format(signature, data), signature);
  }

  // ---------------------------------------------------------------------
  // Layout

  /** The labels of all rows in row-major order, duplicates included. */
  function Labels(rows: seq<Row>): (r: seq<string>)
  {
    if |rows| == 0 then []
    else Labels(rows[..|rows| - 1]) + Markups.RowLabels(rows[|rows| - 1])
  }

  /** Every label of every row is among the recorded labels. */
  lemma {:induction false} LabelsInclude(rows: seq<Row>, i: int, j: int)
    requires 0 <= i < |rows| && 0 <= j < |Markups.RowLabels(rows[i])|
    ensures Markups.RowLabels(rows[i])[j] in Labels(rows)
  {
    if i < |rows| - 1 {
      assert rows[..|rows| - 1][i] == rows[i];
      LabelsInclude(rows[..|rows| - 1], i, j);
    }
  }

  /** Every recorded label is the label of some button. */
  lemma {:induction false} LabelsFromRows(rows: seq<Row>, l: string)
    requires l in Labels(rows)
    ensures exists i, j :: 0 <= i < |rows| && 0 <= j < |Markups.RowLabels(rows[i])| && Markups.RowLabels(rows[i])[j] == l
  {
    var last := Markups.RowLabels(rows[|rows| - 1]);
    if l in last {
      var j :| 0 <= j < |last| && last[j] == l;
      assert Markups.RowLabels(rows[|rows| - 1])[j] == l;
    } else {
      LabelsFromRows(rows[..|rows| - 1], l);
      var i, j :| 0 <= i < |rows| - 1 && 0 <= j < |Markups.RowLabels(rows[..|rows| - 1][i])|
                  && Markups.RowLabels(rows[..|rows| - 1][i])[j] == l;
      assert rows[..|rows| - 1][i] == rows[i];
    }
  }

  /** The labels of one more row are the labels before it and that row's labels. */
  lemma LabelsSnoc(rows: seq<Row>, i: int)
    requires 0 <= i < |rows|
    ensures Labels(rows[..i + 1]) == Labels(rows[..i]) + Markups.RowLabels(rows[i])
  {
    assert rows[..i + 1][..i] == rows[..i];
  }

  /** One row of `init`: each label with its formatted callback. */
  function SignedRow(signature: string, labels: seq<string>): (r: seq<Button>)
    ensures |r| == |labels|
  {
    seq(|labels|, j requires 0 <= j < |labels| => Markups.Button(labels[j], Format(signature, labels[j])))
  }

  /** The keyboard of `init`: the rows in order. */
  function SignedKeyboard(signature: string, rows: seq<Row>): (r: Keyboard)
    ensures |r| == |rows|
  {
    seq(|rows|, i requires 0 <= i < |rows| => SignedRow(signature, Markups.RowLabels(rows[i])))
  }

  /**
   * Once `init` has recorded the labels, every button of its keyboard
   * carries its label's callback, which `verify` accepts for that label and
   * `get_data` reads back as the label.
   */
  lemma SignedKeyboardVerifies(signature: string, rows: seq<Row>, i: int, j: int)
    requires 0 <= i < |rows| && 0 <= j < |Markups.RowLabels(rows[i])|
    requires !Contains(Markups.RowLabels(rows[i])[j], signature + " ")
    ensures var b := SignedKeyboard(signature, rows)[i][j];
            var l := Markups.RowLabels(rows[i])[j];
            b.text == l
            && (0 < |l| ==> Verify(signature, Some(Labels(rows)), b.data, l))
            && GetData(signature, b.data) == Some(l)
  {
    var l := Markups.RowLabels(rows[i])[j];
    LabelsInclude(rows, i, j);
    GetDataFormat(signature, l);
  }

  // ---------------------------------------------------------------------
  // The menu's callbacks

  /**
   * The payload of a menu label: its `option_datas` entry verbatim when it
   * has one; otherwise the label, with emoji stripped when asked; `None`
   * where the stripping raises.
   */
  function MenuData(caption: string, includesEmojis: bool, optionDatas: map<string, string>): (r: Option<string>)
    ensures caption in optionDatas ==> r == Some(optionDatas[caption])
    ensures caption !in optionDatas && !includesEmojis ==> r == Some(caption)
  {
    if caption in optionDatas then Some(optionDatas[caption])
    else if includesEmojis then Markups.StripEmoji(caption)
    else Some(caption)
  }

  /** The callback of a payload: the template with "{SIGNATURE}" then "{OPTION}" replaced, or the default format. */
  function MenuCallback(signature: string, template: Option<string>, data: string): string
  {
    match template
    case None => Format(signature, data)
    case Some(t) => ReplaceAll(ReplaceAll(t, "{SIGNATURE}", signature), "{OPTION}", data)
  }

  /** A text that starts with the pattern has it replaced first. */
  lemma ReplaceAtStart(pat: string, rest: string, rep: string)
    requires 0 < |pat|
    ensures ReplaceAll(pat + rest, pat, rep) == rep + ReplaceAll(rest, pat, rep)
  {
    assert pat <= pat + rest;
    assert (pat + rest)[|pat|..] == rest;
  }

  /** Replacement scans past a prefix that holds no first character of the pattern. */
  lemma {:induction false} ReplaceSkip(a: string, b: string, pat: string, rep: string)
    requires 0 < |pat| && pat[0] !in a
    ensures ReplaceAll(a + b, pat, rep) == a + ReplaceAll(b, pat, rep)
  {
    if |a| > 0 {
      assert (a + b)[0] == a[0] != pat[0];
      assert (a + b)[1..] == a[1..] + b;
      ReplaceSkip(a[1..], b, pat, rep);
    } else {
      assert a + b == b;
    }
  }

  /**
   * The template "{SIGNATURE} {OPTION}" gives the default callback for a
   * signature without '{' (a generated signature has only letters and
   * digits).
   */
  lemma DefaultTemplate(signature: string, data: string)
    requires '{' !in signature
    ensures MenuCallback(signature, Some("{SIGNATURE} {OPTION}"), data) == Format(signature, data)
  {
    SignatureReplaced(signature);
    OptionReplaced(signature, data);
  }

  /** The first replacement of the default template. */
  lemma SignatureReplaced(signature: string)
    ensures ReplaceAll("{SIGNATURE} {OPTION}", "{SIGNATURE}", signature) == signature + " {OPTION}"
  {
    assert "{SIGNATURE} {OPTION}" == "{SIGNATURE}" + " {OPTION}";
    ReplaceAtStart("{SIGNATURE}", " {OPTION}", signature);
    ShorterNotContains(" {OPTION}", "{SIGNATURE}");
    ReplaceAbsent(" {OPTION}", "{SIGNATURE}", signature);
  }

  /** The second replacement of the default template. */
  lemma OptionReplaced(signature: string, data: string)
    requires '{' !in signature
    ensures ReplaceAll(signature + " {OPTION}", "{OPTION}", data) == signature + " " + data
  {
    var u := signature + " ";
    assert signature + " {OPTION}" == u + "{OPTION}";
    ReplaceSkip(u, "{OPTION}", "{OPTION}", data);
    ReplaceAtStart("{OPTION}", "", data);
    assert "{OPTION}" + "" == "{OPTION}";
  }

  /** The replacements are made in turn: a signature that holds "{OPTION}" has it replaced too. */
  lemma TemplateReplacesInSignature()
    ensures MenuCallback("{OPTION}", Some("{SIGNATURE}"), "x") == "x"
  {
    assert "{SIGNATURE}" <= "{SIGNATURE}";
    assert "{SIGNATURE}"[|"{SIGNATURE}"|..] == "";
    assert "{OPTION}" <= "{OPTION}";
    assert "{OPTION}"[|"{OPTION}"|..] == "";
  }

  /** Whether every label of a row yields a payload. */
  predicate RowDataOk(labels: seq<string>, includesEmojis: bool, optionDatas: map<string, string>)
  {
    forall j :: 0 <= j < |labels| ==> MenuData(labels[j], includesEmojis, optionDatas).Some?
  }

  /** Whether every label of every row yields a payload, so that the menu's `init` does not raise. */
  predicate MenuRowsOk(rows: seq<Row>, includesEmojis: bool, optionDatas: map<string, string>)
  {
    forall i :: 0 <= i < |rows| ==> RowDataOk(Markups.RowLabels(rows[i]), includesEmojis, optionDatas)
  }

  /** One row of the menu: each label with the callback of its payload. */
  function MenuRow(signature: string, labels: seq<string>, includesEmojis: bool, template: Option<string>,
                   optionDatas: map<string, string>): (r: seq<Button>)
    requires RowDataOk(labels, includesEmojis, optionDatas)
    ensures |r| == |labels|
  {
    seq(|labels|, j requires 0 <= j < |labels| =>
      Markups.Button(labels[j], MenuCallback(signature, template, MenuData(labels[j], includesEmojis, optionDatas).value)))
  }

  /** The menu's keyboard: the rows in order. */
  function MenuKeyboard(signature: string, rows: seq<Row>, includesEmojis: bool, template: Option<string>,
                        optionDatas: map<string, string>): (r: Keyboard)
    requires MenuRowsOk(rows, includesEmojis, optionDatas)
    ensures |r| == |rows|
  {
    seq(|rows|, i requires 0 <= i < |rows| =>
      MenuRow(signature, Markups.RowLabels(rows[i]), includesEmojis, template, optionDatas))
  }

  /** The menu of one more row is the menu of the rows before it and that row's buttons. */
  lemma MenuKeyboardSnoc(signature: string, rows: seq<Row>, i: int, includesEmojis: bool, template: Option<string>,
                         optionDatas: map<string, string>)
    requires 0 <= i < |rows| && MenuRowsOk(rows[..i], includesEmojis, optionDatas)
    requires RowDataOk(Markups.RowLabels(rows[i]), includesEmojis, optionDatas)
    ensures MenuRowsOk(rows[..i + 1], includesEmojis, optionDatas)
    ensures MenuKeyboard(signature, rows[..i + 1], includesEmojis, template, optionDatas)
            == MenuKeyboard(signature, rows[..i], includesEmojis, template, optionDatas)
               + [MenuRow(signature, Markups.RowLabels(rows[i]), includesEmojis, template, optionDatas)]
  {
    assert forall k :: 0 <= k < i ==> rows[..i + 1][k] == rows[..i][k];
    assert rows[..i + 1][i] == rows[i];
  }

  /** Without emoji stripping, template or overrides, the menu is the plain keyboard of `init`. */
  lemma MenuPlain(signature: string, rows: seq<Row>)
    ensures MenuRowsOk(rows, false, map[])
    ensures MenuKeyboard(signature, rows, false, None, map[]) == SignedKeyboard(signature, rows)
  {
    var m := MenuKeyboard(signature, rows, false, None, map[]);
    var k := SignedKeyboard(signature, rows);
    forall i | 0 <= i < |rows| ensures m[i] == k[i] {
      var labels := Markups.RowLabels(rows[i]);
      assert |m[i]| == |labels| == |k[i]|;
      forall j | 0 <= j < |labels| ensures m[i][j] == k[i][j] {
        assert MenuData(labels[j], false, map[]) == Some(labels[j]);
      }
    }
  }

  /**
   * A label decorated "<emoji> <data> <emoji>" sends the bare data in the
   * default format, and `get_data` reads it back.
   */
  lemma MenuDecorated(signature: string, e1: char, x: string, e2: char)
    requires !IsWordChar(e1) && !IsWordChar(e2)
    requires 0 < |x| && IsWordChar(x[0]) && IsWordChar(x[|x| - 1])
    requires !Contains(x, signature + " ")
    ensures var l := [e1, ' '] + x + [' ', e2];
            MenuData(l, true, map[]) == Some(x)
            && GetData(signature, MenuCallback(signature, None, MenuData(l, true, map[]).value)) == Some(x)
  {
    Markups.StripDecorated(e1, x, e2);
    GetDataFormat(signature, x);
  }

  // ---------------------------------------------------------------------
  // The save-preference keyboard

  const SaveAlways: string := "ALWAYS Save"
  const NeverSave: string := "NEVER Save"
  const AskAgain: string := "Always ASK Me First"

  /** The keyboard of `SavePrefMarkup.init`: save always and never save, then ask again. */
  function SavePrefKeyboard(signature: string): Keyboard
  {
    [[Markups.Button("✅ " + SaveAlways, Format(signature, SaveAlways)),
      Markups.Button("❌ " + NeverSave, Format(signature, NeverSave))],
     [Markups.Button("❓ " + AskAgain + " ❓", Format(signature, AskAgain))]]
  }

  /** Each save-preference callback is verified for its own option and read back as it. */
  lemma SavePrefCallbacks(signature: string)
    requires !Contains(SaveAlways, signature + " ") && !Contains(NeverSave, signature + " ")
             && !Contains(AskAgain, signature + " ")
    ensures var k := SavePrefKeyboard(signature);
            var opts := Some([SaveAlways, NeverSave, AskAgain]);
            |k| == 2 && |k[0]| == 2 && |k[1]| == 1
            && Verify(signature, opts, k[0][0].data, SaveAlways) && GetData(signature, k[0][0].data) == Some(SaveAlways)
            && Verify(signature, opts, k[0][1].data, NeverSave) && GetData(signature, k[0][1].data) == Some(NeverSave)
            && Verify(signature, opts, k[1][0].data, AskAgain) && GetData(signature, k[1][0].data) == Some(AskAgain)
  {
    GetDataFormat(signature, SaveAlways);
    GetDataFormat(signature, NeverSave);
    GetDataFormat(signature, AskAgain);
  }

  /** A signature longer than every constant meets the condition. */
  lemma SavePrefLongSignature(signature: string)
    requires |signature| >= |AskAgain|
    ensures !Contains(SaveAlways, signature + " ") && !Contains(NeverSave, signature + " ")
            && !Contains(AskAgain, signature + " ")
  {
    ShorterNotContains(SaveAlways, signature + " ");
    ShorterNotContains(NeverSave, signature + " ");
    ShorterNotContains(AskAgain, signature + " ");
  }

  // ---------------------------------------------------------------------
  // The true/false keyboard

  /** The keyboard of `TFMarkup.init`: one row, "✅ pos" then "❌ neg". */
  function TrueFalseKeyboard(signature: string, pos: string, neg: string): Keyboard
  {
    [[Markups.Button("✅ " + pos, Format(signature, pos)), Markups.Button("❌ " + neg, Format(signature, neg))]]
  }

  /** For non-empty answers, each button's callback passes `verify` against its own answer. */
  lemma TrueFalseVerifies(signature: string, pos: string, neg: string)
    requires 0 < |pos| && 0 < |neg|
    ensures var k := TrueFalseKeyboard(signature, pos, neg);
            Verify(signature, Some([pos, neg]), k[0][0].data, pos)
            && Verify(signature, Some([pos, neg]), k[0][1].data, neg)
            && (pos != neg ==> !Verify(signature, Some([pos, neg]), k[0][0].data, neg))
  {
    var k := TrueFalseKeyboard(signature, pos, neg);
    if pos != neg {
      assert Format(signature, pos)[|signature| + 1..] == pos;
      assert Format(signature, neg)[|signature| + 1..] == neg;
    }
  }

  // ---------------------------------------------------------------------
  // The markup object

  /** `BaseMarkup` and its subclasses: the signature and the options, unset until initialised. */
  class SignedMarkup {
    const signature: string
    var options: Option<seq<string>>

    constructor(signature: string)
      ensures this.signature == signature && options == None
    {
      this.signature := signature;
      options := None;
    }

    /** `set_options`: an empty call is ignored; otherwise the options in order. */
    method SetOptions(opts: seq<string>)
      modifies this
      ensures |opts| == 0 ==> options == old(options)
      ensures |opts| > 0 ==> options == Some(opts)
    {
      if |opts| > 0 {
        options := Some(opts);
      }
    }

    /** `__eq__`: markups are equal exactly when their signatures are. */
    predicate Equals(other: SignedMarkup)
      reads this, other
    {
      signature == other.signature
    }

    /**
     * `init(*option_rows)`: the rows in order, each label a button with its
     * formatted callback; the labels are recorded in row-major order.
     */
    method Init(rows: seq<Row>) returns (k: Keyboard)
      modifies this
      ensures k == SignedKeyboard(signature, rows)
      ensures |Labels(rows)| == 0 ==> options == old(options)
      ensures |Labels(rows)| > 0 ==> options == Some(Labels(rows))
    {
      k := [];
      var opts: seq<string> := [];
      var i := 0;
      while i < |rows|
        invariant 0 <= i <= |rows|
        invariant k == SignedKeyboard(signature, rows[..i])
        invariant opts == Labels(rows[..i])
      {
        var labels := Markups.RowLabels(rows[i]);
        assert rows[..i + 1][..i] == rows[..i];
        k := k + [SignedRow(signature, labels)];
        opts := opts + labels;
        i := i + 1;
      }
      assert rows[..i] == rows;
      SetOptions(opts);
    }

    /**
     * `MenuMarkup.init`: as `init`, with each label's payload overridden,
     * stripped of emoji or kept, and then put in the template. When a
     * stripping raises, nothing is recorded and no keyboard is made.
     */
    method MenuInit(rows: seq<Row>, includesEmojis: bool, template: Option<string>, optionDatas: map<string, string>)
      returns (k: Option<Keyboard>)
      modifies this
      ensures k.Some? <==> MenuRowsOk(rows, includesEmojis, optionDatas)
      ensures k.None? ==> options == old(options)
      ensures k.Some? ==> k.value == MenuKeyboard(signature, rows, includesEmojis, template, optionDatas)
      ensures k.Some? && |Labels(rows)| == 0 ==> options == old(options)
      ensures k.Some? && |Labels(rows)| > 0 ==> options == Some(Labels(rows))
    {
      var keys: Keyboard := [];
      var opts: seq<string> := [];
      var i := 0;
      while i < |rows|
        invariant 0 <= i <= |rows|
        invariant MenuRowsOk(rows[..i], includesEmojis, optionDatas)
        invariant keys == MenuKeyboard(signature, rows[..i], includesEmojis, template, optionDatas)
        invariant opts == Labels(rows[..i])
        invariant options == old(options)
      {
        var labels := Markups.RowLabels(rows[i]);
        if !RowDataOk(labels, includesEmojis, optionDatas) {
          assert !MenuRowsOk(rows, includesEmojis, optionDatas) by {
            assert !RowDataOk(Markups.RowLabels(rows[i]), includesEmojis, optionDatas);
          }
          return None;
        }
        MenuKeyboardSnoc(signature, rows, i, includesEmojis, template, optionDatas);
        LabelsSnoc(rows, i);
        keys := keys + [MenuRow(signature, labels, includesEmojis, template, optionDatas)];
        opts := opts + labels;
        i := i + 1;
      }
      assert rows[..i] == rows;
      assert keys == MenuKeyboard(signature, rows, includesEmojis, template, optionDatas);
      SetOptions(opts);
      k := Some(keys);
    }

    /** `TFMarkup.init(pos, neg)`: both recorded, even empty or equal ones. */
    method TrueFalseInit(pos: string, neg: string) returns (k: Keyboard)
      modifies this
      ensures options == Some([pos, neg])
      ensures k == TrueFalseKeyboard(signature, pos, neg)
    {
      SetOptions([pos, neg]);
      k := TrueFalseKeyboard(signature, pos, neg);
    }

    /** `SavePrefMarkup.init`: the three preferences recorded in order. */
    method SavePrefInit() returns (k: Keyboard)
      modifies this
      ensures options == Some([SaveAlways, NeverSave, AskAgain])
      ensures k == SavePrefKeyboard(signature)
    {
      SetOptions([SaveAlways, NeverSave, AskAgain]);
      k := SavePrefKeyboard(signature);
    }
  }

  /** `TFMarkup.init()` with its defaults. */
  const Yes: string := "YES"
  const No: string := "NO"

  /** Equality of markups ignores their options, and is an equivalence. */
  lemma EqualsBySignature(a: SignedMarkup, b: SignedMarkup, c: SignedMarkup)
    ensures a.Equals(b) <==> a.signature == b.signature
    ensures a.Equals(a) && (a.Equals(b) ==> b.Equals(a)) && (a.Equals(b) && b.Equals(c) ==> a.Equals(c))
  {
  }
}

=== FILE: legacy_processor.dfy ===
/**
 * The earlier, cache-based form processor.
 *
 * It keeps a FIFO queue of question roots (duplicates are appended, with
 * only a warning) and, for the question being answered, a cache: a
 * dictionary from reserved key names or option labels to the elements an
 * answer is typed into or clicked. The kind of question is never stored;
 * `answer_question` recovers it from which reserved keys are present and
 * then validates the answer for that kind.
 *
 * Every monitored submission is an oracle outcome taken in order from
 * `performs` (`false`: the monitor gave up, the call yields `None`), and
 * the actions of every submission that went through are appended to
 * `trace`. A submission uses the recovery of the evidently intended
 * monitor (see the LegacyBrowser module).
 */
module LegacyProcessor {
  import opened Common
  import opened Text
  import opened Dates
  import opened Seqs
  import GridLabels
  import LB = LegacyBrowser

  // The reserved cache keys.
  const TextKey: string := "text_element_key"
  const DateKey: string := "date_element_key"
  const MonthKey: string := "month_element_key"
  const DatePickerKey: string := "date_picker_element_key"
  const HourKey: string := "hour_element_key"
  const MinuteKey: string := "minute_element_key"
  const SecondKey: string := "second_element_key"
  const PlaceholderKey: string := "placeholder_key"
  const DropdownMenuKey: string := "dropdown_menu_key"
  const OtherKey: string := "other_option_key"
  /** Blank options are stored under this prefix, `_`, and an index. */
  const BlankKey: string := "blank_value_key"
  /** The label the 'Other' option is renamed to in the returned options. */
  const OtherLabel: string := "Other:"

  /** The latest date the date picker accepts. */
  const PickerLimit: Date := Date(2071, 1, 1)

  predicate Reserved(k: string)
  {
    k in {TextKey, DateKey, MonthKey, DatePickerKey, HourKey, MinuteKey, SecondKey,
          PlaceholderKey, DropdownMenuKey, OtherKey}
  }

  /** A cache value: an element, the 'Other' slot (empty or select+input), or a grid row. */
  datatype Entry =
    | El(elem: Elem)
    | NoOther
    | OtherPair(select: Elem, input: Elem)
    | Row(cells: map<string, Option<Elem>>)

  type Cache = map<string, Entry>

  /** Reserved keys hold elements (the 'Other' key its slot); labels hold elements or rows. */
  predicate WellKeyed(c: Cache)
  {
    forall k :: k in c ==>
      if k == OtherKey then c[k].NoOther? || c[k].OtherPair?
      else if Reserved(k) then c[k].El?
      else c[k].El? || c[k].Row?
  }

  // The kind of question a cache stands for, in the order answers are dispatched.
  predicate DateCache(c: Cache) { DatePickerKey in c || (DateKey in c && MonthKey in c) }
  predicate TimeCache(c: Cache) { HourKey in c && MinuteKey in c }
  predicate DropdownCache(c: Cache) { PlaceholderKey in c && DropdownMenuKey in c }
  predicate ChoiceCache(c: Cache) { OtherKey in c }
  predicate TextCache(c: Cache) { TextKey in c }
  predicate GridCache(c: Cache)
  {
    !DateCache(c) && !TimeCache(c) && !DropdownCache(c) && !ChoiceCache(c) && !TextCache(c)
  }

  /** A value of an answer dictionary: a string or a sequence of strings. */
  datatype Value = VStr(s: string) | VSeq(items: seq<string>)

  /** The `answer` argument: absent, a string, a list of strings, or a dictionary (in insertion order). */
  datatype Answer =
    | Absent
    | Str(s: string)
    | Strs(items: seq<string>)
    | Mapping(pairs: seq<(string, Value)>)

  /** A dictionary has each key once. */
  predicate DistinctKeys(pairs: seq<(string, Value)>)
  {
    forall i, j :: 0 <= i < j < |pairs| ==> pairs[i].0 != pairs[j].0
  }

  predicate FalsyAnswer(a: Answer)
  {
    a.Absent? || a == Str("") || a == Strs([]) || a == Mapping([])
  }

  predicate FalsyValue(v: Value)
  {
    v == VStr("") || v == VSeq([])
  }

  /** `answer.get(k)`. */
  function Lookup(pairs: seq<(string, Value)>, k: string): (r: Option<Value>)
    ensures r.None? <==> forall i :: 0 <= i < |pairs| ==> pairs[i].0 != k
    ensures r.Some? ==> exists i :: 0 <= i < |pairs| && pairs[i] == (k, r.value)
  {
    if |pairs| == 0 then None
    else if pairs[0].0 == k then Some(pairs[0].1)
    else Lookup(pairs[1..], k)
  }

  /** Clicking a field and typing into it, followed by the action buffer pause. */
  function TypeInto(e: Elem, text: string): seq<Action>
  {
    [Click(e)] + (if text == "" then [] else [Type(e, text), Sleep(LB.ActionBufferSeconds as real)])
  }

  /** Selecting 'Other', clicking its field and typing the text. */
  function TypeOther(select: Elem, input: Elem, text: string): seq<Action>
  {
    [Click(select), Click(input)] + (if text == "" then [] else [Type(input, text), Sleep(LB.ActionBufferSeconds as real)])
  }

  /**
   * `_submit_time`'s checks: `Some(true)` when both parts are given and are
   * an hour 0-23 and a minute 0-59, `Some(false)` when a check fails, and
   * `None` when `int` is applied to a list (a `TypeError`).
   */
  function TimeCheck(hour: Value, minute: Value): Option<bool>
  {
    if FalsyValue(hour) || FalsyValue(minute) then Some(false)
    else if hour.VSeq? then None
    else match ParseInt(hour.s)
      case None => Some(false)
      case Some(h) =>
        if minute.VSeq? then None
        else match ParseInt(minute.s)
          case None => Some(false)
          case Some(m) => Some(0 <= h <= 23 && 0 <= m <= 59)
  }

  /** The duration check: integer hours 0-72, minutes and seconds 0-59. */
  predicate DurationOk(hour: string, minute: string, second: string)
  {
    ParseInt(hour).Some? && ParseInt(minute).Some? && ParseInt(second).Some?
    && 0 <= ParseInt(hour).value <= 72
    && 0 <= ParseInt(minute).value <= 59
    && 0 <= ParseInt(second).value <= 59
  }

  /** On decimal numerals the time check is exactly the range test. */
  lemma TimeCheckRange(h: nat, m: nat)
    ensures TimeCheck(VStr(NatToString(h)), VStr(NatToString(m))) == Some(h <= 23 && m <= 59)
  {
    ParseIntNatToString(h);
    ParseIntNatToString(m);
  }

  /** On decimal numerals the duration check is exactly the range test. */
  lemma DurationOkRange(h: nat, m: nat, s: nat)
    ensures DurationOk(NatToString(h), NatToString(m), NatToString(s)) <==> h <= 72 && m <= 59 && s <= 59
  {
    ParseIntNatToString(h);
    ParseIntNatToString(m);
    ParseIntNatToString(s);
  }

  /** What the date picker is sent: the `%Y-%m-%d` date re-encoded as `%d%m%Y`, if not after 2071-01-01. */
  function PickerText(date: string): (r: Option<string>)
    ensures r.Some? <==> ParseYmd(date, '-').Some? && NotAfter(ParseYmd(date, '-').value, PickerLimit)
  {
    match ParseYmd(date, '-')
    case None => None
    case Some(d) => if NotAfter(d, PickerLimit) then Some(FormatDmy(d)) else None
  }

  /**
   * A written date is accepted exactly when it is not after 2071-01-01,
   * and the picker then receives its day, month and year.
   */
  lemma PickerTextOfDate(d: Date)
    requires ValidDate(d) && 1000 <= d.year
    ensures PickerText(FormatYmd(d, '-')) == if NotAfter(d, PickerLimit) then Some(FormatDmy(d)) else None
  {
    ParseFormatYmd(d, '-');
  }

  /** The first menu entry whose text is `text`. */
  function FindEntry(menu: seq<(Elem, string)>, text: string): (r: Option<nat>)
    ensures r.Some? ==> r.value < |menu| && menu[r.value].1 == text
                        && forall j :: 0 <= j < r.value ==> menu[j].1 != text
    ensures r.None? ==> forall j :: 0 <= j < |menu| ==> menu[j].1 != text
  {
    if |menu| == 0 then None
    else if menu[0].1 == text then Some(0)
    else match FindEntry(menu[1..], text)
      case None => None
      case Some(k) => Some(k + 1)
  }

  /** The clicks of a grid answer, one per selected cell; `None` when a cell does not exist. */
  function CellClicks(cells: map<string, Option<Elem>>, selections: seq<string>): (r: Option<seq<Action>>)
    ensures r.Some? <==> forall i :: 0 <= i < |selections| ==> selections[i] in cells && cells[selections[i]].Some?
    ensures r.Some? ==> |r.value| == |selections|
                        && forall i :: 0 <= i < |selections| ==> r.value[i] == Click(cells[selections[i]].value)
  {
    if |selections| == 0 then Some([])
    else if selections[0] !in cells || cells[selections[0]].None? then None
    else match CellClicks(cells, selections[1..])
      case None => None
      case Some(rest) => Some([Click(cells[selections[0]].value)] + rest)
  }

  /** The element with the grid label of column `option` and row `sub`, last one winning. */
  function LastCell(elements: seq<Elem>, aria: Elem -> string, option: string, sub: string): (r: Option<Elem>)
    ensures r.Some? ==> r.value in elements && GridLabels.Parse(aria(r.value)) == Some((option, sub))
  {
    if |elements| == 0 then None
    else if GridLabels.Parse(aria(elements[|elements| - 1])) == Some((option, sub)) then Some(elements[|elements| - 1])
    else LastCell(elements[..|elements| - 1], aria, option, sub)
  }

  /** The elements whose aria-label is a grid label, in order. */
  function GridElements(elements: seq<Elem>, aria: Elem -> string): (r: seq<Elem>)
    ensures forall e :: e in r <==> e in elements && GridLabels.IsGridLabel(aria(e))
    ensures GridLabels.AllGrid(Labels(r, aria))
  {
    if |elements| == 0 then []
    else GridElements(elements[..|elements| - 1], aria)
         + (if GridLabels.IsGridLabel(aria(elements[|elements| - 1])) then [elements[|elements| - 1]] else [])
  }

  function Labels(elements: seq<Elem>, aria: Elem -> string): (r: seq<string>)
    ensures |r| == |elements| && forall i :: 0 <= i < |elements| ==> r[i] == aria(elements[i])
  {
    if |elements| == 0 then [] else Labels(elements[..|elements| - 1], aria) + [aria(elements[|elements| - 1])]
  }

  /** An element of the non-grid scrape that may be the 'Other' option. */
  predicate OtherCandidate(text: string, isOther: bool)
  {
    (text == "" || text == OtherLabel) && isOther
  }

  /** The index of the first 'Other' candidate, if any. */
  function FirstOther(elements: seq<Elem>, aria: Elem -> string, isOther: Elem -> bool): (r: Option<nat>)
    ensures r.Some? ==> r.value < |elements| && OtherCandidate(aria(elements[r.value]), isOther(elements[r.value]))
                        && forall j :: 0 <= j < r.value ==> !OtherCandidate(aria(elements[j]), isOther(elements[j]))
    ensures r.None? ==> forall j :: 0 <= j < |elements| ==> !OtherCandidate(aria(elements[j]), isOther(elements[j]))
  {
    if |elements| == 0 then None
    else if OtherCandidate(aria(elements[0]), isOther(elements[0])) then Some(0)
    else match FirstOther(elements[1..], aria, isOther)
      case None => None
      case Some(k) => Some(k + 1)
  }

  /** The index of the first non-blank label, the one `defined_labels[0]` reads. */
  function FirstDefined(labels: seq<string>): (r: Option<nat>)
    ensures r.Some? ==> r.value < |labels| && labels[r.value] != ""
                        && forall j :: 0 <= j < r.value ==> labels[j] == ""
    ensures r.None? ==> forall j :: 0 <= j < |labels| ==> labels[j] == ""
  {
    if |labels| == 0 then None
    else if labels[0] != "" then Some(0)
    else match FirstDefined(labels[1..])
      case None => None
      case Some(k) => Some(k + 1)
  }

  /** What recording a checkbox or radio question gives. */
  datatype Recorded =
    | NotChoice
    | Raised
    | Grid(columns: seq<string>, rows: seq<string>)
    | Plain(options: seq<string>)

  /**
   * The grid scrape's result: columns and rows are the two parts of the
   * grid labels in first-occurrence order, and every cell holds the last
   * element carrying its label, or nothing.
   */
  ghost predicate GridRecorded(c: Cache, elements: seq<Elem>, aria: Elem -> string, columns: seq<string>, rows: seq<string>)
  {
    var arias := Labels(GridElements(elements, aria), aria);
    columns == GridLabels.Columns(arias) && rows == GridLabels.Rows(arias)
    && GridShape(c, rows, columns)
    && GridCells(c, GridElements(elements, aria), aria)
  }

  /**
   * The non-grid scrape's result: the 'Other' slot holds the first 'Other'
   * candidate with the input field, the plain labels are keys and the
   * ordinary ones hold their first element, and one option is listed per
   * element, the 'Other' one renamed.
   */
  ghost predicate PlainRecorded(c: Cache, elements: seq<Elem>, aria: Elem -> string, isOther: Elem -> bool,
                                otherInput: Option<Elem>, options: seq<string>)
  {
    WellKeyed(c) && KeysKnown(c, Labels(elements, aria), |elements|)
    && OtherSlot(c, elements, FirstOther(elements, aria, isOther), otherInput, |elements|)
    && PlainStored(c, elements, Labels(elements, aria), |elements|)
    && |options| == |elements|
    && forall i :: 0 <= i < |elements| ==>
         options[i] == if Some(i) == FirstOther(elements, aria, isOther) then OtherLabel else aria(elements[i])
  }

  /**
   * An option labelled like a reserved key is stored under that key, so the
   * cache then also stands for another kind of question: an option labelled
   * `date_picker_element_key`, say, makes the answer dispatch as a date.
   */
  lemma ReservedLabelStored(c: Cache, elements: seq<Elem>, labels: seq<string>, k: string)
    requires |labels| == |elements| && PlainStored(c, elements, labels, |labels|)
    requires Reserved(k) && k != OtherKey && k in labels
    ensures k in c && c[k] == El(elements[FirstIndex(labels, k)])
  {
    var j :| 0 <= j < |labels| && labels[j] == k;
    assert k[0] != BlankKey[0];
  }

  /** The first index holding `x`. */
  function FirstIndex(s: seq<string>, x: string): (r: nat)
    requires x in s
    ensures r < |s| && s[r] == x && x !in s[..r]
  {
    if s[0] == x then 0 else 1 + FirstIndex(s[1..], x)
  }

  /** An option label that is neither blank nor the 'Other' label. */
  predicate PlainLabel(text: string)
  {
    text != "" && text != OtherLabel
  }

  /**
   * A plain label that can collide with no key the scrape writes itself:
   * not the 'Other' key and not of the blank-key form.
   */
  predicate Ordinary(text: string)
  {
    PlainLabel(text) && text != OtherKey && !(BlankKey <= text)
  }

  /** The grid cache has one row per sub-question and one cell per option in every row. */
  ghost predicate GridShape(c: Cache, subs: seq<string>, options: seq<string>)
  {
    (forall s :: s in c <==> s in subs)
    && forall s :: s in c ==> c[s].Row? && forall o :: o in c[s].cells <==> o in options
  }

  /** Every cell holds the last of `elements` labelled with its column and row. */
  ghost predicate GridCells(c: Cache, elements: seq<Elem>, aria: Elem -> string)
  {
    forall s, o :: s in c && c[s].Row? && o in c[s].cells ==> c[s].cells[o] == LastCell(elements, aria, o, s)
  }

  /** Every cell of every row empty. */
  function EmptyGrid(subs: seq<string>, options: seq<string>): (c: Cache)
    ensures GridShape(c, subs, options)
    ensures forall s :: s in c ==> forall o :: o in c[s].cells ==> c[s].cells[o] == None
  {
    map s | s in subs :: Row(map o | o in options :: None)
  }

  lemma EmptyGridCells(subs: seq<string>, options: seq<string>, aria: Elem -> string)
    ensures GridCells(EmptyGrid(subs, options), [], aria)
  {
  }

  lemma GridStep(c: Cache, subs: seq<string>, options: seq<string>, grid: seq<Elem>, i: nat,
                 aria: Elem -> string, o: string, s: string)
    requires i < |grid| && GridShape(c, subs, options) && GridCells(c, grid[..i], aria)
    requires GridLabels.Parse(aria(grid[i])) == Some((o, s)) && s in subs && o in options
    ensures GridShape(c[s := Row(c[s].cells[o := Some(grid[i])])], subs, options)
    ensures GridCells(c[s := Row(c[s].cells[o := Some(grid[i])])], grid[..i + 1], aria)
  {
    var c' := c[s := Row(c[s].cells[o := Some(grid[i])])];
    assert grid[..i + 1][..i] == grid[..i];
    forall s1, o1 | s1 in c' && c'[s1].Row? && o1 in c'[s1].cells
      ensures c'[s1].cells[o1] == LastCell(grid[..i + 1], aria, o1, s1)
    {
      if (o1, s1) != (o, s) {
        assert c'[s1].cells[o1] == c[s1].cells[o1];
      }
    }
  }

  /** The 'Other' slot is filled exactly once the first 'Other' candidate has been seen. */
  ghost predicate OtherSlot(c: Cache, elements: seq<Elem>, first: Option<nat>, otherInput: Option<Elem>, i: nat)
  {
    OtherKey in c
    && (c[OtherKey].OtherPair? <==> first.Some? && first.value < i)
    && (first.Some? && first.value < i ==>
          first.value < |elements| && otherInput.Some? && c[OtherKey] == OtherPair(elements[first.value], otherInput.value))
  }

  /** Apart from the 'Other' slot, the keys are blank keys or plain labels already seen. */
  ghost predicate KeysKnown(c: Cache, labels: seq<string>, i: nat)
    requires i <= |labels|
  {
    forall k :: k in c && k != OtherKey ==> BlankKey <= k || (PlainLabel(k) && k in labels[..i])
  }

  /**
   * Every plain label seen so far is a key, and every ordinary one is
   * stored with the element of its first occurrence.
   */
  ghost predicate PlainStored(c: Cache, elements: seq<Elem>, labels: seq<string>, i: nat)
    requires i <= |labels| == |elements|
  {
    forall j :: 0 <= j < i && PlainLabel(labels[j]) ==>
      labels[j] in c && (Ordinary(labels[j]) ==> c[labels[j]] == El(elements[FirstIndex(labels, labels[j])]))
  }

  /** The state of the non-grid scrape after its first `i` elements. */
  ghost predicate ChoiceInv(c: Cache, elements: seq<Elem>, labels: seq<string>, first: Option<nat>,
                            otherInput: Option<Elem>, options: seq<string>, i: nat)
  {
    i <= |elements| == |labels| == |options|
    && WellKeyed(c)
    && OtherSlot(c, elements, first, otherInput, i)
    && KeysKnown(c, labels, i)
    && PlainStored(c, elements, labels, i)
    && forall j :: 0 <= j < |elements| ==> options[j] == if first == Some(j) && j < i then OtherLabel else labels[j]
  }

  /** An element that is not the first 'Other' candidate keeps the 'Other' slot and the options. */
  lemma ChoiceKeep(c: Cache, c': Cache, elements: seq<Elem>, labels: seq<string>, first: Option<nat>,
                   otherInput: Option<Elem>, options: seq<string>, i: nat)
    requires i < |elements| && ChoiceInv(c, elements, labels, first, otherInput, options, i)
    requires first != Some(i)
    requires OtherKey in c' && c'[OtherKey] == c[OtherKey] && WellKeyed(c')
    requires KeysKnown(c', labels, i + 1) && PlainStored(c', elements, labels, i + 1)
    ensures ChoiceInv(c', elements, labels, first, otherInput, options, i + 1)
  {
  }

  /** The first 'Other' candidate fills the 'Other' slot and renames its option. */
  lemma ChoiceTakeOther(c: Cache, elements: seq<Elem>, labels: seq<string>, first: Option<nat>,
                        otherInput: Option<Elem>, options: seq<string>, i: nat)
    requires i < |elements| && ChoiceInv(c, elements, labels, first, otherInput, options, i)
    requires first == Some(i) && otherInput.Some?
    requires KeysKnown(c, labels, i + 1) && PlainStored(c, elements, labels, i + 1)
    requires KeysKnown(c[OtherKey := OtherPair(elements[i], otherInput.value)], labels, i + 1)
    requires PlainStored(c[OtherKey := OtherPair(elements[i], otherInput.value)], elements, labels, i + 1)
    ensures ChoiceInv(c[OtherKey := OtherPair(elements[i], otherInput.value)], elements, labels, first,
                      otherInput, options[i := OtherLabel], i + 1)
  {
  }

  lemma RepeatedLabel(c: Cache, elements: seq<Elem>, labels: seq<string>, i: nat)
    requires i < |labels| == |elements| && labels[i] in c
    requires KeysKnown(c, labels, i) && PlainStored(c, elements, labels, i)
    ensures PlainStored(c, elements, labels, i + 1) && KeysKnown(c, labels, i + 1)
  {
    assert labels[..i + 1] == labels[..i] + [labels[i]];
    if Ordinary(labels[i]) {
      assert labels[i] in labels[..i];
      var j :| 0 <= j < i && labels[j] == labels[i];
    }
  }

  /** A blank or 'Other:' element leaves the stored plain labels as they are. */
  lemma NonPlainStep(c: Cache, elements: seq<Elem>, labels: seq<string>, i: nat, k: string, v: Entry)
    requires i < |labels| == |elements| && !PlainLabel(labels[i])
    requires k == OtherKey || BlankKey <= k
    requires KeysKnown(c, labels, i) && PlainStored(c, elements, labels, i)
    ensures KeysKnown(c, labels, i + 1) && PlainStored(c, elements, labels, i + 1)
    ensures KeysKnown(c[k := v], labels, i + 1) && PlainStored(c[k := v], elements, labels, i + 1)
  {
    assert labels[..i + 1] == labels[..i] + [labels[i]];
    forall j | 0 <= j < i + 1 && PlainLabel(labels[j])
      ensures labels[j] in c[k := v]
      ensures Ordinary(labels[j]) ==> c[k := v][labels[j]] == El(elements[FirstIndex(labels, labels[j])])
    {
      assert j < i;
      if Ordinary(labels[j]) {
        assert labels[j] != k;
      }
    }
  }

  lemma PlainLabelStep(c: Cache, elements: seq<Elem>, labels: seq<string>, i: nat)
    requires i < |labels| == |elements| && labels[i] !in c && PlainLabel(labels[i])
    requires KeysKnown(c, labels, i) && PlainStored(c, elements, labels, i)
    ensures PlainStored(c[labels[i] := El(elements[i])], elements, labels, i + 1)
    ensures KeysKnown(c[labels[i] := El(elements[i])], labels, i + 1)
  {
    assert labels[..i + 1] == labels[..i] + [labels[i]];
    assert labels[i] !in labels[..i];
    assert FirstIndex(labels, labels[i]) == i;
  }

  /** What one element tells about the first 'Other' candidate. */
  lemma FirstOtherFacts(elements: seq<Elem>, aria: Elem -> string, isOther: Elem -> bool, i: nat)
    requires i < |elements|
    ensures var first := FirstOther(elements, aria, isOther);
            var l := Labels(elements, aria)[i];
            (first == Some(i) ==> isOther(elements[i]) && !PlainLabel(l))
            && (isOther(elements[i]) && !PlainLabel(l) ==> first.Some? && first.value <= i)
  {
    assert Labels(elements, aria)[i] == aria(elements[i]);
  }

  /** A label already stored changes nothing. */
  lemma RepeatedKeep(c: Cache, elements: seq<Elem>, labels: seq<string>, first: Option<nat>,
                     otherInput: Option<Elem>, options: seq<string>, i: nat)
    requires i < |elements| && ChoiceInv(c, elements, labels, first, otherInput, options, i)
    requires labels[i] in c && (first == Some(i) ==> !PlainLabel(labels[i]))
    ensures ChoiceInv(c, elements, labels, first, otherInput, options, i + 1)
  {
    if BlankKey <= labels[i] {
      assert labels[i][0] == 'b';
    }
    assert PlainLabel(labels[i]);
    RepeatedLabel(c, elements, labels, i);
    ChoiceKeep(c, c, elements, labels, first, otherInput, options, i);
  }

  /** A later 'Other' candidate, once the slot is filled, changes nothing. */
  lemma OtherSkip(c: Cache, elements: seq<Elem>, labels: seq<string>, first: Option<nat>,
                  otherInput: Option<Elem>, options: seq<string>, i: nat)
    requires i < |elements| && ChoiceInv(c, elements, labels, first, otherInput, options, i)
    requires !PlainLabel(labels[i]) && c[OtherKey].OtherPair?
    ensures ChoiceInv(c, elements, labels, first, otherInput, options, i + 1)
  {
    NonPlainStep(c, elements, labels, i, OtherKey, NoOther);
    ChoiceKeep(c, c, elements, labels, first, otherInput, options, i);
  }

  /** The first 'Other' candidate, with its input field, fills the slot. */
  lemma OtherTake(c: Cache, elements: seq<Elem>, labels: seq<string>, first: Option<nat>,
                  otherInput: Option<Elem>, options: seq<string>, i: nat)
    requires i < |elements| && ChoiceInv(c, elements, labels, first, otherInput, options, i)
    requires !PlainLabel(labels[i]) && !c[OtherKey].OtherPair? && otherInput.Some?
    requires first == Some(i)
    ensures ChoiceInv(c[OtherKey := OtherPair(elements[i], otherInput.value)], elements, labels, first,
                      otherInput, options[i := OtherLabel], i + 1)
  {
    var pair := OtherPair(elements[i], otherInput.value);
    NonPlainStep(c, elements, labels, i, OtherKey, pair);
    ChoiceTakeOther(c, elements, labels, first, otherInput, options, i);
  }

  /** A blank option is stored under its blank key. */
  lemma BlankAdd(c: Cache, elements: seq<Elem>, labels: seq<string>, first: Option<nat>,
                 otherInput: Option<Elem>, options: seq<string>, i: nat, key: string)
    requires i < |elements| && ChoiceInv(c, elements, labels, first, otherInput, options, i)
    requires !PlainLabel(labels[i]) && BlankKey <= key && first != Some(i)
    ensures ChoiceInv(c[key := El(elements[i])], elements, labels, first, otherInput, options, i + 1)
  {
    assert key[0] == BlankKey[0] != OtherKey[0];
    NonPlainStep(c, elements, labels, i, key, El(elements[i]));
    ChoiceKeep(c, c[key := El(elements[i])], elements, labels, first, otherInput, options, i);
  }

  /** A new plain label is stored with its element. */
  lemma PlainAdd(c: Cache, elements: seq<Elem>, labels: seq<string>, first: Option<nat>,
                 otherInput: Option<Elem>, options: seq<string>, i: nat)
    requires i < |elements| && ChoiceInv(c, elements, labels, first, otherInput, options, i)
    requires PlainLabel(labels[i]) && labels[i] !in c && first != Some(i)
    ensures ChoiceInv(c[labels[i] := El(elements[i])], elements, labels, first, otherInput, options, i + 1)
  {
    PlainLabelStep(c, elements, labels, i);
    ChoiceKeep(c, c[labels[i] := El(elements[i])], elements, labels, first, otherInput, options, i);
  }

  /**
   * What answering does, as a value: the reply, the actions it adds to the
   * trace, and the submission outcomes it leaves.
   */
  datatype Outcome = Outcome(reply: Reply, actions: seq<Action>, rest: seq<bool>)

  /** A failed sanity check: nothing is submitted and the reply is `False`. */
  function Refused(ps: seq<bool>): Outcome
  {
    Outcome(Done(False), [], ps)
  }

  /** An uncaught error: nothing more is submitted. */
  function Raising(ps: seq<bool>): Outcome
  {
    Outcome(Crash, [], ps)
  }

  /** `actions`, already performed, followed by `o`. */
  function After(actions: seq<Action>, o: Outcome): Outcome
  {
    Outcome(o.reply, actions + o.actions, o.rest)
  }

  /**
   * One monitored submission: it goes through, adding its actions, when the
   * next outcome is `true`; otherwise (or with no outcome left) it gives
   * `None` and adds nothing.
   */
  function Submission(ps: seq<bool>, actions: seq<Action>): (o: Outcome)
    ensures o.reply == Done(True) || o.reply == Done(Nothing)
  {
    if ps == [] then Outcome(Done(Nothing), [], [])
    else if ps[0] then Outcome(Done(True), actions, ps[1..])
    else Outcome(Done(Nothing), [], ps[1..])
  }

  /** `_submit_time`: the time check, then one submission typing the hour and the minute. */
  function TimeSubmission(hourElem: Elem, minuteElem: Elem, ps: seq<bool>, hour: Value, minute: Value): Outcome
  {
    match TimeCheck(hour, minute)
    case None => Raising(ps)
    case Some(false) => Refused(ps)
    case Some(true) => Submission(ps, TypeInto(hourElem, hour.s) + TypeInto(minuteElem, minute.s))
  }

  /**
   * What a date answer types: into the picker, the date re-encoded; into
   * the split fields, the day and then the month. `None` when the date
   * does not pass the check.
   */
  function DateTyping(c: Cache, date: string): Option<seq<Action>>
    requires WellKeyed(c) && DateCache(c)
  {
    if DatePickerKey in c then
      match PickerText(date)
      case None => None
      case Some(text) => Some(TypeInto(c[DatePickerKey].elem, text))
    else
      match ParseMonthDay(date)
      case None => None
      case Some(md) => Some(TypeInto(c[DateKey].elem, NatToString(md.day)) + TypeInto(c[MonthKey].elem, NatToString(md.month)))
  }

  /** A date given as a string: refused, or typed in one submission. */
  function DateOnly(c: Cache, ps: seq<bool>, date: string): Outcome
    requires WellKeyed(c) && DateCache(c)
  {
    match DateTyping(c, date)
    case None => Refused(ps)
    case Some(actions) => Submission(ps, actions)
  }

  /** The date of a dictionary answer; `strptime` of a list raises a `TypeError`. */
  function DateValue(c: Cache, ps: seq<bool>, date: Value): Outcome
    requires WellKeyed(c) && DateCache(c)
  {
    if date.VSeq? then Raising(ps) else DateOnly(c, ps, date.s)
  }

  /**
   * A date with a time: `_submit_time` goes first, and only an error it
   * raises stops the answer; its refusal or failed submission goes
   * unnoticed and the date is submitted as if no time had been given.
   */
  function DateWithTime(c: Cache, ps: seq<bool>, hour: Value, minute: Value, date: Value): Outcome
    requires WellKeyed(c) && DateCache(c) && TimeCache(c)
  {
    var t := TimeSubmission(c[HourKey].elem, c[MinuteKey].elem, ps, hour, minute);
    if t.reply == Crash then t else After(t.actions, DateValue(c, t.rest, date))
  }

  /** Whether the answer gives key `k` as text. */
  predicate GivenText(pairs: seq<(string, Value)>, k: string)
  {
    Lookup(pairs, k).Some? && Lookup(pairs, k).value.VStr?
  }

  function TextOf(pairs: seq<(string, Value)>, k: string): string
    requires GivenText(pairs, k)
  {
    Lookup(pairs, k).value.s
  }

  /**
   * A date with a time, all given as text: the hour and minute are typed
   * first when the time check passes and that submission goes through;
   * the check's and the submission's results are then dropped, and the
   * reply is the date's, submitted on the outcomes left.
   */
  function DateAfterTime(c: Cache, ps: seq<bool>, date: string, hour: string, minute: string): Outcome
    requires WellKeyed(c) && DateCache(c) && TimeCache(c)
  {
    var checked := TimeCheck(VStr(hour), VStr(minute)) == Some(true);
    var rest := if checked && ps != [] then ps[1..] else ps;
    var typed := if checked && ps != [] && ps[0]
                 then TypeInto(c[HourKey].elem, hour) + TypeInto(c[MinuteKey].elem, minute)
                 else [];
    var d := DateOnly(c, rest, date);
    Outcome(d.reply, typed + d.actions, d.rest)
  }

  /** Answering a date question. */
  function DateOutcome(c: Cache, ps: seq<bool>, a: Answer): Outcome
    requires WellKeyed(c) && DateCache(c)
  {
    match a
    case Str(s) => DateOnly(c, ps, s)
    case Mapping(pairs) =>
      var d, h, m := Lookup(pairs, "date"), Lookup(pairs, "hour"), Lookup(pairs, "minute");
      if d.None? || h.None? || m.None? || !TimeCache(c) then Refused(ps)
      else DateWithTime(c, ps, h.value, m.value, d.value)
    case _ => Refused(ps)
  }

  /** The duration half of a time question. */
  function DurationOutcome(c: Cache, ps: seq<bool>, h: string, m: string, s: Option<Value>): Outcome
    requires WellKeyed(c) && TimeCache(c) && SecondKey in c
  {
    if s.None? || s.value.VSeq? || !DurationOk(h, m, s.value.s) then Refused(ps)
    else Submission(ps, TypeInto(c[HourKey].elem, h) + TypeInto(c[MinuteKey].elem, m) + TypeInto(c[SecondKey].elem, s.value.s))
  }

  /** Answering a time or duration question; a time's own outcome is ignored. */
  function TimeOutcome(c: Cache, ps: seq<bool>, a: Answer): Outcome
    requires WellKeyed(c) && TimeCache(c)
  {
    if !a.Mapping? then Refused(ps)
    else
      var h, m := Lookup(a.pairs, "hour"), Lookup(a.pairs, "minute");
      if h.None? || m.None? || !h.value.VStr? || !m.value.VStr? then Refused(ps)
      else if SecondKey in c then DurationOutcome(c, ps, h.value.s, m.value.s, Lookup(a.pairs, "second"))
      else
        var t := TimeSubmission(c[HourKey].elem, c[MinuteKey].elem, ps, h.value, m.value);
        Outcome(Done(True), t.actions, t.rest)
  }

  /** Answering a drop-down question: opening the menu, then clicking the entry. */
  function DropdownOutcome(c: Cache, ps: seq<bool>, a: Answer, menu: seq<(Elem, string)>): Outcome
    requires WellKeyed(c) && DropdownCache(c)
  {
    if !a.Str? then Refused(ps)
    else
      var menuOpen := Submission(ps, [Click(c[PlaceholderKey].elem)]);
      if menuOpen.reply != Done(True) then menuOpen
      else match FindEntry(menu, a.s)
        case None => Outcome(Done(False), menuOpen.actions, menuOpen.rest)
        case Some(k) => After(menuOpen.actions, Submission(menuOpen.rest, [Click(menu[k].0)]))
  }

  /** Answering a text question. */
  function TextOutcome(c: Cache, ps: seq<bool>, a: Answer): Outcome
    requires WellKeyed(c) && TextCache(c)
  {
    if !a.Str? then Refused(ps) else Submission(ps, TypeInto(c[TextKey].elem, a.s))
  }

  /** One selection or grid row: the clicks it submits, a failed sanity check, or an uncaught error. */
  datatype Step = Clicks(actions: seq<Action>) | Rejected | Raises

  /** The outcome of one step, as its own submission. */
  function StepOutcome(ps: seq<bool>, step: Step): Outcome
  {
    match step
    case Clicks(actions) => Submission(ps, actions)
    case Rejected => Refused(ps)
    case Raises => Raising(ps)
  }

  /**
   * Steps taken in order: the first that does not go through ends the
   * answer with `None`, an uncaught error with a crash.
   */
  function Run(ps: seq<bool>, steps: seq<Step>): Outcome
  {
    if steps == [] then Outcome(Done(True), [], ps)
    else
      var o := StepOutcome(ps, steps[0]);
      if o.reply == Crash then o
      else if o.reply != Done(True) then Outcome(Done(Nothing), [], o.rest)
      else After(o.actions, Run(o.rest, steps[1..]))
  }

  predicate AllClicks(steps: seq<Step>)
  {
    forall i :: 0 <= i < |steps| ==> steps[i].Clicks?
  }

  /** The actions of clicking steps, one after the other. */
  function Flatten(steps: seq<Step>): seq<Action>
  {
    if steps == [] then []
    else (if steps[0].Clicks? then steps[0].actions else []) + Flatten(steps[1..])
  }

  /**
   * A run succeeds exactly when every step clicks and each has a
   * submission that goes through; it then performs all their clicks in
   * order and uses one outcome per step.
   */
  lemma {:induction false} RunTrue(ps: seq<bool>, steps: seq<Step>)
    ensures Run(ps, steps).reply == Done(True) <==>
              AllClicks(steps) && |steps| <= |ps| && forall i :: 0 <= i < |steps| ==> ps[i]
    ensures Run(ps, steps).reply == Done(True) ==>
              Run(ps, steps).actions == Flatten(steps) && Run(ps, steps).rest == ps[|steps|..]
    decreases |steps|
  {
    if steps != [] {
      RunTrue(if ps == [] then [] else ps[1..], steps[1..]);
      if AllClicks(steps) && |steps| <= |ps| && (forall i :: 0 <= i < |steps| ==> ps[i]) {
        assert AllClicks(steps[1..]) && forall i :: 0 <= i < |steps| - 1 ==> ps[1..][i];
      }
      if Run(ps, steps).reply == Done(True) {
        assert steps[0].Clicks? && ps != [] && ps[0];
        forall i | 0 <= i < |steps| ensures steps[i].Clicks? && ps[i] {
          if i > 0 {
            assert steps[1..][i - 1] == steps[i];
            assert ps[1..][i - 1] == ps[i];
          }
        }
        assert ps[1..][|steps| - 1..] == ps[|steps|..];
      }
    }
  }

  /** A run never answers `False`: a failed sanity check inside it gives `None`. */
  lemma {:induction false} RunNeverRefused(ps: seq<bool>, steps: seq<Step>)
    ensures Run(ps, steps).reply != Done(False)
    decreases |steps|
  {
    if steps != [] && StepOutcome(ps, steps[0]).reply == Done(True) {
      RunNeverRefused(StepOutcome(ps, steps[0]).rest, steps[1..]);
    }
  }

  /** The selections of a non-grid answer: one string, or each string of a list. */
  function Chosen(a: Answer): seq<string>
  {
    match a
    case Str(s) => [s]
    case Strs(items) => items
    case _ => []
  }

  /** `_submit`: a stored label is clicked; other text goes to 'Other' when there is one. */
  function SelectionStep(c: Cache, selection: string): Step
    requires WellKeyed(c) && ChoiceCache(c)
  {
    if selection in c && selection != OtherKey then
      if c[selection].Row? then Raises else Clicks([Click(c[selection].elem)])
    else if c[OtherKey].NoOther? then Rejected
    else Clicks(TypeOther(c[OtherKey].select, c[OtherKey].input, selection))
  }

  function ChoiceSteps(c: Cache, selections: seq<string>): (r: seq<Step>)
    requires WellKeyed(c) && ChoiceCache(c)
    ensures |r| == |selections|
  {
    if selections == [] then [] else [SelectionStep(c, selections[0])] + ChoiceSteps(c, selections[1..])
  }

  lemma {:induction false} ChoiceStepsAt(c: Cache, selections: seq<string>, i: nat)
    requires WellKeyed(c) && ChoiceCache(c) && i < |selections|
    ensures ChoiceSteps(c, selections)[i] == SelectionStep(c, selections[i])
    decreases i
  {
    if i > 0 {
      ChoiceStepsAt(c, selections[1..], i - 1);
    }
  }

  /** Answering a non-grid radio or checkbox question. */
  function ChoiceOutcome(c: Cache, ps: seq<bool>, a: Answer): Outcome
    requires WellKeyed(c) && ChoiceCache(c)
  {
    if a.Mapping? then Refused(ps) else Run(ps, ChoiceSteps(c, Chosen(a)))
  }

  /** The columns chosen by one row's answer. */
  function Selections(v: Value): seq<string>
  {
    match v
    case VStr(s) => [s]
    case VSeq(items) => items
  }

  /** One row of a grid answer: its cells clicked in one submission; a row or cell that is not there raises. */
  function RowStep(c: Cache, row: (string, Value)): Step
    requires row.0 in c
  {
    if !c[row.0].Row? then Raises
    else match CellClicks(c[row.0].cells, Selections(row.1))
      case None => Raises
      case Some(clicks) => Clicks(clicks)
  }

  function RowSteps(c: Cache, pairs: seq<(string, Value)>): (r: seq<Step>)
    requires forall i :: 0 <= i < |pairs| ==> pairs[i].0 in c
    ensures |r| == |pairs|
  {
    if pairs == [] then [] else [RowStep(c, pairs[0])] + RowSteps(c, pairs[1..])
  }

  lemma {:induction false} RowStepsAt(c: Cache, pairs: seq<(string, Value)>, i: nat)
    requires (forall i :: 0 <= i < |pairs| ==> pairs[i].0 in c) && i < |pairs|
    ensures RowSteps(c, pairs)[i] == RowStep(c, pairs[i])
    decreases i
  {
    if i > 0 {
      RowStepsAt(c, pairs[1..], i - 1);
    }
  }

  /** Answering a grid question: every row must be cached before any is submitted. */
  function GridOutcome(c: Cache, ps: seq<bool>, a: Answer): Outcome
  {
    if !a.Mapping? then Refused(ps)
    else if !(forall i :: 0 <= i < |a.pairs| ==> a.pairs[i].0 in c) then Refused(ps)
    else Run(ps, RowSteps(c, a.pairs))
  }

  /**
   * `answer_question` as a value: with nothing cached it fails, a skip is
   * accepted, a falsy answer fails, and otherwise the kind the cache stands
   * for answers.
   */
  function AnswerOutcome(c: Cache, ps: seq<bool>, a: Answer, skip: bool, menu: seq<(Elem, string)>): Outcome
    requires WellKeyed(c)
  {
    if c == map[] then Refused(ps)
    else if skip then Outcome(Done(True), [], ps)
    else if FalsyAnswer(a) then Refused(ps)
    else if DateCache(c) then DateOutcome(c, ps, a)
    else if TimeCache(c) then TimeOutcome(c, ps, a)
    else if DropdownCache(c) then DropdownOutcome(c, ps, a, menu)
    else if ChoiceCache(c) then ChoiceOutcome(c, ps, a)
    else if TextCache(c) then TextOutcome(c, ps, a)
    else GridOutcome(c, ps, a)
  }

  /**
   * An out-of-range time in a date answer, such as 24:00, fails
   * `_submit_time`'s check unnoticed: the answer is the date's alone.
   */
  lemma OutOfRangeTimeIgnored(c: Cache, ps: seq<bool>, h: nat, m: nat, date: string)
    requires WellKeyed(c) && DateCache(c) && TimeCache(c)
    requires h > 23 || m > 59
    ensures DateWithTime(c, ps, VStr(NatToString(h)), VStr(NatToString(m)), VStr(date)) == DateOnly(c, ps, date)
  {
    TimeCheckRange(h, m);
    assert [] + DateOnly(c, ps, date).actions == DateOnly(c, ps, date).actions;
  }

  /**
   * A time given as text never raises: it types the hour and the minute
   * when the check passes and the submission goes through, and uses an
   * outcome only when the check passes.
   */
  lemma TimeAsText(hourElem: Elem, minuteElem: Elem, ps: seq<bool>, hour: string, minute: string)
    ensures var t := TimeSubmission(hourElem, minuteElem, ps, VStr(hour), VStr(minute));
            var checked := TimeCheck(VStr(hour), VStr(minute)) == Some(true);
            t.reply != Crash
            && t.rest == (if checked && ps != [] then ps[1..] else ps)
            && t.actions == if checked && ps != [] && ps[0]
                            then TypeInto(hourElem, hour) + TypeInto(minuteElem, minute)
                            else []
  {
  }

  /**
   * A date answer with a date, an hour and a minute given as text, while
   * the time inputs are cached, answers as the date alone does after the
   * time part, whatever the time check or its submission gave.
   */
  lemma DateTimeAnswer(c: Cache, ps: seq<bool>, pairs: seq<(string, Value)>, menu: seq<(Elem, string)>)
    requires WellKeyed(c) && DateCache(c) && TimeCache(c)
    requires GivenText(pairs, "date") && GivenText(pairs, "hour") && GivenText(pairs, "minute")
    ensures DateOutcome(c, ps, Mapping(pairs))
            == DateAfterTime(c, ps, TextOf(pairs, "date"), TextOf(pairs, "hour"), TextOf(pairs, "minute"))
    ensures AnswerOutcome(c, ps, Mapping(pairs), false, menu) == DateOutcome(c, ps, Mapping(pairs))
  {
    assert pairs != [];
    var date, hour, minute := TextOf(pairs, "date"), TextOf(pairs, "hour"), TextOf(pairs, "minute");
    var t := TimeSubmission(c[HourKey].elem, c[MinuteKey].elem, ps, VStr(hour), VStr(minute));
    TimeAsText(c[HourKey].elem, c[MinuteKey].elem, ps, hour, minute);
    assert DateOutcome(c, ps, Mapping(pairs)) == After(t.actions, DateOnly(c, t.rest, date));
    DateDispatch(c, ps, Mapping(pairs), menu);
  }

  /** With the date inputs cached, an answer that is not skipped goes to the date question. */
  lemma DateDispatch(c: Cache, ps: seq<bool>, a: Answer, menu: seq<(Elem, string)>)
    requires WellKeyed(c) && DateCache(c) && !FalsyAnswer(a)
    ensures AnswerOutcome(c, ps, a, false, menu) == DateOutcome(c, ps, a)
  {
  }

  /**
   * A valid time whose submission the monitor gives up on goes unnoticed
   * as well: the date is submitted next, and can still be answered.
   */
  lemma FailedTimeIgnored(c: Cache, ps: seq<bool>, hour: Value, minute: Value, date: string)
    requires WellKeyed(c) && DateCache(c) && TimeCache(c)
    requires TimeCheck(hour, minute) == Some(true)
    ensures DateWithTime(c, [false] + ps, hour, minute, VStr(date)) == DateOnly(c, ps, date)
  {
    assert ([false] + ps)[1..] == ps;
    assert [] + DateOnly(c, ps, date).actions == DateOnly(c, ps, date).actions;
  }

  /**
   * A time question without seconds counts as answered whatever the time:
   * an out-of-range one types nothing and uses no submission.
   */
  lemma OutOfRangeTimeAnswered(c: Cache, ps: seq<bool>, h: nat, m: nat)
    requires WellKeyed(c) && TimeCache(c) && SecondKey !in c
    requires h > 23 || m > 59
    ensures TimeOutcome(c, ps, Mapping([("hour", VStr(NatToString(h))), ("minute", VStr(NatToString(m)))]))
            == Outcome(Done(True), [], ps)
  {
    TimeCheckRange(h, m);
    var pairs := [("hour", VStr(NatToString(h))), ("minute", VStr(NatToString(m)))];
    assert Lookup(pairs, "hour") == Some(VStr(NatToString(h)));
    assert pairs[1..] == [("minute", VStr(NatToString(m)))];
    assert Lookup(pairs, "minute") == Some(VStr(NatToString(m)));
  }

  /**
   * A non-grid answer succeeds exactly when every selection is a stored
   * option, or is typed into an 'Other' option that exists, and each
   * selection's submission goes through; it then clicks them all in order,
   * one submission each. It never answers `False`.
   */
  lemma ChoiceAnswerTrue(c: Cache, ps: seq<bool>, a: Answer)
    requires WellKeyed(c) && ChoiceCache(c) && !a.Mapping?
    ensures ChoiceOutcome(c, ps, a).reply != Done(False)
    ensures var sels := Chosen(a);
            ChoiceOutcome(c, ps, a).reply == Done(True) <==>
              (forall i :: 0 <= i < |sels| ==>
                 (sels[i] in c && sels[i] != OtherKey && c[sels[i]].El?)
                 || ((sels[i] !in c || sels[i] == OtherKey) && c[OtherKey].OtherPair?))
              && |sels| <= |ps| && forall i :: 0 <= i < |sels| ==> ps[i]
    ensures ChoiceOutcome(c, ps, a).reply == Done(True) ==>
              ChoiceOutcome(c, ps, a).actions == Flatten(ChoiceSteps(c, Chosen(a)))
              && ChoiceOutcome(c, ps, a).rest == ps[|Chosen(a)|..]
  {
    var steps := ChoiceSteps(c, Chosen(a));
    forall i | 0 <= i < |steps| ensures steps[i] == SelectionStep(c, Chosen(a)[i]) {
      ChoiceStepsAt(c, Chosen(a), i);
    }
    RunTrue(ps, steps);
    RunNeverRefused(ps, steps);
    assert AllClicks(steps) <==>
             forall i :: 0 <= i < |Chosen(a)| ==>
               (Chosen(a)[i] in c && Chosen(a)[i] != OtherKey && c[Chosen(a)[i]].El?)
               || ((Chosen(a)[i] !in c || Chosen(a)[i] == OtherKey) && c[OtherKey].OtherPair?);
  }

  /**
   * A grid answer succeeds exactly when it is a dictionary whose every row
   * is a cached row holding every chosen cell, and each row's submission
   * goes through; it then clicks the chosen cells, row by row in the
   * dictionary's order, one submission per row.
   */
  lemma GridAnswerTrue(c: Cache, ps: seq<bool>, a: Answer)
    ensures GridOutcome(c, ps, a).reply != Done(False) <==>
              a.Mapping? && forall i :: 0 <= i < |a.pairs| ==> a.pairs[i].0 in c
    ensures GridOutcome(c, ps, a).reply == Done(True) <==>
              a.Mapping?
              && (forall i :: 0 <= i < |a.pairs| ==>
                    a.pairs[i].0 in c && c[a.pairs[i].0].Row?
                    && CellClicks(c[a.pairs[i].0].cells, Selections(a.pairs[i].1)).Some?)
              && |a.pairs| <= |ps| && forall i :: 0 <= i < |a.pairs| ==> ps[i]
    ensures GridOutcome(c, ps, a).reply == Done(True) ==>
              GridOutcome(c, ps, a).actions == Flatten(RowSteps(c, a.pairs))
              && GridOutcome(c, ps, a).rest == ps[|a.pairs|..]
  {
    if a.Mapping? && forall i :: 0 <= i < |a.pairs| ==> a.pairs[i].0 in c {
      var steps := RowSteps(c, a.pairs);
      forall i | 0 <= i < |steps| ensures steps[i] == RowStep(c, a.pairs[i]) {
        RowStepsAt(c, a.pairs, i);
      }
      RunTrue(ps, steps);
      RunNeverRefused(ps, steps);
      assert AllClicks(steps) <==>
               forall i :: 0 <= i < |a.pairs| ==>
                 c[a.pairs[i].0].Row? && CellClicks(c[a.pairs[i].0].cells, Selections(a.pairs[i].1)).Some?;
    }
  }

  /**
   * A run seen part way, after `done` has been performed and with `ps`
   * left, moves on by the outcome of step `i`.
   */
  lemma RunAdvance(whole: Outcome, done: seq<Action>, ps: seq<bool>, steps: seq<Step>, i: nat)
    requires i < |steps| && whole == After(done, Run(ps, steps[i..]))
    ensures var o := StepOutcome(ps, steps[i]);
            (o.reply == Done(True) ==> whole == After(done + o.actions, Run(o.rest, steps[i + 1..])))
            && (o.reply == Crash ==> whole == Outcome(Crash, done + o.actions, o.rest))
            && (o.reply != Crash && o.reply != Done(True) ==> whole == Outcome(Done(Nothing), done + o.actions, o.rest))
  {
    assert steps[i..][1..] == steps[i + 1..];
    var o := StepOutcome(ps, steps[i]);
    if o.reply == Done(True) {
      assert done + (o.actions + Run(o.rest, steps[i + 1..]).actions)
             == (done + o.actions) + Run(o.rest, steps[i + 1..]).actions;
    } else {
      assert o.actions == [] && done + [] == done;
    }
  }

  /** A run seen to its end has succeeded. */
  lemma RunDone(whole: Outcome, done: seq<Action>, ps: seq<bool>, steps: seq<Step>)
    requires whole == After(done, Run(ps, steps[|steps|..]))
    ensures whole == Outcome(Done(True), done, ps)
  {
    assert steps[|steps|..] == [] && done + [] == done;
  }

  /**
   * A string date answer never raises; it is refused exactly when the date
   * fails its check, and otherwise types it into the picker re-encoded, or
   * into the split fields day first.
   */
  lemma DateOnlyMeaning(c: Cache, ps: seq<bool>, date: string)
    requires WellKeyed(c) && DateCache(c)
    ensures var o := DateOnly(c, ps, date);
            o.reply != Crash
            && (DatePickerKey in c ==>
                  (PickerText(date).None? ==> o == Refused(ps))
                  && (PickerText(date).Some? ==>
                        o.reply != Done(False)
                        && (o.reply == Done(True) ==> o.actions == TypeInto(c[DatePickerKey].elem, PickerText(date).value))))
            && (DatePickerKey !in c ==>
                  (ParseMonthDay(date).None? ==> o == Refused(ps))
                  && (ParseMonthDay(date).Some? ==>
                        var d := ParseMonthDay(date).value;
                        o.reply != Done(False)
                        && (o.reply == Done(True) ==> o.actions == TypeInto(c[DateKey].elem, NatToString(d.day))
                                                                  + TypeInto(c[MonthKey].elem, NatToString(d.month)))))
  {
  }

  class LegacyFormProcessor {
    var queue: seq<Elem>
    var cache: Cache
    /** The outcomes of the remaining monitored submissions, in order. */
    var performs: seq<bool>
    /** Every action performed on the page, in order. */
    var trace: seq<Action>
    const browser: LB.Browser

    constructor(browser: LB.Browser, performs: seq<bool>)
      ensures queue == [] && cache == map[] && trace == [] && this.performs == performs && this.browser == browser
    {
      this.browser := browser;
      this.performs := performs;
      queue := [];
      cache := map[];
      trace := [];
    }

    /** Appends every root in order; a root already queued is appended again. */
    method AddQuestions(batch: seq<Elem>)
      modifies this
      ensures queue == old(queue) + batch
      ensures cache == old(cache) && performs == old(performs) && trace == old(trace)
    {
      var i := 0;
      while i < |batch|
        invariant 0 <= i <= |batch|
        invariant queue == old(queue) + batch[..i]
        invariant cache == old(cache) && performs == old(performs) && trace == old(trace)
      {
        assert batch[..i + 1] == batch[..i] + [batch[i]];
        queue := queue + [batch[i]];
        i := i + 1;
      }
      assert batch[..i] == batch;
    }

    method ClearQuestions()
      modifies this
      ensures queue == []
      ensures cache == old(cache) && performs == old(performs) && trace == old(trace)
    {
      queue := [];
    }

    method GetNextQuestion() returns (r: Option<Elem>)
      modifies this
      ensures old(queue) == [] ==> r == None && queue == []
      ensures old(queue) != [] ==> r == Some(old(queue)[0]) && queue == old(queue)[1..]
      ensures cache == old(cache) && performs == old(performs) && trace == old(trace)
    {
      if |queue| > 0 {
        r := Some(queue[0]);
        queue := queue[1..];
      } else {
        r := None;
      }
    }

    /** Closes the browser and empties the cache and the queue. */
    method Reset()
      modifies this, browser
      ensures !browser.open && cache == map[] && queue == []
      ensures performs == old(performs) && trace == old(trace)
    {
      browser.Close();
      cache := map[];
      ClearQuestions();
    }

    /** One monitored submission of `actions`. */
    method Perform(actions: seq<Action>) returns (ok: bool)
      modifies this
      ensures queue == old(queue) && cache == old(cache)
      ensures ok <==> old(performs) != [] && old(performs)[0]
      ensures performs == if old(performs) == [] then [] else old(performs)[1..]
      ensures trace == old(trace) + (if ok then actions else [])
      ensures var o := Submission(old(performs), actions);
              (ok <==> o.reply == Done(True)) && trace == old(trace) + o.actions && performs == o.rest
    {
      if |performs| == 0 {
        return false;
      }
      ok := performs[0];
      performs := performs[1..];
      if ok {
        trace := trace + actions;
      }
    }

    /**
     * The grid-based cache, once `RecordChoices` has found the first
     * non-blank label to be a grid label: elements without a grid label
     * are dropped.
     * Columns and rows come in first-occurrence order, and every
     * (row, column) cell holds the last element carrying its label, or
     * nothing.
     */
    method BuildGridCache(elements: seq<Elem>, aria: Elem -> string) returns (options: seq<string>, subs: seq<string>)
      modifies this
      ensures queue == old(queue) && performs == old(performs) && trace == old(trace)
      ensures GridRecorded(cache, elements, aria, options, subs)
      ensures (forall k :: k in subs ==> !Reserved(k)) ==> WellKeyed(cache)
    {
      var grid := GridElements(elements, aria);
      var arias := Labels(grid, aria);
      options := GridLabels.Columns(arias);
      subs := GridLabels.Rows(arias);
      var opts := options;
      cache := EmptyGrid(subs, opts);
      assert grid[..0] == [];
      EmptyGridCells(subs, opts, aria);
      var i := 0;
      while i < |grid|
        invariant 0 <= i <= |grid|
        invariant GridShape(cache, subs, options)
        invariant GridCells(cache, grid[..i], aria)
        invariant queue == old(queue) && performs == old(performs) && trace == old(trace)
      {
        var (o, s) := GridLabels.Parse(aria(grid[i])).value;
        GridLabels.LabelsInGrid(arias, i);
        GridStep(cache, subs, options, grid, i, aria, o, s);
        cache := cache[s := Row(cache[s].cells[o := Some(grid[i])])];
        i := i + 1;
      }
      assert grid[..i] == grid;
    }

    /**
     * The non-grid cache: each plain label is stored with its first element,
     * repeated labels are skipped, the first blank or 'Other:' element that
     * is the 'Other' option takes the 'Other' slot (with the question's
     * input field) and is renamed 'Other:' in the options, and other blank
     * elements are stored under a blank key. With an 'Other' option but no
     * input field the scrape raises.
     */
    method BuildChoiceCache(elements: seq<Elem>, aria: Elem -> string, isOther: Elem -> bool, otherInput: Option<Elem>)
      returns (raised: bool, options: seq<string>)
      modifies this
      ensures queue == old(queue) && performs == old(performs) && trace == old(trace)
      ensures raised <==> otherInput.None? && FirstOther(elements, aria, isOther).Some?
      ensures !raised ==> PlainRecorded(cache, elements, aria, isOther, otherInput, options)
    {
      var labels := Labels(elements, aria);
      var first := FirstOther(elements, aria, isOther);
      cache := map[OtherKey := NoOther];
      options := labels;
      raised := false;
      var i := 0;
      while i < |elements|
        invariant 0 <= i <= |elements|
        invariant ChoiceInv(cache, elements, labels, first, otherInput, options, i)
        invariant otherInput.None? ==> first.None? || i <= first.value
        invariant queue == old(queue) && performs == old(performs) && trace == old(trace)
      {
        var stop, c';
        var other := isOther(elements[i]);
        FirstOtherFacts(elements, aria, isOther, i);
        stop, c', options := ChoiceStep(cache, elements, labels, other, otherInput, first, options, i);
        cache := c';
        if stop {
          return true, options;
        }
        i := i + 1;
      }
    }

    /**
     * The checkbox and radio part of `_get_question_info`: without such
     * elements the question is not one of these; with no non-blank label
     * `defined_labels[0]` raises an `IndexError`; otherwise the first
     * non-blank label alone chooses the grid or the non-grid scrape.
     */
    method RecordChoices(elements: seq<Elem>, aria: Elem -> string, isOther: Elem -> bool, otherInput: Option<Elem>)
      returns (r: Recorded)
      modifies this
      ensures queue == old(queue) && performs == old(performs) && trace == old(trace)
      ensures elements == [] ==> r == NotChoice && cache == old(cache)
      ensures elements != [] && FirstDefined(Labels(elements, aria)).None? ==> r == Raised && cache == old(cache)
      ensures elements != [] && FirstDefined(Labels(elements, aria)).Some?
              && GridLabels.IsGridLabel(aria(elements[FirstDefined(Labels(elements, aria)).value])) ==>
                r.Grid? && GridRecorded(cache, elements, aria, r.columns, r.rows)
      ensures elements != [] && FirstDefined(Labels(elements, aria)).Some?
              && !GridLabels.IsGridLabel(aria(elements[FirstDefined(Labels(elements, aria)).value])) ==>
                (r == Raised <==> otherInput.None? && FirstOther(elements, aria, isOther).Some?)
                && (r != Raised ==> r.Plain? && PlainRecorded(cache, elements, aria, isOther, otherInput, r.options))
    {
      if elements == [] {
        return NotChoice;
      }
      var first := FirstDefined(Labels(elements, aria));
      if first.None? {
        // `defined_labels[0]` of an empty list.
        return Raised;
      }
      if GridLabels.IsGridLabel(aria(elements[first.value])) {
        var columns, rows := BuildGridCache(elements, aria);
        return Grid(columns, rows);
      }
      var raised, options := BuildChoiceCache(elements, aria, isOther, otherInput);
      return if raised then Raised else Plain(options);
    }

    /** One element of the non-grid scrape; `stop` when the 'Other' input field is missing. */
    static method ChoiceStep(c: Cache, elements: seq<Elem>, labels: seq<string>, other: bool, otherInput: Option<Elem>,
                             first: Option<nat>, options: seq<string>, i: nat)
      returns (stop: bool, c': Cache, options': seq<string>)
        requires i < |elements| && ChoiceInv(c, elements, labels, first, otherInput, options, i)
      requires first == Some(i) ==> other && !PlainLabel(labels[i])
      requires other && !PlainLabel(labels[i]) ==> first.Some? && first.value <= i
      ensures stop <==> otherInput.None? && first == Some(i)
      ensures !stop ==> ChoiceInv(c', elements, labels, first, otherInput, options', i + 1)
    {
      c' := c;
      options' := options;
      var lbl := options[i];
      assert lbl == labels[i];
      if lbl in c {
        // A repeated label: only a warning.
        RepeatedKeep(c, elements, labels, first, otherInput, options, i);
      } else if lbl == "" || lbl == OtherLabel {
        if other {
          if c[OtherKey].OtherPair? {
            // A later 'Other' option is skipped.
            OtherSkip(c, elements, labels, first, otherInput, options, i);
            return false, c', options';
          }
          assert !(first.value < i);
          if otherInput.None? {
            return true, c', options';
          }
          OtherTake(c, elements, labels, first, otherInput, options, i);
          c' := c[OtherKey := OtherPair(elements[i], otherInput.value)];
          options' := options[i := OtherLabel];
        } else {
          var key := BlankKey + "_" + NatToString(FirstIndex(options, lbl));
          assert BlankKey <= key;
          BlankAdd(c, elements, labels, first, otherInput, options, i, key);
          c' := c[key := El(elements[i])];
        }
      } else {
        PlainAdd(c, elements, labels, first, otherInput, options, i);
        c' := c[lbl := El(elements[i])];
      }
      return false, c', options';
    }

    /** `_submit_time`: the time check, then one submission typing the hour and the minute. */
    method SubmitTime(hourElem: Elem, minuteElem: Elem, hour: Value, minute: Value) returns (r: Reply)
      modifies this
      ensures queue == old(queue) && cache == old(cache)
      ensures r == Crash <==> TimeCheck(hour, minute).None?
      ensures TimeCheck(hour, minute) == Some(false) ==> r == Done(False)
      ensures TimeCheck(hour, minute) != Some(true) ==> performs == old(performs) && trace == old(trace)
      ensures TimeCheck(hour, minute) == Some(true) ==>
                var ok := old(performs) != [] && old(performs)[0];
                r == Done(if ok then True else Nothing)
                && trace == old(trace) + (if ok then TypeInto(hourElem, hour.s) + TypeInto(minuteElem, minute.s) else [])
                && performs == if old(performs) == [] then [] else old(performs)[1..]
      ensures var o := TimeSubmission(hourElem, minuteElem, old(performs), hour, minute);
              r == o.reply && trace == old(trace) + o.actions && performs == o.rest
    {
      match TimeCheck(hour, minute)
      case None => return Crash;
      case Some(false) => return Done(False);
      case Some(true) =>
        var ok := Perform(TypeInto(hourElem, hour.s) + TypeInto(minuteElem, minute.s));
        return Done(if ok then True else Nothing);
    }

    /**
     * A date question. With a dictionary, the time is submitted first and
     * its outcome is ignored; the date is then checked and typed into the
     * picker (`%d%m%Y`), or into the month and day fields (day first).
     */
    method AnswerDate(answer: Answer) returns (r: Reply)
      requires WellKeyed(cache) && DateCache(cache) && !FalsyAnswer(answer)
      modifies this
      ensures queue == old(queue) && cache == old(cache)
      ensures answer.Strs? ==> r == Done(False) && trace == old(trace) && performs == old(performs)
      ensures answer.Mapping? && (Lookup(answer.pairs, "date").None? || Lookup(answer.pairs, "hour").None?
                                  || Lookup(answer.pairs, "minute").None? || !TimeCache(cache)) ==>
                r == Done(False) && trace == old(trace)
      ensures answer.Str? && DatePickerKey in cache && PickerText(answer.s).None? ==>
                r == Done(False) && trace == old(trace)
      ensures answer.Str? && DatePickerKey in cache && PickerText(answer.s).Some? ==>
                r != Done(False)
                && (r == Done(True) ==> trace == old(trace) + TypeInto(cache[DatePickerKey].elem, PickerText(answer.s).value))
      ensures answer.Str? && DatePickerKey !in cache && ParseMonthDay(answer.s).None? ==>
                r == Done(False) && trace == old(trace)
      ensures answer.Str? && DatePickerKey !in cache && ParseMonthDay(answer.s).Some? ==>
                var d := ParseMonthDay(answer.s).value;
                r != Done(False)
                && (r == Done(True) ==> trace == old(trace) + TypeInto(cache[DateKey].elem, NatToString(d.day))
                                                            + TypeInto(cache[MonthKey].elem, NatToString(d.month)))
      ensures var o := DateOutcome(cache, old(performs), answer);
              r == o.reply && trace == old(trace) + o.actions && performs == o.rest
      ensures answer.Mapping? && TimeCache(cache)
              && GivenText(answer.pairs, "date") && GivenText(answer.pairs, "hour") && GivenText(answer.pairs, "minute") ==>
                var o := DateAfterTime(cache, old(performs), TextOf(answer.pairs, "date"),
                                       TextOf(answer.pairs, "hour"), TextOf(answer.pairs, "minute"));
                r == o.reply && trace == old(trace) + o.actions
    {
      ghost var ps0 := performs;
      if answer.Mapping? {
        var d, h, m := Lookup(answer.pairs, "date"), Lookup(answer.pairs, "hour"), Lookup(answer.pairs, "minute");
        if d.None? || h.None? || m.None? {
          return Done(False);
        } else if !TimeCache(cache) {
          return Done(False);
        }
        r := SubmitDateTime(h.value, m.value, d.value);
        if GivenText(answer.pairs, "date") && GivenText(answer.pairs, "hour") && GivenText(answer.pairs, "minute") {
          DateTimeAnswer(cache, ps0, answer.pairs, []);
        }
      } else if answer.Str? {
        r := SubmitDate(answer.s);
        DateOnlyMeaning(cache, ps0, answer.s);
      } else {
        return Done(False);
      }
    }

    /**
     * A date answer given as a dictionary: the time is submitted first and,
     * unless that raises, the date follows whatever the time's outcome was.
     */
    method SubmitDateTime(hour: Value, minute: Value, date: Value) returns (r: Reply)
      requires WellKeyed(cache) && DateCache(cache) && TimeCache(cache)
      modifies this
      ensures queue == old(queue) && cache == old(cache)
      ensures var o := DateWithTime(cache, old(performs), hour, minute, date);
              r == o.reply && trace == old(trace) + o.actions && performs == o.rest
    {
      ghost var time := TimeSubmission(cache[HourKey].elem, cache[MinuteKey].elem, performs, hour, minute);
      var t := SubmitTime(cache[HourKey].elem, cache[MinuteKey].elem, hour, minute);
      if t.Crash? {
        return Crash;
      }
      if date.VSeq? {
        // `strptime` of a list.
        assert time.actions + [] == time.actions;
        return Crash;
      }
      ghost var typed := DateOnly(cache, performs, date.s);
      r := SubmitDate(date.s);
      AppendAssoc(old(trace), time.actions, typed.actions);
    }

    /** The date part of a date answer: checked, then typed in one submission. */
    method SubmitDate(date: string) returns (r: Reply)
      requires WellKeyed(cache) && DateCache(cache)
      modifies this
      ensures queue == old(queue) && cache == old(cache)
      ensures var o := DateOnly(cache, old(performs), date);
              r == o.reply && trace == old(trace) + o.actions && performs == o.rest
    {
      if DatePickerKey in cache {
        match PickerText(date)
        case None => return Done(False);
        case Some(text) =>
          var ok := Perform(TypeInto(cache[DatePickerKey].elem, text));
          return Done(if ok then True else Nothing);
      } else {
        match ParseMonthDay(date)
        case None => return Done(False);
        case Some(md) =>
          var ok := Perform(TypeInto(cache[DateKey].elem, NatToString(md.day))
                            + TypeInto(cache[MonthKey].elem, NatToString(md.month)));
          return Done(if ok then True else Nothing);
      }
    }

    /**
     * The duration half of a time question: the seconds must be a string
     * and the three parts must pass the duration check before all three
     * are typed.
     */
    method AnswerDuration(h: string, m: string, s: Option<Value>) returns (r: Reply)
      requires WellKeyed(cache) && TimeCache(cache) && SecondKey in cache
      modifies this
      ensures queue == old(queue) && cache == old(cache)
      ensures (s.None? || s.value.VSeq? || !DurationOk(h, m, s.value.s)) ==> r == Done(False) && trace == old(trace)
      ensures s.Some? && s.value.VStr? && DurationOk(h, m, s.value.s) ==>
                r != Done(False)
                && (r == Done(True) ==> trace == old(trace) + TypeInto(cache[HourKey].elem, h)
                                                          + TypeInto(cache[MinuteKey].elem, m)
                                                          + TypeInto(cache[SecondKey].elem, s.value.s))
      ensures var o := DurationOutcome(cache, old(performs), h, m, s);
              r == o.reply && trace == old(trace) + o.actions && performs == o.rest
    {
      if s.None? || !s.value.VStr? {
        return Done(False);
      }
      if !DurationOk(h, m, s.value.s) {
        return Done(False);
      }
      var ok := Perform(TypeInto(cache[HourKey].elem, h) + TypeInto(cache[MinuteKey].elem, m)
                        + TypeInto(cache[SecondKey].elem, s.value.s));
      return Done(if ok then True else Nothing);
    }

    /**
     * A time or duration question. A duration is checked and typed; a time
     * goes through `_submit_time`, whose outcome is ignored, so a time
     * answer of two strings always counts as answered.
     */
    method AnswerTime(answer: Answer) returns (r: Reply)
      requires WellKeyed(cache) && TimeCache(cache) && !FalsyAnswer(answer)
      modifies this
      ensures queue == old(queue) && cache == old(cache)
      ensures !answer.Mapping? ==> r == Done(False) && trace == old(trace)
      ensures answer.Mapping? && !(Lookup(answer.pairs, "hour").Some? && Lookup(answer.pairs, "hour").value.VStr?
                                   && Lookup(answer.pairs, "minute").Some? && Lookup(answer.pairs, "minute").value.VStr?) ==>
                r == Done(False) && trace == old(trace)
      ensures answer.Mapping? && SecondKey !in cache
              && Lookup(answer.pairs, "hour").Some? && Lookup(answer.pairs, "hour").value.VStr?
              && Lookup(answer.pairs, "minute").Some? && Lookup(answer.pairs, "minute").value.VStr? ==>
                r == Done(True)
                && (TimeCheck(Lookup(answer.pairs, "hour").value, Lookup(answer.pairs, "minute").value) != Some(true) ==>
                      trace == old(trace))
      ensures answer.Mapping? && SecondKey in cache
              && Lookup(answer.pairs, "hour").Some? && Lookup(answer.pairs, "hour").value.VStr?
              && Lookup(answer.pairs, "minute").Some? && Lookup(answer.pairs, "minute").value.VStr? ==>
                var h, m, s := Lookup(answer.pairs, "hour").value.s, Lookup(answer.pairs, "minute").value.s,
                               Lookup(answer.pairs, "second");
                ((s.None? || s.value.VSeq? || !DurationOk(h, m, s.value.s)) ==> r == Done(False) && trace == old(trace))
                && (s.Some? && s.value.VStr? && DurationOk(h, m, s.value.s) ==>
                      r != Done(False)
                      && (r == Done(True) ==> trace == old(trace) + TypeInto(cache[HourKey].elem, h)
                                                                + TypeInto(cache[MinuteKey].elem, m)
                                                                + TypeInto(cache[SecondKey].elem, s.value.s)))
      ensures var o := TimeOutcome(cache, old(performs), answer);
              r == o.reply && trace == old(trace) + o.actions && performs == o.rest
    {
      if !answer.Mapping? {
        return Done(False);
      }
      var h, m := Lookup(answer.pairs, "hour"), Lookup(answer.pairs, "minute");
      if h.None? || m.None? {
        return Done(False);
      } else if !(h.value.VStr? && m.value.VStr?) {
        return Done(False);
      }
      if SecondKey in cache {
        r := AnswerDuration(h.value.s, m.value.s, Lookup(answer.pairs, "second"));
        return;
      } else {
        var ignored := SubmitTime(cache[HourKey].elem, cache[MinuteKey].elem, h.value, m.value);
      }
      return Done(True);
    }

    /**
     * A drop-down question: open the menu, then click the first entry
     * (after the placeholder) whose text is the answer. `menu` is what the
     * opened menu lists after its placeholder.
     */
    method AnswerDropdown(answer: Answer, menu: seq<(Elem, string)>) returns (r: Reply)
      requires WellKeyed(cache) && DropdownCache(cache)
      modifies this
      ensures queue == old(queue) && cache == old(cache)
      ensures !answer.Str? ==> r == Done(False) && trace == old(trace)
      ensures answer.Str? && r == Done(True) ==>
                FindEntry(menu, answer.s).Some?
                && trace == old(trace) + [Click(cache[PlaceholderKey].elem), Click(menu[FindEntry(menu, answer.s).value].0)]
      ensures answer.Str? && FindEntry(menu, answer.s).None? ==> r != Done(True)
      ensures r != Crash
      ensures var o := DropdownOutcome(cache, old(performs), answer, menu);
              r == o.reply && trace == old(trace) + o.actions && performs == o.rest
    {
      if !answer.Str? {
        return Done(False);
      }
      var ok := Perform([Click(cache[PlaceholderKey].elem)]);
      if !ok {
        return Done(Nothing);
      }
      match FindEntry(menu, answer.s)
      case None => return Done(False);
      case Some(k) =>
        ok := Perform([Click(menu[k].0)]);
        return Done(if ok then True else Nothing);
    }

    /**
     * One selection of a non-grid question: a stored label is clicked, any
     * other text goes to 'Other' when there is one and fails otherwise.
     */
    method SubmitChoice(selection: string, ghost step: Step) returns (r: Reply)
      requires WellKeyed(cache) && ChoiceCache(cache) && step == SelectionStep(cache, selection)
      modifies this
      ensures queue == old(queue) && cache == old(cache)
      ensures selection in cache && selection != OtherKey && cache[selection].El? ==>
                r != Done(False)
                && (r == Done(True) ==> trace == old(trace) + [Click(cache[selection].elem)])
      ensures selection in cache && selection != OtherKey && cache[selection].Row? ==> r == Crash
      ensures (selection !in cache || selection == OtherKey) && cache[OtherKey].NoOther? ==>
                r == Done(False) && trace == old(trace)
      ensures (selection !in cache || selection == OtherKey) && cache[OtherKey].OtherPair? ==>
                r != Done(False)
                && (r == Done(True) ==> trace == old(trace) + TypeOther(cache[OtherKey].select, cache[OtherKey].input, selection))
      ensures r.Done? && r.result != True ==> trace == old(trace)
      ensures var o := StepOutcome(old(performs), step);
              r == o.reply && trace == old(trace) + o.actions && performs == o.rest
    {
      var ok: bool;
      if selection in cache && selection != OtherKey {
        if cache[selection].Row? {
          return Crash;
        }
        ok := Perform([Click(cache[selection].elem)]);
      } else if cache[OtherKey].NoOther? {
        return Done(False);
      } else {
        ok := Perform(TypeOther(cache[OtherKey].select, cache[OtherKey].input, selection));
      }
      return Done(if ok then True else Nothing);
    }

    /** A non-grid radio or checkbox question: every selection in order; the first failure gives `None`. */
    method AnswerChoice(answer: Answer) returns (r: Reply)
      requires WellKeyed(cache) && ChoiceCache(cache) && !FalsyAnswer(answer)
      modifies this
      ensures queue == old(queue) && cache == old(cache)
      ensures answer.Mapping? ==> r == Done(False) && trace == old(trace)
      ensures r != Done(False) || answer.Mapping?
      ensures r.Done? && r.result != True ==> !answer.Mapping? ==> r.result == Nothing
      ensures r == Done(True) ==> trace == old(trace) + Flatten(ChoiceSteps(cache, Chosen(answer)))
      ensures var o := ChoiceOutcome(cache, old(performs), answer);
              r == o.reply && trace == old(trace) + o.actions && performs == o.rest
    {
      if answer.Mapping? {
        return Done(False);
      }
      ghost var ps0 := performs;
      ghost var steps := ChoiceSteps(cache, Chosen(answer));
      forall k | 0 <= k < |Chosen(answer)| ensures steps[k] == SelectionStep(cache, Chosen(answer)[k]) {
        ChoiceStepsAt(cache, Chosen(answer), k);
      }
      r := SubmitChoices(Chosen(answer), steps);
      ChoiceAnswerTrue(cache, ps0, answer);
    }

    /** The selections of a non-grid answer, in order, one submission each; the first that fails gives `None`. */
    method SubmitChoices(selections: seq<string>, ghost steps: seq<Step>) returns (r: Reply)
      requires WellKeyed(cache) && ChoiceCache(cache) && |steps| == |selections|
      requires forall i :: 0 <= i < |selections| ==> steps[i] == SelectionStep(cache, selections[i])
      modifies this
      ensures queue == old(queue) && cache == old(cache)
      ensures var o := Run(old(performs), steps);
              r == o.reply && trace == old(trace) + o.actions && performs == o.rest
    {
      ghost var ps0 := performs;
      ghost var done: seq<Action> := [];
      ghost var whole := Run(ps0, steps);
      var i := 0;
      while i < |selections|
        invariant 0 <= i <= |selections|
        invariant queue == old(queue) && cache == old(cache)
        invariant trace == old(trace) + done
        invariant whole == After(done, Run(performs, steps[i..]))
      {
        RunAdvance(whole, done, performs, steps, i);
        ghost var o := StepOutcome(performs, steps[i]);
        var s := SubmitChoice(selections[i], steps[i]);
        if s.Crash? {
          return Crash;
        } else if s.result != True {
          return Done(Nothing);
        }
        done := done + o.actions;
        i := i + 1;
      }
      RunDone(whole, done, performs, steps);
      return Done(True);
    }

    /** A short-answer or paragraph question: the answer is typed into the text field. */
    method AnswerText(answer: Answer) returns (r: Reply)
      requires WellKeyed(cache) && TextCache(cache)
      modifies this
      ensures queue == old(queue) && cache == old(cache)
      ensures !answer.Str? ==> r == Done(False) && trace == old(trace)
      ensures answer.Str? ==> r != Done(False) && r != Crash
                              && (r == Done(True) ==> trace == old(trace) + TypeInto(cache[TextKey].elem, answer.s))
      ensures var o := TextOutcome(cache, old(performs), answer);
              r == o.reply && trace == old(trace) + o.actions && performs == o.rest
    {
      if !answer.Str? {
        return Done(False);
      }
      var ok := Perform(TypeInto(cache[TextKey].elem, answer.s));
      return Done(if ok then True else Nothing);
    }

    /**
     * A grid question: a dictionary from rows to a column or a list of
     * columns, whose rows must all be cached. Each row is one submission
     * clicking the chosen cells; a missing cell is an uncaught error.
     */
    method AnswerGrid(answer: Answer) returns (r: Reply)
      requires WellKeyed(cache)
      modifies this
      ensures queue == old(queue) && cache == old(cache)
      ensures !answer.Mapping? ==> r == Done(False) && trace == old(trace)
      ensures answer.Mapping? && (exists i :: 0 <= i < |answer.pairs| && answer.pairs[i].0 !in cache) ==>
                r == Done(False) && trace == old(trace)
      ensures r == Done(True) ==> answer.Mapping?
                                  && forall i :: 0 <= i < |answer.pairs| ==>
                                       answer.pairs[i].0 in cache && cache[answer.pairs[i].0].Row?
                                       && CellClicks(cache[answer.pairs[i].0].cells, Selections(answer.pairs[i].1)).Some?
      ensures r == Done(True) ==> trace == old(trace) + Flatten(RowSteps(cache, answer.pairs))
      ensures var o := GridOutcome(cache, old(performs), answer);
              r == o.reply && trace == old(trace) + o.actions && performs == o.rest
    {
      ghost var ps0 := performs;
      if !answer.Mapping? {
        return Done(False);
      }
      var pairs := answer.pairs;
      var i := 0;
      while i < |pairs|
        invariant 0 <= i <= |pairs|
        invariant forall j :: 0 <= j < i ==> pairs[j].0 in cache
      {
        if pairs[i].0 !in cache {
          return Done(False);
        }
        i := i + 1;
      }
      ghost var steps := RowSteps(cache, pairs);
      forall k | 0 <= k < |pairs| ensures steps[k] == RowStep(cache, pairs[k]) {
        RowStepsAt(cache, pairs, k);
      }
      r := SubmitRows(pairs, steps);
      GridAnswerTrue(cache, ps0, answer);
    }

    /** The rows of a grid answer, in order, one submission each; the first that fails gives `None`. */
    method SubmitRows(pairs: seq<(string, Value)>, ghost steps: seq<Step>) returns (r: Reply)
      requires |steps| == |pairs| && forall i :: 0 <= i < |pairs| ==> pairs[i].0 in cache
      requires forall i {:trigger RowStep(cache, pairs[i])} :: 0 <= i < |pairs| ==> steps[i] == RowStep(cache, pairs[i])
      modifies this
      ensures queue == old(queue) && cache == old(cache)
      ensures var o := Run(old(performs), steps);
              r == o.reply && trace == old(trace) + o.actions && performs == o.rest
    {
      ghost var ps0 := performs;
      ghost var done: seq<Action> := [];
      ghost var whole := Run(ps0, steps);
      var i := 0;
      while i < |pairs|
        invariant 0 <= i <= |pairs|
        invariant queue == old(queue) && cache == old(cache)
        invariant trace == old(trace) + done
        invariant whole == After(done, Run(performs, steps[i..]))
      {
        RunAdvance(whole, done, performs, steps, i);
        ghost var o := StepOutcome(performs, steps[i]);
        var s := SubmitRow(pairs[i], steps[i]);
        if s.Crash? {
          return Crash;
        } else if s.result != True {
          return Done(Nothing);
        }
        done := done + o.actions;
        i := i + 1;
      }
      RunDone(whole, done, performs, steps);
      return Done(True);
    }

    /** One row of a grid answer: its chosen cells clicked in one submission. */
    method SubmitRow(row: (string, Value), ghost step: Step) returns (r: Reply)
      requires row.0 in cache && step == RowStep(cache, row)
      modifies this
      ensures queue == old(queue) && cache == old(cache)
      ensures var o := StepOutcome(old(performs), step);
              r == o.reply && trace == old(trace) + o.actions && performs == o.rest
    {
      if !cache[row.0].Row? {
        return Crash;
      }
      match CellClicks(cache[row.0].cells, Selections(row.1))
      case None => return Crash;
      case Some(clicks) =>
        var ok := Perform(clicks);
        return Done(if ok then True else Nothing);
    }

    /**
     * `answer_question`: with nothing cached it fails; a skip is always
     * accepted (no required-flag check); otherwise the answer is checked
     * and submitted by the kind the cache stands for. Only an accepted
     * answer or skip clears the cache.
     */
    method AnswerQuestion(answer: Answer, skip: bool, menu: seq<(Elem, string)>) returns (r: Reply)
      requires WellKeyed(cache)
      modifies this
      ensures old(cache) == map[] ==> r == Done(False) && trace == old(trace) && performs == old(performs)
      ensures old(cache) != map[] && skip ==> r == Done(True) && trace == old(trace) && performs == old(performs)
      ensures old(cache) != map[] && !skip && FalsyAnswer(answer) ==> r == Done(False) && trace == old(trace)
      ensures r == Done(True) <==> cache == map[] && old(cache) != map[]
      ensures r != Done(True) ==> cache == old(cache)
      ensures old(cache) != map[] && !skip && !FalsyAnswer(answer) && !DateCache(old(cache)) && TimeCache(old(cache))
              && SecondKey !in old(cache) && answer.Mapping?
              && Lookup(answer.pairs, "hour").Some? && Lookup(answer.pairs, "hour").value.VStr?
              && Lookup(answer.pairs, "minute").Some? && Lookup(answer.pairs, "minute").value.VStr? ==>
                r == Done(True)
      ensures old(cache) != map[] && !skip && !FalsyAnswer(answer) && DateCache(old(cache))
              && DatePickerKey in old(cache) && answer.Str? && PickerText(answer.s).None? ==>
                r == Done(False) && trace == old(trace)
      ensures old(cache) != map[] && !skip && !FalsyAnswer(answer) && GridCache(old(cache)) && !answer.Mapping? ==>
                r == Done(False) && trace == old(trace)
      ensures old(cache) != map[] && !skip && DateCache(old(cache)) && TimeCache(old(cache)) && answer.Mapping?
              && GivenText(answer.pairs, "date") && GivenText(answer.pairs, "hour") && GivenText(answer.pairs, "minute") ==>
                var o := DateAfterTime(old(cache), old(performs), TextOf(answer.pairs, "date"),
                                       TextOf(answer.pairs, "hour"), TextOf(answer.pairs, "minute"));
                r == o.reply && trace == old(trace) + o.actions
      ensures queue == old(queue)
      ensures var o := AnswerOutcome(old(cache), old(performs), answer, skip, menu);
              r == o.reply && trace == old(trace) + o.actions && performs == o.rest
    {
      if cache == map[] {
        return Done(False);
      }
      if !skip {
        if FalsyAnswer(answer) {
          return Done(False);
        }
        if DateCache(cache) {
          r := AnswerDate(answer);
        } else if TimeCache(cache) {
          r := AnswerTime(answer);
        } else if DropdownCache(cache) {
          r := AnswerDropdown(answer, menu);
        } else if ChoiceCache(cache) {
          r := AnswerChoice(answer);
        } else if TextCache(cache) {
          r := AnswerText(answer);
        } else {
          r := AnswerGrid(answer);
        }
        if r != Done(True) {
          return r;
        }
      }
      cache := map[];
      return Done(True);
    }
  }
}

=== FILE: legacy_question_base.dfy ===
/**
 * Question wrappers of the earlier program: the shared metadata and the
 * validity check of cached elements.
 *
 * The page is an oracle. A lookup the program makes with
 * `find_element_*` (which raises when nothing matches) is an `Option`,
 * `None` standing for the missing element; a lookup with
 * `find_elements_*` is a sequence.
 */
module LegacyQuestionBase {
  import opened Common
  import QB = QuestionBase
  import LB = LegacyBrowser

  datatype LegacyPage = LegacyPage(
    /** Elements no longer found by their id. */
    stale: set<Elem>,
    /** The title and description texts of a question, when the question has them. */
    title: Elem -> Option<string>,
    description: Elem -> Option<string>,
    /** Whether a question shows the required asterisk. */
    asterisk: Elem -> bool,
    /** Date inputs, month inputs and day inputs inside a question. */
    datePickers: Elem -> seq<Elem>,
    monthInputs: Elem -> seq<Elem>,
    dayInputs: Elem -> seq<Elem>,
    /** The input of a question whose aria-label is exactly the given label. */
    labelled: (Elem, string) -> Option<Elem>,
    /** A drop-down question's placeholder and its menu. */
    placeholder: Elem -> Option<Elem>,
    menu: Elem -> Option<Elem>,
    /** A menu's entries, the placeholder entry first. */
    entries: Elem -> seq<Elem>,
    /** The text an element shows. */
    text: Elem -> string)

  /** How a stage of a call ends: with a value to go on with, a result to return early, or an exception. */
  datatype Step<X> = Ok(value: X) | Stop(result: Tri) | Raise

  /** The metadata of a question. */
  datatype Metadata = Metadata(header: string, description: string, required: bool)

  /** What an answer ends with: its reply, the metadata and inputs it leaves, and its actions. */
  datatype Answered<S> = Answered(result: Reply, meta: Metadata, actions: seq<Action>, after: Option<S>)

  /**
   * `_is_valid(element)`: whether the element is still found by its id.
   * Without an open browser the driver is `None` and the lookup raises.
   */
  function IsValid(open: bool, stale: set<Elem>, e: Elem): (r: Reply)
    ensures r == Crash <==> !open
    ensures r == Done(True) <==> open && e !in stale
    ensures r != Done(Nothing)
  {
    if !open then Crash else if e in stale then Done(False) else Done(True)
  }

  /**
   * `_is_valid(*elements)` as written: the method takes exactly one
   * element, so a call with the two or three cached inputs raises a
   * TypeError.
   */
  function ValidAsWritten(open: bool, stale: set<Elem>, elements: seq<Elem>): (r: Reply)
    ensures |elements| != 1 ==> r == Crash
    ensures |elements| == 1 ==> r == IsValid(open, stale, elements[0])
  {
    if |elements| != 1 then Crash else IsValid(open, stale, elements[0])
  }

  /** The evidently intended check: every cached input is still found. */
  function AllValid(open: bool, stale: set<Elem>, elements: seq<Elem>): (r: Reply)
    ensures r == Crash <==> !open
    ensures r == Done(True) <==> open && forall i :: 0 <= i < |elements| ==> elements[i] !in stale
    ensures r != Done(Nothing)
  {
    if !open then Crash
    else if forall i :: 0 <= i < |elements| ==> elements[i] !in stale then Done(True)
    else Done(False)
  }

  /**
   * The corrected check agrees with the written one on a single element,
   * and passes exactly when each element would pass on its own.
   */
  lemma AllValidMeaning(open: bool, stale: set<Elem>, elements: seq<Elem>)
    ensures |elements| == 1 ==> AllValid(open, stale, elements) == ValidAsWritten(open, stale, elements)
    ensures open ==> (AllValid(open, stale, elements) == Done(True) <==>
                        forall i :: 0 <= i < |elements| ==> IsValid(open, stale, elements[i]) == Done(True))
  {
  }

  /** The check the model applies to cached inputs: as written, or as intended. */
  function Check(asWritten: bool, open: bool, stale: set<Elem>, elements: seq<Elem>): Reply
  {
    if asWritten then ValidAsWritten(open, stale, elements) else AllValid(open, stale, elements)
  }

  /** As written, checking two or more cached inputs always raises, whatever the page. */
  lemma CheckAsWrittenRaises(open: bool, stale: set<Elem>, elements: seq<Elem>)
    requires |elements| >= 2
    ensures Check(true, open, stale, elements) == Crash
    ensures open && (forall i :: 0 <= i < |elements| ==> elements[i] !in stale) ==>
              Check(false, open, stale, elements) == Done(True)
  {
  }

  /**
   * `get_info` of the base question: `False` when the element is no longer
   * found; otherwise the title and description (whose absence raises) and
   * the asterisk, a required question's header losing its last two
   * characters.
   */
  function BaseInfo(page: LegacyPage, open: bool, e: Elem): (r: Step<Metadata>)
    ensures r.Ok? <==> IsValid(open, page.stale, e) == Done(True) && page.title(e).Some? && page.description(e).Some?
    ensures r.Stop? ==> r.result == False
    ensures r.Ok? ==> r.value.required == page.asterisk(e) && r.value.description == page.description(e).value
                      && r.value.header <= page.title(e).value
                      && (r.value.header == page.title(e).value <==> !page.asterisk(e) || |page.title(e).value| == 0)
  {
    match IsValid(open, page.stale, e)
    case Crash => Raise
    case Done(v) =>
      if v != True then Stop(False)
      else if page.title(e).None? || page.description(e).None? then Raise
      else
        var t := page.title(e).value;
        Ok(Metadata(if page.asterisk(e) then QB.TrimRequired(t) else t, page.description(e).value, page.asterisk(e)))
  }

  /** The reply a stage ends the call with, when it does not go on. */
  function StepReply<X>(s: Step<X>): Reply
    requires !s.Ok?
  {
    if s.Raise? then Crash else Done(s.result)
  }

  class LegacyQuestion {
    var header: string
    var description: string
    var required: bool
    var element: Elem
    /** Every click, keystroke and pause sent through this question, in order. */
    var trace: seq<Action>
    const browser: LB.Browser
    const page: LegacyPage

    /** The initial values `__init__` gives before it calls `get_info`. */
    constructor(element: Elem, browser: LB.Browser, page: LegacyPage)
      ensures this.element == element && this.browser == browser && this.page == page
      ensures header == "" && description == "" && !required && trace == []
    {
      this.element := element;
      this.browser := browser;
      this.page := page;
      header := "";
      description := "";
      required := false;
      trace := [];
    }

    function Meta(): Metadata
      reads this
    {
      Metadata(header, description, required)
    }

    /** `__eq__`: two questions are equal when their headers are. */
    predicate Equals(other: LegacyQuestion)
      reads this, other
    {
      header == other.header
    }

    /** `get_info` of the base question: the metadata changes only when it succeeds. */
    method GetInfo() returns (r: Reply)
      modifies this
      ensures element == old(element) && trace == old(trace)
      ensures var s := BaseInfo(page, browser.open, element);
              (s.Ok? ==> r == Done(True) && Meta() == s.value)
              && (!s.Ok? ==> r == StepReply(s) && Meta() == old(Meta()))
    {
      var v := IsValid(browser.open, page.stale, element);
      if v == Crash {
        return Crash;
      }
      if v != Done(True) {
        return Done(False);
      }
      var t := page.title(element);
      var d := page.description(element);
      if t.None? || d.None? {
        return Crash;
      }
      description := d.value;
      required := page.asterisk(element);
      header := if page.asterisk(element) then QB.TrimRequired(t.value) else t.value;
      return Done(True);
    }
  }

  /** Equality of questions is equality of headers, so it is symmetric and transitive. */
  lemma EqualsIsHeaderEquality(p: LegacyQuestion, q: LegacyQuestion, s: LegacyQuestion)
    ensures p.Equals(q) <==> q.Equals(p)
    ensures p.Equals(q) && q.Equals(s) ==> p.Equals(s)
    ensures p.Equals(p)
  {
  }

  /** Two questions that both read one element of one page are equal. */
  lemma SameElementEqual(p: LegacyQuestion, q: LegacyQuestion, page: LegacyPage, open: bool, e: Elem)
    requires BaseInfo(page, open, e).Ok?
    requires p.Meta() == BaseInfo(page, open, e).value && q.Meta() == BaseInfo(page, open, e).value
    ensures p.Equals(q)
  {
  }
}

=== FILE: markup_base.dfy ===
/**
 * The inline keyboards of the current program: a button is its label and
 * its callback data, a keyboard a sequence of rows. `get_pattern` joins
 * callback data into an anchored alternation, `get_markup` lays out rows
 * and strips the emoji that decorate a label from its callback data, and
 * an option menu accepts its stored options and SKIP.
 */
module Markups {
  import opened Common
  import opened Text

  datatype Button = Button(text: string, data: string)

  type Keyboard = seq<seq<Button>>

  /** A row argument of `get_markup`: a lone label, or a tuple of labels. */
  datatype Row = Single(text: string) | Several(texts: seq<string>)

  /**
   * What a picker's `perform_action` gives back: nothing, a keyboard to
   * show, a text, or an exception raised on the way.
   */
  datatype Response = Silent | Keys(keyboard: Keyboard) | Message(text: string) | Raised

  /** The callback data of the skip button. */
  const Skip: string := "SKIP_THIS_QUESTION"
  /** The text a picker of a required question answers a skip with. */
  const RequiredWarning: string := "ALERT: This is a required question."
  /** The callback data of every button that does nothing (labels, blanks). */
  const Ignore: string := "IGNORE"

  /** A button that shows nothing and does nothing. */
  const Blank: Button := Button(" ", Ignore)

  /** The answer to a skip: the warning when an answer is required, SKIP otherwise. */
  function SkipReply(required: bool): string
  {
    if required then RequiredWarning else Skip
  }

  // ---------------------------------------------------------------------
  // Patterns

  /** `get_pattern(*datas)`: the data joined by '|', anchored between "^(" and ")$". */
  function Pattern(datas: seq<string>): (r: string)
    ensures |r| >= 4 && r[..2] == "^(" && r[|r| - 2..] == ")$"
  {
    "^(" + Join(datas, '|') + ")$"
  }

  /** A pattern with its anchors cut off, as `pattern[2:-2]`. */
  function Inner(p: string): string
    requires |p| >= 4
  {
    p[2..|p| - 2]
  }

  /** Alternatives without a '|' of their own are recovered from the pattern by splitting at '|'. */
  lemma PatternAlternatives(datas: seq<string>)
    requires 0 < |datas|
    requires forall i :: 0 <= i < |datas| ==> '|' !in datas[i]
    ensures Split(Inner(Pattern(datas)), '|') == datas
  {
    assert Inner(Pattern(datas)) == Join(datas, '|');
    SplitJoin(datas, '|');
  }

  /** Joining one more alternative after a '|' is the join of the longer list. */
  lemma {:induction false} JoinSnoc(datas: seq<string>, x: string)
    requires 0 < |datas|
    ensures Join(datas, '|') + ['|'] + x == Join(datas + [x], '|')
    decreases |datas|
  {
    if |datas| == 1 {
      assert (datas + [x])[1..] == [x];
    } else {
      assert (datas + [x])[1..] == datas[1..] + [x];
      JoinSnoc(datas[1..], x);
    }
  }

  // ---------------------------------------------------------------------
  // Emoji stripping

  /**
   * The head step of `_add_option`: a leading non-word character is cut off
   * and the rest left-stripped; the assertion fails on a one-character
   * label.
   */
  function StripHead(d: string): (r: Option<string>)
    requires 0 < |d|
    ensures r.Some? ==> |r.value| <= |d|
  {
    if IsWordChar(d[0]) then Some(d)
    else if |d| < 2 then None
    else Some(LStrip(d[1..]))
  }

  /** The tail step: a trailing non-word character is cut off and the rest right-stripped. */
  function StripTail(d: string): (r: Option<string>)
    requires 0 < |d|
    ensures r.Some? ==> |r.value| <= |d|
  {
    if IsWordChar(d[|d| - 1]) then Some(d)
    else if |d| < 2 then None
    else Some(RStrip(d[..|d| - 1]))
  }

  /**
   * The callback data `_add_option` derives from a label: both steps in
   * turn; `None` where an index is out of range (an empty label, or one
   * emptied by the head step) or an assertion fails.
   */
  function StripEmoji(d: string): (r: Option<string>)
    ensures r.Some? ==> |r.value| <= |d|
    ensures 0 < |d| && IsWordChar(d[0]) && IsWordChar(d[|d| - 1]) ==> r == Some(d)
    ensures |d| == 0 ==> r.None?
  {
    if |d| == 0 then None
    else match StripHead(d)
      case None => None
      case Some(h) =>
        if |h| == 0 then None
        else
          StripTail(h)
  }

  /**
   * A label written "<emoji> <data> <emoji>", whose data begins and ends
   * with a word character, has exactly the data as its callback data.
   */
  lemma StripDecorated(e1: char, x: string, e2: char)
    requires !IsWordChar(e1) && !IsWordChar(e2)
    requires 0 < |x| && IsWordChar(x[0]) && IsWordChar(x[|x| - 1])
    ensures StripEmoji([e1, ' '] + x + [' ', e2]) == Some(x)
  {
    var h := x + [' ', e2];
    assert [e1, ' '] + x + [' ', e2] == [e1, ' '] + h;
    assert h[0] == x[0];
    DecoratedHead(e1, h);
    DecoratedTail(x, e2);
  }

  /** The head step drops a leading "<emoji> " before a word character. */
  lemma DecoratedHead(e: char, h: string)
    requires !IsWordChar(e) && 0 < |h| && IsWordChar(h[0])
    ensures StripHead([e, ' '] + h) == Some(h)
  {
    var d := [e, ' '] + h;
    assert d[1..] == [' '] + h;
    assert ([' '] + h)[1..] == h;
    assert !IsSpace(h[0]);
    assert LStrip(h) == h;
  }

  /** The tail step drops a trailing " <emoji>" after a word character. */
  lemma DecoratedTail(x: string, e: char)
    requires !IsWordChar(e) && 0 < |x| && IsWordChar(x[|x| - 1])
    ensures StripTail(x + [' ', e]) == Some(x)
  {
    var h := x + [' ', e];
    var t := h[..|h| - 1];
    assert t == x + [' '];
    assert (x + [' '])[..|x|] == x;
    assert !IsSpace(x[|x| - 1]);
    assert RStrip(x) == x;
    assert RStrip(t) == x;
  }

  /** A label written "<emoji> <data>" has the data as its callback data. */
  lemma StripLeading(e: char, x: string)
    requires !IsWordChar(e)
    requires 0 < |x| && IsWordChar(x[0]) && IsWordChar(x[|x| - 1])
    ensures StripEmoji([e, ' '] + x) == Some(x)
  {
    var d := [e, ' '] + x;
    assert d[1..] == [' '] + x;
    assert ([' '] + x)[1..] == x;
    assert !IsSpace(x[0]);
    assert LStrip(x) == x;
    assert LStrip(d[1..]) == x;
    assert StripHead(d) == Some(x);
    assert StripTail(x) == Some(x);
  }

  /** A one-character emoji cannot be stripped: the assertion fails. */
  lemma StripLoneEmoji(e: char)
    requires !IsWordChar(e)
    ensures StripEmoji([e]).None?
  {
  }

  // ---------------------------------------------------------------------
  // Layout

  /** The labels of a row argument, in order. */
  function RowLabels(row: Row): seq<string>
  {
    if row.Single? then [row.text] else row.texts
  }

  /** The callback data of a label: its entry in `option_datas` when it has one, otherwise the label; then stripped. */
  function ButtonData(text: string, optionDatas: map<string, string>): Option<string>
  {
    StripEmoji(if text in optionDatas then optionDatas[text] else text)
  }

  /** Whether every label of a row yields callback data. */
  predicate RowOk(labels: seq<string>, optionDatas: map<string, string>)
  {
    forall j :: 0 <= j < |labels| ==> ButtonData(labels[j], optionDatas).Some?
  }

  /** Whether every label of every row yields callback data, so that `get_markup` does not raise. */
  predicate RowsOk(rows: seq<Row>, optionDatas: map<string, string>)
  {
    forall i, j :: 0 <= i < |rows| && 0 <= j < |RowLabels(rows[i])| ==>
      ButtonData(RowLabels(rows[i])[j], optionDatas).Some?
  }

  /** The buttons of one row: each label with its callback data; `None` where one raises. */
  function RowButtons(labels: seq<string>, optionDatas: map<string, string>): Option<seq<Button>>
  {
    if |labels| == 0 then Some([])
    else match ButtonData(labels[0], optionDatas)
      case None => None
      case Some(d) =>
        match RowButtons(labels[1..], optionDatas)
        case None => None
        case Some(rest) => Some([Button(labels[0], d)] + rest)
  }

  /**
   * `get_markup(*option_rows, option_datas)`: the rows in order, each
   * labelled button with its callback data; `None` when stripping some
   * label raises.
   */
  function GetMarkup(rows: seq<Row>, optionDatas: map<string, string>): Option<Keyboard>
  {
    if |rows| == 0 then Some([])
    else match RowButtons(RowLabels(rows[0]), optionDatas)
      case None => None
      case Some(first) =>
        match GetMarkup(rows[1..], optionDatas)
        case None => None
        case Some(rest) => Some([first] + rest)
  }

  /** A row is built exactly when each of its labels yields data, and then in order, one button per label. */
  lemma {:induction false} RowButtonsLayout(labels: seq<string>, optionDatas: map<string, string>)
    ensures RowButtons(labels, optionDatas).Some? <==> RowOk(labels, optionDatas)
    ensures RowButtons(labels, optionDatas).Some? ==>
              var r := RowButtons(labels, optionDatas).value;
              |r| == |labels|
              && forall j :: 0 <= j < |labels| ==> r[j] == Button(labels[j], ButtonData(labels[j], optionDatas).value)
  {
    if |labels| > 0 {
      RowButtonsLayout(labels[1..], optionDatas);
      if !RowOk(labels[1..], optionDatas) {
        var j :| 0 <= j < |labels[1..]| && ButtonData(labels[1..][j], optionDatas).None?;
        assert labels[j + 1] == labels[1..][j];
      }
      if RowOk(labels, optionDatas) {
        assert forall j :: 0 <= j < |labels[1..]| ==> labels[1..][j] == labels[j + 1];
      }
    }
  }

  /** `get_markup` of rows in front of more rows: the first row's buttons, then the rest. */
  lemma GetMarkupCons(rows: seq<Row>, optionDatas: map<string, string>)
    requires 0 < |rows|
    ensures GetMarkup(rows, optionDatas).Some? <==>
              RowButtons(RowLabels(rows[0]), optionDatas).Some? && GetMarkup(rows[1..], optionDatas).Some?
    ensures GetMarkup(rows, optionDatas).Some? ==>
              GetMarkup(rows, optionDatas).value ==
              [RowButtons(RowLabels(rows[0]), optionDatas).value] + GetMarkup(rows[1..], optionDatas).value
  {
  }

  /**
   * `get_markup` raises exactly when some label cannot be stripped;
   * otherwise a lone label gives a one-button row and a tuple a row of its
   * labels in order, each button carrying its label's data.
   */
  lemma {:induction false} GetMarkupLayout(rows: seq<Row>, optionDatas: map<string, string>)
    ensures GetMarkup(rows, optionDatas).Some? <==> RowsOk(rows, optionDatas)
    ensures GetMarkup(rows, optionDatas).Some? ==>
              var k := GetMarkup(rows, optionDatas).value;
              |k| == |rows|
              && forall i :: 0 <= i < |rows| ==> Some(k[i]) == RowButtons(RowLabels(rows[i]), optionDatas)
  {
    if |rows| > 0 {
      var tail := rows[1..];
      RowButtonsLayout(RowLabels(rows[0]), optionDatas);
      GetMarkupLayout(tail, optionDatas);
      GetMarkupCons(rows, optionDatas);
      assert forall i :: 0 <= i < |tail| ==> tail[i] == rows[i + 1];
      assert RowsOk(rows, optionDatas) <==> RowOk(RowLabels(rows[0]), optionDatas) && RowsOk(tail, optionDatas) by {
        if RowOk(RowLabels(rows[0]), optionDatas) && RowsOk(tail, optionDatas) {
          forall i, j | 0 <= i < |rows| && 0 <= j < |RowLabels(rows[i])|
            ensures ButtonData(RowLabels(rows[i])[j], optionDatas).Some?
          {
            if i > 0 { assert rows[i] == tail[i - 1]; }
          }
        }
      }
    }
  }

  /** A one-label row. */
  lemma RowOfOne(l: string, d: string, optionDatas: map<string, string>)
    requires ButtonData(l, optionDatas) == Some(d)
    ensures RowButtons([l], optionDatas) == Some([Button(l, d)])
  {
    var s := [l];
    assert RowButtons(s, optionDatas) == Some([Button(s[0], d)] + []);
    assert [Button(s[0], d)] + [] == [Button(l, d)];
  }

  /** A two-label row. */
  lemma RowOfTwo(l0: string, d0: string, l1: string, d1: string, optionDatas: map<string, string>)
    requires ButtonData(l0, optionDatas) == Some(d0) && ButtonData(l1, optionDatas) == Some(d1)
    ensures RowButtons([l0, l1], optionDatas) == Some([Button(l0, d0), Button(l1, d1)])
  {
    var s := [l0, l1];
    RowOfOne(l1, d1, optionDatas);
    assert s[1..] == [l1];
    assert RowButtons(s, optionDatas) == Some([Button(s[0], d0)] + [Button(l1, d1)]);
    assert [Button(s[0], d0)] + [Button(l1, d1)] == [Button(l0, d0), Button(l1, d1)];
  }

  /** The callback data of every button of a keyboard. */
  predicate AllData(k: Keyboard, accepts: string -> bool)
  {
    forall i, j :: 0 <= i < |k| && 0 <= j < |k[i]| ==> accepts(k[i][j].data)
  }

  /** A keyboard stacked from two keyboards whose callbacks are all accepted has only accepted callbacks. */
  lemma AllDataConcat(a: Keyboard, b: Keyboard, accepts: string -> bool)
    requires AllData(a, accepts) && AllData(b, accepts)
    ensures AllData(a + b, accepts)
  {
    var k: Keyboard := a + b;
    forall i, j | 0 <= i < |k| && 0 <= j < |k[i]| ensures accepts(k[i][j].data) {
      if i < |a| {
        assert k[i] == a[i];
      } else {
        assert k[i] == b[i - |a|];
      }
    }
  }

  // ---------------------------------------------------------------------
  // Option menus

  /** `BaseOptionMarkup`: whether an answer is required, and the options in the order given. */
  datatype OptionMarkup = OptionMarkup(required: bool, options: seq<string>)

  /** `_is_option`: a stored option, or SKIP. */
  predicate IsOption(m: OptionMarkup, option: string)
  {
    option in m.options || option == Skip
  }

  /** The instance `get_pattern`: the stored options as alternatives. */
  function OptionPattern(m: OptionMarkup): (r: string)
    ensures |r| >= 4
  {
    Pattern(m.options)
  }

  /**
   * An option menu accepts exactly the alternatives of its own pattern,
   * and SKIP besides.
   */
  lemma OptionPatternAccepts(m: OptionMarkup, option: string)
    requires 0 < |m.options|
    requires forall i :: 0 <= i < |m.options| ==> '|' !in m.options[i]
    ensures IsOption(m, option) <==> option in Split(Inner(OptionPattern(m)), '|') || option == Skip
  {
    PatternAlternatives(m.options);
  }
}

=== FILE: processor.dfy ===
/**
 * The crawl controller of the form filler: a FIFO queue of question roots
 * scraped from the current form section, a single "current question" slot,
 * and the rules that classify a root into a question variant, refresh
 * stale roots, move to the next section and accept or skip answers.
 *
 * The browser side is given as oracles. `crawls` lists, in order, what the
 * monitored section scrape returns each time it is called (`None` when the
 * monitor gave up, `Some([])` once the form was submitted); `stale` and
 * `info` say which roots are stale and what the element look-ups under a
 * root find.
 */
module Processor {
  import opened Common
  import opened Seqs
  import GridLabels
  import B = Browser

  /** The question variants a root can be classified as. */
  datatype Kind =
    | DateQ | TimeQ | DatetimeQ | DropdownQ
    | CheckboxQ | CheckboxGridQ | RadioQ | RadioGridQ
    | ParagraphQ | DurationQ | ShortAnswerQ

  /** What the element look-ups under a question root find. */
  datatype RootInfo = RootInfo(
    dateMarker: bool,            // a date-supporting container
    hourInput: bool,             // an input labelled "Hour"
    minuteInput: bool,           // an input labelled "Minute"
    dropdown: bool,
    checkboxLabels: seq<string>, // the aria-label of every checkbox, "" when it has none
    radioLabels: seq<string>,    // the aria-label of every radio button, "" when it has none
    paragraph: bool,
    hoursInput: bool,            // an input labelled "Hours"
    minutesInput: bool,          // an input labelled "Minutes"
    secondsInput: bool,          // an input labelled "Seconds"
    shortAnswer: bool)

  datatype Question = Question(kind: Kind, root: Elem)

  /** The result of `get_question`: a flag (`True` submitted, `False` failed) or a question. */
  datatype Got = Flag(ok: bool) | Got(question: Question)

  /** The labels that are not blank, in order. */
  function NonBlank(labels: seq<string>): (r: seq<string>)
    ensures forall x :: x in r <==> x in labels && x != ""
  {
    if |labels| == 0 then []
    else (if labels[0] == "" then [] else [labels[0]]) + NonBlank(labels[1..])
  }

  /** The fixed-precedence classification of a question root. */
  function Classify(info: RootInfo): Option<Kind>
  {
    var time := info.hourInput && info.minuteInput;
    if time then Some(if info.dateMarker then DatetimeQ else TimeQ)
    else if info.dateMarker then Some(DateQ)
    else if info.dropdown then Some(DropdownQ)
    else if |info.checkboxLabels| > 0 then
      Some(if GridLabels.AllGrid(NonBlank(info.checkboxLabels)) then CheckboxGridQ else CheckboxQ)
    else if |info.radioLabels| > 0 then
      Some(if GridLabels.AllGrid(NonBlank(info.radioLabels)) then RadioGridQ else RadioQ)
    else if info.paragraph then Some(ParagraphQ)
    else if info.hoursInput && info.minutesInput && info.secondsInput then Some(DurationQ)
    else if info.shortAnswer then Some(ShortAnswerQ)
    else None
  }

  /** The detection tests, by rank: a lower rank is tried first. */
  predicate Detected(info: RootInfo, rank: nat)
  {
    match rank
    case 0 => info.dateMarker || (info.hourInput && info.minuteInput)
    case 1 => info.dropdown
    case 2 => |info.checkboxLabels| > 0
    case 3 => |info.radioLabels| > 0
    case 4 => info.paragraph
    case 5 => info.hoursInput && info.minutesInput && info.secondsInput
    case 6 => info.shortAnswer
    case _ => false
  }

  function Rank(k: Kind): nat
  {
    match k
    case DateQ => 0 case TimeQ => 0 case DatetimeQ => 0
    case DropdownQ => 1
    case CheckboxQ => 2 case CheckboxGridQ => 2
    case RadioQ => 3 case RadioGridQ => 3
    case ParagraphQ => 4
    case DurationQ => 5
    case ShortAnswerQ => 6
  }

  /**
   * Classification picks the first detected family; no family detected
   * means no question. Within the first family, a date marker together
   * with Hour and Minute inputs makes a date-time question, and option
   * questions are grids exactly when all their non-blank labels are grid
   * labels (so all-blank labels count as a grid).
   */
  lemma ClassifyPrecedence(info: RootInfo)
    ensures Classify(info).None? <==> forall r: nat :: !Detected(info, r)
    ensures Classify(info).Some? ==>
              Detected(info, Rank(Classify(info).value))
              && forall r: nat :: r < Rank(Classify(info).value) ==> !Detected(info, r)
    ensures Classify(info) == Some(DatetimeQ) <==> info.dateMarker && info.hourInput && info.minuteInput
    ensures Classify(info) == Some(CheckboxGridQ) <==>
              Classify(info).Some? && Rank(Classify(info).value) == 2
              && GridLabels.AllGrid(NonBlank(info.checkboxLabels))
    ensures Classify(info) == Some(RadioGridQ) <==>
              Classify(info).Some? && Rank(Classify(info).value) == 3
              && GridLabels.AllGrid(NonBlank(info.radioLabels))
  {
    if Classify(info).Some? {
      assert Detected(info, Rank(Classify(info).value));
    }
  }

  /** Checkbox or radio roots whose labels are all blank are classified as grids. */
  lemma BlankLabelsMakeGrid(labels: seq<string>)
    requires forall i :: 0 <= i < |labels| ==> labels[i] == ""
    ensures GridLabels.AllGrid(NonBlank(labels))
  {
    assert forall x :: x !in NonBlank(labels);
  }

  /**
   * The choice `refresh_section` makes, as written. The trailing roots first
   * replace the queue, which drops repeated ones, and only then is the
   * Python index `|scraped| - |queue| - 1` taken, with the length of the
   * replaced queue; a negative index counts from the end of the list.
   */
  function RefreshPickAsWritten(scraped: seq<Elem>, queueLen: nat, hasCurrent: bool): Option<Elem>
  {
    if |scraped| == 0 || |scraped| < queueLen + (if hasCurrent then 1 else 0) then None
    else
      var k := |scraped| - |Dedupe(scraped[|scraped| - queueLen..])| - 1;
      Some(if k >= 0 then scraped[k] else scraped[|scraped| + k])
  }

  /**
   * As written, a refresh with no current question and exactly as many
   * scraped roots as queued ones returns the last scraped root: a root that
   * also stays at the tail of the new queue, instead of a root preceding it.
   */
  lemma RefreshAsWrittenPicksQueuedRoot()
    ensures RefreshPickAsWritten([1, 2], 2, false) == Some(2)
    ensures 2 in [1, 2][2 - 2..]
  {
  }

  /**
   * As written, a refreshed tail that repeats a root shortens the queue
   * before the index is taken: with a current question, two queued roots
   * and the scrape [1, 2, 2], the queue becomes [2] and root 2, which stays
   * queued, is returned instead of root 1, the root before the tail.
   */
  lemma RefreshAsWrittenRepeatedTail()
    ensures Dedupe([1, 2, 2][3 - 2..]) == [2]
    ensures RefreshPickAsWritten([1, 2, 2], 2, true) == Some(2)
    ensures RefreshPick([1, 2, 2], 2, true) == Some(1)
  {
    var tail := [1, 2, 2][1..];
    assert tail == [2] + [2];
    DedupeSnoc([], 2);
    assert [] + [2] == [2];
    DedupeSnoc([2], 2);
  }

  /** The choice as evidently intended: only a root that precedes the refreshed tail. */
  function RefreshPick(scraped: seq<Elem>, queueLen: nat, hasCurrent: bool): Option<Elem>
  {
    if |scraped| == 0 || |scraped| < queueLen + (if hasCurrent then 1 else 0) || |scraped| == queueLen then None
    else Some(scraped[|scraped| - queueLen - 1])
  }

  /**
   * The intended choice is the scraped root just before the trailing
   * `queueLen` roots, and it agrees with the code as written whenever
   * such a root exists and the trailing roots are all distinct.
   */
  lemma RefreshPickPrecedesTail(scraped: seq<Elem>, queueLen: nat, hasCurrent: bool)
    ensures RefreshPick(scraped, queueLen, hasCurrent).Some? ==>
              var k := |scraped| - queueLen - 1;
              0 <= k && scraped == scraped[..k] + [RefreshPick(scraped, queueLen, hasCurrent).value] + scraped[k + 1..]
              && |scraped[k + 1..]| == queueLen
    ensures |scraped| > queueLen && NoDup(scraped[|scraped| - queueLen..]) ==>
              RefreshPick(scraped, queueLen, hasCurrent) == RefreshPickAsWritten(scraped, queueLen, hasCurrent)
    ensures RefreshPick(scraped, queueLen, hasCurrent).None? <==>
              |scraped| <= queueLen || |scraped| < queueLen + (if hasCurrent then 1 else 0)
  {
    if RefreshPick(scraped, queueLen, hasCurrent).Some? {
      var k := |scraped| - queueLen - 1;
      assert scraped == scraped[..k] + [scraped[k]] + scraped[k + 1..];
    }
    if |scraped| > queueLen && NoDup(scraped[|scraped| - queueLen..]) {
      DedupeNoDup(scraped[|scraped| - queueLen..]);
    }
  }

  /** The section scrape as seen from the page: Next wins over Submit, and neither raises. */
  datatype Page = Page(next: Option<Elem>, submit: Option<Elem>, roots: seq<Elem>)

  datatype Section = Section(clicks: seq<Action>, roots: seq<Elem>)

  /** One try of `_get_next_section`; `Raised` when neither button exists. */
  function NextSectionTry(page: Page, toClick: bool): (r: B.Attempt<Section>)
    ensures r.Raised? <==> page.next.None? && page.submit.None?
    ensures r.Returned? && page.next.None? ==> r.value.roots == []
    ensures r.Returned? ==> |r.value.clicks| == if toClick then 1 else 0
  {
    if page.next.Some? then
      B.Returned(Section(if toClick then [Click(page.next.value)] else [], page.roots))
    else if page.submit.Some? then
      B.Returned(Section(if toClick then [Click(page.submit.value)] else [], []))
    else B.Raised
  }

  /** Clicking Submit always reports an empty section, the "form submitted" signal. */
  lemma SubmitSignalsEmpty(page: Page, toClick: bool)
    requires page.next.None? && page.submit.Some?
    ensures NextSectionTry(page, toClick) == B.Returned(Section(if toClick then [Click(page.submit.value)] else [], []))
  {
  }

  class FormProcessor {
    /** The roots scraped from the current section and not yet processed. */
    var queue: seq<Elem>
    /** The question being answered. */
    var current: Option<Question>
    /** What the remaining monitored section scrapes will return, in order. */
    var crawls: seq<Option<seq<Elem>>>
    /** The `to_click` argument of every section scrape made so far. */
    var requests: seq<bool>
    const stale: set<Elem>
    const info: Elem -> RootInfo
    const browser: B.Browser

    constructor(browser: B.Browser, stale: set<Elem>, info: Elem -> RootInfo, crawls: seq<Option<seq<Elem>>>)
      ensures queue == [] && current == None && requests == []
      ensures this.crawls == crawls && this.stale == stale && this.info == info && this.browser == browser
    {
      this.browser := browser;
      this.stale := stale;
      this.info := info;
      this.crawls := crawls;
      queue := [];
      current := None;
      requests := [];
    }

    /** Appends a batch of roots, dropping repeated ones (first occurrence kept). */
    method AddQuestions(batch: seq<Elem>)
      modifies this
      ensures queue == old(queue) + Dedupe(batch)
      ensures current == old(current) && crawls == old(crawls) && requests == old(requests)
    {
      if |batch| == 0 {
        return;
      }
      var kept: seq<Elem> := [];
      var seen: set<Elem> := {};
      var i := 0;
      while i < |batch|
        invariant 0 <= i <= |batch|
        invariant kept == Dedupe(batch[..i])
        invariant forall x :: x in seen <==> x in batch[..i]
        invariant queue == old(queue) && current == old(current)
        invariant crawls == old(crawls) && requests == old(requests)
      {
        assert batch[..i + 1] == batch[..i] + [batch[i]];
        DedupeSnoc(batch[..i], batch[i]);
        if batch[i] !in seen {
          kept := kept + [batch[i]];
          seen := seen + {batch[i]};
        }
        i := i + 1;
      }
      assert batch[..i] == batch;
      queue := queue + kept;
    }

    method ClearQuestions()
      modifies this
      ensures queue == []
      ensures current == old(current) && crawls == old(crawls) && requests == old(requests)
    {
      queue := [];
    }

    /** Pops the head of the queue; `None` with no change when it is empty. */
    method GetNextQuestion() returns (r: Option<Elem>)
      modifies this
      ensures old(queue) == [] ==> r == None && queue == []
      ensures old(queue) != [] ==> r == Some(old(queue)[0]) && queue == old(queue)[1..]
      ensures current == old(current) && crawls == old(crawls) && requests == old(requests)
    {
      if |queue| > 0 {
        r := Some(queue[0]);
        queue := queue[1..];
      } else {
        r := None;
      }
    }

    /**
     * Replaces the queued roots by scraped ones of the same number. No scraped
     * roots is a success that changes nothing; a different number fails.
     */
    method ReplaceQuestions(scraped: seq<Elem>) returns (ok: bool)
      modifies this
      ensures |scraped| == 0 ==> ok && queue == old(queue)
      ensures |scraped| != 0 && |scraped| != |old(queue)| ==> !ok && queue == old(queue)
      ensures |scraped| != 0 && |scraped| == |old(queue)| ==> ok && queue == Dedupe(scraped)
      ensures current == old(current) && crawls == old(crawls) && requests == old(requests)
    {
      if |scraped| == 0 {
        return true;
      } else if |scraped| != |queue| {
        return false;
      }
      ClearQuestions();
      AddQuestions(scraped);
      return true;
    }

    /** Takes the next monitored section scrape; an exhausted oracle reads as a failure. */
    method NextSection(toClick: bool) returns (r: Option<seq<Elem>>)
      modifies this
      ensures requests == old(requests) + [toClick]
      ensures old(crawls) == [] ==> r == None && crawls == []
      ensures old(crawls) != [] ==> r == old(crawls)[0] && crawls == old(crawls)[1..]
      ensures queue == old(queue) && current == old(current)
    {
      requests := requests + [toClick];
      if |crawls| == 0 {
        return None;
      }
      r := crawls[0];
      crawls := crawls[1..];
    }

    /**
     * Re-scrapes the section without clicking and splices the trailing
     * scraped roots into the queue, returning the scraped root that precedes
     * them (the intended choice, see `RefreshPick`). The root is picked with
     * the queue length before the splice drops repeated roots, where the code
     * as written uses the length after it (`RefreshPickAsWritten`).
     */
    method RefreshSection() returns (r: Option<Elem>)
      modifies this
      ensures requests == old(requests) + [false]
      ensures old(crawls) == [] ==> r == None && crawls == []
      ensures old(crawls) != [] ==> crawls == old(crawls)[1..]
      ensures old(crawls) != [] && old(crawls)[0].Some? ==>
                r == RefreshPick(old(crawls)[0].value, |old(queue)|, old(current).Some?)
      ensures old(crawls) != [] && old(crawls)[0].None? ==> r == None
      ensures r.None? ==> queue == old(queue)
      ensures r.Some? ==> var scraped := old(crawls)[0].value;
                          queue == Dedupe(scraped[|scraped| - |old(queue)|..])
      ensures current == old(current)
    {
      var scraped := NextSection(false);
      if scraped.None? || |scraped.value| == 0 {
        return None;
      }
      var q := scraped.value;
      if |q| < |queue| + (if current.Some? then 1 else 0) || |q| == |queue| {
        return None;
      }
      var k := |q| - |queue| - 1;
      var ok := ReplaceQuestions(q[k + 1..]);
      assert ok;
      return Some(q[k]);
    }

    /**
     * Classifies a root, first replacing it by refreshed roots for as long
     * as it is stale. `None` when a refresh fails or nothing matches.
     */
    method GetQuestionInfo(root: Elem) returns (q: Option<Question>)
      modifies this
      ensures q.Some? ==> q.value.root !in stale && Classify(info(q.value.root)) == Some(q.value.kind)
      ensures root !in stale ==>
                q == (if Classify(info(root)).Some? then Some(Question(Classify(info(root)).value, root)) else None)
                && queue == old(queue) && crawls == old(crawls) && requests == old(requests)
      ensures |crawls| <= |old(crawls)| && old(requests) <= requests
      ensures current == old(current)
    {
      var e := root;
      while e in stale
        invariant |crawls| <= |old(crawls)| && old(requests) <= requests
        invariant current == old(current)
        invariant root !in stale ==> e == root && queue == old(queue) && crawls == old(crawls) && requests == old(requests)
        decreases |crawls|
      {
        var r := RefreshSection();
        if r.None? {
          return None;
        }
        e := r.value;
      }
      match Classify(info(e))
      case None => return None;
      case Some(k) => return Some(Question(k, e));
    }

    /**
     * The next question to answer. On the first call the queue is not
     * popped and the section is scraped without clicking; an empty scrape
     * (the form was submitted) gives `Flag(true)`, a failed one
     * `Flag(false)`. A root that cannot be classified triggers refreshes
     * until one classifies or a refresh fails.
     */
    method GetQuestion(start: bool) returns (g: Got)
      modifies this
      ensures g.Got? ==> current == Some(g.question)
                         && g.question.root !in stale
                         && Classify(info(g.question.root)) == Some(g.question.kind)
      ensures g.Flag? && !g.ok ==> current == old(current) || current == None
      ensures (start || old(queue) == []) ==>
                |requests| > |old(requests)| && requests[|old(requests)|] == !start
      ensures (start || old(queue) == []) && (old(crawls) == [] || old(crawls)[0].None? || old(crawls)[0] == Some([])) ==>
                g == Flag(old(crawls) != [] && old(crawls)[0] == Some([]))
                && queue == old(queue) && current == old(current)
      ensures !start && old(queue) != [] && old(queue)[0] !in stale && Classify(info(old(queue)[0])).Some? ==>
                g == Got(Question(Classify(info(old(queue)[0])).value, old(queue)[0]))
                && queue == old(queue)[1..] && requests == old(requests) && crawls == old(crawls)
      ensures (start || old(queue) == []) && old(crawls) != [] && old(crawls)[0].Some? && old(crawls)[0].value != [] ==>
                var added := old(queue) + Dedupe(old(crawls)[0].value);
                added[0] !in stale && Classify(info(added[0])).Some? ==>
                  g == Got(Question(Classify(info(added[0])).value, added[0]))
                  && queue == added[1..] && requests == old(requests) + [!start] && crawls == old(crawls)[1..]
    {
      var root: Option<Elem> := None;
      if !start {
        root := GetNextQuestion();
      }
      if root.None? {
        var scraped := NextSection(!start);
        if scraped.None? || |scraped.value| == 0 {
          return Flag(scraped.Some?);
        }
        AddQuestions(scraped.value);
        root := GetNextQuestion();
        assert root.Some?;
      }
      ghost var crawled := (start || old(queue) == []) && old(crawls) != [] && old(crawls)[0].Some? && old(crawls)[0].value != [];
      ghost var added := if crawled then old(queue) + Dedupe(old(crawls)[0].value) else [];
      assert (start || old(queue) == []) ==>
               |requests| > |old(requests)| && requests[|old(requests)|] == !start;
      current := GetQuestionInfo(root.value);
      while current.None?
        invariant (start || old(queue) == []) ==>
                    |requests| > |old(requests)| && requests[|old(requests)|] == !start
        invariant current.Some? ==> current.value.root !in stale
                                    && Classify(info(current.value.root)) == Some(current.value.kind)
        invariant !start && old(queue) != [] && old(queue)[0] !in stale && Classify(info(old(queue)[0])).Some? ==>
                    current == Some(Question(Classify(info(old(queue)[0])).value, old(queue)[0]))
                    && queue == old(queue)[1..] && requests == old(requests) && crawls == old(crawls)
        invariant crawled && added[0] !in stale && Classify(info(added[0])).Some? ==>
                    current == Some(Question(Classify(info(added[0])).value, added[0]))
                    && queue == added[1..] && requests == old(requests) + [!start] && crawls == old(crawls)[1..]
        decreases |crawls|
      {
        ghost var before := requests;
        var r := RefreshSection();
        if r.None? {
          return Flag(false);
        }
        current := GetQuestionInfo(r.value);
        assert before <= requests;
      }
      return Got(current.value);
    }

    /**
     * Submits answers to the current question. `required` is the current
     * question's required flag and `outcome` what its own `answer` returns.
     */
    method AnswerQuestion(answers: seq<Arg>, skip: bool, required: bool, outcome: Tri) returns (r: Tri)
      modifies this
      ensures old(current).None? ==> r == Nothing && current == old(current)
      ensures old(current).Some? && skip && required ==> r == False && current == old(current)
      ensures old(current).Some? && skip && !required ==> r == True && current == None
      ensures old(current).Some? && !skip && |answers| == 0 ==> r == Nothing && current == old(current)
      ensures (old(current).Some? && !skip && old(current).value.kind != CheckboxGridQ
               && exists i :: 0 <= i < |answers| && answers[i].Tuple?) ==>
                r == Nothing && current == old(current)
      ensures (old(current).Some? && !skip && |answers| > 0
               && (old(current).value.kind == CheckboxGridQ || forall i :: 0 <= i < |answers| ==> answers[i].Text?)) ==>
                r == (if Truthy(outcome) then True else outcome)
                && current == (if Truthy(outcome) then None else old(current))
      ensures queue == old(queue) && crawls == old(crawls) && requests == old(requests)
    {
      if current.None? {
        return Nothing;
      } else if skip {
        if required {
          return False;
        }
      } else {
        if |answers| == 0 {
          return Nothing;
        } else if current.value.kind != CheckboxGridQ {
          var i := 0;
          while i < |answers|
            invariant 0 <= i <= |answers|
            invariant forall j :: 0 <= j < i ==> answers[j].Text?
          {
            if !answers[i].Text? {
              return Nothing;
            }
            i := i + 1;
          }
        }
        if !Truthy(outcome) {
          return outcome;
        }
      }
      current := None;
      return True;
    }

    /** Closes the browser and forgets the current question and the queue. */
    method Reset()
      modifies this, browser
      ensures !browser.open && current == None && queue == []
      ensures crawls == old(crawls) && requests == old(requests)
    {
      browser.Close();
      current := None;
      ClearQuestions();
    }
  }
}

=== FILE: question_base.dfy ===
/**
 * The question wrappers of the current program: the metadata every question
 * reads from its element (header, description, required flag), the
 * freshness check on cached elements, and the option store of the option
 * questions with its grid view.
 *
 * The page is an oracle: a `Page` says which elements are stale and what
 * each element shows. Python's class hierarchy becomes composition here:
 * a `BaseOptionQuestion` holds its `BaseQuestion`, and the concrete
 * questions hold one of the two.
 */
module QuestionBase {
  import opened Common
  import opened Seqs
  import opened GridLabels
  import B = Browser

  /** What the page shows; every lookup of the program is one of these. */
  datatype Page = Page(
    /** Elements that fail the freshness check. */
    stale: set<Elem>,
    /** Texts under a question element: title and description. */
    title: Elem -> string,
    description: Elem -> string,
    /** Whether a question element holds the required asterisk. */
    asterisk: Elem -> bool,
    /** The aria-label, data-answer-value and data-value attributes and the text of an element. */
    aria: Elem -> string,
    answerValue: Elem -> string,
    dataValue: Elem -> string,
    text: Elem -> string,
    /** The checkboxes and radio buttons of a question, in page order (of its grid container when `true`). */
    checkboxes: (Elem, bool) -> seq<Elem>,
    radios: (Elem, bool) -> seq<Elem>,
    /** The 'Other' input field of a question. */
    otherField: Elem -> Elem,
    /** Input fields of a question: date pickers, month, day, hour and minute inputs. */
    datePickers: Elem -> seq<Elem>,
    monthInputs: Elem -> seq<Elem>,
    dayInputs: Elem -> seq<Elem>,
    hourInputs: Elem -> seq<Elem>,
    minuteInputs: Elem -> seq<Elem>)

  /** The data value that marks the 'Other' option of a checkbox or radio question. */
  const OtherMarker: string := "__other_option__"

  /** Every element passes the freshness check. */
  function AllFresh(stale: set<Elem>, elements: seq<Elem>): (r: bool)
    ensures r <==> forall i :: 0 <= i < |elements| ==> elements[i] !in stale
  {
    if |elements| == 0 then true else elements[0] !in stale && AllFresh(stale, elements[1..])
  }

  /**
   * `_is_valid`: no elements at all pass; otherwise a browser must be open
   * and every element must pass the freshness check.
   */
  function IsValid(open: bool, stale: set<Elem>, elements: seq<Elem>): (r: bool)
    ensures |elements| == 0 ==> r
    ensures |elements| > 0 ==> (r <==> open && forall i :: 0 <= i < |elements| ==> elements[i] !in stale)
  {
    if |elements| == 0 then true
    else if !open then false
    else AllFresh(stale, elements)
  }

  /** A header without the " *" that a required question's title ends with (Python `h[:len(h) - 2]`). */
  function TrimRequired(h: string): (r: string)
    ensures |r| == if |h| >= 2 then |h| - 2 else 0
    ensures r <= h
  {
    if |h| >= 2 then h[..|h| - 2] else ""
  }

  /** The header a question element shows. */
  function HeaderOf(page: Page, e: Elem): string
  {
    if page.asterisk(e) then TrimRequired(page.title(e)) else page.title(e)
  }

  /** The actions of filling input fields in order: click each one, then type its text. */
  function FillActions(fields: seq<(Elem, string)>): seq<Action>
  {
    if |fields| == 0 then []
    else
      var f := fields[|fields| - 1];
      FillActions(fields[..|fields| - 1]) + [Click(f.0), Type(f.0, f.1)]
  }

  /** Field `i` is clicked at step `2i` and receives its text at step `2i + 1`; nothing else happens. */
  lemma {:induction false} FillActionsAt(fields: seq<(Elem, string)>)
    ensures |FillActions(fields)| == 2 * |fields|
    ensures forall i :: 0 <= i < |fields| ==>
              FillActions(fields)[2 * i] == Click(fields[i].0)
              && FillActions(fields)[2 * i + 1] == Type(fields[i].0, fields[i].1)
  {
    if |fields| > 0 {
      var init := fields[..|fields| - 1];
      FillActionsAt(init);
      assert forall i :: 0 <= i < |init| ==> fields[i] == init[i];
    }
  }

  /** What an answer of a text-input question ends with, the actions it performs and the inputs it leaves. */
  datatype Filled<S> = Filled(result: Tri, actions: seq<Action>, after: Option<S>)

  class BaseQuestion {
    var header: Option<string>
    var description: Option<string>
    var required: Option<bool>
    var element: Option<Elem>
    /** Every click and keystroke sent through this question, in order. */
    var trace: seq<Action>
    const browser: B.Browser
    const page: Page

    constructor(element: Option<Elem>, browser: B.Browser, page: Page)
      ensures this.element == element && this.browser == browser && this.page == page
      ensures header.None? && description.None? && required.None? && trace == []
    {
      this.element := element;
      this.browser := browser;
      this.page := page;
      header := None;
      description := None;
      required := None;
      trace := [];
    }

    /** `_is_valid` with this question's browser. */
    predicate Live(elements: seq<Elem>)
      reads browser
    {
      IsValid(browser.open, page.stale, elements)
    }

    /** The metadata read by `get_info`: header, description and required flag. */
    function Meta(): (Option<string>, Option<string>, Option<bool>)
      reads this
    {
      (header, description, required)
    }

    /** Clicks every field and types its text into it, in order. */
    method Fill(fields: seq<(Elem, string)>)
      modifies this
      ensures Meta() == old(Meta()) && element == old(element)
      ensures trace == old(trace) + FillActions(fields)
    {
      for i := 0 to |fields|
        invariant Meta() == old(Meta()) && element == old(element)
        invariant trace == old(trace) + FillActions(fields[..i])
      {
        assert fields[..i + 1][..i] == fields[..i];
        trace := trace + [Click(fields[i].0), Type(fields[i].0, fields[i].1)];
      }
      assert fields[..|fields|] == fields;
    }

    /** The metadata fields hold what element `e` shows. */
    predicate HasInfoOf(e: Elem)
      reads this
    {
      header == Some(HeaderOf(page, e)) && description == Some(page.description(e))
      && required == Some(page.asterisk(e))
    }

    /** `__eq__`: same browser and same header, description and required flag. */
    predicate Equals(other: BaseQuestion)
      reads this, other
    {
      browser == other.browser && header == other.header && description == other.description
      && required == other.required
    }

    /**
     * `get_info`: fails and changes nothing when the question element is
     * unset or stale; otherwise reads the metadata, and a required question
     * loses the last two characters of its header.
     */
    method GetInfo() returns (r: bool)
      modifies this
      ensures element == old(element) && trace == old(trace)
      ensures r <==> element.Some? && Live([element.value])
      ensures r ==> HasInfoOf(element.value)
      ensures !r ==> header == old(header) && description == old(description) && required == old(required)
    {
      if element.None? || !Live([element.value]) {
        return false;
      }
      var e := element.value;
      var h := page.title(e);
      description := Some(page.description(e));
      if page.asterisk(e) {
        required := Some(true);
        h := h[..if |h| >= 2 then |h| - 2 else 0];
      } else {
        required := Some(false);
      }
      header := Some(h);
      return true;
    }
  }

  /** Two questions that read the same element through the same browser are equal. */
  lemma SameElementEqual(p: BaseQuestion, q: BaseQuestion, e: Elem)
    requires p.browser == q.browser && p.page == q.page
    requires p.HasInfoOf(e) && q.HasInfoOf(e)
    ensures p.Equals(q) && q.Equals(p)
  {
  }

  /** What `get_options` and `get_sub_questions` return for the stored options. */
  function OptionsView(grid: bool, options: Option<seq<string>>, rows: bool): (r: Option<seq<string>>)
    ensures !grid ==> r == options
  {
    if !grid || options.None? || |options.value| == 0 then options
    else if !AllGrid(options.value) then None
    else Some(if rows then Rows(options.value) else Columns(options.value))
  }

  /**
   * The grid view of well-formed grid labels: no duplicates, and exactly
   * the row (or column) parts of the labels.
   */
  lemma GridView(options: seq<string>, rows: bool)
    requires AllGrid(options) && |options| > 0
    ensures var r := OptionsView(true, Some(options), rows);
            r.Some? && NoDup(r.value)
            && forall x :: x in r.value <==>
                 exists i :: 0 <= i < |options| && x == (if rows then Parse(options[i]).value.1
                                                         else Parse(options[i]).value.0)
  {
    var parts := if rows then RowParts(options) else OptionParts(options);
    forall x
      ensures x in Dedupe(parts) <==> exists i :: 0 <= i < |options| && x == (if rows then Parse(options[i]).value.1
                                                                           else Parse(options[i]).value.0)
    {
      if x in Dedupe(parts) {
        var i :| 0 <= i < |parts| && parts[i] == x;
      }
    }
  }

  /** The stored options after a grid getter: badly formatted grid options are reset. */
  function AfterView(grid: bool, options: Option<seq<string>>): Option<seq<string>>
  {
    if grid && options.Some? && |options.value| > 0 && !AllGrid(options.value) then None else options
  }

  /** A grid getter resets the stored options at most once. */
  lemma AfterViewTwice(grid: bool, options: Option<seq<string>>)
    ensures AfterView(grid, AfterView(grid, options)) == AfterView(grid, options)
  {
  }

  /**
   * `_is_option`. `None` is the `TypeError` of a membership test on unset
   * options. A grid option is a label whose column is among the grid's
   * columns and whose row is among its rows.
   */
  function OptionTest(grid: bool, options: Option<seq<string>>, x: string): Option<bool>
  {
    if !grid then
      if options.None? then None else Some(x in options.value)
    else
      var subs := OptionsView(true, options, true);
      if subs.None? || |subs.value| == 0 then Some(false)
      else if !IsGridLabel(x) then Some(x in OptionsView(true, options, false).value)
      else Some(Parse(x).value.0 in OptionsView(true, options, false).value && Parse(x).value.1 in subs.value)
  }

  /** The reset a grid getter makes does not change any option test. */
  lemma OptionTestAfterView(grid: bool, options: Option<seq<string>>, x: string)
    ensures OptionTest(grid, AfterView(grid, options), x) == OptionTest(grid, options, x)
  {
  }

  /** The option test of every answer against the same stored options. */
  function OptionTests(grid: bool, options: Option<seq<string>>, answers: seq<string>): (r: seq<Option<bool>>)
    ensures |r| == |answers|
  {
    if |answers| == 0 then [] else [OptionTest(grid, options, answers[0])] + OptionTests(grid, options, answers[1..])
  }

  lemma {:induction false} OptionTestsAt(grid: bool, options: Option<seq<string>>, answers: seq<string>, i: nat)
    requires i < |answers|
    ensures OptionTests(grid, options, answers)[i] == OptionTest(grid, options, answers[i])
  {
    if i > 0 {
      OptionTestsAt(grid, options, answers[1..], i - 1);
    }
  }

  /** Every stored grid label passes the grid option test, and so does every other cell of the grid. */
  lemma GridOptionTest(options: seq<string>, x: string)
    requires AllGrid(options) && IsGridLabel(x)
    ensures (exists i, j :: 0 <= i < |options| && 0 <= j < |options|
                            && Parse(x).value.0 == Parse(options[i]).value.0
                            && Parse(x).value.1 == Parse(options[j]).value.1)
            <==> OptionTest(true, Some(options), x) == Some(true)
  {
    if exists i, j :: 0 <= i < |options| && 0 <= j < |options|
                      && Parse(x).value.0 == Parse(options[i]).value.0
                      && Parse(x).value.1 == Parse(options[j]).value.1 {
      var i, j :| 0 <= i < |options| && 0 <= j < |options|
                  && Parse(x).value.0 == Parse(options[i]).value.0
                  && Parse(x).value.1 == Parse(options[j]).value.1;
      LabelsInGrid(options, i);
      LabelsInGrid(options, j);
    }
  }

  /** A stored grid label is an option of its grid. */
  lemma StoredGridLabelIsOption(options: seq<string>, i: nat)
    requires AllGrid(options) && i < |options|
    ensures OptionTest(true, Some(options), options[i]) == Some(true)
  {
    GridOptionTest(options, options[i]);
  }

  class BaseOptionQuestion {
    const base: BaseQuestion
    /** Whether this is a grid question (`BaseOptionGridQuestion`). */
    const grid: bool
    /** The generated label that stands for the 'Other' option (a random signature). */
    const otherLabel: string
    var options: Option<seq<string>>
    /** The 'Other' input field, once one is found. */
    var otherElement: Option<Elem>

    constructor(base: BaseQuestion, grid: bool, otherLabel: string)
      ensures this.base == base && this.grid == grid && this.otherLabel == otherLabel
      ensures options.None? && otherElement.None?
    {
      this.base := base;
      this.grid := grid;
      this.otherLabel := otherLabel;
      options := None;
      otherElement := None;
    }

    /**
     * `_set_options`: an empty call changes nothing; otherwise the options
     * are stored in order, each one equal to `otherOptionLabel` replaced by
     * the generated 'Other' label.
     */
    method SetOptions(opts: seq<string>, otherOptionLabel: Option<string>)
      modifies this
      ensures otherElement == old(otherElement)
      ensures |opts| == 0 ==> options == old(options)
      ensures |opts| > 0 ==> options.Some? && |options.value| == |opts|
                             && forall i :: 0 <= i < |opts| ==>
                                  options.value[i] == if otherOptionLabel == Some(opts[i]) then otherLabel else opts[i]
    {
      if |opts| == 0 {
        return;
      }
      var result: seq<string> := [];
      var i := 0;
      while i < |opts|
        invariant 0 <= i <= |opts| && |result| == i
        invariant forall j :: 0 <= j < i ==>
                    result[j] == if otherOptionLabel == Some(opts[j]) then otherLabel else opts[j]
      {
        if otherOptionLabel == Some(opts[i]) {
          result := result + [otherLabel];
        } else {
          result := result + [opts[i]];
        }
        i := i + 1;
      }
      options := Some(result);
    }

    /** `get_options` (the grid columns for a grid question); a badly formatted grid is reset. */
    method GetOptions() returns (r: Option<seq<string>>)
      modifies this
      ensures otherElement == old(otherElement)
      ensures options == AfterView(grid, old(options))
      ensures r == OptionsView(grid, old(options), false)
    {
      r := OptionsView(grid, options, false);
      options := AfterView(grid, options);
    }

    /** `get_sub_questions`: the grid rows; a badly formatted grid is reset. */
    method GetSubQuestions() returns (r: Option<seq<string>>)
      requires grid
      modifies this
      ensures otherElement == old(otherElement)
      ensures options == AfterView(grid, old(options))
      ensures r == OptionsView(grid, old(options), true)
    {
      r := OptionsView(grid, options, true);
      options := AfterView(grid, options);
    }

    /** `_is_option`, through the getters; `None` is the `TypeError` on unset options. */
    method IsOption(x: string) returns (r: Option<bool>)
      modifies this
      ensures otherElement == old(otherElement)
      ensures options == AfterView(grid, old(options))
      ensures r == OptionTest(grid, old(options), x)
    {
      if !grid {
        if options.None? {
          return None;
        }
        return Some(x in options.value);
      }
      var subs := GetSubQuestions();
      if subs.None? || |subs.value| == 0 {
        return Some(false);
      }
      var cols := GetOptions();
      if !IsGridLabel(x) {
        return Some(x in cols.value);
      }
      var (col, row) := Parse(x).value;
      return Some(col in cols.value && row in subs.value);
    }

    /** `_has_other_option` as evidently intended: an 'Other' field was found. */
    predicate HasOtherOption()
      reads this
    {
      otherElement.Some?
    }
  }

  /**
   * `_has_other_option` as written: the generated 'Other' label must pass
   * the option test, and the 'Other' field must be set. `None` is the
   * `TypeError` on unset options.
   */
  function HasOtherAsWritten(grid: bool, options: Option<seq<string>>, otherLabel: string,
                             otherElement: Option<Elem>): (r: Option<bool>)
    ensures r.Some? && r.value ==> otherElement.Some?
  {
    match OptionTest(grid, options, otherLabel)
    case None => None
    case Some(b) => Some(b && otherElement.Some?)
  }

  /**
   * The scrape never stores the generated 'Other' label unless some toggle
   * on the page carries it as its aria-label, so `_has_other_option` as
   * written is false even when the 'Other' field was found.
   */
  lemma OtherNeverListed(toggles: seq<Elem>, aria: Elem -> string, value: Elem -> string, otherAria: string,
                         other0: Option<Elem>, field: Elem, otherLabel: string)
    requires forall e :: e in toggles ==> aria(e) != otherLabel
    ensures var s := ScrapeOf(toggles, aria, value, otherAria, other0, field);
            HasOtherAsWritten(false, Some(s.options), otherLabel, s.other) == Some(false)
  {
    ScrapeToggles(toggles, aria, value, otherAria, other0, field);
  }

  /** A concrete case: options "Yes" and "No", an 'Other' field found, and still no 'Other' option. */
  lemma OtherNeverListedExample()
    ensures HasOtherAsWritten(false, Some(["Yes", "No"]), "k3Q", Some(7)) == Some(false)
  {
  }

  /**
   * `get_info` of the checkbox and radio questions as written: once the
   * metadata is read, storing the options passes the keyword
   * `has_other_option`, which `_set_options` does not accept, so Python
   * raises a `TypeError` whenever the question element is live.
   */
  function OptionGetInfoAsWritten(open: bool, stale: set<Elem>, q: Option<Elem>): (r: Reply)
    ensures r == Done(False) || r == Crash
  {
    if q.None? || !IsValid(open, stale, [q.value]) then Done(False) else Crash
  }

  /**
   * As written, `get_info` never succeeds: it fails or raises, and it
   * raises exactly when the corrected `get_info` succeeds.
   */
  lemma OptionGetInfoNeverSucceeds(open: bool, stale: set<Elem>, q: Option<Elem>)
    ensures OptionGetInfoAsWritten(open, stale, q) != Done(True)
    ensures OptionGetInfoAsWritten(open, stale, q) == Crash <==> q.Some? && open && q.value !in stale
  {
  }

  /** The first of `elements` whose attribute `f` is `x`. */
  function FirstWhere(elements: seq<Elem>, f: Elem -> string, x: string): (r: Option<Elem>)
    ensures r.None? <==> forall i :: 0 <= i < |elements| ==> f(elements[i]) != x
    ensures r.Some? ==> exists k :: 0 <= k < |elements| && elements[k] == r.value && f(r.value) == x
                                    && forall j :: 0 <= j < k ==> f(elements[j]) != x
  {
    if |elements| == 0 then None
    else if f(elements[0]) == x then Some(elements[0])
    else FirstWhere(elements[1..], f, x)
  }

  /**
   * The option scrape of the checkbox and radio questions: the options in
   * page order, the toggles to answer them with, and the 'Other' field.
   */
  datatype Scrape = Scrape(options: seq<string>, elements: seq<Elem>, other: Option<Elem>)

  /** A toggle that stands for the 'Other' option: label `otherAria` and the 'Other' data value. */
  predicate OtherToggle(e: Elem, aria: Elem -> string, value: Elem -> string, otherAria: string)
  {
    aria(e) == otherAria && value(e) == OtherMarker
  }

  /**
   * One toggle of the scrape: a label already taken is skipped; the first
   * 'Other' toggle (while no 'Other' field is known) is kept as a toggle
   * without a label and brings in the 'Other' field `field`; a blank label
   * is skipped; any other label becomes an option.
   */
  function ScrapeStep(s: Scrape, e: Elem, aria: Elem -> string, value: Elem -> string, otherAria: string,
                      field: Elem): Scrape
  {
    var lbl := aria(e);
    if lbl in s.options then s
    else if OtherToggle(e, aria, value, otherAria) then
      if s.other.Some? then s else Scrape(s.options, s.elements + [e], Some(field))
    else if lbl == "" then s
    else Scrape(s.options + [lbl], s.elements + [e], s.other)
  }

  /** The scrape of `toggles`, starting from the 'Other' field `other0` already known. */
  function ScrapeOf(toggles: seq<Elem>, aria: Elem -> string, value: Elem -> string, otherAria: string,
                    other0: Option<Elem>, field: Elem): Scrape
  {
    if |toggles| == 0 then Scrape([], [], other0)
    else
      ScrapeStep(ScrapeOf(toggles[..|toggles| - 1], aria, value, otherAria, other0, field),
                 toggles[|toggles| - 1], aria, value, otherAria, field)
  }

  /** The labels of the toggles that are neither blank nor 'Other' toggles, in page order. */
  function PlainLabels(toggles: seq<Elem>, aria: Elem -> string, value: Elem -> string, otherAria: string): (r: seq<string>)
    ensures forall x :: x in r ==> x != ""
  {
    if |toggles| == 0 then []
    else
      var e := toggles[|toggles| - 1];
      PlainLabels(toggles[..|toggles| - 1], aria, value, otherAria)
      + if aria(e) == "" || OtherToggle(e, aria, value, otherAria) then [] else [aria(e)]
  }

  /** The scraped options are the plain labels with duplicates dropped, first occurrence kept. */
  lemma {:induction false} ScrapeLabels(toggles: seq<Elem>, aria: Elem -> string, value: Elem -> string,
                                        otherAria: string, other0: Option<Elem>, field: Elem)
    ensures ScrapeOf(toggles, aria, value, otherAria, other0, field).options
            == Dedupe(PlainLabels(toggles, aria, value, otherAria))
  {
    if |toggles| > 0 {
      var init := toggles[..|toggles| - 1];
      var e := toggles[|toggles| - 1];
      ScrapeLabels(init, aria, value, otherAria, other0, field);
      var plain := PlainLabels(init, aria, value, otherAria);
      DedupeSnoc(plain, aria(e));
      if aria(e) == "" || OtherToggle(e, aria, value, otherAria) {
        assert PlainLabels(toggles, aria, value, otherAria) == plain + [] == plain;
      } else {
        assert PlainLabels(toggles, aria, value, otherAria) == plain + [aria(e)];
      }
    }
  }

  /** Toggle `k` is an 'Other' toggle whose label no earlier plain label took. */
  predicate OtherAt(toggles: seq<Elem>, k: nat, aria: Elem -> string, value: Elem -> string, otherAria: string)
    requires k < |toggles|
  {
    OtherToggle(toggles[k], aria, value, otherAria) && aria(toggles[k]) !in PlainLabels(toggles[..k], aria, value, otherAria)
  }

  /** Some toggle of `toggles` is an 'Other' toggle whose label no earlier plain label took. */
  predicate OtherSeen(toggles: seq<Elem>, aria: Elem -> string, value: Elem -> string, otherAria: string)
  {
    exists k: nat :: k < |toggles| && OtherAt(toggles, k, aria, value, otherAria)
  }

  /** Extending the toggles by one keeps every earlier witness and adds at most the last toggle. */
  lemma OtherSeenSnoc(toggles: seq<Elem>, aria: Elem -> string, value: Elem -> string, otherAria: string)
    requires |toggles| > 0
    ensures OtherSeen(toggles, aria, value, otherAria)
            <==> OtherSeen(toggles[..|toggles| - 1], aria, value, otherAria)
                 || OtherAt(toggles, |toggles| - 1, aria, value, otherAria)
  {
    var init := toggles[..|toggles| - 1];
    forall k: nat | k < |init|
      ensures OtherAt(toggles, k, aria, value, otherAria) <==> OtherAt(init, k, aria, value, otherAria)
    {
      assert toggles[k] == init[k] && toggles[..k] == init[..k];
    }
  }

  /**
   * As intended, a question has an 'Other' option exactly when its 'Other'
   * field is known: it was known before the scrape, or some 'Other' toggle
   * carries a label that no earlier option took.
   */
  lemma {:induction false} OtherFound(toggles: seq<Elem>, aria: Elem -> string, value: Elem -> string,
                                      otherAria: string, other0: Option<Elem>, field: Elem)
    ensures ScrapeOf(toggles, aria, value, otherAria, other0, field).other.Some?
            <==> other0.Some? || OtherSeen(toggles, aria, value, otherAria)
  {
    if |toggles| > 0 {
      var init := toggles[..|toggles| - 1];
      var e := toggles[|toggles| - 1];
      var s0 := ScrapeOf(init, aria, value, otherAria, other0, field);
      OtherFound(init, aria, value, otherAria, other0, field);
      ScrapeLabels(init, aria, value, otherAria, other0, field);
      OtherSeenSnoc(toggles, aria, value, otherAria);
      StepOther(s0, e, aria, value, otherAria, field);
      assert OtherAt(toggles, |toggles| - 1, aria, value, otherAria)
             <==> OtherToggle(e, aria, value, otherAria) && aria(e) !in s0.options;
    }
  }

  /** One step finds the 'Other' field when it was known or the toggle is a fresh 'Other' toggle. */
  lemma StepOther(s: Scrape, e: Elem, aria: Elem -> string, value: Elem -> string, otherAria: string, field: Elem)
    ensures ScrapeStep(s, e, aria, value, otherAria, field).other.Some?
            <==> s.other.Some? || (OtherToggle(e, aria, value, otherAria) && aria(e) !in s.options)
  {
  }

  /**
   * The toggles kept are the options' toggles plus, when the scrape found
   * it, the 'Other' toggle; a known 'Other' field is kept, and a found one
   * is the question's field.
   */
  lemma {:induction false} ScrapeCounts(toggles: seq<Elem>, aria: Elem -> string, value: Elem -> string,
                                        otherAria: string, other0: Option<Elem>, field: Elem)
    ensures var s := ScrapeOf(toggles, aria, value, otherAria, other0, field);
            |s.elements| == |s.options| + (if other0.None? && s.other.Some? then 1 else 0)
            && (other0.Some? ==> s.other == other0)
            && (other0.None? && s.other.Some? ==> s.other == Some(field))
  {
    if |toggles| > 0 {
      ScrapeCounts(toggles[..|toggles| - 1], aria, value, otherAria, other0, field);
    }
  }

  /** Every toggle kept is one of the page's, and every option has a kept toggle with its label. */
  lemma {:induction false} ScrapeToggles(toggles: seq<Elem>, aria: Elem -> string, value: Elem -> string,
                                         otherAria: string, other0: Option<Elem>, field: Elem)
    ensures var s := ScrapeOf(toggles, aria, value, otherAria, other0, field);
            (forall e :: e in s.elements ==> e in toggles)
            && (forall x :: x in s.options ==> exists e :: e in s.elements && aria(e) == x)
  {
    if |toggles| > 0 {
      var init := toggles[..|toggles| - 1];
      ScrapeToggles(init, aria, value, otherAria, other0, field);
      assert forall x :: x in init ==> x in toggles;
    }
  }

  /** The options after storing a scrape's options: an empty scrape keeps the old ones. */
  function Stored(options: Option<seq<string>>, scraped: seq<string>): Option<seq<string>>
  {
    if |scraped| == 0 then options else Some(scraped)
  }

  /** The state an option question answers from: options, answer toggles and 'Other' field. */
  datatype Ready = Ready(options: Option<seq<string>>, elements: seq<Elem>, other: Option<Elem>)

  /** What an answer loop ends with and the actions it performs. */
  datatype Run = Run(reply: Reply, actions: seq<Action>)

  /** What an answer ends with, the actions it performs and the state it leaves. */
  datatype Outcome = Outcome(reply: Reply, actions: seq<Action>, after: Ready)

  /** A run preceded by the actions `pre`. */
  function Then(pre: seq<Action>, r: Run): Run
  {
    Run(r.reply, pre + r.actions)
  }

  /** An outcome preceded by the actions `pre`. */
  function Join(pre: seq<Action>, o: Outcome): Outcome
  {
    Outcome(o.reply, pre + o.actions, o.after)
  }

  /** How many keystroke actions a trace holds. */
  function TypeCount(actions: seq<Action>): nat
  {
    if |actions| == 0 then 0 else (if actions[0].Type? then 1 else 0) + TypeCount(actions[1..])
  }

  lemma {:induction false} TypeCountAppend(a: seq<Action>, b: seq<Action>)
    ensures TypeCount(a + b) == TypeCount(a) + TypeCount(b)
  {
    if |a| > 0 {
      assert (a + b)[1..] == a[1..] + b;
      TypeCountAppend(a[1..], b);
    } else {
      assert a + b == b;
    }
  }
}

=== FILE: radio.dfy ===
/**
 * Radio questions and radio grids.
 *
 * The scrape keeps the first radio button of every non-blank label as an
 * option, and the first blank-labelled button whose data-value is
 * `__other_option__` as the toggle of the 'Other' field. An answer is one
 * text: an option clicks its button, anything else goes to the 'Other'
 * field when there is one. A grid answer sends, for every sub-question in
 * order, its answer formatted as "<answer>, response for <sub-question>".
 */
module Radio {
  import opened Common
  import opened GridLabels
  import opened Seqs
  import opened QuestionBase
  import B = Browser

  /** The aria-label of the 'Other' radio button: none. */
  const OtherAria: string := ""

  /** The scrape of the radio buttons of question `q`, with `other0` the 'Other' field already known. */
  function RadioScrape(page: Page, q: Elem, grid: bool, other0: Option<Elem>): Scrape
  {
    ScrapeOf(page.radios(q, grid), page.aria, page.dataValue, OtherAria, other0, page.otherField(q))
  }

  /**
   * The state an answer starts from: the cached one when the cached buttons
   * pass the freshness check, otherwise a fresh scrape that keeps the
   * 'Other' field already known, or `None` when the question element itself
   * is unset or stale.
   */
  function Start(page: Page, open: bool, q: Option<Elem>, grid: bool, st: Ready): Option<Ready>
  {
    if |st.elements| > 0 && IsValid(open, page.stale, st.elements) then Some(st)
    else if q.None? || !IsValid(open, page.stale, [q.value]) then None
    else
      var s := RadioScrape(page, q.value, grid, st.other);
      Some(Ready(Stored(st.options, s.options), s.elements, s.other))
  }

  /**
   * One answer over a ready state, given its option test. `Crash` stands
   * for the `TypeError` on unset options and for the assertions that a
   * matching button exists.
   */
  function RadioRun(a: string, test: Option<bool>, elements: seq<Elem>, page: Page, other: Option<Elem>,
                    otherLive: bool): Run
  {
    match test
    case None => Run(Crash, [])
    case Some(isOption) =>
      if isOption then
        match FirstWhere(elements, page.aria, a)
        case None => Run(Crash, [])
        case Some(e) => Run(Done(True), [Click(e)])
      else if other.None? then Run(Done(False), [])
      else if !otherLive then Run(Done(Nothing), [])
      else
        match FirstWhere(elements, page.dataValue, OtherMarker)
        case None => Run(Crash, [])
        case Some(t) => Run(Done(True), [Click(t), Click(other.value), Type(other.value, a)])
  }

  /** `answer` from state `st`: its reply, its actions and the state it leaves. */
  function RadioOutcome(page: Page, open: bool, q: Option<Elem>, grid: bool, st: Ready, a: string): Outcome
  {
    match Start(page, open, q, grid, st)
    case None => Outcome(Done(False), [], st)
    case Some(s) =>
      var otherLive := s.other.Some? && IsValid(open, page.stale, [s.other.value]);
      var run := RadioRun(a, OptionTest(grid, s.options, a), s.elements, page, s.other, otherLive);
      Outcome(run.reply, run.actions, Ready(AfterView(grid, s.options), s.elements, s.other))
  }

  /** The labels the grid answer sends: every answer formatted with its sub-question. */
  function Cells(answers: seq<string>, subs: seq<string>): (r: seq<string>)
    requires |answers| == |subs|
    ensures |r| == |answers| && forall i :: 0 <= i < |answers| ==> r[i] == Format(answers[i], subs[i])
  {
    if |answers| == 0 then [] else [Format(answers[0], subs[0])] + Cells(answers[1..], subs[1..])
  }

  /** The grid answer: the cell labels answered in order, stopping at the first reply that is not `True`. */
  function GridRun(page: Page, open: bool, q: Option<Elem>, st: Ready, cells: seq<string>): Outcome
    decreases |cells|
  {
    if |cells| == 0 then Outcome(Done(True), [], st)
    else
      var o := RadioOutcome(page, open, q, true, st, cells[0]);
      if o.reply != Done(True) then o
      else Join(o.actions, GridRun(page, open, q, o.after, cells[1..]))
  }

  /**
   * An answer succeeds exactly when it acts; it types at most once, only
   * the answer and only into the 'Other' field, and clicks only the given
   * buttons and the 'Other' field.
   */
  lemma RunTargets(a: string, test: Option<bool>, elements: seq<Elem>, page: Page, other: Option<Elem>,
                   otherLive: bool)
    ensures var run := RadioRun(a, test, elements, page, other, otherLive);
            (run.reply == Done(True) <==> |run.actions| > 0)
            && TypeCount(run.actions) <= 1
            && forall i :: 0 <= i < |run.actions| ==>
                 match run.actions[i]
                 case Click(e) => e in elements || other == Some(e)
                 case Type(e, text) => other == Some(e) && text == a && otherLive
                 case Sleep(_) => false
  {
    var run := RadioRun(a, test, elements, page, other, otherLive);
    if |run.actions| == 3 {
      var pre := run.actions;
      assert TypeCount(pre[2..]) == 1 by { assert pre[2..][1..] == []; }
      assert TypeCount(pre[1..]) == 1 by { assert pre[1..][1..] == pre[2..]; }
    } else if |run.actions| == 1 {
      assert TypeCount(run.actions[1..]) == 0;
    }
  }

  /**
   * An answer only clicks the question's own radio buttons (cached or on
   * the page) and its 'Other' field, and only types into that field.
   */
  lemma AnswerTargets(page: Page, open: bool, q: Option<Elem>, grid: bool, st: Ready, a: string)
    ensures var o := RadioOutcome(page, open, q, grid, st, a);
            TypeCount(o.actions) <= 1
            && forall i :: 0 <= i < |o.actions| ==>
                 match o.actions[i]
                 case Click(e) => e in st.elements || st.other == Some(e)
                                  || (q.Some? && (e in page.radios(q.value, grid) || e == page.otherField(q.value)))
                 case Type(e, text) => text == a && (st.other == Some(e) || (q.Some? && e == page.otherField(q.value)))
                 case Sleep(_) => false
  {
    match Start(page, open, q, grid, st)
    case None =>
    case Some(s) =>
      var otherLive := s.other.Some? && IsValid(open, page.stale, [s.other.value]);
      RunTargets(a, OptionTest(grid, s.options, a), s.elements, page, s.other, otherLive);
      if s != st {
        var toggles := page.radios(q.value, grid);
        ScrapeToggles(toggles, page.aria, page.dataValue, OtherAria, st.other, page.otherField(q.value));
        ScrapeCounts(toggles, page.aria, page.dataValue, OtherAria, st.other, page.otherField(q.value));
      }
  }

  /** Unfolding the grid answer at cell `i`, after the actions `acc`. */
  lemma GridRunAt(page: Page, open: bool, q: Option<Elem>, st: Ready, cells: seq<string>, i: nat, acc: seq<Action>)
    requires i < |cells|
    ensures var o := RadioOutcome(page, open, q, true, st, cells[i]);
            var all := Join(acc, GridRun(page, open, q, st, cells[i..]));
            if o.reply != Done(True) then all == Join(acc, o)
            else all == Join(acc + o.actions, GridRun(page, open, q, o.after, cells[i + 1..]))
  {
    assert cells[i..][0] == cells[i] && cells[i..][1..] == cells[i + 1..];
    var o := RadioOutcome(page, open, q, true, st, cells[i]);
    var rest := GridRun(page, open, q, o.after, cells[i + 1..]);
    AppendAssoc(acc, o.actions, rest.actions);
  }

  /**
   * The answers to a grid whose state never changes and which has no
   * 'Other' field: the cell labels in order, with their option tests,
   * stopping at the first reply that is not `True`.
   */
  function CellsRun(cells: seq<string>, tests: seq<Option<bool>>, elements: seq<Elem>, page: Page): Run
    requires |tests| == |cells|
    decreases |cells|
  {
    if |cells| == 0 then Run(Done(True), [])
    else
      var r := RadioRun(cells[0], tests[0], elements, page, None, false);
      if r.reply != Done(True) then r
      else Then(r.actions, CellsRun(cells[1..], tests[1..], elements, page))
  }

  /**
   * A grid whose cached buttons are fresh, which has no 'Other' field and
   * whose options are well formed keeps its state through the grid answer,
   * and answers every cell label over that same state.
   */
  lemma {:induction false} GridRunFresh(page: Page, open: bool, q: Option<Elem>, st: Ready, cells: seq<string>)
    requires st.other.None? && |st.elements| > 0 && IsValid(open, page.stale, st.elements)
    requires AfterView(true, st.options) == st.options
    ensures var run := CellsRun(cells, OptionTests(true, st.options, cells), st.elements, page);
            GridRun(page, open, q, st, cells) == Outcome(run.reply, run.actions, st)
    decreases |cells|
  {
    if |cells| > 0 {
      var tests := OptionTests(true, st.options, cells);
      assert tests[1..] == OptionTests(true, st.options, cells[1..]);
      var o := RadioOutcome(page, open, q, true, st, cells[0]);
      assert Start(page, open, q, true, st) == Some(st);
      assert o == Outcome(RadioRun(cells[0], tests[0], st.elements, page, None, false).reply,
                          RadioRun(cells[0], tests[0], st.elements, page, None, false).actions, st);
      GridRunFresh(page, open, q, st, cells[1..]);
    }
  }

  /**
   * Such an answer succeeds exactly when every cell label passes its
   * option test and has a button of that label.
   */
  lemma {:induction false} CellsRunSucceeds(cells: seq<string>, tests: seq<Option<bool>>, elements: seq<Elem>, page: Page)
    requires |tests| == |cells|
    ensures CellsRun(cells, tests, elements, page).reply == Done(True) <==>
              forall i :: 0 <= i < |cells| ==> tests[i] == Some(true) && FirstWhere(elements, page.aria, cells[i]).Some?
    decreases |cells|
  {
    if |cells| > 0 {
      CellsRunSucceeds(cells[1..], tests[1..], elements, page);
      assert forall i :: 1 <= i < |cells| ==> cells[i] == cells[1..][i - 1] && tests[i] == tests[1..][i - 1];
    }
  }

  /**
   * A successful such answer clicks the first button of every cell label,
   * in sub-question order, and does nothing else.
   */
  lemma {:induction false} CellsRunClicks(cells: seq<string>, tests: seq<Option<bool>>, elements: seq<Elem>, page: Page)
    requires |tests| == |cells|
    ensures var run := CellsRun(cells, tests, elements, page);
            run.reply == Done(True) ==>
              |run.actions| == |cells|
              && forall i :: 0 <= i < |cells| ==>
                   var hit := FirstWhere(elements, page.aria, cells[i]);
                   hit.Some? && run.actions[i] == Click(hit.value)
    decreases |cells|
  {
    if |cells| > 0 {
      CellsRunClicks(cells[1..], tests[1..], elements, page);
      var run := CellsRun(cells, tests, elements, page);
      if run.reply == Done(True) {
        var rest := CellsRun(cells[1..], tests[1..], elements, page);
        assert run.actions == [Click(FirstWhere(elements, page.aria, cells[0]).value)] + rest.actions;
        assert forall i :: 1 <= i < |cells| ==> cells[i] == cells[1..][i - 1];
      }
    }
  }

  class RadioQuestion {
    const opt: BaseOptionQuestion
    /** The answer buttons (`_ANSWER_ELEMENTS`); empty when unset. */
    var elements: seq<Elem>

    constructor(element: Option<Elem>, browser: B.Browser, page: Page, grid: bool, otherLabel: string)
      ensures fresh(opt) && fresh(opt.base)
      ensures opt.grid == grid && opt.otherLabel == otherLabel && opt.options.None? && opt.otherElement.None?
      ensures opt.base.element == element && opt.base.browser == browser && opt.base.page == page
      ensures opt.base.header.None? && opt.base.description.None? && opt.base.required.None?
      ensures opt.base.trace == [] && elements == []
    {
      var base := new BaseQuestion(element, browser, page);
      opt := new BaseOptionQuestion(base, grid, otherLabel);
      elements := [];
    }

    /** The cached answer state. */
    function State(): Ready
      reads this, opt
    {
      Ready(opt.options, elements, opt.otherElement)
    }

    /**
     * `get_info`: the metadata, then the radio scrape (continuing from the
     * 'Other' field already known). The options are stored with a call
     * that `_set_options` accepts (see the finding on the keyword).
     */
    method GetInfo() returns (r: bool)
      modifies this, opt, opt.base
      ensures opt.base.element == old(opt.base.element) && opt.base.trace == old(opt.base.trace)
      ensures r <==> opt.base.element.Some? && opt.base.Live([opt.base.element.value])
      ensures r ==> opt.base.HasInfoOf(opt.base.element.value)
      ensures !r ==> opt.base.header == old(opt.base.header) && opt.base.description == old(opt.base.description)
                     && opt.base.required == old(opt.base.required) && State() == old(State())
      ensures r ==> var s := RadioScrape(opt.base.page, opt.base.element.value, opt.grid, old(opt.otherElement));
                    State() == Ready(Stored(old(opt.options), s.options), s.elements, s.other)
    {
      var ok := opt.base.GetInfo();
      if !ok {
        return false;
      }
      var page := opt.base.page;
      var q := opt.base.element.value;
      var buttons := page.radios(q, opt.grid);
      ghost var other0 := opt.otherElement;
      var optionElements: seq<Elem> := [];
      var opts: seq<string> := [];
      var i := 0;
      while i < |buttons|
        modifies opt
        invariant 0 <= i <= |buttons|
        invariant opt.options == old(opt.options)
        invariant Scrape(opts, optionElements, opt.otherElement)
                  == ScrapeOf(buttons[..i], page.aria, page.dataValue, OtherAria, other0, page.otherField(q))
      {
        var e := buttons[i];
        var option := page.aria(e);
        assert buttons[..i + 1][..i] == buttons[..i];
        if option in opts {
          // A duplicate label is allowed but not appended.
        } else if option == "" {
          if page.dataValue(e) == OtherMarker {
            if opt.otherElement.None? {
              optionElements := optionElements + [e];
              opt.otherElement := Some(page.otherField(q));
            }
          }
        } else {
          opts := opts + [option];
          optionElements := optionElements + [e];
        }
        i := i + 1;
      }
      assert buttons[..|buttons|] == buttons;
      opt.SetOptions(opts, None);
      if |opts| > 0 {
        assert opt.options.value == opts;
      }
      elements := optionElements;
      return true;
    }

    /**
     * `answer`: refresh if the cached buttons are unset or stale, then an
     * option is clicked, or a non-option typed into a fresh 'Other' field.
     */
    method Answer(text: string) returns (r: Reply)
      modifies this, opt, opt.base
      ensures opt.base.element == old(opt.base.element)
      ensures var o := RadioOutcome(opt.base.page, opt.base.browser.open, opt.base.element, opt.grid,
                                    old(State()), text);
              r == o.reply && opt.base.trace == old(opt.base.trace) + o.actions && State() == o.after
    {
      if !(|elements| > 0 && opt.base.Live(elements)) {
        var ok := GetInfo();
        if !ok {
          return Done(False);
        }
      }
      var otherLive := opt.otherElement.Some? && opt.base.Live([opt.otherElement.value]);
      r := AnswerReady(text, otherLive);
    }

    /** `answer` once the cached buttons have passed the freshness check. */
    method AnswerReady(text: string, otherLive: bool) returns (r: Reply)
      requires otherLive == (opt.otherElement.Some? && opt.base.Live([opt.otherElement.value]))
      modifies opt, opt.base
      ensures opt.base.element == old(opt.base.element) && opt.otherElement == old(opt.otherElement)
      ensures opt.options == AfterView(opt.grid, old(opt.options))
      ensures var run := RadioRun(text, OptionTest(opt.grid, old(opt.options), text), elements, opt.base.page,
                                  opt.otherElement, otherLive);
              r == run.reply && opt.base.trace == old(opt.base.trace) + run.actions
    {
      var page := opt.base.page;
      var isOption := opt.IsOption(text);
      if isOption.None? {
        return Crash;
      } else if isOption.value {
        var e := FirstWhere(elements, page.aria, text);
        if e.None? {
          return Crash;
        }
        opt.base.trace := opt.base.trace + [Click(e.value)];
        return Done(True);
      } else if opt.HasOtherOption() {
        var field := opt.otherElement.value;
        if !opt.base.Live([field]) {
          return Done(Nothing);
        }
        var t := FirstWhere(elements, page.dataValue, OtherMarker);
        if t.None? {
          return Crash;
        }
        opt.base.trace := opt.base.trace + [Click(t.value), Click(field), Type(field, text)];
        return Done(True);
      }
      return Done(False);
    }

    /**
     * The grid `answer`: one answer per sub-question, formatted with it and
     * answered in order; the first reply that is not `True` is returned.
     * `Crash` is the `TypeError` of `len` on unset sub-questions.
     */
    method GridAnswer(answers: seq<string>) returns (r: Reply)
      requires opt.grid
      modifies this, opt, opt.base
      ensures opt.base.element == old(opt.base.element)
      ensures var subs := OptionsView(true, old(opt.options), true);
              var st := Ready(AfterView(true, old(opt.options)), old(elements), old(opt.otherElement));
              if subs.None? then r == Crash && opt.base.trace == old(opt.base.trace) && State() == st
              else if |answers| != |subs.value| then
                r == Done(Nothing) && opt.base.trace == old(opt.base.trace) && State() == st
              else
                var o := GridRun(opt.base.page, opt.base.browser.open, opt.base.element, st, Cells(answers, subs.value));
                r == o.reply && opt.base.trace == old(opt.base.trace) + o.actions && State() == o.after
    {
      var subs := opt.GetSubQuestions();
      if subs.None? {
        return Crash;
      }
      if |answers| != |subs.value| {
        return Done(Nothing);
      }
      r := AnswerCells(answers, subs.value);
    }

    /** The loop of the grid `answer`, once the answers match the sub-questions. */
    method AnswerCells(answers: seq<string>, subs: seq<string>) returns (r: Reply)
      requires opt.grid && |answers| == |subs|
      modifies this, opt, opt.base
      ensures opt.base.element == old(opt.base.element)
      ensures var o := GridRun(opt.base.page, opt.base.browser.open, opt.base.element, old(State()), Cells(answers, subs));
              r == o.reply && opt.base.trace == old(opt.base.trace) + o.actions && State() == o.after
    {
      ghost var open := opt.base.browser.open;
      ghost var trace0 := opt.base.trace;
      ghost var cur := State();
      ghost var cells := Cells(answers, subs);
      ghost var all := GridRun(opt.base.page, open, opt.base.element, cur, cells);
      ghost var acc: seq<Action> := [];
      assert cells[0..] == cells;
      var i := 0;
      while i < |answers|
        invariant 0 <= i <= |answers|
        invariant opt.base.element == old(opt.base.element)
        invariant GridState(answers, subs, cells, i, open, trace0, acc, cur, all)
      {
        r, acc, cur := GridTurn(answers, subs, cells, i, open, trace0, acc, cur, all);
        if r != Done(True) {
          return r;
        }
        i := i + 1;
      }
      assert acc + [] == acc;
      return Done(True);
    }

    /**
     * The state of the grid answer before sub-question `i`: the actions so
     * far, the cached state `cur`, and the outcome still to come.
     */
    ghost predicate GridState(answers: seq<string>, subs: seq<string>, cells: seq<string>, i: nat, open: bool,
                              trace0: seq<Action>, acc: seq<Action>, cur: Ready, all: Outcome)
      reads this, opt, opt.base, opt.base.browser
    {
      i <= |answers| == |subs| && cells == Cells(answers, subs) && opt.grid && opt.base.browser.open == open
      && State() == cur && opt.base.trace == trace0 + acc
      && all == Join(acc, GridRun(opt.base.page, open, opt.base.element, cur, cells[i..]))
    }

    /** Sub-question `i` of the grid answer: it keeps the loop's state, or ends the outcome. */
    method GridTurn(answers: seq<string>, subs: seq<string>, ghost cells: seq<string>, i: nat, ghost open: bool,
                    ghost trace0: seq<Action>, ghost acc: seq<Action>, ghost cur: Ready, ghost all: Outcome)
      returns (r: Reply, ghost acc': seq<Action>, ghost cur': Ready)
      requires i < |answers| && GridState(answers, subs, cells, i, open, trace0, acc, cur, all)
      modifies this, opt, opt.base
      ensures opt.base.element == old(opt.base.element)
      ensures r != Done(True) ==> r == all.reply && opt.base.trace == trace0 + all.actions && State() == all.after
      ensures r == Done(True) ==> GridState(answers, subs, cells, i + 1, open, trace0, acc', cur', all)
    {
      ghost var o := RadioOutcome(opt.base.page, open, opt.base.element, true, cur, cells[i]);
      GridRunAt(opt.base.page, open, opt.base.element, cur, cells, i, acc);
      r := Answer(Format(answers[i], subs[i]));
      AppendAssoc(trace0, acc, o.actions);
      acc' := acc + o.actions;
      cur' := o.after;
    }
  }
}

=== FILE: save_pref_markup.dfy ===
/**
 * The save-preference keyboard of the current program: three choices,
 * laid out as two buttons and then one, each label decorated with an
 * emoji that stripping removes from its callback data.
 */
module SavePrefMarkups {
  import opened Common
  import opened Text
  import opened Markups

  const SaveAlways: string := "ALWAYS Save"
  const NeverSave: string := "NEVER Save"
  const AskAgain: string := "Always ASK Me First"

  /** The emoji of the three labels: a check mark, a cross and a question mark. */
  const Tick: char := '\U{2705}'
  const Cross: char := '\U{274C}'
  const Query: char := '\U{2753}'

  /** `is_option`: one of the three choices. */
  predicate IsSavePref(option: string)
  {
    option == SaveAlways || option == NeverSave || option == AskAgain
  }

  /** `get_pattern`. */
  function SavePrefPattern(): string
  {
    Pattern([SaveAlways, NeverSave, AskAgain])
  }

  /** The pattern alternates exactly the three choices, in order. */
  lemma SavePrefPatternText()
    ensures Split(Inner(SavePrefPattern()), '|') == [SaveAlways, NeverSave, AskAgain]
    ensures forall o :: IsSavePref(o) <==> o in Split(Inner(SavePrefPattern()), '|')
  {
    PatternAlternatives([SaveAlways, NeverSave, AskAgain]);
  }

  /** The rows `get_markup` lays out: save-always and never-save, then ask-again. */
  function SavePrefRows(): seq<Row>
  {
    [Several([[Tick, ' '] + SaveAlways, [Cross, ' '] + NeverSave]), Single([Query, ' '] + AskAgain + [' ', Query])]
  }

  /** `get_markup`. */
  function SavePrefKeyboard(): Option<Keyboard>
  {
    GetMarkup(SavePrefRows(), map[])
  }

  /** A row of two labels and then a row of one, each with the callback data given. */
  lemma TwoThenOne(l0: string, l1: string, l2: string, d0: string, d1: string, d2: string)
    requires ButtonData(l0, map[]) == Some(d0) && ButtonData(l1, map[]) == Some(d1)
    requires ButtonData(l2, map[]) == Some(d2)
    ensures GetMarkup([Several([l0, l1]), Single(l2)], map[]) == Some([[Button(l0, d0), Button(l1, d1)], [Button(l2, d2)]])
  {
    var rows := [Several([l0, l1]), Single(l2)];
    var r0, r1 := [Button(l0, d0), Button(l1, d1)], [Button(l2, d2)];
    RowOfTwo(l0, d0, l1, d1, map[]);
    RowOfOne(l2, d2, map[]);
    GetMarkupCons(rows, map[]);
    GetMarkupCons(rows[1..], map[]);
    assert rows[1..][1..] == [];
    assert GetMarkup(rows[1..], map[]).value == [r1] + [];
    assert [r0] + ([r1] + []) == [r0, r1];
  }

  /** Stripping the emoji of each label leaves its bare choice. */
  lemma LabelData()
    ensures ButtonData([Tick, ' '] + SaveAlways, map[]) == Some(SaveAlways)
    ensures ButtonData([Cross, ' '] + NeverSave, map[]) == Some(NeverSave)
    ensures ButtonData([Query, ' '] + AskAgain + [' ', Query], map[]) == Some(AskAgain)
  {
    TickData();
    CrossData();
    QueryData();
  }

  lemma TickData()
    ensures ButtonData([Tick, ' '] + SaveAlways, map[]) == Some(SaveAlways)
  {
    StripLeading(Tick, SaveAlways);
  }

  lemma CrossData()
    ensures ButtonData([Cross, ' '] + NeverSave, map[]) == Some(NeverSave)
  {
    StripLeading(Cross, NeverSave);
  }

  lemma QueryData()
    ensures ButtonData([Query, ' '] + AskAgain + [' ', Query], map[]) == Some(AskAgain)
  {
    StripDecorated(Query, AskAgain, Query);
  }

  /** The keyboard `get_markup` builds. */
  function Expected(): Keyboard
  {
    [[Button([Tick, ' '] + SaveAlways, SaveAlways), Button([Cross, ' '] + NeverSave, NeverSave)],
     [Button([Query, ' '] + AskAgain + [' ', Query], AskAgain)]]
  }

  /**
   * The keyboard is built without raising: a row of two buttons and a row
   * of one, each label decorated with its emoji and carrying its bare choice.
   */
  lemma SavePrefLayout()
    ensures SavePrefKeyboard() == Some(Expected())
  {
    LabelData();
    TwoThenOne([Tick, ' '] + SaveAlways, [Cross, ' '] + NeverSave, [Query, ' '] + AskAgain + [' ', Query],
               SaveAlways, NeverSave, AskAgain);
  }

  /** Every callback the keyboard emits is accepted by `is_option`. */
  lemma SavePrefCallbacks()
    ensures SavePrefKeyboard().Some? && AllData(SavePrefKeyboard().value, IsSavePref)
  {
    SavePrefLayout();
    var k: Keyboard := Expected();
    forall i, j | 0 <= i < |k| && 0 <= j < |k[i]| ensures IsSavePref(k[i][j].data) {
      if i == 0 { assert j == 0 || j == 1; } else { assert i == 1 && j == 0; }
    }
  }
}

=== FILE: seqs.dfy ===
/**
 * Order-preserving de-duplication: the program's "seen set" filter
 * (`[x for x in xs if not (x in seen or seen.add(x))]`), which keeps the
 * first occurrence of every element.
 */
module Seqs {

  ghost predicate NoDup<T>(s: seq<T>)
  {
    forall i, j :: 0 <= i < j < |s| ==> s[i] != s[j]
  }

  /** The elements of `s`, each at its first occurrence, in order. */
  function Dedupe<T(==,!new)>(s: seq<T>): (r: seq<T>)
    ensures NoDup(r)
    ensures forall x :: x in r <==> x in s
    ensures |r| <= |s|
    ensures s != [] ==> r != []
  {
    if |s| == 0 then []
    else
      var p := Dedupe(s[..|s| - 1]);
      if s[|s| - 1] in s[..|s| - 1] then p else p + [s[|s| - 1]]
  }

  /** Removing duplicates from a duplicate-free sequence changes nothing. */
  lemma {:induction false} DedupeNoDup<T(!new)>(s: seq<T>)
    requires NoDup(s)
    ensures Dedupe(s) == s
  {
    if |s| > 0 {
      var init := s[..|s| - 1];
      assert NoDup(init);
      DedupeNoDup(init);
      assert s[|s| - 1] !in init;
      assert init + [s[|s| - 1]] == s;
    }
  }

  /**
   * The kept elements come in first-occurrence order: extending the input
   * only ever appends to the result.
   */
  lemma {:induction false} DedupeAppend<T(!new)>(s: seq<T>, t: seq<T>)
    ensures Dedupe(s) <= Dedupe(s + t)
    decreases |t|
  {
    if |t| > 0 {
      var st := s + t;
      assert st[..|st| - 1] == s + t[..|t| - 1];
      DedupeAppend(s, t[..|t| - 1]);
    } else {
      assert s + t == s;
    }
  }

  /** An element that occurs for the first time is kept, at the end of what came before. */
  lemma DedupeSnoc<T(!new)>(s: seq<T>, x: T)
    ensures Dedupe(s + [x]) == if x in s then Dedupe(s) else Dedupe(s) + [x]
  {
    assert (s + [x])[..|s + [x]| - 1] == s;
  }

  /** Concatenation regroups freely. */
  lemma AppendAssoc<T>(a: seq<T>, b: seq<T>, c: seq<T>)
    ensures a + (b + c) == (a + b) + c
  {
  }
}

=== FILE: text.dfy ===
/**
 * String helpers standing in for the Python built-ins the program relies
 * on: `int()` on decimal text, `str()` of a natural number, `"{:02d}"`,
 * `str.split`, `in` on strings, `str.replace` and `str.strip`.
 *
 * Characters are classified in ASCII only: a "word" character is a letter,
 * a digit or '_', and whitespace is the six ASCII blanks.
 */
module Text {
  import opened Common

  predicate IsDigit(c: char) { '0' <= c <= '9' }

  predicate IsWordChar(c: char)
  {
    IsDigit(c) || ('a' <= c <= 'z') || ('A' <= c <= 'Z') || c == '_'
  }

  predicate IsSpace(c: char)
  {
    c == ' ' || c == '\t' || c == '\n' || c == '\r' || c == '\U{000B}' || c == '\U{000C}'
  }

  predicate AllDigits(s: string)
  {
    forall i :: 0 <= i < |s| ==> IsDigit(s[i])
  }

  // ---------------------------------------------------------------------
  // Decimal numbers

  function DigitValue(c: char): nat
    requires IsDigit(c)
  {
    c as int - '0' as int
  }

  function DigitChar(d: nat): char
    requires d < 10
  {
    ('0' as int + d) as char
  }

  /** The value of a string of decimal digits, most significant first. */
  function DigitsValue(s: string): nat
    requires AllDigits(s)
  {
    if |s| == 0 then 0 else DigitsValue(s[..|s| - 1]) * 10 + DigitValue(s[|s| - 1])
  }

  /** Python `int(s)` on text made of an optional sign and decimal digits. */
  function ParseInt(s: string): (r: Option<int>)
    ensures r.Some? ==> 0 < |s|
    ensures r.Some? && r.value < 0 ==> s[0] == '-'
  {
    if 0 < |s| && (s[0] == '-' || s[0] == '+') then
      if 1 < |s| && AllDigits(s[1..]) then
        Some(if s[0] == '-' then 0 - DigitsValue(s[1..]) else DigitsValue(s[1..]))
      else None
    else if 0 < |s| && AllDigits(s) then Some(DigitsValue(s))
    else None
  }

  /** `int` of a non-empty digit string is its value. */
  lemma ParseIntDigits(s: string)
    requires 0 < |s| && AllDigits(s)
    ensures ParseInt(s) == Some(DigitsValue(s))
  {
    assert IsDigit(s[0]);
  }

  /** Python `str(n)` for a natural number: no sign, no leading zero. */
  function NatToString(n: nat): (s: string)
    ensures 0 < |s| && AllDigits(s)
    ensures s[0] == '0' ==> n == 0
  {
    if n < 10 then [DigitChar(n)] else NatToString(n / 10) + [DigitChar(n % 10)]
  }

  lemma {:induction false} DigitsValueNatToString(n: nat)
    ensures DigitsValue(NatToString(n)) == n
  {
    if n >= 10 {
      var s := NatToString(n);
      assert s[..|s| - 1] == NatToString(n / 10);
      DigitsValueNatToString(n / 10);
    }
  }

  /** `int(str(n)) == n`. */
  lemma ParseIntNatToString(n: nat)
    ensures ParseInt(NatToString(n)) == Some(n)
  {
    DigitsValueNatToString(n);
  }

  /** Left-pads `s` with '0' up to `width` characters (`"{:0<width>d}"`). */
  function ZeroPad(s: string, width: nat): (r: string)
    ensures |r| == if |s| >= width then |s| else width
    ensures AllDigits(s) ==> AllDigits(r)
    decreases width - |s|
  {
    if |s| >= width then s else ZeroPad(['0'] + s, width)
  }

  /** Leading zeros do not change the value of a digit string. */
  lemma {:induction false} DigitsValueLeadingZero(s: string)
    requires AllDigits(s)
    ensures AllDigits(['0'] + s) && DigitsValue(['0'] + s) == DigitsValue(s)
  {
    if |s| > 0 {
      var t := ['0'] + s;
      assert t[..|t| - 1] == ['0'] + s[..|s| - 1];
      DigitsValueLeadingZero(s[..|s| - 1]);
    }
  }

  lemma {:induction false} DigitsValueZeroPad(s: string, width: nat)
    requires AllDigits(s)
    ensures DigitsValue(ZeroPad(s, width)) == DigitsValue(s)
    decreases width - |s|
  {
    if |s| < width {
      DigitsValueLeadingZero(s);
      DigitsValueZeroPad(['0'] + s, width);
    }
  }

  /** `"{:02d}".format(n)` for a natural number. */
  function Pad2(n: nat): string
  {
    ZeroPad(NatToString(n), 2)
  }

  /** Reading back a zero-padded number gives the number. */
  lemma Pad2Value(n: nat)
    ensures AllDigits(Pad2(n)) && DigitsValue(Pad2(n)) == n
    ensures n < 100 ==> |Pad2(n)| == 2
  {
    DigitsValueNatToString(n);
    DigitsValueZeroPad(NatToString(n), 2);
    if n < 100 {
      assert |NatToString(n)| <= 2 by {
        if n >= 10 { assert NatToString(n) == NatToString(n / 10) + [DigitChar(n % 10)]; }
      }
    }
  }

  // ---------------------------------------------------------------------
  // Splitting and joining

  /** The inverse of Python `str.split(sep)`: the parts joined by `sep`. */
  function Join(parts: seq<string>, sep: char): string
  {
    if |parts| == 0 then ""
    else if |parts| == 1 then parts[0]
    else parts[0] + [sep] + Join(parts[1..], sep)
  }

  /** Python `s.split(sep)` for a one-character separator. */
  function Split(s: string, sep: char): (parts: seq<string>)
    ensures 0 < |parts|
    ensures forall i :: 0 <= i < |parts| ==> sep !in parts[i]
    ensures Join(parts, sep) == s
  {
    if |s| == 0 then [""]
    else
      var rest := Split(s[1..], sep);
      if s[0] == sep then [""] + rest
      else [[s[0]] + rest[0]] + rest[1..]
  }

  /** Splitting the join of separator-free parts gives the parts back. */
  lemma {:induction false} SplitJoin(parts: seq<string>, sep: char)
    requires 0 < |parts|
    requires forall i :: 0 <= i < |parts| ==> sep !in parts[i]
    ensures Split(Join(parts, sep), sep) == parts
    decreases |parts|, |parts[0]|
  {
    var p := parts[0];
    if |p| == 0 {
      if |parts| > 1 {
        assert Join(parts, sep) == [sep] + Join(parts[1..], sep);
        SplitJoin(parts[1..], sep);
        assert Join(parts, sep)[1..] == Join(parts[1..], sep);
      }
    } else {
      var shorter := [p[1..]] + parts[1..];
      assert Join(parts, sep) == [p[0]] + Join(shorter, sep) by {
        if |parts| > 1 {
          assert shorter[1..] == parts[1..];
        }
      }
      assert forall i :: 0 <= i < |shorter| ==> sep !in shorter[i] by {
        forall i | 0 <= i < |shorter| ensures sep !in shorter[i] {
          if i == 0 { assert p == [p[0]] + p[1..]; } else { assert shorter[i] == parts[i]; }
        }
      }
      SplitJoin(shorter, sep);
      assert Join(parts, sep)[1..] == Join(shorter, sep);
      assert p[0] != sep;
      assert p == [p[0]] + p[1..];
      assert parts == [p] + parts[1..];
    }
  }

  /** Two separator-free parts joined by the separator split back into exactly those two. */
  lemma SplitTwo(a: string, b: string, sep: char)
    requires sep !in a && sep !in b
    ensures Split(a + [sep] + b, sep) == [a, b]
  {
    var parts := [a, b];
    assert Join(parts[1..], sep) == b;
    SplitJoin(parts, sep);
  }

  /** Three separator-free parts joined by the separator split back into exactly those three. */
  lemma SplitThree(a: string, b: string, c: string, sep: char)
    requires sep !in a && sep !in b && sep !in c
    ensures Split(a + [sep] + b + [sep] + c, sep) == [a, b, c]
  {
    var parts := [a, b, c];
    assert parts[1..][1..] == [c];
    assert Join(parts[1..], sep) == b + [sep] + c;
    assert Join(parts, sep) == a + [sep] + b + [sep] + c;
    SplitJoin(parts, sep);
  }

  // ---------------------------------------------------------------------
  // Substrings

  /** The index of the first occurrence of `c` in `s` (`s.find(c)`, absent as `None`). */
  function IndexOf(s: string, c: char): (r: Option<nat>)
    ensures r.Some? ==> r.value < |s| && s[r.value] == c && c !in s[..r.value]
    ensures r.None? ==> c !in s
  {
    if |s| == 0 then None
    else if s[0] == c then Some(0)
    else match IndexOf(s[1..], c)
      case None => None
      case Some(i) => Some(i + 1)
  }

  /** A character absent from `a` is first found just after `a`. */
  lemma IndexOfAfter(a: string, rest: string, c: char)
    requires c !in a
    ensures IndexOf(a + [c] + rest, c) == Some(|a|)
  {
    var s := a + [c] + rest;
    assert s[|a|] == c;
    assert s[..|a|] == a;
  }

  /** Python `sub in s`. */
  predicate Contains(s: string, sub: string)
  {
    sub <= s || (0 < |s| && Contains(s[1..], sub))
  }

  /** Python `s.replace(pat, rep)` for a non-empty pattern: left to right, non-overlapping. */
  function ReplaceAll(s: string, pat: string, rep: string): string
    requires 0 < |pat|
  {
    if |s| == 0 then s
    else if pat <= s then rep + ReplaceAll(s[|pat|..], pat, rep)
    else [s[0]] + ReplaceAll(s[1..], pat, rep)
  }

  /** Replacing a pattern that does not occur changes nothing. */
  lemma {:induction false} ReplaceAbsent(s: string, pat: string, rep: string)
    requires 0 < |pat| && !Contains(s, pat)
    ensures ReplaceAll(s, pat, rep) == s
  {
    if |s| > 0 {
      ReplaceAbsent(s[1..], pat, rep);
    }
  }

  /** A text without the first character of `sub` does not contain `sub`. */
  lemma {:induction false} NotContainsFirst(s: string, sub: string)
    requires 0 < |sub| && sub[0] !in s
    ensures !Contains(s, sub)
  {
    if |s| > 0 {
      assert s[0] != sub[0];
      assert forall i :: 0 <= i < |s[1..]| ==> s[1..][i] == s[i + 1];
      NotContainsFirst(s[1..], sub);
    }
  }

  /** A text shorter than `sub` does not contain it. */
  lemma {:induction false} ShorterNotContains(s: string, sub: string)
    requires |s| < |sub|
    ensures !Contains(s, sub)
  {
    if |s| > 0 {
      ShorterNotContains(s[1..], sub);
    }
  }

  /** `"".join(...)` of `a + b`: substring test on a prefix extension. */
  lemma {:induction false} ContainsAppend(a: string, b: string, sub: string)
    requires Contains(b, sub)
    ensures Contains(a + b, sub)
  {
    if |a| > 0 {
      assert (a + b)[1..] == a[1..] + b;
      ContainsAppend(a[1..], b, sub);
    } else {
      assert a + b == b;
    }
  }

  // ---------------------------------------------------------------------
  // Stripping

  /** Python `s.lstrip()`. */
  function LStrip(s: string): (r: string)
    ensures |r| <= |s| && r == s[|s| - |r|..]
    ensures |r| > 0 ==> !IsSpace(r[0])
  {
    if 0 < |s| && IsSpace(s[0]) then LStrip(s[1..]) else s
  }

  /** Python `s.rstrip()`. */
  function RStrip(s: string): (r: string)
    ensures |r| <= |s| && r == s[..|r|]
    ensures |r| > 0 ==> !IsSpace(r[|r| - 1])
  {
    if 0 < |s| && IsSpace(s[|s| - 1]) then RStrip(s[..|s| - 1]) else s
  }

  predicate AllSpaces(s: string)
  {
    forall i :: 0 <= i < |s| ==> IsSpace(s[i])
  }

  /** The length of the run of whitespace `s` starts with. */
  function LeadingSpaces(s: string): (n: nat)
    ensures n <= |s| && AllSpaces(s[..n])
    ensures n < |s| ==> !IsSpace(s[n])
  {
    if |s| == 0 || !IsSpace(s[0]) then 0
    else
      var n := 1 + LeadingSpaces(s[1..]);
      assert s[..n] == [s[0]] + s[1..][..n - 1];
      n
  }

  /** The leading whitespace of a run of whitespace followed by a non-blank is that run. */
  lemma {:induction false} LeadingSpacesRun(x: string, rest: string)
    requires AllSpaces(x)
    requires 0 < |rest| ==> !IsSpace(rest[0])
    ensures LeadingSpaces(x + rest) == |x|
  {
    if |x| > 0 {
      assert (x + rest)[1..] == x[1..] + rest;
      LeadingSpacesRun(x[1..], rest);
    } else {
      assert x + rest == rest;
    }
  }

  // ---------------------------------------------------------------------
  // Digit runs

  /** The length of the run of digits `s` starts with. */
  function LeadingDigits(s: string): (n: nat)
    ensures n <= |s| && AllDigits(s[..n])
    ensures n < |s| ==> !IsDigit(s[n])
  {
    if |s| == 0 || !IsDigit(s[0]) then 0
    else
      var n := 1 + LeadingDigits(s[1..]);
      assert s[..n] == [s[0]] + s[1..][..n - 1];
      n
  }

  /** Python `re.findall(r"[0-9]+", s)`: the maximal runs of digits, left to right. */
  function DigitRuns(s: string): (runs: seq<string>)
    ensures forall i :: 0 <= i < |runs| ==> 0 < |runs[i]| && AllDigits(runs[i])
    decreases |s|
  {
    if |s| == 0 then []
    else if !IsDigit(s[0]) then DigitRuns(s[1..])
    else
      var n := LeadingDigits(s);
      [s[..n]] + DigitRuns(s[n..])
  }

  /** Text without digits in front of more text adds no run. */
  lemma {:induction false} DigitRunsSkip(p: string, rest: string)
    requires forall i :: 0 <= i < |p| ==> !IsDigit(p[i])
    ensures DigitRuns(p + rest) == DigitRuns(rest)
  {
    if |p| > 0 {
      assert (p + rest)[1..] == p[1..] + rest;
      DigitRunsSkip(p[1..], rest);
    } else {
      assert p + rest == rest;
    }
  }

  /** A run of digits followed by text that does not start with a digit is the first run. */
  lemma {:induction false} DigitRunsRun(x: string, rest: string)
    requires 0 < |x| && AllDigits(x)
    requires 0 < |rest| ==> !IsDigit(rest[0])
    ensures DigitRuns(x + rest) == [x] + DigitRuns(rest)
  {
    var s := x + rest;
    LeadingDigitsRun(x, rest);
    assert s[..|x|] == x && s[|x|..] == rest;
  }

  /** The leading run of digits of a run followed by a non-digit is that run. */
  lemma {:induction false} LeadingDigitsRun(x: string, rest: string)
    requires AllDigits(x)
    requires 0 < |rest| ==> !IsDigit(rest[0])
    ensures LeadingDigits(x + rest) == |x|
  {
    if |x| > 0 {
      assert (x + rest)[1..] == x[1..] + rest;
      LeadingDigitsRun(x[1..], rest);
    } else {
      assert x + rest == rest;
    }
  }

  /** A run of digits, then text without digits, then more text: the run, then the runs of the rest. */
  lemma DigitRunsField(x: string, p: string, rest: string)
    requires 0 < |x| && AllDigits(x)
    requires 0 < |p| && forall i :: 0 <= i < |p| ==> !IsDigit(p[i])
    ensures DigitRuns(x + p + rest) == [x] + DigitRuns(rest)
  {
    DigitRunsSkip(p, rest);
    DigitRunsRun(x, p + rest);
    assert x + p + rest == x + (p + rest);
  }
}

=== FILE: time_markup.dfy ===
/**
 * The time picker of the current program. The main keyboard shows the
 * hour, the minute and either AM/PM or (for a duration) the second; each
 * value button opens a sub-keyboard and marks its field pending with -1,
 * and the number chosen there fills the first pending field. OK sends the
 * time as "HH:MM" or "HH:MM:SS". An optional earliest time hides earlier
 * times. The current time is a parameter.
 */
module TimeMarkups {
  import opened Common
  import opened Text
  import opened Markups
  import T = TimeQuestions

  const MinSec: string := "MIN_SEC"
  const HourGroup: string := "HOUR_GROUP"
  const ChooseHour: string := "CHOOSE_HOUR"
  /** Spelt as in the program; only ever compared with itself. */
  const ChooseMinute: string := "CHHOSE_MINUTE"
  const ChooseSecond: string := "CHOOSE_SECOND"
  const ChooseAmPm: string := "CHOOSE_AM_PM"
  const Finalise: string := "FINALISE"
  /** The number alternative of the pattern. */
  const NumRegex: string := "\\d{1,2}"

  /** The options that are neither numbers nor groups. */
  const Controls: seq<string> := [Skip, ChooseHour, ChooseMinute, ChooseSecond, ChooseAmPm, Finalise, Ignore]

  /** The duration hour groups of `_hour_group`. */
  const HourGroups: seq<(nat, nat)> := [(0, 11), (12, 23), (24, 35), (36, 47), (48, 59), (60, 72)]

  /** A time of day: the earliest time, or the current time. */
  datatype Clock = Clock(hour: int, minute: int, second: int)

  predicate ValidClock(c: Clock)
  {
    0 <= c.hour <= 23 && 0 <= c.minute <= 59 && 0 <= c.second <= 59
  }

  // ---------------------------------------------------------------------
  // Number texts

  /** `str(n)`. */
  function Str(n: int): string
  {
    if n < 0 then "-" + NatToString(-n) else NatToString(n)
  }

  /** `"{:02d}".format(n)`: at least two digits, a minus sign counting towards the width. */
  function Format02(n: int): (r: string)
    ensures 0 <= n ==> r == Pad2(n)
    ensures n < 0 ==> r == Str(n)
  {
    if n < 0 then Str(n) else Pad2(n)
  }

  /** `_valid_int`: an integer in 0..99. */
  predicate SmallInt(s: string)
  {
    ParseInt(s).Some? && 0 <= ParseInt(s).value <= 99
  }

  // ---------------------------------------------------------------------
  // Display

  /** The seconds since midnight of an hour and minute, at second `s`. */
  function SecondOfDay(hour: int, minute: int, s: int): int
  {
    hour * 3600 + minute * 60 + s
  }

  /**
   * `_display(hour, minute)` as intended: the time exists and, when there
   * is an earliest time, the start of that minute is not before it.
   */
  function Display(from: Option<Clock>, hour: int, minute: int): (r: bool)
    ensures r ==> 0 <= hour <= 23 && 0 <= minute <= 59
    ensures from.None? ==> (r <==> 0 <= hour <= 23 && 0 <= minute <= 59)
  {
    if !(0 <= hour <= 23) then false
    else if !(0 <= minute <= 59) then false
    else from.None? || SecondOfDay(hour, minute, 0) >= SecondOfDay(from.value.hour, from.value.minute, from.value.second)
  }

  /**
   * `_display` as written: the comparison names `timezone`, which the
   * module never imports, so with an earliest time set every existing time
   * raises (`None`).
   */
  function DisplayAsWritten(from: Option<Clock>, hour: int, minute: int): (r: Option<bool>)
  {
    if !(0 <= hour <= 23) then Some(false)
    else if !(0 <= minute <= 59) then Some(false)
    else if from.None? then Some(true)
    else None
  }

  /**
   * As written, once an earliest time is set, asking whether any existing
   * time is shown raises; as intended, the earliest minute itself is shown
   * exactly when the earliest time falls on a whole minute, and every later
   * minute is shown.
   */
  lemma DisplayAfterFrom(from: Clock, hour: int, minute: int)
    requires ValidClock(from) && 0 <= hour <= 23 && 0 <= minute <= 59
    ensures DisplayAsWritten(Some(from), hour, minute) == None
    ensures (hour, minute) == (from.hour, from.minute) ==> (Display(Some(from), hour, minute) <==> from.second == 0)
    ensures hour * 60 + minute > from.hour * 60 + from.minute ==> Display(Some(from), hour, minute)
    ensures hour * 60 + minute < from.hour * 60 + from.minute ==> !Display(Some(from), hour, minute)
    ensures DisplayAsWritten(None, hour, minute) == Some(Display(None, hour, minute))
  {
  }

  // ---------------------------------------------------------------------
  // Options

  /**
   * `_is_option`: a control; or, when the text has a space and names a
   * minute/second group or an hour group, two or three space-separated
   * parts whose parts after the first are integers in 0..99; or else an
   * integer in 0..99.
   */
  predicate IsTimeOption(option: string)
  {
    if option in Controls then true
    else if ' ' in option && (Contains(option, MinSec) || Contains(option, HourGroup)) then
      var args := Split(option, ' ');
      2 <= |args| <= 3 && forall k :: 1 <= k < |args| ==> SmallInt(args[k])
    else SmallInt(option)
  }

  /** `get_pattern`: the controls, the two group forms and a number. */
  function TimePattern(): string
  {
    Pattern([Skip, Finalise, Ignore, ChooseHour, ChooseMinute, ChooseSecond, ChooseAmPm,
             MinSec + " " + NumRegex, HourGroup + " " + NumRegex + " " + NumRegex, NumRegex])
  }

  /** The pattern's alternatives, in order. */
  lemma TimePatternAlternatives()
    ensures Split(Inner(TimePattern()), '|') ==
              [Skip, Finalise, Ignore, ChooseHour, ChooseMinute, ChooseSecond, ChooseAmPm,
               MinSec + " " + NumRegex, HourGroup + " " + NumRegex + " " + NumRegex, NumRegex]
  {
    var alts := [Skip, Finalise, Ignore, ChooseHour, ChooseMinute, ChooseSecond, ChooseAmPm,
                 MinSec + " " + NumRegex, HourGroup + " " + NumRegex + " " + NumRegex, NumRegex];
    forall i | 0 <= i < |alts| ensures '|' !in alts[i] {
      assert forall c :: c in alts[i] ==> c != '|';
    }
    PatternAlternatives(alts);
  }

  /** `str(n)` of a non-negative number: digits only, so no space and no letter of a group name. */
  lemma DigitsHaveNoLetters(n: nat)
    ensures ' ' !in Str(n) && 'M' !in Str(n) && 'H' !in Str(n)
    ensures 0 < |Str(n)| && IsDigit(Str(n)[0])
  {
    var s := NatToString(n);
    assert forall i :: 0 <= i < |s| ==> IsDigit(s[i]);
  }

  /** The controls are options. */
  lemma ControlIsOption(option: string)
    requires option in Controls
    ensures IsTimeOption(option)
  {
  }

  /** Every number from 0 to 99, written out, is an option that reads back as itself. */
  lemma NumberIsOption(n: nat)
    requires n <= 99
    ensures IsTimeOption(Str(n)) && Str(n) !in Controls && ParseInt(Str(n)) == Some(n)
    ensures !Contains(Str(n), MinSec) && !Contains(Str(n), HourGroup)
  {
    var s := Str(n);
    DigitsHaveNoLetters(n);
    ParseIntNatToString(n);
    NotContainsFirst(s, MinSec);
    NotContainsFirst(s, HourGroup);
    assert s !in Controls by {
      forall k | 0 <= k < |Controls| ensures s != Controls[k] {
        assert !IsDigit(Controls[k][0]);
      }
    }
  }

  /** No control starts with 'H' or 'M', the initials of the two groups. */
  lemma NotControlByHead(s: string)
    requires 0 < |s| && (s[0] == 'H' || s[0] == 'M')
    ensures s !in Controls
  {
    forall k | 0 <= k < |Controls| ensures s != Controls[k] {
      assert Controls[k][0] != s[0];
    }
  }

  /** The callback data of a minute/second group: "MIN_SEC" and its first value. */
  function MinSecData(n: int): string
  {
    MinSec + " " + Str(n)
  }

  /** A minute/second group's data splits at its one space into the group's name and its first value. */
  lemma MinSecDataShape(n: nat)
    ensures var data := MinSecData(n);
            IndexOf(data, ' ') == Some(|MinSec|) && data[|MinSec| + 1..] == Str(n)
            && Split(data, ' ') == [MinSec, Str(n)]
  {
    DigitsHaveNoLetters(n);
    assert ' ' !in MinSec by { assert forall i :: 0 <= i < |MinSec| ==> MinSec[i] != ' '; }
    SplitTwo(MinSec, Str(n), ' ');
    IndexOfAfter(MinSec, Str(n), ' ');
  }

  /** A minute/second group's data names the group and is no control. */
  lemma MinSecDataNamed(n: nat)
    ensures var data := MinSecData(n);
            data !in Controls && Contains(data, MinSec) && ' ' in data
  {
    var data := MinSecData(n);
    assert MinSec <= data;
    assert data[|MinSec|] == ' ';
    NotControlByHead(data);
  }

  /** A minute/second group's data names the group, and its text after the first space is its first value. */
  lemma MinSecDataFacts(n: nat)
    ensures var data := MinSecData(n);
            data !in Controls && Contains(data, MinSec) && ' ' in data
            && IndexOf(data, ' ') == Some(|MinSec|) && data[|MinSec| + 1..] == Str(n)
            && Split(data, ' ') == [MinSec, Str(n)]
  {
    MinSecDataShape(n);
    MinSecDataNamed(n);
  }

  /** A minute/second group's data is an option. */
  lemma MinSecDataIsOption(n: nat)
    requires n <= 99
    ensures IsTimeOption(MinSecData(n))
  {
    MinSecDataFacts(n);
    NumberIsOption(n);
  }

  /** The callback data of an hour group: "HOUR_GROUP" and its first and last hours. */
  function HourGroupData(a: int, b: int): string
  {
    HourGroup + " " + Str(a) + " " + Str(b)
  }

  /** An hour group's data splits at its spaces into the group's name and its first and last hours. */
  lemma HourGroupDataSplit(a: nat, b: nat)
    ensures Split(HourGroupData(a, b), ' ') == [HourGroup, Str(a), Str(b)]
  {
    DigitsHaveNoLetters(a);
    DigitsHaveNoLetters(b);
    assert ' ' !in HourGroup by {
      assert forall i :: 0 <= i < |HourGroup| ==> HourGroup[i] != ' ';
    }
    SplitThree(HourGroup, Str(a), Str(b), ' ');
  }

  /** An hour group's data names the hour group, not a minute group, and is no control. */
  lemma HourGroupDataNamed(a: nat, b: nat)
    ensures var data := HourGroupData(a, b);
            data !in Controls && !Contains(data, MinSec) && Contains(data, HourGroup) && ' ' in data
  {
    var data := HourGroupData(a, b);
    DigitsHaveNoLetters(a);
    DigitsHaveNoLetters(b);
    assert 'M' !in HourGroup by {
      assert forall i :: 0 <= i < |HourGroup| ==> HourGroup[i] != 'M';
    }
    assert HourGroup <= data;
    assert data[|HourGroup|] == ' ';
    assert 'M' !in data;
    NotContainsFirst(data, MinSec);
    NotControlByHead(data);
  }

  /** An hour group's data names the hour group and not a minute group, in three parts. */
  lemma HourGroupDataFacts(a: nat, b: nat)
    ensures var data := HourGroupData(a, b);
            data !in Controls && !Contains(data, MinSec) && Contains(data, HourGroup) && ' ' in data
            && Split(data, ' ') == [HourGroup, Str(a), Str(b)]
  {
    HourGroupDataSplit(a, b);
    HourGroupDataNamed(a, b);
  }

  /** An hour group's data is an option. */
  lemma HourGroupDataIsOption(a: nat, b: nat)
    requires a <= 99 && b <= 99
    ensures IsTimeOption(HourGroupData(a, b))
  {
    HourGroupDataFacts(a, b);
    NumberIsOption(a);
    NumberIsOption(b);
  }

  // ---------------------------------------------------------------------
  // Keyboards

  /** `_min_sec(start)`: ten values from `start`, two a row; hidden minutes are blank. */
  function MinSecKeys(from: Option<Clock>, hour: int, second: Option<int>, start: int): Keyboard
  {
    seq(5, i => seq(2, j => var v := start + 2 * i + j;
                            if second.Some? || Display(from, hour, v) then Button(Str(v), Str(v)) else Blank))
  }

  /** The 12-hour label of hour `h`: 12 for noon and midnight. */
  function Hour12(h: nat): nat
  {
    if h % 12 == 0 then 12 else h % 12
  }

  /** `_time_hour(pm)`: the twelve hours of the morning or the afternoon, two a row, as 12-hour labels. */
  function HourKeys(from: Option<Clock>, minute: int, pm: bool): Keyboard
  {
    seq(6, i => seq(2, j => var v := 2 * i + j + (if pm then 12 else 0);
                            if Display(from, v, minute)
                            then Button(Str(2 * i + j + (if i == 0 && j == 0 then 12 else 0)) + (if pm then "PM" else "AM"),
                                        Str(v))
                            else Blank))
  }

  /** The stop `_duration_hour` uses: as given when 11 or 12 past `start`, else 11 past it. */
  function DurationStop(start: int, stop: int): (r: int)
    ensures r - start == 11 || r - start == 12
    ensures 11 <= stop - start <= 12 ==> r == stop
  {
    if 11 <= stop - start <= 12 then stop else start + 11
  }

  /** `_duration_hour(start, stop)`: `start` to `start + 11` three a row, and `stop` alone below when 12 past. */
  function DurationKeys(start: int, stop: int): Keyboard
  {
    var last := DurationStop(start, stop);
    seq(4, i => seq(3, j => Button(Str(start + 3 * i + j), Str(start + 3 * i + j))))
    + (if last - start == 12 then [[Blank, Button(Str(last), Str(last)), Blank]] else [])
  }

  /** `_min_sec_group`: the six tens of minutes or seconds, two a row; a group whose last minute is hidden is blank. */
  function MinSecGroupKeys(from: Option<Clock>, hour: int, second: Option<int>): Keyboard
  {
    seq(3, i => seq(2, j => var k := 2 * i + j;
                            if second.Some? || Display(from, hour, 10 * (k + 1) - 1)
                            then Button(Str(10 * k) + " - " + Str(10 * (k + 1) - 1), MinSecData(10 * k))
                            else Blank))
  }

  /** `_hour_group`: the six duration hour groups, two a row. */
  function HourGroupKeys(): Keyboard
  {
    seq(3, i requires 0 <= i < 3 => seq(2, j requires 0 <= j < 2 =>
      var g := HourGroups[2 * i + j];
      Button(Str(g.0) + " - " + Str(g.1), HourGroupData(g.0, g.1))))
  }

  /** The AM/PM button, or the second for a duration. */
  function ThirdButton(hour: int, second: Option<int>): Button
  {
    if second.None? then Button(if hour < 12 then "AM" else "PM", ChooseAmPm)
    else Button(Format02(second.value), ChooseSecond)
  }

  /**
   * `get_markup`: the labels, then the values (the hour on a 12-hour
   * clock when there is no second), then Skip when no answer is required,
   * and OK.
   */
  function MainKeys(required: bool, hour: int, minute: int, second: Option<int>): Keyboard
  {
    [[Button("Hour", Ignore), Button("Minute", Ignore), Button(if second.None? then "AM/PM" else "Second", Ignore)],
     [Button(Format02(hour - (if second.None? && hour > 12 then 12 else 0)), ChooseHour),
      Button(Format02(minute), ChooseMinute), ThirdButton(hour, second)],
     (if required then [] else [Button("Skip", Skip)]) + [Button("OK", Finalise)]]
  }

  /**
   * Hour `h` of the day sits at its place on the 12-hour keyboard of its
   * half of the day, labelled on the 12-hour clock, carrying `h` exactly
   * when it is shown.
   */
  lemma HourKeysPlace(from: Option<Clock>, minute: int, h: nat)
    requires h <= 23
    ensures var k := HourKeys(from, minute, h >= 12);
            var p := h % 12;
            |k| == 6 && |k[p / 2]| == 2
            && k[p / 2][p % 2] == if Display(from, h, minute)
                                  then Button(Str(Hour12(h)) + (if h >= 12 then "PM" else "AM"), Str(h))
                                  else Blank
  {
    var p := h % 12;
    var i, j := p / 2, p % 2;
    assert 2 * i + j == p;
    assert h == p + (if h >= 12 then 12 else 0);
    assert (i == 0 && j == 0) <==> p == 0;
    assert Hour12(h) == p + (if p == 0 then 12 else 0);
  }

  /** The duration keyboard shows `start` to its stop, in order, and nothing else. */
  lemma DurationKeysValues(start: nat, stop: int)
    ensures var k := DurationKeys(start, stop);
            var last := DurationStop(start, stop);
            |k| == (if last - start == 12 then 5 else 4)
            && (forall i, j :: 0 <= i < 4 && 0 <= j < 3 ==> k[i][j] == Button(Str(start + 3 * i + j), Str(start + 3 * i + j)))
            && (last - start == 12 ==> k[4] == [Blank, Button(Str(last), Str(last)), Blank])
  {
  }

  /** One value of a minute/second keyboard carries an option. */
  lemma MinSecCell(from: Option<Clock>, hour: int, second: Option<int>, start: nat, i: nat, j: nat)
    requires start <= 90 && i < 5 && j < 2
    ensures IsTimeOption(MinSecKeys(from, hour, second, start)[i][j].data)
  {
    NumberIsOption(start + 2 * i + j);
    ControlIsOption(Ignore);
  }

  /** Every callback of a minute/second keyboard opened from a group of the keyboard is an option. */
  lemma MinSecKeysCallbacks(from: Option<Clock>, hour: int, second: Option<int>, start: nat)
    requires start <= 90
    ensures AllData(MinSecKeys(from, hour, second, start), IsTimeOption)
  {
    var k: Keyboard := MinSecKeys(from, hour, second, start);
    forall i, j | 0 <= i < |k| && 0 <= j < |k[i]| ensures IsTimeOption(k[i][j].data) {
      MinSecCell(from, hour, second, start, i, j);
    }
  }

  /** One hour of the hour keyboard carries an option. */
  lemma HourCell(from: Option<Clock>, minute: int, pm: bool, i: nat, j: nat)
    requires i < 6 && j < 2
    ensures IsTimeOption(HourKeys(from, minute, pm)[i][j].data)
  {
    NumberIsOption(2 * i + j + (if pm then 12 else 0));
    ControlIsOption(Ignore);
  }

  /** Every callback of the hour keyboard is an option. */
  lemma HourKeysCallbacks(from: Option<Clock>, minute: int, pm: bool)
    ensures AllData(HourKeys(from, minute, pm), IsTimeOption)
  {
    var k: Keyboard := HourKeys(from, minute, pm);
    forall i, j | 0 <= i < |k| && 0 <= j < |k[i]| ensures IsTimeOption(k[i][j].data) {
      HourCell(from, minute, pm, i, j);
    }
  }

  /** Every callback of a duration keyboard opened from an hour group is an option. */
  lemma DurationKeysCallbacks(start: nat, stop: int)
    requires start + 12 <= 99
    ensures AllData(DurationKeys(start, stop), IsTimeOption)
  {
    var k: Keyboard := DurationKeys(start, stop);
    forall i, j | 0 <= i < |k| && 0 <= j < |k[i]| ensures IsTimeOption(k[i][j].data) {
      if i < 4 {
        NumberIsOption(start + 3 * i + j);
      } else if j == 1 {
        NumberIsOption(DurationStop(start, stop));
      } else {
        ControlIsOption(Ignore);
      }
    }
  }

  /** One group of the minute/second group keyboard carries an option. */
  lemma MinSecGroupCell(from: Option<Clock>, hour: int, second: Option<int>, i: nat, j: nat)
    requires i < 3 && j < 2
    ensures IsTimeOption(MinSecGroupKeys(from, hour, second)[i][j].data)
  {
    MinSecDataIsOption(10 * (2 * i + j));
    ControlIsOption(Ignore);
  }

  /** Every callback of the minute/second group keyboard is an option. */
  lemma MinSecGroupCallbacks(from: Option<Clock>, hour: int, second: Option<int>)
    ensures AllData(MinSecGroupKeys(from, hour, second), IsTimeOption)
  {
    var k: Keyboard := MinSecGroupKeys(from, hour, second);
    forall i, j | 0 <= i < |k| && 0 <= j < |k[i]| ensures IsTimeOption(k[i][j].data) {
      MinSecGroupCell(from, hour, second, i, j);
    }
  }

  /** Every callback of the hour group keyboard is an option. */
  lemma HourGroupCallbacks()
    ensures AllData(HourGroupKeys(), IsTimeOption)
  {
    var k: Keyboard := HourGroupKeys();
    forall i, j | 0 <= i < |k| && 0 <= j < |k[i]| ensures IsTimeOption(k[i][j].data) {
      var g := HourGroups[2 * i + j];
      assert k[i][j].data == HourGroupData(g.0, g.1);
      HourGroupDataIsOption(g.0, g.1);
    }
  }

  /** Every callback of the main keyboard is an option. */
  lemma MainKeysCallbacks(required: bool, hour: int, minute: int, second: Option<int>)
    ensures AllData(MainKeys(required, hour, minute, second), IsTimeOption)
  {
  }

  // ---------------------------------------------------------------------
  // Construction

  /** Python truthiness of an optional number: `None` and 0 are both falsy. */
  function OrNow(x: Option<int>, now: int): int
  {
    if x.None? || x.value == 0 then now else x.value
  }

  /**
   * `__init__`: (hour, minute, second). A falsy hour or minute is the
   * current one; a minute outside 0..59 becomes the current minute; a
   * second, when given, outside 0..59 becomes the current second; and an
   * hour beyond 23, or 72 when a second is given, becomes the current hour.
   */
  function Init(hour: Option<int>, minute: Option<int>, second: Option<int>, now: Clock): (r: (int, int, Option<int>))
    requires ValidClock(now)
    ensures 0 <= r.0 <= (if second.Some? then 72 else 23) && 0 <= r.1 <= 59
    ensures r.2.Some? <==> second.Some?
    ensures r.2.Some? ==> 0 <= r.2.value <= 59
    ensures hour.Some? && 1 <= hour.value <= (if second.Some? then 72 else 23) ==> r.0 == hour.value
    ensures (hour.None? || hour.value == 0) ==> r.0 == now.hour
    ensures minute.Some? && 1 <= minute.value <= 59 ==> r.1 == minute.value
    ensures (minute.None? || minute.value == 0) ==> r.1 == now.minute
    ensures second.Some? && 0 <= second.value <= 59 ==> r.2 == second
  {
    var h := OrNow(hour, now.hour);
    var m := OrNow(minute, now.minute);
    var m1 := if 0 <= m <= 59 then m else now.minute;
    var limit := if second.Some? then 72 else 23;
    var s1 := if second.Some? && !(0 <= second.value <= 59) then Some(now.second) else second;
    var h1 := if 0 <= h <= limit then h else now.hour;
    (h1, m1, s1)
  }

  /**
   * `set_from`: (hour, minute) after it. An hour before the earliest
   * takes the earliest hour and minute; else a minute before the earliest
   * takes the earliest minute.
   */
  function FromState(hour: int, minute: int, c: Clock): (r: (int, int))
    ensures r.0 >= c.hour
    ensures hour >= c.hour ==> r.0 == hour
    ensures r.0 == c.hour ==> r.1 >= c.minute
  {
    if hour < c.hour then (c.hour, c.minute)
    else if minute < c.minute then (hour, c.minute)
    else (hour, minute)
  }

  /**
   * After `set_from` with an earliest time on a whole minute, a time of
   * day that existed is shown.
   */
  lemma FromStateShown(hour: int, minute: int, c: Clock)
    requires 0 <= hour <= 23 && 0 <= minute <= 59 && ValidClock(c) && c.second == 0
    ensures Display(Some(c), FromState(hour, minute, c).0, FromState(hour, minute, c).1)
  {
  }

  // ---------------------------------------------------------------------
  // Actions

  /** The reply and the state (hour, minute, second) after an action. */
  datatype Outcome = Outcome(reply: Response, hour: int, minute: int, second: Option<int>)

  /** The time OK sends: "HH:MM", with ":SS" when there is a second. */
  function FinalText(hour: int, minute: int, second: Option<int>): string
  {
    Format02(hour) + ":" + Format02(minute) + (if second.None? then "" else ":" + Format02(second.value))
  }

  /** A number chosen on a sub-keyboard fills the first pending field, hour first; none pending leaves all as is. */
  function Fill(required: bool, hour: int, minute: int, second: Option<int>, v: int): (r: Outcome)
    ensures hour == -1 ==> (r.hour, r.minute, r.second) == (v, minute, second)
    ensures hour != -1 && minute == -1 ==> (r.hour, r.minute, r.second) == (hour, v, second)
    ensures hour != -1 && minute != -1 && second == Some(-1) ==> (r.hour, r.minute, r.second) == (hour, minute, Some(v))
    ensures hour != -1 && minute != -1 && second != Some(-1) <==> r == Outcome(Silent, hour, minute, second)
    ensures r.reply.Keys? ==> r.reply.keyboard == MainKeys(required, r.hour, r.minute, r.second)
  {
    if hour == -1 then Outcome(Keys(MainKeys(required, v, minute, second)), v, minute, second)
    else if minute == -1 then Outcome(Keys(MainKeys(required, hour, v, second)), hour, v, second)
    else if second == Some(-1) then Outcome(Keys(MainKeys(required, hour, minute, Some(v))), hour, minute, Some(v))
    else Outcome(Silent, hour, minute, second)
  }

  /** OK's data names no group, so the group tests pass it by. */
  lemma FinaliseNamesNoGroup()
    ensures !Contains(Finalise, MinSec) && !Contains(Finalise, HourGroup)
  {
    NotContainsFirst(Finalise, MinSec);
    NotContainsFirst(Finalise, HourGroup);
  }

  /**
   * `perform_action`. An option that is not accepted, and IGNORE, do
   * nothing; SKIP answers the warning or SKIP; a value button marks its
   * field pending and opens its sub-keyboard; AM/PM moves the hour by 12
   * when the result is shown; a group opens its values (raising on a
   * malformed one); OK sends the time; a number fills a pending field.
   */
  function Act(required: bool, from: Option<Clock>, hour: int, minute: int, second: Option<int>, option: string)
    : (r: Outcome)
    ensures !IsTimeOption(option) || option == Ignore ==> r == Outcome(Silent, hour, minute, second)
    ensures option == Skip ==> r == Outcome(Message(SkipReply(required)), hour, minute, second)
    ensures option == ChooseHour ==> (r.hour, r.minute, r.second) == (-1, minute, second)
    ensures option == ChooseMinute ==> (r.hour, r.minute, r.second) == (hour, -1, second)
    ensures option == ChooseSecond ==> (r.hour, r.minute, r.second) == (hour, minute, Some(-1))
    ensures option == Finalise ==> r == Outcome(Message(FinalText(hour, minute, second)), hour, minute, second)
    ensures option == ChooseAmPm ==> (r.reply.Keys? <==> Display(from, (hour + 12) % 24, minute))
    ensures option == ChooseAmPm ==> (r.hour, r.minute, r.second) == (if r.reply.Keys? then (hour + 12) % 24 else hour, minute, second)
    ensures r.reply.Raised? ==> (r.hour, r.minute, r.second) == (hour, minute, second)
  {
    FinaliseNamesNoGroup();
    if !IsTimeOption(option) || option == Ignore then Outcome(Silent, hour, minute, second)
    else if option == Skip then Outcome(Message(SkipReply(required)), hour, minute, second)
    else if option == ChooseHour then
      Outcome(Keys(if second.None? then HourKeys(from, minute, hour >= 12) else HourGroupKeys()), -1, minute, second)
    else if option == ChooseMinute then Outcome(Keys(MinSecGroupKeys(from, hour, second)), hour, -1, second)
    else if option == ChooseSecond then Outcome(Keys(MinSecGroupKeys(from, hour, Some(-1))), hour, minute, Some(-1))
    else if option == ChooseAmPm then
      var h := (hour + 12) % 24;
      if Display(from, h, minute) then Outcome(Keys(MainKeys(required, h, minute, second)), h, minute, second)
      else Outcome(Silent, hour, minute, second)
    else if Contains(option, MinSec) then
      match IndexOf(option, ' ')
      case None => Outcome(Raised, hour, minute, second)
      case Some(i) =>
        match ParseInt(option[i + 1..])
        case None => Outcome(Raised, hour, minute, second)
        case Some(start) => Outcome(Keys(MinSecKeys(from, hour, second, start)), hour, minute, second)
    else if Contains(option, HourGroup) then
      var parts := Split(option, ' ');
      if |parts| != 3 then Outcome(Raised, hour, minute, second)
      else match (ParseInt(parts[1]), ParseInt(parts[2]))
        case (Some(a), Some(b)) => Outcome(Keys(DurationKeys(a, b)), hour, minute, second)
        case _ => Outcome(Raised, hour, minute, second)
    else if option == Finalise then Outcome(Message(FinalText(hour, minute, second)), hour, minute, second)
    else Fill(required, hour, minute, second, ParseInt(option).value)
  }

  /** AM/PM moves the hour by 12 and shows the main keyboard when the moved time is shown, and does nothing otherwise. */
  lemma PressAmPm(required: bool, from: Option<Clock>, hour: int, minute: int, second: Option<int>)
    ensures var h := (hour + 12) % 24;
            Act(required, from, hour, minute, second, ChooseAmPm)
            == if Display(from, h, minute) then Outcome(Keys(MainKeys(required, h, minute, second)), h, minute, second)
               else Outcome(Silent, hour, minute, second)
  {
    ControlIsOption(ChooseAmPm);
  }

  /** Pressing AM/PM twice, when both halves are shown, returns to the hour. */
  lemma AmPmTwice(required: bool, from: Option<Clock>, hour: int, minute: int, second: Option<int>)
    requires 0 <= hour <= 23
    requires Display(from, (hour + 12) % 24, minute) && Display(from, hour, minute)
    ensures var once := Act(required, from, hour, minute, second, ChooseAmPm);
            Act(required, from, once.hour, once.minute, once.second, ChooseAmPm).hour == hour
  {
    var h := (hour + 12) % 24;
    if hour < 12 {
      assert h == hour + 12;
    } else {
      assert h == hour - 12;
    }
    assert (h + 12) % 24 == hour;
    PressAmPm(required, from, hour, minute, second);
    PressAmPm(required, from, h, minute, second);
  }

  /** A number from 0 to 99 fills the first pending field, hour, then minute, then second. */
  lemma PressNumber(required: bool, from: Option<Clock>, hour: int, minute: int, second: Option<int>, n: nat)
    requires n <= 99
    ensures Act(required, from, hour, minute, second, Str(n)) == Fill(required, hour, minute, second, n)
  {
    NumberIsOption(n);
  }

  /** Pressing a minute/second group opens its ten values and changes nothing. */
  lemma PressMinSecGroup(required: bool, from: Option<Clock>, hour: int, minute: int, second: Option<int>, n: nat)
    requires n <= 99
    ensures Act(required, from, hour, minute, second, MinSecData(n))
              == Outcome(Keys(MinSecKeys(from, hour, second, n)), hour, minute, second)
  {
    MinSecDataFacts(n);
    MinSecDataIsOption(n);
    NumberIsOption(n);
  }

  /** Pressing an hour group opens its duration hours and changes nothing. */
  lemma PressHourGroup(required: bool, from: Option<Clock>, hour: int, minute: int, second: Option<int>, a: nat, b: nat)
    requires a <= 99 && b <= 99
    ensures Act(required, from, hour, minute, second, HourGroupData(a, b))
              == Outcome(Keys(DurationKeys(a, b)), hour, minute, second)
  {
    HourGroupDataFacts(a, b);
    HourGroupDataIsOption(a, b);
    NumberIsOption(a);
    NumberIsOption(b);
  }

  /** The text of a three-part minute/second group: "MIN_SEC a b". */
  function ThreePartMinSec(a: int, b: int): string
  {
    MinSec + " " + Str(a) + " " + Str(b)
  }

  /** A three-part minute/second group's first space ends the name, and what follows is not one integer. */
  lemma ThreePartMinSecShape(a: nat, b: nat)
    ensures var o := ThreePartMinSec(a, b);
            IndexOf(o, ' ') == Some(|MinSec|) && ParseInt(o[|MinSec| + 1..]) == None
  {
    var o := ThreePartMinSec(a, b);
    DigitsHaveNoLetters(a);
    assert ' ' !in MinSec by { assert forall i :: 0 <= i < |MinSec| ==> MinSec[i] != ' '; }
    IndexOfAfter(MinSec, Str(a) + " " + Str(b), ' ');
    assert o == MinSec + [' '] + (Str(a) + " " + Str(b));
    var tail := o[|MinSec| + 1..];
    assert tail == Str(a) + " " + Str(b);
    assert ParseInt(tail) == None by {
      assert tail[|Str(a)|] == ' ';
      assert !IsDigit(tail[|Str(a)|]);
    }
  }

  /** A three-part minute/second group names the group, is no control, and splits into the name and two numbers. */
  lemma ThreePartMinSecNamed(a: nat, b: nat)
    ensures var o := ThreePartMinSec(a, b);
            o !in Controls && Contains(o, MinSec) && ' ' in o && Split(o, ' ') == [MinSec, Str(a), Str(b)]
  {
    var o := ThreePartMinSec(a, b);
    DigitsHaveNoLetters(a);
    DigitsHaveNoLetters(b);
    assert ' ' !in MinSec by { assert forall i :: 0 <= i < |MinSec| ==> MinSec[i] != ' '; }
    SplitThree(MinSec, Str(a), Str(b), ' ');
    assert MinSec <= o;
    assert o[|MinSec|] == ' ';
    NotControlByHead(o);
  }

  /** A three-part minute/second group is accepted, and its text after the first space is not one integer. */
  lemma ThreePartMinSecFacts(a: nat, b: nat)
    requires a <= 99 && b <= 99
    ensures var o := ThreePartMinSec(a, b);
            IsTimeOption(o) && o !in Controls && Contains(o, MinSec)
            && IndexOf(o, ' ') == Some(|MinSec|) && ParseInt(o[|MinSec| + 1..]) == None
  {
    ThreePartMinSecShape(a, b);
    ThreePartMinSecNamed(a, b);
    NumberIsOption(a);
    NumberIsOption(b);
  }

  /**
   * A three-part minute/second group is accepted but raises when pressed:
   * the text after the first space is not one integer.
   */
  lemma ThreePartMinSecRaises(required: bool, from: Option<Clock>, hour: int, minute: int, second: Option<int>, a: nat, b: nat)
    requires a <= 99 && b <= 99
    ensures IsTimeOption(ThreePartMinSec(a, b))
    ensures Act(required, from, hour, minute, second, ThreePartMinSec(a, b)) == Outcome(Raised, hour, minute, second)
  {
    ThreePartMinSecFacts(a, b);
  }

  /**
   * OK on a time of day with no second sends "HH:MM", which the time
   * question reads back as that time.
   */
  lemma FinalTextIsAnswer(hour: nat, minute: nat)
    requires hour <= 23 && minute <= 59
    ensures T.ParseTime(FinalText(hour, minute, None)) == Some(T.Time(hour, minute))
  {
    assert FinalText(hour, minute, None) == Pad2(hour) + [':'] + Pad2(minute);
    T.ParseTimePadded(T.Time(hour, minute));
  }

  /** A field left pending shows in the sent time as "-1". */
  lemma FinalTextPending(minute: nat)
    requires minute <= 59
    ensures FinalText(-1, minute, None) == "-1:" + Pad2(minute)
  {
    assert Str(-1) == "-1" by { assert NatToString(1) == "1"; }
  }

  /** `TimeMarkup`: whether an answer is required, the values shown (-1 when pending) and the earliest time. */
  class TimeMarkup {
    const required: bool
    /** `_HOUR`, `_MINUTE` and `_SECOND`. */
    var hour: int
    var minute: int
    var second: Option<int>
    /** `_FROM`. */
    var from: Option<Clock>

    /** `__init__`, with no earliest time. */
    constructor(required: bool, hour: Option<int>, minute: Option<int>, second: Option<int>, now: Clock)
      requires ValidClock(now)
      ensures this.required == required && from == None
      ensures (this.hour, this.minute, this.second) == Init(hour, minute, second, now)
    {
      var h := OrNow(hour, now.hour);
      var m := OrNow(minute, now.minute);
      var s := second;
      var limit := 23;
      if !(0 <= m <= 59) {
        m := now.minute;
      }
      if s.Some? {
        limit := 72;
        if !(0 <= s.value <= 59) {
          s := Some(now.second);
        }
      }
      if !(0 <= h <= limit) {
        h := now.hour;
      }
      this.required := required;
      this.hour := h;
      this.minute := m;
      this.second := s;
      this.from := None;
    }

    /** `set_from`. */
    method SetFrom(c: Clock)
      modifies this
      ensures from == Some(c) && second == old(second)
      ensures (hour, minute) == FromState(old(hour), old(minute), c)
    {
      from := Some(c);
      if hour < c.hour {
        hour := c.hour;
        minute := c.minute;
      } else if minute < c.minute {
        minute := c.minute;
      }
    }

    /** `get_markup`. */
    function Markup(): Keyboard
      reads this
    {
      MainKeys(required, hour, minute, second)
    }

    /** `perform_action`: the reply, and the values after it. */
    method PerformAction(option: string) returns (r: Response)
      modifies this
      ensures from == old(from)
      ensures Outcome(r, hour, minute, second) == Act(required, from, old(hour), old(minute), old(second), option)
    {
      var o := Act(required, from, hour, minute, second, option);
      r := o.reply;
      hour, minute, second := o.hour, o.minute, o.second;
    }
  }
}

=== FILE: time_question.dfy ===
/**
 * Time questions of the current program: an hour and a minute input. An
 * answer is "H:M" with an hour in 0..23 and a minute in 0..59; each input
 * receives its number written without padding.
 */
module TimeQuestions {
  import opened Common
  import opened Text
  import opened QuestionBase
  import B = Browser

  /** A time of day as the answer names it. */
  datatype Time = Time(hour: nat, minute: nat)

  predicate ValidTime(t: Time)
  {
    t.hour <= 23 && t.minute <= 59
  }

  /**
   * The time an answer names: split at ':' into exactly two parts, each an
   * integer, the hour in 0..23 and the minute in 0..59.
   */
  function ParseTime(s: string): (r: Option<Time>)
    ensures r.Some? ==> ValidTime(r.value)
    ensures r.Some? ==> |Split(s, ':')| == 2
  {
    var parts := Split(s, ':');
    if |parts| != 2 then None
    else match (ParseInt(parts[0]), ParseInt(parts[1]))
      case (Some(h), Some(m)) =>
        if 0 <= h <= 23 && 0 <= m <= 59 then Some(Time(h, m)) else None
      case _ => None
  }

  /** Two digit strings joined by ':' are read back as those two numbers, when in range. */
  lemma ParseTimeDigits(a: string, b: string)
    requires 0 < |a| && AllDigits(a) && 0 < |b| && AllDigits(b)
    ensures ParseTime(a + [':'] + b) ==
              if DigitsValue(a) <= 23 && DigitsValue(b) <= 59 then Some(Time(DigitsValue(a), DigitsValue(b))) else None
  {
    assert ':' !in a && ':' !in b by {
      assert forall i :: 0 <= i < |a| ==> IsDigit(a[i]);
      assert forall i :: 0 <= i < |b| ==> IsDigit(b[i]);
    }
    SplitTwo(a, b, ':');
    ParseIntDigits(a);
    ParseIntDigits(b);
  }

  /**
   * "%H:%M", the form the time keyboard produces, is an answer exactly when
   * the hour and minute are in range, and names that time.
   */
  lemma ParseTimePadded(t: Time)
    requires t.hour < 100 && t.minute < 100
    ensures ParseTime(Pad2(t.hour) + [':'] + Pad2(t.minute)) == if ValidTime(t) then Some(t) else None
  {
    Pad2Value(t.hour);
    Pad2Value(t.minute);
    ParseTimeDigits(Pad2(t.hour), Pad2(t.minute));
  }

  /** The unpadded form is read back too, for every time. */
  lemma ParseTimeUnpadded(t: Time)
    ensures ParseTime(NatToString(t.hour) + [':'] + NatToString(t.minute)) == if ValidTime(t) then Some(t) else None
  {
    DigitsValueNatToString(t.hour);
    DigitsValueNatToString(t.minute);
    ParseTimeDigits(NatToString(t.hour), NatToString(t.minute));
  }

  /** A two-digit string's value. */
  lemma TwoDigits(s: string)
    requires |s| == 2 && AllDigits(s)
    ensures DigitsValue(s) == DigitValue(s[0]) * 10 + DigitValue(s[1])
  {
    var none: string := [];
    assert s[..1] == [s[0]] && s[..1][..0] == none;
    assert s[..|s| - 1] == s[..1];
    assert DigitsValue(s[..1]) == DigitsValue(none) * 10 + DigitValue(s[0]);
    assert DigitsValue(s) == DigitsValue(s[..1]) * 10 + DigitValue(s[1]);
  }

  /** The bounds are inclusive: 00:00 and 23:59 are answers. */
  lemma ParseTimeInRange()
    ensures ParseTime("00:00") == Some(Time(0, 0))
    ensures ParseTime("23:59") == Some(Time(23, 59))
  {
    TwoDigits("00");
    TwoDigits("23");
    TwoDigits("59");
    ParseTimeDigits("00", "00");
    ParseTimeDigits("23", "59");
    assert "00:00" == "00" + [':'] + "00";
    assert "23:59" == "23" + [':'] + "59";
  }

  /** 24:00 and 12:60 are not answers. */
  lemma ParseTimeOutOfRange()
    ensures ParseTime("24:00") == None
    ensures ParseTime("12:60") == None
  {
    TwoDigits("24");
    TwoDigits("60");
    ParseTimeDigits("24", "00");
    ParseTimeDigits("12", "60");
    assert "24:00" == "24" + [':'] + "00";
    assert "12:60" == "12" + [':'] + "60";
  }

  /** Anything without exactly one ':' is not an answer. */
  lemma ParseTimeNeedsOneColon(s: string)
    requires ':' !in s
    ensures ParseTime(s).None?
  {
    assert Text.Join([s], ':') == s;
    SplitJoin([s], ':');
  }

  /** The inputs and the text each receives: the hour, then the minute. */
  function TimeFields(hour: Elem, minute: Elem, t: Time): seq<(Elem, string)>
  {
    [(hour, NatToString(t.hour)), (minute, NatToString(t.minute))]
  }

  /**
   * `get_info` from the cached inputs: its result and the inputs it leaves.
   * It fails on an unset or stale question element, and finds nothing
   * (`None`) unless the question has both an hour and a minute input.
   */
  function Info(page: Page, open: bool, q: Option<Elem>, inputs: Option<(Elem, Elem)>): (Tri, Option<(Elem, Elem)>)
  {
    if q.None? || !IsValid(open, page.stale, [q.value]) then (False, inputs)
    else if |page.hourInputs(q.value)| == 0 || |page.minuteInputs(q.value)| == 0 then (Nothing, inputs)
    else (True, Some((page.hourInputs(q.value)[0], page.minuteInputs(q.value)[0])))
  }

  /** `answer`: refresh unset or stale inputs, check the time, then fill the inputs. */
  function TimeAnswer(page: Page, open: bool, q: Option<Elem>, inputs: Option<(Elem, Elem)>, time: string): Filled<(Elem, Elem)>
  {
    var (res, ins) := if inputs.Some? && IsValid(open, page.stale, [inputs.value.0, inputs.value.1]) then (True, inputs)
                      else Info(page, open, q, inputs);
    if res != True then Filled(res, [], ins)
    else match ParseTime(time)
      case None => Filled(False, [], ins)
      case Some(t) => Filled(True, FillActions(TimeFields(ins.value.0, ins.value.1, t)), ins)
  }

  /**
   * An answer acts only when it succeeds, and then clicks and types the
   * hour into the hour input and then the minute into the minute input.
   */
  lemma TimeAnswerActions(page: Page, open: bool, q: Option<Elem>, inputs: Option<(Elem, Elem)>, time: string)
    ensures var a := TimeAnswer(page, open, q, inputs, time);
            (a.result != True ==> a.actions == [])
            && (a.result == True ==>
                  ParseTime(time).Some? && a.after.Some?
                  && a.actions == [Click(a.after.value.0), Type(a.after.value.0, NatToString(ParseTime(time).value.hour)),
                                   Click(a.after.value.1), Type(a.after.value.1, NatToString(ParseTime(time).value.minute))])
  {
    var a := TimeAnswer(page, open, q, inputs, time);
    if a.result == True {
      var t := ParseTime(time).value;
      var (h, m) := a.after.value;
      var fields := TimeFields(h, m, t);
      var none: seq<(Elem, string)> := [];
      assert fields[..1] == [(h, NatToString(t.hour))] && fields[..1][..0] == none;
      assert FillActions(fields[..1]) == [Click(h), Type(h, NatToString(t.hour))];
    }
  }

  /** A time that is not an answer fails without any action, whatever the inputs. */
  lemma BadTimeNoActions(page: Page, open: bool, q: Option<Elem>, inputs: Option<(Elem, Elem)>, time: string)
    requires ParseTime(time).None?
    ensures TimeAnswer(page, open, q, inputs, time).result != True
    ensures TimeAnswer(page, open, q, inputs, time).actions == []
  {
  }

  class TimeQuestion {
    const base: BaseQuestion
    /** `_ANSWER_ELEMENTS`: the hour and minute inputs. */
    var inputs: Option<(Elem, Elem)>

    constructor(element: Option<Elem>, browser: B.Browser, page: Page)
      ensures fresh(base) && base.element == element && base.browser == browser && base.page == page
      ensures base.Meta() == (None, None, None) && base.trace == [] && inputs.None?
    {
      base := new BaseQuestion(element, browser, page);
      inputs := None;
    }

    /** `set_answer_elements`. */
    method SetAnswerElements(hour: Elem, minute: Elem)
      modifies this
      ensures inputs == Some((hour, minute))
    {
      inputs := Some((hour, minute));
    }

    /** `get_info`: the metadata, then the first hour and the first minute input. */
    method GetInfo() returns (r: Tri)
      modifies this, base
      ensures base.element == old(base.element) && base.trace == old(base.trace)
      ensures (r, inputs) == Info(base.page, base.browser.open, base.element, old(inputs))
      ensures r == False ==> base.Meta() == old(base.Meta())
      ensures r != False ==> base.HasInfoOf(base.element.value)
    {
      var ok := base.GetInfo();
      if !ok {
        return False;
      }
      var q := base.element.value;
      var hours := base.page.hourInputs(q);
      var minutes := base.page.minuteInputs(q);
      if |hours| == 0 || |minutes| == 0 {
        return Nothing;
      }
      SetAnswerElements(hours[0], minutes[0]);
      return True;
    }

    /** `answer`: refresh if needed, check the time, then fill the inputs. */
    method Answer(time: string) returns (r: Tri)
      modifies this, base
      ensures base.element == old(base.element)
      ensures var a := TimeAnswer(base.page, base.browser.open, base.element, old(inputs), time);
              r == a.result && inputs == a.after && base.trace == old(base.trace) + a.actions
    {
      if !(inputs.Some? && base.Live([inputs.value.0, inputs.value.1])) {
        var res := GetInfo();
        if res != True {
          return res;
        }
      }
      var t := ParseTime(time);
      if t.None? {
        return False;
      }
      base.Fill(TimeFields(inputs.value.0, inputs.value.1, t.value));
      return True;
    }
  }
}

=== FILE: utils.dfy ===
/**
 * The text utilities of the current program: escaping text for Telegram's
 * MarkdownV2, and the random signatures that tag callback data. The random
 * choice is a parameter.
 */
module Utils {
  import opened Text

  // ---------------------------------------------------------------------
  // MarkdownV2

  /** The characters MarkdownV2 reserves, in the order they are escaped. */
  const Specials: seq<char> := ['_', '*', '[', ']', '(', ')', '~', '`', '>', '#', '+', '-', '=', '|', '{', '}', '.', '!']

  /** Each character of `s`, with a backslash before those in `done`. */
  function EscapeWith(s: string, done: seq<char>): string
  {
    if |s| == 0 then ""
    else (if s[0] in done then ['\\', s[0]] else [s[0]]) + EscapeWith(s[1..], done)
  }

  /** The text with a backslash before every reserved character. */
  function Escape(s: string): string
  {
    EscapeWith(s, Specials)
  }

  /** The number of reserved characters in `s`. */
  function SpecialCount(s: string): nat
  {
    if |s| == 0 then 0 else (if s[0] in Specials then 1 else 0) + SpecialCount(s[1..])
  }

  /** Removes the backslash in front of each reserved character. */
  function Unescape(s: string): string
  {
    if |s| == 0 then ""
    else if 2 <= |s| && s[0] == '\\' && s[1] in Specials then [s[1]] + Unescape(s[2..])
    else [s[0]] + Unescape(s[1..])
  }

  /** Replacing a single character distributes over concatenation. */
  lemma {:induction false} ReplaceCharAppend(a: string, b: string, c: char, rep: string)
    ensures ReplaceAll(a + b, [c], rep) == ReplaceAll(a, [c], rep) + ReplaceAll(b, [c], rep)
  {
    if |a| > 0 {
      assert (a + b)[1..] == a[1..] + b;
      assert [c] <= a + b <==> [c] <= a;
      ReplaceCharAppend(a[1..], b, c, rep);
    } else {
      assert a + b == b;
    }
  }

  /** One replacement step of the loop escapes one more reserved character. */
  lemma {:induction false} EscapeStep(s: string, done: seq<char>, c: char)
    requires c != '\\' && c !in done
    ensures ReplaceAll(EscapeWith(s, done), [c], ['\\', c]) == EscapeWith(s, done + [c])
  {
    if |s| > 0 {
      var head := if s[0] in done then ['\\', s[0]] else [s[0]];
      EscapeStep(s[1..], done, c);
      ReplaceCharAppend(head, EscapeWith(s[1..], done), c, ['\\', c]);
      if s[0] in done {
        assert head[1..] == [s[0]];
        assert ReplaceAll(head, [c], ['\\', c]) == head;
      } else if s[0] == c {
        assert ReplaceAll(head, [c], ['\\', c]) == ['\\', c] + ReplaceAll([], [c], ['\\', c]);
      } else {
        assert ReplaceAll(head, [c], ['\\', c]) == head + ReplaceAll([], [c], ['\\', c]);
      }
    }
  }

  /** The reserved characters are listed once each, and the backslash is not one of them. */
  lemma SpecialsDistinct(k: nat)
    requires k < |Specials|
    ensures Specials[k] != '\\' && Specials[k] !in Specials[..k]
  {
    assert forall i, j :: 0 <= i < j < |Specials| ==> Specials[i] != Specials[j];
  }

  /**
   * `text_to_markdownv2`: for each reserved character in turn, when the
   * text contains it, every occurrence is prefixed with a backslash.
   */
  method ToMarkdownV2(text: string) returns (r: string)
    ensures r == Escape(text)
  {
    r := text;
    EscapeWithNothing(text);
    var k := 0;
    while k < |Specials|
      invariant 0 <= k <= |Specials|
      invariant r == EscapeWith(text, Specials[..k])
    {
      var ch := Specials[k];
      SpecialsDistinct(k);
      assert Specials[..k + 1] == Specials[..k] + [ch];
      EscapeStep(text, Specials[..k], ch);
      if Contains(r, [ch]) {
        r := ReplaceAll(r, [ch], ['\\', ch]);
      } else {
        ReplaceAbsent(r, [ch], ['\\', ch]);
      }
      k := k + 1;
    }
    assert Specials[..|Specials|] == Specials;
  }

  /** The escaped text is one character longer for each reserved character. */
  lemma {:induction false} EscapeLength(s: string)
    ensures |Escape(s)| == |s| + SpecialCount(s)
  {
    if |s| > 0 {
      EscapeLength(s[1..]);
    }
  }

  /** Text without reserved characters is returned unchanged. */
  lemma {:induction false} EscapePlain(s: string)
    requires forall i :: 0 <= i < |s| ==> s[i] !in Specials
    ensures Escape(s) == s
  {
    if |s| > 0 {
      EscapePlain(s[1..]);
      assert s == [s[0]] + s[1..];
    }
  }

  /** Escaping with nothing to escape leaves the text as it is. */
  lemma {:induction false} EscapeWithNothing(s: string)
    ensures EscapeWith(s, []) == s
  {
    if |s| > 0 {
      EscapeWithNothing(s[1..]);
      assert s == [s[0]] + s[1..];
    }
  }

  /** Escaped text never starts with a reserved character: each one is behind its backslash. */
  lemma EscapeHead(s: string)
    ensures 0 < |Escape(s)| ==> Escape(s)[0] !in Specials
  {
  }

  /** Removing the escapes gives the text back. */
  lemma {:induction false} UnescapeEscape(s: string)
    ensures Unescape(Escape(s)) == s
  {
    if |s| > 0 {
      var rest := Escape(s[1..]);
      UnescapeEscape(s[1..]);
      EscapeHead(s[1..]);
      if s[0] in Specials {
        assert Escape(s) == ['\\', s[0]] + rest;
        assert (['\\', s[0]] + rest)[2..] == rest;
      } else {
        assert Escape(s) == [s[0]] + rest;
        assert ([s[0]] + rest)[1..] == rest;
      }
      assert s == [s[0]] + s[1..];
    }
  }

  // ---------------------------------------------------------------------
  // Signatures

  /** The `i`-th character of the alphabet: `a`-`z`, then `A`-`Z`, then `0`-`9`. */
  function AlphaChar(i: int): char
    requires 0 <= i < 62
  {
    if i < 26 then ('a' as int + i) as char
    else if i < 52 then ('A' as int + (i - 26)) as char
    else ('0' as int + (i - 52)) as char
  }

  /** The alphabet of signatures, "abc...xyzABC...XYZ012...9". */
  function Alphabet(): (a: string)
    ensures |a| == 62 && forall i :: 0 <= i < 62 ==> a[i] == AlphaChar(i)
  {
    seq(62, AlphaChar)
  }

  /** The result of `generate_random_signatures`: one signature, a tuple of them, or the error of sampling too many. */
  datatype Signatures = One(sig: string) | Many(sigs: seq<string>) | SampleError

  /** At least `low`. */
  function AtLeast(x: int, low: nat): (r: nat)
    ensures r >= low && (x >= low ==> r == x) && (x < low ==> r == low)
  {
    if x < low then low else x
  }

  /** A sample of `length` distinct positions of the alphabet, as `random.sample` returns. */
  predicate IsSample(p: seq<nat>, length: nat)
  {
    |p| == length && (forall i :: 0 <= i < |p| ==> p[i] < |Alphabet()|)
    && (forall i, j :: 0 <= i < j < |p| ==> p[i] != p[j])
  }

  /** The characters a sample picks. */
  function Pick(p: seq<nat>): (s: string)
    requires forall i :: 0 <= i < |p| ==> p[i] < |Alphabet()|
    ensures |s| == |p| && forall i :: 0 <= i < |s| ==> s[i] == Alphabet()[p[i]]
  {
    seq(|p|, i requires 0 <= i < |p| => Alphabet()[p[i]])
  }

  /** The alphabet has 62 characters and no repeated one. */
  lemma AlphabetDistinct()
    ensures |Alphabet()| == 62
    ensures forall i, j :: 0 <= i < j < |Alphabet()| ==> Alphabet()[i] != Alphabet()[j]
  {
    forall i, j | 0 <= i < j < 62 ensures Alphabet()[i] != Alphabet()[j] {
      assert Alphabet()[i] == AlphaChar(i) && Alphabet()[j] == AlphaChar(j);
    }
  }

  /**
   * `generate_random_signatures(n, length)`, with the samples drawn as a
   * parameter: n below 1 counts as 1 and a length below 3 as 3; a length
   * beyond the alphabet fails to sample; otherwise one signature per
   * sample, alone when n is 1.
   */
  function GenerateSignatures(n: int, length: int, samples: seq<seq<nat>>): (r: Signatures)
    requires AtLeast(length, 3) <= |Alphabet()| ==>
               |samples| == AtLeast(n, 1) && forall k :: 0 <= k < |samples| ==> IsSample(samples[k], AtLeast(length, 3))
    ensures AtLeast(length, 3) > |Alphabet()| <==> r == SampleError
    ensures r.One? <==> AtLeast(length, 3) <= |Alphabet()| && n <= 1
    ensures r.One? ==> |r.sig| == AtLeast(length, 3) && forall i :: 0 <= i < |r.sig| ==> r.sig[i] in Alphabet()
    ensures r.Many? ==> |r.sigs| == n && forall k :: 0 <= k < |r.sigs| ==> |r.sigs[k]| == AtLeast(length, 3)
  {
    var len := AtLeast(length, 3);
    if len > |Alphabet()| then SampleError
    else
      var sigs := seq(|samples|, k requires 0 <= k < |samples| => assert IsSample(samples[k], len); Pick(samples[k]));
      if AtLeast(n, 1) == 1 then
        assert IsSample(samples[0], len);
        One(sigs[0])
      else
        assert forall k :: 0 <= k < |sigs| ==> IsSample(samples[k], len) && sigs[k] == Pick(samples[k]);
        Many(sigs)
  }

  /** The characters of each signature are distinct letters or digits. */
  lemma SignatureChars(p: seq<nat>, length: nat)
    requires IsSample(p, length)
    ensures var s := Pick(p);
            |s| == length && (forall i :: 0 <= i < |s| ==> s[i] in Alphabet())
            && forall i, j :: 0 <= i < j < |s| ==> s[i] != s[j]
  {
    AlphabetDistinct();
    var s := Pick(p);
    forall i, j | 0 <= i < j < |s| ensures s[i] != s[j] {
      assert p[i] != p[j];
      if p[i] < p[j] {
        assert Alphabet()[p[i]] != Alphabet()[p[j]];
      } else {
        assert Alphabet()[p[j]] != Alphabet()[p[i]];
      }
    }
  }
}
